=== FILE: README.md ===
# A Dafny model of the tesser trading core

tesser is a Rust trading framework: market-data pipelines, technical
indicators, strategies, execution algorithms, a paper exchange, a ledger
and a reconciliation loop. This project models the sequential, decimal
rules at its heart as pure Dafny functions over immutable datatypes, and
proves what those rules promise. Decimals are exact `real`s, or a
mantissa and a scale where the representation matters. Integer widths
(`u64`, `i64`, `i128`, the 96-bit `rust_decimal` mantissa) are written
out as explicit bounds or wrap-around.

One `.dfy` file holds one module, and each module follows one source file:

- **Ledger** (`tesser-ledger`):
  - `ledger_sequencer`: the replay sequencer.
  - `ledger_entry`: entry records and the entry-type codec.
  - `ledger_journal`: how fills become ledger entries.
  - `ledger_query`: the query builder.
  - `ledger_store`: filtering, ordering, limits and day bucketing in the Parquet repository.
  - `ledger_amount`: the scale-18 amount encoding.
- **Reconciliation** (`tesser-cli/src/reconcile`): `reconcile_diff` (the state differ) and `reconcile_handlers` (the runtime and startup handlers).
- **Execution**:
  - `trailing_stop`: the trailing stop.
  - `chase_plugin`: the example chase plugin.
  - `plugin_types`: the plugin data types.
  - `wasm_engine`: plugin path resolution and the compile cache.
- **Paper exchange**: `paper_conditional` (OCO stop orders) and `paper_fees` (the fee schedule).
- **Data** (`tesser-data`):
  - `data_merger`: the chronological merge.
  - `data_etl` and `etl_pipeline`: the CSV-to-Parquet ETL.
  - `data_parquet`: the Parquet replay stream.
  - `data_download`: the kline downloader.
- **Strategies and RPC**:
  - `strategy_context`, `strategy_registry` and `strategy_sma_cross`.
  - `rpc_strategy`, `rpc_grpc` and `rpc_conversions`.
- **Indicators**:
  - `indicator_sma`, `indicator_ema`, `indicator_rsi` and `indicator_atr`.
  - `indicator_bollinger`, `indicator_ichimoku` and `indicator_macd`.
  - `indicator_piped`, the piped combinator.
  - `indicator_core`: the pieces all indicators share.
- **TUI**: `tui_endpoint`, endpoint normalization.
- **Shared**:
  - `wrappers`: `Option` and `Result`.
  - `core`: the `tesser_core` records the modelled code reads.
  - `text`: trimming, case and integer text.
  - `fixed_point`: `rust_decimal` and `i128` fixed point.
  - `ordering`: lexicographic orders and a stable sort.

The model does not perform I/O, read the clock, draw random numbers or use
the network. Each such effect becomes a parameter of the operation that
depends on it:

- the file system and the WebAssembly compiler;
- HTTP and RPC replies;
- the wall clock and UUIDs;
- decimal text parsing and rendering, RFC 3339 parsing and the civil calendar;
- the decimal square root.

Each row below names a member and the source lines it models, and says
what its contract states.

## Model

| member | source | states |
|---|---|---|
| ChasePlugin.ClipSize | examples/plugin-chase/src/lib.rs:22-27 | the `clip_size` parameter when it is a string that parses, and 1 in every other case (missing, not a string, not a number) |
| ChasePlugin.Init | examples/plugin-chase/src/lib.rs:18-30 | symbol and side are the signal's, the remainder is the target clamped at zero, the price is the risk context's clamped at one, and nothing is emitted |
| ChasePlugin.OnTick | examples/plugin-chase/src/lib.rs:32-35 | only the last price changes, to the tick's, and nothing is emitted |
| ChasePlugin.OnTimer | examples/plugin-chase/src/lib.rs:37-58 | with nothing left nothing happens; otherwise exactly one limit order for `min(clip, remaining)` at the last price is placed and the remainder drops by that slice, every other field unchanged |
| ChasePlugin.SlicesAddUp | examples/plugin-chase/src/lib.rs:37-58 | over any number of timer ticks with a positive clip, every slice lies in `(0, clip]`, the slices plus what remains add up to the starting remainder, and the remainder never goes negative |
| ChasePlugin.WorkedOff | examples/plugin-chase/src/lib.rs:37-42 | `n` ticks whose clips cover the remainder leave nothing to work |
| ChasePlugin.NonPositiveClipStalls | examples/plugin-chase/src/lib.rs:22-27 | a `clip_size` of zero or less is accepted, and then each tick still places an order while the remainder never shrinks |
| ChasePlugin.ClipExample | examples/plugin-chase/src/lib.rs:37-58 | 0.25 in clips of 0.1 goes out as 0.1, 0.1, 0.05 and then nothing is left |
| StrategyContext.New | tesser-strategy/src/lib.rs:52-62 | empty histories and positions, with a history bound of at least one that keeps any positive bound asked for |
| StrategyContext.Default | tesser-strategy/src/lib.rs:132-136 | a context keeping 512 events of each kind |
| StrategyContext.PushBounded | tesser-strategy/src/lib.rs:64-69 | the pushed event is the newest, and a history within its bound becomes the last `max_history` events of the history with the event appended |
| StrategyContext.PushCandle | tesser-strategy/src/lib.rs:64-69 | the candle history keeps the last `max_history` candles and the other histories and positions are unchanged |
| StrategyContext.PushTick | tesser-strategy/src/lib.rs:72-77 | the tick history keeps the last `max_history` ticks and nothing else changes |
| StrategyContext.PushOrderBook | tesser-strategy/src/lib.rs:80-85 | the book history keeps the last `max_history` books and nothing else changes |
| StrategyContext.UpdatePositions | tesser-strategy/src/lib.rs:88-90 | the position snapshot is replaced and nothing else changes |
| StrategyContext.PushCandlesWindow | tesser-strategy/src/lib.rs:64-69 | however many candles are pushed, the history is the last `max_history` of everything seen and stays within its bound |
| StrategyContext.FirstPosition | tesser-strategy/src/lib.rs:118-120 | the index of the first position for the symbol, or none when no position has it |
| StrategyContext.PositionFor | tesser-strategy/src/lib.rs:118-120 | a position is found exactly when one has the symbol, and it is the first such |
| StrategyContext.LastBook | tesser-strategy/src/lib.rs:124-129 | the index of the last book for the symbol, or none when no book has it |
| StrategyContext.OrderBookFor | tesser-strategy/src/lib.rs:124-129 | a book is found exactly when one has the symbol, and it is the most recent such |
| StrategyContext.PushedBookIsLatest | tesser-strategy/src/lib.rs:80-129 | a book just pushed is the one answered for its symbol |
| SmaCrossStrategy.DefaultConfig | tesser-strategy/src/lib.rs:363-374 | BTCUSDT, periods 5 and 20, and 25 samples before any signal |
| SmaCrossStrategy.New | tesser-strategy/src/lib.rs:407-421 | both averages empty, no remembered values, no samples and no signals |
| SmaCrossStrategy.Name | tesser-strategy/src/lib.rs:482-484 | the registered name is `sma-cross` |
| SmaCrossStrategy.PrevSma | tesser-strategy/src/lib.rs:437-442 | the average one close earlier exists exactly when more closes than the period have been seen |
| SmaCrossStrategy.Cross | tesser-strategy/src/lib.rs:455-476 | enter long exactly when fast goes from at or below slow to above it, exit exactly when it goes from at or above to below it, nothing otherwise |
| SmaCrossStrategy.SignalFor | tesser-strategy/src/lib.rs:456-476 | a crossing signal for the configured symbol with confidence 0.75; an entry carries a stop-loss at 98% of the candle's low |
| SmaCrossStrategy.NoEarlySignal | tesser-strategy/src/lib.rs:443-454 | no signal before `min_samples` candles, nor before both averages have a previous value |
| SmaCrossStrategy.Update | tesser-strategy/src/lib.rs:437-443 | configuration and pending signals unchanged, one more sample counted |
| SmaCrossStrategy.AdvanceFollows | tesser-strategy/src/lib.rs:437-442 | an average whose window, latest and previous answers match the reference still matches it after one more close |
| SmaCrossStrategy.Decide | tesser-strategy/src/lib.rs:443-478 | nothing before `min_samples`; any signal is an entry or exit for the configured symbol with confidence 0.75, an entry with the 2% stop-loss |
| SmaCrossStrategy.MaybeEmitSignal | tesser-strategy/src/lib.rs:436-479 | one more sample, and at most one signal appended after the pending ones |
| SmaCrossStrategy.OnCandle | tesser-strategy/src/lib.rs:505-510 | a candle of another symbol changes nothing; one of the configured symbol goes through `maybe_emit_signal` |
| SmaCrossStrategy.Drain | tesser-strategy/src/lib.rs:516-518 | hands over the pending signals in order and forgets them, nothing else changed |
| SmaCrossStrategy.Configure | tesser-strategy/src/lib.rs:490-499 | a parse error is returned, a zero period is rejected with its message, and otherwise the configuration is replaced and the averages start over, keeping the pending signals |
| SmaCrossStrategy.UpdateTracks | tesser-strategy/src/lib.rs:437-443 | one close moves both averages and their remembered values along the reference |
| SmaCrossStrategy.DecideTracks | tesser-strategy/src/lib.rs:443-478 | with the state on the reference, the decision is the signal the reference owes for the last candle |
| SmaCrossStrategy.RunTracks | tesser-strategy/src/lib.rs:436-510 | from a fresh start, any candle stream of the symbol leaves the strategy on the reference having emitted exactly the owed signals in order |
| SmaCrossStrategy.OnCandlesFilters | tesser-strategy/src/lib.rs:505-510 | running on a mixed stream is running on the strategy's own candles |
| SmaCrossStrategy.DrainTwice | tesser-strategy/src/lib.rs:516-518 | draining twice hands over nothing the second time |
| ReconcileDiff.LastWithId | tesser-cli/src/reconcile/diff.rs:37-40 | an order with the id is found exactly when the list holds one, and it is an order of the list with that id |
| ReconcileDiff.LastWithIdIsLast | tesser-cli/src/reconcile/diff.rs:37-40 | no later order carries the same id as the one kept, as a map insert that overwrites keeps the last |
| ReconcileDiff.RemoteIndex | tesser-cli/src/reconcile/diff.rs:37-40 | the index has exactly the remote ids, each leading to the last remote order with it |
| ReconcileDiff.DiffOrders | tesser-cli/src/reconcile/diff.rs:36-59 | the matched pairs, ghosts and zombies are those of the reference definitions, and every local order is either matched or a ghost |
| ReconcileDiff.DiffStep | tesser-cli/src/reconcile/diff.rs:43-52 | one more local order is matched exactly when its id is remote and not claimed by an earlier local order, and is a ghost otherwise |
| ReconcileDiff.ZombiesFromIndex | tesser-cli/src/reconcile/diff.rs:53 | what remains in the index after removing the claimed ids is exactly the zombies |
| ReconcileDiff.MatchedPairsAgree | tesser-cli/src/reconcile/diff.rs:43-48 | every matched pair joins a local order to the last remote order with the same id |
| ReconcileDiff.GhostsExactly | tesser-cli/src/reconcile/diff.rs:43-51 | a local order is a ghost exactly when its id is not remote or was already claimed by an earlier local order |
| ReconcileDiff.ZombiesExactly | tesser-cli/src/reconcile/diff.rs:37-53 | a zombie is exactly a remote order no local id names, the last one with its id |
| ReconcileDiff.OrdersExample | tesser-cli/src/reconcile/diff.rs:265-279 | local A, B against remote B, C: A is the one ghost, C the one zombie, and B matches |
| ReconcileDiff.SignedQuantity | tesser-cli/src/reconcile/diff.rs:201-207 | long positions count positive, short ones negative and flat ones zero |
| ReconcileDiff.LastPosition | tesser-cli/src/reconcile/diff.rs:70-75 | the remote position for a symbol, if the exchange lists one |
| ReconcileDiff.DiffPositions | tesser-cli/src/reconcile/diff.rs:61-104 | every discrepancy is for a compared symbol, carries both sides and their signed quantities, which differ, and the local excess as delta |
| ReconcileDiff.PositionReportedIff | tesser-cli/src/reconcile/diff.rs:61-104 | a symbol of either side is reported exactly when its signed quantities differ, a missing side counting as zero, and then only once |
| ReconcileDiff.PositionExample | tesser-cli/src/reconcile/diff.rs:281-300 | locally long 1 against remotely long 0.5 gives one discrepancy of delta 0.5 |
| ReconcileDiff.LastBalance | tesser-cli/src/reconcile/diff.rs:115-120 | the remote balance for an asset, if the exchange lists one |
| ReconcileDiff.DiffBalances | tesser-cli/src/reconcile/diff.rs:106-151 | every discrepancy is for a compared asset, carries the local quantity and remote availability, and a non-zero delta equal to their difference with missing values as zero |
| ReconcileDiff.BalanceReportedIff | tesser-cli/src/reconcile/diff.rs:106-151 | an asset of either side is reported exactly when local quantity and remote availability differ, and then only once |
| ReconcileDiff.BalanceExample | tesser-cli/src/reconcile/diff.rs:302-319 | local cash 10 against remote available 9 gives one discrepancy of delta 1 |
| DataDownload.IntervalMillis | tesser-data/src/download.rs:68 | every candle interval lasts a positive whole number of seconds, in milliseconds |
| DataDownload.NewRequest | tesser-data/src/download.rs:21-37 | a new request keeps the given category, symbol, interval and range and asks for the largest page |
| DataDownload.PageLimit | tesser-data/src/download.rs:71 | the page size sent is the request's limit capped at 1000 |
| DataDownload.TrimEndSlashes | tesser-data/src/download.rs:55 | the trimmed base is the longest prefix that does not end in `/`, and only `/` characters were removed |
| DataDownload.Endpoint | tesser-data/src/download.rs:54-57 | the endpoint is the base URL stripped of trailing `/`, exactly one `/`, then the path |
| DataDownload.EndpointIgnoresTrailingSlashes | tesser-data/src/download.rs:54-57 | any number of trailing `/` on the base URL gives the same endpoint |
| DataDownload.Truncate | tesser-data/src/download.rs:195-201 | a body within the limit is returned whole; a longer one is cut to its first `max` characters followed by the three characters `â€¦` of the source literal |
| DataDownload.TruncateIdempotent | tesser-data/src/download.rs:195-201 | truncating a truncated snippet again with the same limit changes nothing |
| DataDownload.ParseEntry | tesser-data/src/download.rs:158-179 | an entry is a candle exactly when it has at least six fields, the first an `i64` time `chrono` can represent and the next five decimals, and the candle carries those values in that order with the request's symbol and interval |
| DataDownload.ShortEntryRejected | tesser-data/src/download.rs:159-161 | an entry with five fields is never a candle, whatever they hold |
| DataDownload.PageBatch | tesser-data/src/download.rs:129-138 | a page keeps exactly the entries that parse and start within `[cursor, end]`, in page order |
| DataDownload.TimeOrder | tesser-data/src/download.rs:144 | comparing candles by start time is a total preorder, so sorting by it is well defined |
| DataDownload.FetchPage | tesser-data/src/download.rs:70-149 | a page that continues the loop holds at least one candle, all within `[cursor, end]` for the requested symbol and interval and all before the next cursor, which has moved forward |
| DataDownload.PageOf | tesser-data/src/download.rs:140-148 | an empty batch ends the loop; otherwise the page holds the same candles, in range and before the next cursor, one interval past the last |
| DataDownload.SortByTime | tesser-data/src/download.rs:144 | sorting by start time gives a permutation in time order whose last candle is the latest |
| DataDownload.SortByTimeStable | tesser-data/src/download.rs:144 | candles with equal start times keep the order they arrived in |
| DataDownload.Collect | tesser-data/src/download.rs:70-150 | every candle collected from a cursor starts within `[cursor, end]` and has the requested symbol and interval, and a cursor at or past the end collects nothing |
| DataDownload.CollectPagesAscend | tesser-data/src/download.rs:144-149 | pages never overlap: every candle of a later page starts after every candle of an earlier one |
| DataDownload.Dedup | tesser-data/src/download.rs:153 | dropping repeated start times never lengthens the list and keeps its first candle |
| DataDownload.DedupSubset | tesser-data/src/download.rs:153 | dropping repeated start times keeps only candles of the input |
| DataDownload.DedupCovers | tesser-data/src/download.rs:153 | dropping repeated start times keeps a candle for every start time of the input |
| DataDownload.DedupAscending | tesser-data/src/download.rs:152-153 | on a time-ordered list, dropping repeated start times leaves strictly increasing start times |
| DataDownload.DownloadKlines | tesser-data/src/download.rs:60-155 | a range that does not start before it ends is rejected; a download fails exactly when a page fails; the result has strictly increasing start times, all in range for the requested symbol and interval, every start time collected is represented, and only collected candles appear |
| DataDownload.FirstPageFailure | tesser-data/src/download.rs:72-119 | a failing first request fails the whole download with that error |
| DataDownload.EmptyFirstPage | tesser-data/src/download.rs:121-142 | a first page with nothing in range ends the download with no candles |
| DataEtl.Multiplier | tesser-data/src/etl/mod.rs:149-158 | each unit's multiplier is between 1 and 10^9 nanoseconds, and is 1 exactly for nanoseconds |
| DataEtl.MultipliersAreNanosPerUnit | tesser-data/src/etl/mod.rs:149-158 | a second is 10^9 nanoseconds and each unit is a thousand of the next finer one |
| DataEtl.Column | tesser-data/src/etl/mod.rs:105-112 | a missing column and a blank column are reported as different errors naming the field, and otherwise the trimmed text is returned |
| DataEtl.ParseUnix | tesser-data/src/etl/mod.rs:119-127 | a Unix timestamp is accepted exactly when it parses as a 64-bit integer whose product with the unit's multiplier fits in 64 bits, and is then that product in nanoseconds |
| DataEtl.UnitsAgree | tesser-data/src/etl/mod.rs:119-158 | the same instant written in seconds and in milliseconds parses to the same nanoseconds |
| DataEtl.ParseTimestamp | tesser-data/src/etl/mod.rs:105-135 | a missing or blank column fails before any parsing; Unix text goes through the checked unit conversion; RFC 3339 text yields the nanoseconds its parser gives |
| DataEtl.ParseDecimal | tesser-data/src/etl/mod.rs:175-184 | a missing or blank column fails as such; otherwise the value is accepted exactly when the decimal parser accepts the trimmed text, and is its result |
| DataEtl.Delimiter | tesser-data/src/etl/mod.rs:59-64 | the delimiter is the first byte of the configured text, and a comma when none is configured or the text is empty |
| DataEtl.DelimiterExample | tesser-data/src/etl/mod.rs:59-82 | a `;` setting gives a semicolon, only its first byte counts, and the default configuration has a comma and a header row |
| DataEtl.ParseRow | tesser-data/src/etl/mod.rs:265-330 | an accepted row never has its high below its low or a negative volume, and carries the file's symbol and the mapping's interval |
| DataEtl.ParseVolume | tesser-data/src/etl/mod.rs:305-319 | an unmapped volume is absent, and a mapped one that parses is rejected with the 1-based row number exactly when it is negative |
| DataEtl.RowValidation | tesser-data/src/etl/mod.rs:297-319 | a row whose columns all parse is rejected for high below low exactly when that holds, and is accepted exactly when the high is not below the low and any volume is not negative |
| DataEtl.SanitizeSymbol | tesser-data/src/etl/mod.rs:527-529 | every `:` in the symbol becomes `_` and nothing else changes |
| DataEtl.SanitizeInterval | tesser-data/src/etl/mod.rs:531-536 | ASCII letters and digits are kept and every other character becomes `_` |
| DataEtl.SanitizeIdempotent | tesser-data/src/etl/mod.rs:527-536 | sanitizing an already sanitized symbol or interval leaves it unchanged |
| DataEtl.SanitizeExample | tesser-data/src/etl/mod.rs:578-588 | `binance:BTCUSDT` becomes `binance_BTCUSDT` and `1m` is kept, as in the pipeline's first test |
| DataEtl.DateTimeFromNsAsWritten | tesser-data/src/etl/mod.rs:538-543 | the conversion as written keeps a sub-second part below 10^9 and agrees with the exact split on non-negative timestamps |
| DataEtl.NegativeTimestampMisplaced | tesser-data/src/etl/mod.rs:538-543 | one nanosecond before the epoch is converted to one nanosecond after it, so it lands on 1970-01-01 instead of 1969-12-31 |
| DataEtl.Day | tesser-data/src/etl/mod.rs:514-522 | the day of a timestamp is the unique day count whose span of nanoseconds contains it |
| DataEtl.DayOfSeconds | tesser-data/src/etl/mod.rs:538-543 | the corrected day is the whole days of the exact seconds, and agrees with the code on non-negative timestamps |
| DataEtl.PartitionPath | tesser-data/src/etl/mod.rs:508-525 | the partition path is the symbol, interval, year and month segments of the candle's date joined by `/`, followed by the day segment exactly for daily partitioning; the date is that of the corrected day |
| DataEtl.SeriesPrefix | tesser-data/src/etl/mod.rs:515-518 | every partition path starts with its symbol and interval segments |
| DataEtl.PartitionPathAsWritten | tesser-data/src/etl/mod.rs:508-525 | the path as written, with the date from `datetime_from_ns`, is the corrected path from the epoch on, and for every timestamp is the corrected path of midnight of the day the as-written conversion lands on |
| DataEtl.PartitionPathMisfiles | tesser-data/src/etl/mod.rs:514 | one nanosecond before the epoch, the path as written names month 01 of 1970 where the corrected path names month 12 of 1969 |
| DataEtl.PartitionsNest | tesser-data/src/etl/mod.rs:508-525 | a daily partition is its monthly partition with a day segment appended, and candles on the same date, or in the same month, share a partition |
| DataEtl.PartitionExample | tesser-data/src/etl/mod.rs:553-592 | the first test row, 1700000000000 milliseconds, falls on day 19675, 2023-11-14, in partition `symbol=binance_BTCUSDT/interval=1m/year=2023/month=11/day=14` |
| TrailingStop.New | tesser-execution/src/algorithm/trailing_stop.rs:30-65 | construction succeeds exactly for a positive quantity, a sell-side signal, a positive activation price and a callback rate strictly between 0 and 1; the new stop is working, unarmed, untriggered, unfilled, with its high-water mark at the activation price |
| TrailingStop.Remaining | tesser-execution/src/algorithm/trailing_stop.rs:67-69 | the unfilled quantity, clamped at zero |
| TrailingStop.Status | tesser-execution/src/algorithm/trailing_stop.rs:113-120 | the texts `Working`, `Completed` and `Cancelled` map to those statuses and any other text to a failure carrying it |
| TrailingStop.OnFill | tesser-execution/src/algorithm/trailing_stop.rs:128-134 | a fill adds to the filled quantity and completes the stop once nothing remains; nothing else changes |
| TrailingStop.Cancel | tesser-execution/src/algorithm/trailing_stop.rs:166-169 | cancelling sets the status to cancelled and nothing else |
| TrailingStop.BuildChild | tesser-execution/src/algorithm/trailing_stop.rs:84-101 | a child is a market order without a price, on the parent signal's symbol and side, tagged `trailing-` followed by the algorithm id |
| TrailingStop.OnTick | tesser-execution/src/algorithm/trailing_stop.rs:136-160 | a stop that is not working ignores ticks; an unarmed one arms at or above the activation price and emits nothing; an armed one raises its high-water mark and, the first time the price is at or below the mark less the callback rate, emits one market order for the whole remaining quantity |
| TrailingStop.AtMostOneTrigger | tesser-execution/src/algorithm/trailing_stop.rs:136-160 | over any stream of ticks at most one order is emitted, none after triggering, and the high-water mark never falls |
| TrailingStop.ActivationExample | tesser-execution/src/algorithm/trailing_stop.rs:201-216 | with activation at 100, a tick at 95 leaves the stop unarmed and one at 101 arms it |
| TrailingStop.TriggerExample | tesser-execution/src/algorithm/trailing_stop.rs:218-246 | ticks at 105, 112 and 105 with a 5% callback emit one market order for all 3 units |
| WasmEngine.ResolvePath | tesser-execution/src/wasm/engine.rs:43-55 | the name is trimmed, an absolute path is kept and a relative one goes under the plugin directory, and `.wasm` is added when there is no extension |
| WasmEngine.DefaultExtension | tesser-execution/src/wasm/engine.rs:43-55 | a bare name resolves to the plugin directory joined with the name plus `.wasm`, and the result has an extension, so resolving again would not add another |
| WasmEngine.AbsolutePathKept | tesser-execution/src/wasm/engine.rs:43-55 | surrounding spaces are dropped and an absolute path with an extension is used as given |
| WasmEngine.LoadComponent | tesser-execution/src/wasm/engine.rs:57-90 | a missing file is an error; a cached component compiled from a file at least as recent is reused; otherwise the file is compiled and replaces its cache entry, and a failed compile leaves the cache as it was |
| WasmEngine.SecondLoadHitsCache | tesser-execution/src/wasm/engine.rs:57-90 | loading the same unchanged plugin again reuses the component and does not change the cache |
| WasmEngine.NewerFileRecompiles | tesser-execution/src/wasm/engine.rs:68-89 | a file modified after it was cached is compiled again and its new time is recorded |
| PluginTypes.AsMultiplier | tesser-wasm/src/types.rs:15-23 | buy is +1 and sell is -1 |
| PluginTypes.TestSignal | tesser-wasm/src/types.rs:106-120 | the test signal is a full-confidence `enter_long` buy for the given symbol and quantity, with no note or group |
| PluginTypes.DefaultRiskContext | tesser-wasm/src/types.rs:136-149 | the default risk context has unit price and equities and nothing held or available |
| PluginTypes.WithOrder | tesser-wasm/src/types.rs:243-246 | adding an order appends it and leaves the logs and the completion flag alone |
| PluginTypes.MarkCompleted | tesser-wasm/src/types.rs:248-251 | completing sets the flag and keeps orders and logs |
| PluginTypes.BuildersCommute | tesser-wasm/src/types.rs:238-251 | adding an order and completing commute, and completing twice is completing once |
| FixedPoint.HalfEvenQuotient | tesser-ledger/src/parquet.rs:385-387 | the quotient rounded to a nearest integer, within half a divisor of the exact quotient, and at an exact midpoint the even one |
| FixedPoint.RoundDp | tesser-ledger/src/parquet.rs:385-387 | rounding to fewer places gives the target scale and a mantissa within half a unit of the original, even when the original lies exactly halfway (banker's rounding) |
| FixedPoint.RoundDpBounded | tesser-ledger/src/parquet.rs:385-387 | rounding keeps the mantissa within the 96-bit range |
| FixedPoint.ScaleMantissa | tesser-ledger/src/parquet.rs:388-395 | the product of the mantissa and 10^k exactly when the power and the product both fit an `i128` |
| FixedPoint.Rescale | tesser-ledger/src/parquet.rs:382-396 | a successful conversion always fits an `i128` |
| FixedPoint.RescaleExact | tesser-ledger/src/parquet.rs:388-395 | with no more places than the target, the conversion succeeds exactly when power and product fit, and then is exact |
| FixedPoint.RescaleRounded | tesser-ledger/src/parquet.rs:384-387 | with more places than the target, the conversion always succeeds with a 96-bit result within half a unit of the original, even at an exact midpoint |
| FixedPoint.FromI128WithScale | tesser-ledger/src/parquet.rs:398-400 | reading a stored integer fails exactly beyond 96 bits or 28 places, and otherwise gives that mantissa at that scale |
| FixedPoint.RescaleRoundTrip | tesser-ledger/src/parquet.rs:382-400 | a decimal with at most the target's places converts and reads back as the same number while the stored integer stays within 96 bits |
| ReconcileHandlers.NewRuntimeHandler | tesser-cli/src/reconcile/handlers.rs:43-56 | a positive threshold is kept and any other is replaced by 10^-6, so the threshold is always positive |
| ReconcileHandlers.NormalizeDiff | tesser-cli/src/reconcile/handlers.rs:342-349 | a non-positive difference gives zero; a positive one gives a positive share no larger than it, which times `max(|reference|, 1)` is the difference |
| ReconcileHandlers.NormalizedReachesThreshold | tesser-cli/src/reconcile/handlers.rs:342-349 | for a positive threshold the relative difference reaches it exactly when the absolute one reaches threshold × `max(|reference|, 1)` |
| ReconcileHandlers.SeverePositions | tesser-cli/src/reconcile/handlers.rs:78-110 | at most one finding per entry, each a position finding with a positive difference |
| ReconcileHandlers.PositionSevereIff | tesser-cli/src/reconcile/handlers.rs:80-95 | an entry is severe exactly when its absolute delta reaches threshold × `max(|remote signed|, 1)` |
| ReconcileHandlers.SeverePositionsExactly | tesser-cli/src/reconcile/handlers.rs:78-110 | a symbol gets a finding exactly when one of its entries is severe |
| ReconcileHandlers.FindBalance | tesser-cli/src/reconcile/handlers.rs:115 | the first discrepancy for the asset, or none when no entry names it |
| ReconcileHandlers.SevereBalance | tesser-cli/src/reconcile/handlers.rs:112-151 | at most one finding, for the reporting currency, exactly when its entry's local and remote values (missing as zero) differ by at least threshold × `max(|remote|, 1)` |
| ReconcileHandlers.BuildFilledUpdate | tesser-cli/src/reconcile/handlers.rs:351-370 | the order marked filled with the fills' total quantity, their volume-weighted average price when that total is positive (the old average otherwise), and the last fill's time or `now` |
| ReconcileHandlers.NotionalBetween | tesser-cli/src/reconcile/handlers.rs:353-360 | fills priced in `[lo, hi]` with positive sizes have a notional between lo and hi times their total quantity, which is positive when there is a fill |
| ReconcileHandlers.AverageWithinFillPrices | tesser-cli/src/reconcile/handlers.rs:351-370 | the average price of a replayed ghost lies between its lowest and highest fill price |
| ReconcileHandlers.Marked | tesser-cli/src/reconcile/handlers.rs:193-195 | the order with the new status and time and nothing else changed |
| ReconcileHandlers.PlanGhosts | tesser-cli/src/reconcile/handlers.rs:153-210 | one fill batch per filled update, and no more updates than ghosts |
| ReconcileHandlers.PlanGhostsExactly | tesser-cli/src/reconcile/handlers.rs:153-210 | a ghost with reported fills becomes a filled update; one without fills and not canceled, filled or rejected becomes a cancel stamped `now`; a failed fill request counts as no fills |
| ReconcileHandlers.GhostCommands | tesser-cli/src/reconcile/handlers.rs:153-210 | one replay per filled ghost, then at most one batch of cancels and one batch of filled updates |
| ReconcileHandlers.ZombieCommands | tesser-cli/src/reconcile/handlers.rs:212-256 | nothing without zombies; otherwise every zombie is adopted first, then at most one batch holding exactly the zombies the exchange agreed to cancel, marked canceled |
| ReconcileHandlers.CanceledZombies | tesser-cli/src/reconcile/handlers.rs:227-249 | exactly the zombies whose cancel succeeded, marked canceled |
| ReconcileHandlers.Handle | tesser-cli/src/reconcile/handlers.rs:58-76 | findings from positions and the reporting currency, the ghost commands first, and liquidate-only entered last exactly when some finding is severe |
| ReconcileHandlers.GhostFillReplayed | tesser-cli/src/reconcile/handlers.rs:442-469 | a ghost with one reported fill is replayed and then marked filled, with no severe finding |
| ReconcileHandlers.StartupReconcile | tesser-cli/src/reconcile/handlers.rs:279-331 | the remote book becomes the open orders and exactly the zombies are to be canceled |
| ReconcileHandlers.StartupExample | tesser-cli/src/reconcile/handlers.rs:425-440 | local order `local` against remote order `remote` cancels exactly the remote one |
| IndicatorCore.Window | tesser-indicators/src/indicators/ichimoku.rs:114-119 | a bounded queue keeps exactly the last `period` values pushed, or all of them while there are fewer |
| IndicatorCore.WindowSnoc | tesser-indicators/src/indicators/ichimoku.rs:114-119 | pushing one value onto a trimmed queue gives the same queue as trimming the whole history with that value appended |
| IndicatorCore.WilderStep | tesser-indicators/src/indicators/atr.rs:49-53 | Wilder's smoothing step returns the new value itself for period 1 and otherwise lands between the previous average and the new value |
| IndicatorCore.WilderOf | tesser-indicators/src/indicators/atr.rs:44-66 | Wilder's average of a series exists exactly when at least `period` values have been seen |
| IndicatorCore.WilderOfSeed | tesser-indicators/src/indicators/atr.rs:55-61 | with exactly `period` values Wilder's average is their plain mean, which is how the average is seeded |
| IndicatorCore.WilderOfBounded | tesser-indicators/src/indicators/atr.rs:44-66 | Wilder's average never leaves the range of the values it averages |
| IndicatorCore.MaxOf | tesser-indicators/src/indicators/ichimoku.rs:69 | `reduce(Decimal::max)` is absent exactly for an empty queue and otherwise is an element of the queue no smaller than any other |
| IndicatorCore.MinOf | tesser-indicators/src/indicators/ichimoku.rs:70 | `reduce(Decimal::min)` is absent exactly for an empty queue and otherwise is an element of the queue no larger than any other |
| SmaIndicator.New | tesser-indicators/src/indicators/sma.rs:25-37 | a zero period is rejected with an error and any other period gives an average that has seen nothing |
| SmaIndicator.Next | tesser-indicators/src/indicators/sma.rs:52-68 | the running sum stays equal to the window's sum, the window is the last `period` inputs, an answer comes exactly once the window is full, and the answer is the window's mean |
| SmaIndicator.Reset | tesser-indicators/src/indicators/sma.rs:70-73 | after a reset the average is indistinguishable from a freshly built one of the same period |
| SmaIndicator.RunWindow | tesser-indicators/src/indicators/sma.rs:52-68 | after any sequence of inputs the state holds exactly the last `period` of them and a matching running sum |
| SmaIndicator.StepKeeps | tesser-indicators/src/indicators/sma.rs:52-68 | a state holding the last `period` inputs still does so after one more input, and answers the mean of the last `period` inputs once there are that many |
| SmaIndicator.Outputs | tesser-indicators/src/indicators/sma.rs:52-68 | every answer of the running average equals the independently defined mean of the last `period` inputs, and it answers exactly from the `period`-th input on |
| SmaIndicator.Example | tesser-indicators/src/indicators/sma.rs:89-104 | period 3 stays silent for 1, 2, answers 2 after 1, 2, 3, and then 3 after a further 4 |
| EmaIndicator.Alpha | tesser-indicators/src/indicators/ema.rs:26-42 | the smoothing factor `2 / (period + 1)` lies in `(0, 1]` |
| EmaIndicator.New | tesser-indicators/src/indicators/ema.rs:26-42 | a zero period is rejected with an error and any other period gives an unseeded average with an empty warm-up |
| EmaIndicator.Next | tesser-indicators/src/indicators/ema.rs:57-79 | once seeded every input is answered and the answer becomes the state; before that, an answer comes exactly with the `period`-th input |
| EmaIndicator.Reset | tesser-indicators/src/indicators/ema.rs:81-85 | after a reset the average is indistinguishable from a freshly built one of the same period |
| EmaIndicator.Smooth | tesser-indicators/src/indicators/ema.rs:74-77 | a smoothing step with a factor in `[0, 1]` lands between the previous value and the input, and a factor of 1 returns the input |
| EmaIndicator.EmaOf | tesser-indicators/src/indicators/ema.rs:57-79 | the reference average exists exactly once `period` inputs have been seen |
| EmaIndicator.StepTracks | tesser-indicators/src/indicators/ema.rs:57-79 | a state agreeing with the reference on the inputs so far still agrees after one more input, and that step answers the reference value |
| EmaIndicator.RunTracks | tesser-indicators/src/indicators/ema.rs:57-79 | after any inputs the state holds the reference value and, before seeding, the warm-up sum and count of the inputs seen |
| EmaIndicator.Outputs | tesser-indicators/src/indicators/ema.rs:57-79 | every answer equals the reference: none for the first `period - 1` inputs, their mean at the `period`-th, the smoothed value after |
| EmaIndicator.EmaOfBounded | tesser-indicators/src/indicators/ema.rs:57-79 | the exponential average never leaves the range of the inputs it has seen |
| EmaIndicator.Example | tesser-indicators/src/indicators/ema.rs:101-118 | period 3 answers 2 after 1, 2, 3 and, with factor one half, 3 after a further 4 |
| PipedIndicator.Next | tesser-indicators/src/combinators.rs:26-29 | the first indicator always takes the input, and when it answers nothing the second is untouched and the pipe answers nothing |
| PipedIndicator.Reset | tesser-indicators/src/combinators.rs:31-34 | resetting the pipe resets each of its two indicators by that indicator's own rule |
| PipedIndicator.RunPiped | tesser-indicators/src/combinators.rs:26-29 | running the pipe over any inputs equals running the first indicator over them and the second over exactly the first's answers, ending in both final states |
| RsiIndicator.New | tesser-indicators/src/indicators/rsi.rs:29-46 | a zero period is rejected with an error and any other period gives an index with no previous value and no averages |
| RsiIndicator.Gain | tesser-indicators/src/indicators/rsi.rs:78-83 | the gain is non-negative, positive exactly when the value rose, and gain minus loss is the change |
| RsiIndicator.Loss | tesser-indicators/src/indicators/rsi.rs:84-88 | the loss is non-negative and positive exactly when the value fell |
| RsiIndicator.GainOrLoss | tesser-indicators/src/indicators/rsi.rs:78-88 | a change is never both a gain and a loss |
| RsiIndicator.ComputeRsi | tesser-indicators/src/indicators/rsi.rs:48-57 | the index is 100 with no average loss, 0 with no average gain, otherwise the gain's share of the total movement scaled to 100, and always within `[0, 100]` for non-negative averages |
| RsiIndicator.Next | tesser-indicators/src/indicators/rsi.rs:67-123 | the first input only becomes the previous value; later inputs are answered once `period` changes are in; every answer lies in `[0, 100]` |
| RsiIndicator.Reset | tesser-indicators/src/indicators/rsi.rs:125-132 | after a reset the index is indistinguishable from a freshly built one of the same period |
| RsiIndicator.RsiOf | tesser-indicators/src/indicators/rsi.rs:67-123 | the reference index exists exactly once `period + 1` inputs, that is `period` changes, have been seen |
| RsiIndicator.RsiOfInRange | tesser-indicators/src/indicators/rsi.rs:48-57 | every reference value lies in `[0, 100]` |
| RsiIndicator.StepTracks | tesser-indicators/src/indicators/rsi.rs:67-123 | a state agreeing with the reference on the inputs so far still agrees after one more input, and that step answers the reference value |
| RsiIndicator.RunTracks | tesser-indicators/src/indicators/rsi.rs:67-123 | after any inputs the state holds the previous input, the warm-up sums or the Wilder averages of the gains and losses seen |
| RsiIndicator.Outputs | tesser-indicators/src/indicators/rsi.rs:67-123 | every answer equals the reference: nothing for the first `period` inputs, then the index of Wilder's averages of the gains and losses |
| RsiIndicator.ConstantInput | tesser-indicators/src/indicators/rsi.rs:191-198 | a constant series never loses, so once warmed up its index is exactly 100 |
| RsiIndicator.Example | tesser-indicators/src/indicators/rsi.rs:157-179 | period 3 over 1, 2, 3, 2 answers 200/3, and a further 1 answers 400/9, the first two expected values |
| AtrIndicator.New | tesser-indicators/src/indicators/atr.rs:19-30 | a zero period is rejected with an error and any other period gives an average with no previous close |
| AtrIndicator.TrueRange | tesser-indicators/src/indicators/atr.rs:32-37 | the true range is the largest of the candle's range and its two distances from the previous close, never negative, and just the candle's range when the previous close lies inside it |
| AtrIndicator.Next | tesser-indicators/src/indicators/atr.rs:44-66 | the close is remembered; once seeded every candle is answered and the answer becomes the average; before that, an answer comes exactly with the `period`-th candle |
| AtrIndicator.Reset | tesser-indicators/src/indicators/atr.rs:68-73 | after a reset the average is indistinguishable from a freshly built one of the same period |
| AtrIndicator.TrueRanges | tesser-indicators/src/indicators/atr.rs:44-47 | each candle's range is measured against the previous candle's close, the first against its own close, and none is negative |
| AtrIndicator.AtrOf | tesser-indicators/src/indicators/atr.rs:44-66 | the reference average exists exactly once `period` candles have been seen and is never negative |
| AtrIndicator.AtrOfIs | tesser-indicators/src/indicators/atr.rs:44-66 | the reference is Wilder's average of the true ranges |
| AtrIndicator.StepTracks | tesser-indicators/src/indicators/atr.rs:44-66 | a state agreeing with the reference on the candles so far still agrees after one more, and that step answers the reference value |
| AtrIndicator.RunTracks | tesser-indicators/src/indicators/atr.rs:44-66 | after any candles the state holds the last close, the warm-up sum and count, or the reference average |
| AtrIndicator.Outputs | tesser-indicators/src/indicators/atr.rs:44-66 | every answer equals the reference: nothing for the first `period - 1` candles, the mean true range at the `period`-th, Wilder's average after |
| BollingerIndicator.New | tesser-indicators/src/indicators/bollinger.rs:38-59 | construction succeeds exactly for a positive period and a non-negative multiplier; a zero period is reported first, then a negative multiplier with its value |
| BollingerIndicator.ComputeBands | tesser-indicators/src/indicators/bollinger.rs:61-76 | the middle band is the mean, the two bands sit symmetrically about it, and with a non-negative multiplier and root they are ordered lower, middle, upper |
| BollingerIndicator.Next | tesser-indicators/src/indicators/bollinger.rs:86-104 | the running totals stay those of the window, the window is the last `period` inputs, and bands are answered exactly when the window is full |
| BollingerIndicator.PushKeepsValid | tesser-indicators/src/indicators/bollinger.rs:87-97 | pushing an input keeps the running sum and sum of squares equal to the window's after the oldest value is dropped |
| BollingerIndicator.Reset | tesser-indicators/src/indicators/bollinger.rs:106-110 | after a reset the indicator is indistinguishable from a freshly built one with the same period and multiplier |
| BollingerIndicator.RunningVariance | tesser-indicators/src/indicators/bollinger.rs:62-67 | the running-sum variance (mean of squares less the squared mean) equals the textbook mean squared distance from the mean, so it is never negative and the clamp never applies |
| BollingerIndicator.DeviationExpands | tesser-indicators/src/indicators/bollinger.rs:62-64 | the squared deviation about any point expands into the sum of squares, the sum and the count |
| BollingerIndicator.FullWindowBands | tesser-indicators/src/indicators/bollinger.rs:61-76 | on a full window the bands computed from the running totals are the reference bands: the window's mean with the textbook deviation times the multiplier either side |
| BollingerIndicator.BollingerOf | tesser-indicators/src/indicators/bollinger.rs:86-104 | the reference bands exist exactly once `period` inputs have been seen |
| BollingerIndicator.RunWindow | tesser-indicators/src/indicators/bollinger.rs:86-104 | after any inputs the state holds exactly the last `period` of them with matching running totals |
| BollingerIndicator.Outputs | tesser-indicators/src/indicators/bollinger.rs:86-104 | every answer equals the reference: nothing until `period` inputs, then the mean of the last `period` and bands the textbook deviation times the multiplier away |
| BollingerIndicator.Example | tesser-indicators/src/indicators/bollinger.rs:146-154 | period 2 over 1 and 3 has middle band 2 and upper band the root of the variance 1 above it |
| IchimokuIndicator.New | tesser-indicators/src/indicators/ichimoku.rs:38-66 | construction succeeds exactly when all three periods are positive, and otherwise reports the zero period |
| IchimokuIndicator.PushQueue | tesser-indicators/src/indicators/ichimoku.rs:114-119 | a queue within its period ends as the last `period` values with the new value last |
| IchimokuIndicator.Midpoint | tesser-indicators/src/indicators/ichimoku.rs:68-72 | the midpoint exists exactly when both queues are non-empty and is halfway between a high no smaller than any other and a low no larger than any other |
| IchimokuIndicator.Next | tesser-indicators/src/indicators/ichimoku.rs:79-102 | every queue stays within its period, lines are answered exactly when the span B queue is full, and span A is halfway between the conversion and base lines |
| IchimokuIndicator.Reset | tesser-indicators/src/indicators/ichimoku.rs:104-111 | after a reset the indicator is indistinguishable from a freshly built one with the same periods |
| IchimokuIndicator.IchimokuOf | tesser-indicators/src/indicators/ichimoku.rs:79-102 | the reference lines exist exactly once `spanB` candles have been seen |
| IchimokuIndicator.StepTracks | tesser-indicators/src/indicators/ichimoku.rs:79-89 | a state whose queues hold the last highs and lows of the candles so far still does so after one more candle |
| IchimokuIndicator.RunTracks | tesser-indicators/src/indicators/ichimoku.rs:79-89 | after any candles every queue holds the last `period` highs or lows of them |
| IchimokuIndicator.AnswerTracks | tesser-indicators/src/indicators/ichimoku.rs:87-101 | a state holding the trailing highs and lows answers exactly what the reference answers for those candles |
| IchimokuIndicator.Outputs | tesser-indicators/src/indicators/ichimoku.rs:79-102 | every answer equals the reference: nothing until `spanB` candles, then each line's midpoint of its trailing highs and lows |
| MacdIndicator.New | tesser-indicators/src/indicators/macd.rs:29-49 | construction succeeds exactly when all three periods are positive, and otherwise reports the zero period |
| MacdIndicator.Next | tesser-indicators/src/indicators/macd.rs:56-76 | an answer's histogram is the MACD line less the signal line and is kept as the last histogram; without an answer the last histogram is unchanged |
| MacdIndicator.Reset | tesser-indicators/src/indicators/macd.rs:78-83 | after a reset the indicator is indistinguishable from a freshly built one with the same periods and has no last histogram |
| MacdIndicator.Warmup | tesser-indicators/src/indicators/macd.rs:57-60 | both averages answer from the larger of the two periods on |
| MacdIndicator.MacdSeries | tesser-indicators/src/indicators/macd.rs:59-62 | the signal average sees one value per input from the warm-up on, the latest being the fast reference average less the slow one |
| MacdIndicator.MacdOf | tesser-indicators/src/indicators/macd.rs:56-76 | the reference answers exactly from input `max(fast, slow) + signal - 1` on, with the latest MACD value, the EMA of the MACD line and their difference |
| MacdIndicator.StepTracks | tesser-indicators/src/indicators/macd.rs:56-76 | a state whose three averages agree with the reference on the inputs so far still agrees after one more input, and that step answers the reference value |
| MacdIndicator.RunTracks | tesser-indicators/src/indicators/macd.rs:56-76 | after any inputs each average holds its reference state and the last histogram is the reference's |
| MacdIndicator.Outputs | tesser-indicators/src/indicators/macd.rs:56-76 | every answer equals the reference output for the inputs seen |
| MacdIndicator.Example | tesser-indicators/src/indicators/macd.rs:90-97 | with periods 3, 6 and 3 the sixteenth input is answered, whatever the inputs |
| LedgerAmount.EncodeAsWritten | tesser-ledger/src/parquet.rs:382-396 | an amount with more than 18 places is rounded and always encodes; one with at most 18 encodes exactly when its mantissa scaled to 18 places fits an `i128`, and then to its value times 10^18; every failure is a `Serialization` error |
| LedgerAmount.DecodeAsWritten | tesser-ledger/src/parquet.rs:398-400 | a stored value beyond the 96-bit mantissa range cannot be read back; any other reads back as itself over 10^18 |
| LedgerAmount.EncodedAmountCannotBeDecoded | tesser-ledger/src/parquet.rs:382-400 | the amount 10^11 is accepted by the encoder as 10^29, which the decoder cannot read back |
| LedgerAmount.Encode | tesser-ledger/src/parquet.rs:382-396 | the encoder of the source where it succeeds within the 96-bit range, and a `Serialization` error beyond it |
| LedgerAmount.Decode | tesser-ledger/src/parquet.rs:398-400 | every value within the 96-bit range reads back as a well-formed amount of scale 18 worth the value over 10^18 |
| LedgerAmount.RoundTrip | tesser-ledger/src/parquet.rs:382-400 | an amount with at most 18 places that encodes reads back as the same number |
| LedgerAmount.RoundTripRounded | tesser-ledger/src/parquet.rs:382-400 | an amount with more than 18 places always encodes and reads back within half of 10^-18 of itself |
| LedgerEntries.AsStr | tesser-ledger/src/entry.rs:65-74 | every type's name is non-empty lower-case snake_case |
| LedgerEntries.Display | tesser-ledger/src/entry.rs:77-81 | displaying writes the type's name, which parses back to the type |
| LedgerEntries.FromStr | tesser-ledger/src/entry.rs:83-97 | text that parses is the name of the type it gives, and text rejected is the name of no type |
| LedgerEntries.FromStrAsStr | tesser-ledger/src/entry.rs:65-97 | parsing the name of any type gives the type back |
| LedgerEntries.AsStrInjective | tesser-ledger/src/entry.rs:65-74 | distinct types have distinct names |
| LedgerEntries.FromStrAcceptsExactlyNames | tesser-ledger/src/entry.rs:83-97 | a text parses exactly when it is the name of some type |
| LedgerEntries.NewEntry | tesser-ledger/src/entry.rs:25-43 | the given fields, sequence 0 and no metadata, with the id and time given |
| LedgerEntries.WithSequence | tesser-ledger/src/entry.rs:46-49 | the sequence is the one given and nothing else changes |
| Journal.BuildEntry | tesser-ledger/src/journal.rs:109-131 | an entry on the asset's exchange, referencing the fill's order at the fill's time, unsequenced, with the symbol and component as metadata |
| Journal.SignedQuantity | tesser-ledger/src/journal.rs:62-65 | the quantity for a buy and its negation for a sell |
| Journal.SpotEntries | tesser-ledger/src/journal.rs:58-88 | at most two adjustment legs, on the base and quote assets, stamped by the fill; none exactly when the quantity is zero |
| Journal.Leg | tesser-ledger/src/journal.rs:66-74 | one adjustment on the asset, or none when its amount is zero |
| Journal.LegNet | tesser-ledger/src/journal.rs:66-74 | a leg moves its own asset by its amount and no other asset |
| Journal.SpotLegs | tesser-ledger/src/journal.rs:58-88 | the spot legs are the base leg then the quote leg |
| Journal.DerivativeEntries | tesser-ledger/src/journal.rs:90-105 | at most one adjustment on the settlement asset, present exactly when the notional is not zero |
| Journal.TradeEntries | tesser-ledger/src/journal.rs:26-31 | at most two adjustment legs stamped by the fill |
| Journal.PnlEntries | tesser-ledger/src/journal.rs:32-40 | one realized-PnL entry in the settlement currency exactly when the PnL is not zero, for that amount |
| Journal.FeeEntries | tesser-ledger/src/journal.rs:41-55 | one fee entry exactly when a non-zero fee is reported, debiting it in the fill's fee asset, else the quote (spot) or settlement asset |
| Journal.EntriesFromFill | tesser-ledger/src/journal.rs:25-57 | at most four entries, all stamped by the fill |
| Journal.EntriesOrdered | tesser-ledger/src/journal.rs:25-57 | trade legs come before the PnL entry, which comes before the fee |
| Journal.EntriesPnl | tesser-ledger/src/journal.rs:32-40 | the output holds a PnL entry exactly when the PnL is not zero, for that amount in the settlement currency |
| Journal.EntriesFee | tesser-ledger/src/journal.rs:41-55 | the output holds a fee entry exactly when a non-zero fee is reported, debiting it in its asset |
| Journal.SpotEntriesNet | tesser-ledger/src/journal.rs:58-88 | the spot legs move the base asset by the signed quantity and the quote by minus price times that |
| Journal.NetAdjustmentOfEntries | tesser-ledger/src/journal.rs:25-57 | PnL and fee entries never change the net adjustment of any asset |
| Journal.SpotLegsBalance | tesser-ledger/src/journal.rs:25-88 | a spot fill balances at the fill price: base moves by the signed quantity, quote by minus price times it |
| Journal.DerivativeSettlement | tesser-ledger/src/journal.rs:90-105 | a perpetual fill moves the settlement asset by minus the signed notional |
| LedgerQueries.Default | tesser-ledger/src/query.rs:7-18 | the default query filters nothing, has no limit and asks for descending order |
| LedgerQueries.WithExchange | tesser-ledger/src/query.rs:21-24 | sets the exchange filter and keeps every other field |
| LedgerQueries.WithAsset | tesser-ledger/src/query.rs:26-29 | sets the asset filter and keeps every other field |
| LedgerQueries.WithType | tesser-ledger/src/query.rs:31-34 | sets the entry-type filter and keeps every other field |
| LedgerQueries.WithSequenceRange | tesser-ledger/src/query.rs:36-40 | overwrites both sequence bounds, clearing one given as none, and keeps the rest |
| LedgerQueries.WithTimeRange | tesser-ledger/src/query.rs:42-50 | overwrites both time bounds, clearing one given as none, and keeps the rest |
| LedgerQueries.WithLimit | tesser-ledger/src/query.rs:52-55 | sets the limit and keeps every other field |
| LedgerQueries.Descending | tesser-ledger/src/query.rs:57-60 | asks for newest-first order and keeps every other field |
| LedgerSequencer.New | tesser-ledger/src/sequencer.rs:13-17 | the first sequence handed out follows the given one, wrapping at 2^64 |
| LedgerSequencer.Bootstrap | tesser-ledger/src/sequencer.rs:20-23 | a repository error is passed on; an empty store starts at 1, and otherwise the counter starts at the latest stored sequence |
| LedgerSequencer.Next | tesser-ledger/src/sequencer.rs:26-28 | the counter advances by one and the new value is returned, wrapping to 0 at 2^64 |
| LedgerSequencer.DrawIsGapless | tesser-ledger/src/sequencer.rs:26-28 | without wrap-around, `n` calls from counter `c` return exactly `c+1 .. c+n` and leave the counter at `c+n` |
| LedgerSequencer.DrawStrictlyIncreasing | tesser-ledger/src/sequencer.rs:26-28 | sequences drawn without wrap-around strictly increase |
| LedgerSequencer.DrawMany | tesser-ledger/src/sequencer.rs:26-28 | a loop of `n` calls collects `c+1 .. c+n` in order and leaves the counter at `c+n` |
| LedgerSequencer.NextWrapsAtMax | tesser-ledger/src/sequencer.rs:26-28 | at the top of the range the next sequence is 0, so monotonicity needs the bound |
| LedgerStore.DefaultMatchesAll | tesser-ledger/src/parquet.rs:171-208 | the default query admits every entry |
| LedgerStore.BuildersNarrow | tesser-ledger/src/parquet.rs:171-186 | each equality filter narrows the matches by exactly its own condition |
| LedgerStore.SequenceRangeMatches | tesser-ledger/src/parquet.rs:187-196 | a sequence range admits exactly the entries inside its inclusive bounds |
| LedgerStore.LimitAndOrderDoNotFilter | tesser-ledger/src/parquet.rs:171-208 | limit and order do not change which entries match |
| LedgerStore.Filter | tesser-ledger/src/parquet.rs:160 | the matching stored rows and only those, each as often as stored |
| LedgerStore.FilterAll | tesser-ledger/src/parquet.rs:160 | a filter that admits every row keeps every row in order |
| LedgerStore.FilterCount | tesser-ledger/src/parquet.rs:160 | a matching row occurs in the filter as often as in storage |
| LedgerStore.Insert | tesser-ledger/src/parquet.rs:161 | inserting into a sequence-sorted list keeps it sorted and adds exactly the entry |
| LedgerStore.SortBySequence | tesser-ledger/src/parquet.rs:161 | the same rows, ascending by sequence |
| LedgerStore.Reverse | tesser-ledger/src/parquet.rs:162-164 | the rows in reverse order |
| LedgerStore.Ordered | tesser-ledger/src/parquet.rs:160-164 | the matching rows in ascending or descending sequence order as asked |
| LedgerStore.Query | tesser-ledger/src/parquet.rs:154-169 | only matching stored rows, in the order asked, a prefix of all matching rows that is cut to the limit and otherwise holds every matching row |
| LedgerStore.QueryComplete | tesser-ledger/src/parquet.rs:154-169 | an unlimited query returns a matching row as often as it is stored |
| LedgerStore.DefaultQueryReturnsAll | tesser-ledger/src/parquet.rs:154-169 | the default query returns every stored row, newest sequence first |
| LedgerStore.LatestSequence | tesser-ledger/src/parquet.rs:141-152 | none for an empty store, and otherwise a stored sequence no smaller than any other |
| LedgerStore.BootstrapFollowsStore | tesser-ledger/src/sequencer.rs:20-28 | a sequencer bootstrapped from the store hands out a sequence above every stored one |
| LedgerStore.AddToBucket | tesser-ledger/src/parquet.rs:128-134 | adding an entry under its day keeps the day buckets in key order and non-empty, with no day that was not there or added |
| LedgerStore.AddToBucketOn | tesser-ledger/src/parquet.rs:128-134 | the entry is appended to its day's bucket and every other day's bucket is unchanged |
| LedgerStore.AddToBucketRows | tesser-ledger/src/parquet.rs:128-134 | adding an entry adds exactly one row to the buckets |
| LedgerStore.Bucketize | tesser-ledger/src/parquet.rs:127-134 | buckets in strictly increasing day order, none empty |
| LedgerStore.BucketizePartitions | tesser-ledger/src/parquet.rs:127-134 | each day's bucket holds exactly that day's entries in input order, and together the buckets hold every entry once |
| LedgerStore.BucketContents | tesser-ledger/src/parquet.rs:127-137 | each written partition holds exactly one day's entries in input order and is never empty |
| LedgerStore.StoredRow | tesser-ledger/src/parquet.rs:382-400 | a row is stored as its entry with only the amount changed: exactly when the amount has at most 18 places, and otherwise to within half a unit of the 18th place |
| LedgerStore.EncodeRows | tesser-ledger/src/parquet.rs:232-282 | a batch encodes exactly when every amount encodes, giving the stored form of each entry in order; otherwise a `Serialization` error |
| LedgerStore.WritePartition | tesser-ledger/src/parquet.rs:50-70 | an empty partition is an `InvalidState` error; a non-empty one is written exactly when every amount encodes, as the stored rows of its entries, and otherwise fails with a `Serialization` error |
| LedgerStore.WriteBuckets | tesser-ledger/src/parquet.rs:135-137 | the loop writes a prefix of the buckets and succeeds exactly when it writes them all |
| LedgerStore.WriteBucketsWrites | tesser-ledger/src/parquet.rs:135-137 | the store gains the stored rows of the buckets written, in key order; the write stops at the first bucket that fails, which is an `InvalidState` error exactly when that bucket is empty and otherwise holds an amount that does not encode; non-empty buckets all write exactly when every amount encodes |
| LedgerStore.AppendBatch | tesser-ledger/src/parquet.rs:123-139 | an empty batch changes nothing; a non-empty one succeeds exactly when every amount encodes, a failure is a `Serialization` error, what was stored stays stored, and on success the store gains exactly the stored rows of the batch |
| LedgerStore.AppendExact | tesser-ledger/src/parquet.rs:123-139 | a batch whose amounts all encode and have at most 18 places is appended successfully and stored exactly as given |
| LedgerStore.OverflowingAmountRejected | tesser-ledger/src/parquet.rs:382-396 | the amount 10^21 at scale 0 scales to 10^39, beyond an `i128`, and the batch holding it fails with the `decimal mantissa overflow` error and stores nothing |
| LedgerStore.AppendThenQueryAll | tesser-ledger/src/parquet.rs:409-428 | a batch appended successfully to an empty store comes back from the default query as its stored rows, one per entry |
| DataMerger.FromPaths | tesser-data/src/merger.rs:60-78 | construction fails exactly when no stream has any file; otherwise the filter is the given symbols, nothing is peeked, and each stream reads its files' events or nothing |
| DataMerger.Ensure | tesser-data/src/merger.rs:147-163 | a peeked event is kept; otherwise events are read until one passes the symbol filter, which becomes the peeked event, and what the feed still holds is what follows the skipped events |
| DataMerger.EnsureKeepsAdmitted | tesser-data/src/merger.rs:147-199 | refilling a feed drops no event that the symbol filter admits |
| DataMerger.EnsureExhausted | tesser-data/src/merger.rs:147-199 | a refill that finds nothing means the feed held no admitted event |
| DataMerger.PickCandidate | tesser-data/src/merger.rs:202-217 | the first offer always becomes the candidate, and a later one replaces it only with a strictly earlier time |
| DataMerger.NextEvent | tesser-data/src/merger.rs:91-145 | nothing is answered exactly when no feed has an event after refilling; an answer is no later than any feed's head, and on a tie ticks win over books and books over depth updates |
| DataMerger.NextEventStep | tesser-data/src/merger.rs:91-145 | from chronological feeds, one step yields an admitted event the merger held, no later than anything left, and leaves the feeds chronological |
| DataMerger.DrainSorted | tesser-data/src/merger.rs:81-145 | when every source is chronological, the merged stream is chronological and carries only events the sources held and the filter admits |
| DataMerger.TieExample | tesser-data/src/merger.rs:91-163 | with a filtered-out tick ahead and a tick and a book at the same instant, the rejected tick is skipped, the kept tick comes first, then the book, then nothing |
| PaperConditional.Priority | connectors/tesser-paper/src/conditional.rs:14-22 | stop-loss ranks first, take-profit second and standalone orders last |
| PaperConditional.ParseGroup | connectors/tesser-paper/src/conditional.rs:138-148 | an id ending in `-sl` is the stop-loss of the group named by the rest; otherwise one ending in `-tp` is its take-profit; any other id, or none, is standalone with no group |
| PaperConditional.Push | connectors/tesser-paper/src/conditional.rs:50-54 | registering an order appends it, classified by its client id, and keeps the book before it |
| PaperConditional.Fire | connectors/tesser-paper/src/conditional.rs:56-82 | an order without a trigger price never fires; a buy fires when the trade price or the candle high reaches up to the trigger, a sell when it falls to it; a trade fills at the trade price, a candle at the trigger price |
| PaperConditional.Triggered | connectors/tesser-paper/src/conditional.rs:88-102 | the triggered events are exactly the pending orders that fire, each with its fill price, time, kind and group |
| PaperConditional.Best | connectors/tesser-paper/src/conditional.rs:115-120 | a group reports a member of least priority, the earliest such, which is what a stable sort by priority puts first |
| PaperConditional.OneCancelsOther | connectors/tesser-paper/src/conditional.rs:84-135 | every fired group reports one member of best priority among its fired members; ungrouped events are all reported; what stays pending did not fire and belongs to no fired group |
| PaperConditional.SurvivorsExactly | connectors/tesser-paper/src/conditional.rs:123-132 | a pending order stays exactly when it did not fire and no member of its group fired |
| PaperConditional.Evaluate | connectors/tesser-paper/src/conditional.rs:104-121 | events reported on their own carry no group, and the event reported for a fired group belongs to that group |
| PaperConditional.EvaluateCount | connectors/tesser-paper/src/conditional.rs:104-121 | at most one event is reported per pending order |
| PaperConditional.StopLossWinsExample | connectors/tesser-paper/src/conditional.rs:181-199 | a stop-loss at 90 and a take-profit at 110 of one group, both hit by a candle from 80 to 120, report only the stop-loss and leave nothing pending |
| PaperFees.Rate | connectors/tesser-paper/src/fees.rs:39-46 | makers pay the maker rate, takers the taker rate |
| PaperFees.PairFor | connectors/tesser-paper/src/fees.rs:59-61 | a symbol with an override uses it; any other symbol uses the default pair |
| PaperFees.Fee | connectors/tesser-paper/src/fees.rs:64-74 | the fee is the rate, clamped at zero, in basis points of price times the absolute quantity; it is zero for a non-positive rate or zero price or quantity, and never negative for a non-negative price |
| PaperFees.FeeSymmetric | connectors/tesser-paper/src/fees.rs:64-74 | the side of the trade and the sign of the quantity do not change the fee |
| PaperFees.FeeMonotone | connectors/tesser-paper/src/fees.rs:64-74 | at a positive price, trading more never costs less |
| PaperFees.BuildModel | connectors/tesser-paper/src/fees.rs:106-126 | the default pair comes from the configured defaults and there is one override per configured market, with that market's rates |
| PaperFees.DefaultChargesNothing | connectors/tesser-paper/src/fees.rs:129-137 | the default schedule charges nothing on any trade |
| PaperFees.FlatSameForBothRoles | connectors/tesser-paper/src/fees.rs:88-95 | a flat schedule charges makers and takers alike |
| PaperFees.OverrideExample | connectors/tesser-paper/src/fees.rs:151-192 | a 0.1 bps maker override on BTCUSDT charges 0.125 for 0.5 at 25000, and the 0.02 bps taker default charges 2000 times 0.02/10000 for 1 at 2000 |
| Core.SplitNanos | tesser-data/src/parquet.rs:374-377 | a nanosecond count splits into whole seconds and a sub-second part in `[0, 10^9)` that together name exactly the same instant, also before the epoch |
| DataParquet.StringValue | tesser-data/src/parquet.rs:350-356 | a cell reads as text exactly when its column exists, is a string column and the cell is not null; otherwise a type mismatch or null error is reported |
| DataParquet.DecimalValue | tesser-data/src/parquet.rs:358-367 | a non-null decimal cell with a scale in `[0, 28]` and a mantissa within 96 bits reads as that mantissa and scale; anything else is a type or null error, or the `Unrepresentable` outcome that stands for the panic of `from_i128_with_scale` |
| DataParquet.ScaleAsU32 | tesser-data/src/parquet.rs:365 | a non-negative Arrow scale is kept and a negative one wraps modulo 2^32 to a value far above 28 |
| DataParquet.NegativeScaleRejected | tesser-data/src/parquet.rs:363-366 | a decimal column with a negative scale never yields a value |
| DataParquet.TimestampValue | tesser-data/src/parquet.rs:369-379 | a non-null nanosecond cell reads as an instant naming exactly those nanoseconds with a sub-second part below 10^9; otherwise a type or null error is reported |
| DataParquet.TimestampSplitUnique | tesser-data/src/parquet.rs:374-377 | the Euclidean split is the only split of an instant whose sub-second part is in range |
| DataParquet.TimestampBeforeEpoch | tesser-data/src/parquet.rs:374-377 | one nanosecond before the epoch reads as the last nanosecond of second -1 |
| DataParquet.SideValue | tesser-data/src/parquet.rs:381-391 | a non-null `i8` cell reads as a buy exactly when it is non-negative, and as a sell otherwise |
| DataParquet.SideRoundTrip | tesser-data/src/parquet.rs:381-391 | a side written as its signed unit reads back as the same side |
| DataParquet.ColumnIndex | tesser-data/src/parquet.rs:303-308 | the index found is that of the first column with the name, and a missing column is reported exactly when no column has it |
| DataParquet.TickColumnsFrom | tesser-data/src/parquet.rs:263-274 | tick columns are found exactly when the schema names all six tick columns, and each index points at its name |
| DataParquet.CandleColumnsFrom | tesser-data/src/parquet.rs:288-301 | candle columns are found exactly when the schema names all eight candle columns, and each index points at its name |
| DataParquet.DecodeTick | tesser-data/src/parquet.rs:310-325 | a tick decodes exactly when each of its six cells reads, and carries the exact price, the side and the exchange instant of its row |
| DataParquet.DecodeCandle | tesser-data/src/parquet.rs:327-348 | an interval that does not parse is reported with its text; a decoded candle carries its row's parsed interval, exact prices and instant |
| DataParquet.NewLoader | tesser-data/src/parquet.rs:180-190 | the loader holds the given paths, each once, in ascending path order, with nothing opened yet |
| Ordering.PathOrder | tesser-data/src/parquet.rs:181 | path order compares component by component and is a total order |
| Ordering.PathOrderIsNotStringOrder | tesser-data/src/parquet.rs:181 | sorting paths is not sorting their text: `a/b` comes before `a-b` as a path but after it as a string |
| Ordering.Sort | tesser-data/src/parquet.rs:181 | sorting returns a permutation of its input in non-decreasing order |
| Ordering.SortStable | tesser-data/src/download.rs:144 | the sort is stable: for any element, the elements that compare equal to it come out in their input order |
| DataParquet.EnsureBatch | tesser-data/src/parquet.rs:192-219 | a `true` answer leaves a batch with an unread row current, `false` means every file has been used, and files are only ever taken from the front |
| DataParquet.EnsureBatchClean | tesser-data/src/parquet.rs:192-250 | when nothing fails to read, making a batch current loses no row and answers `false` exactly when no row is left in any batch of any file |
| DataParquet.NextRow | tesser-data/src/parquet.rs:221-226 | a row is handed out exactly when a batch is current, and it is the current row index, which then moves on by one |
| DataParquet.NextRowUsesOne | tesser-data/src/parquet.rs:221-226 | handing out a row of the current batch uses up exactly one of the rows left |
| DataParquet.SchemaPendingOrKept | tesser-data/src/parquet.rs:228-250 | a pending schema is only replaced by a newer one, and opening a file always leaves its schema pending |
| DataParquet.CursorNext | tesser-data/src/parquet.rs:115-131 | at the end the cursor answers nothing; each row answered is the decoded current row under the current columns, and the row index moves on by one |
| DataParquet.CursorNextClean | tesser-data/src/parquet.rs:115-166 | when nothing fails, each call answers one row while rows are left and nothing once they are all used |
| DataParquet.StaleColumnsAfterSchemaError | tesser-data/src/parquet.rs:115-131 | a file whose schema lacks a column reports the error once, and its rows are then decoded with the previous file's column indices |
| DataParquet.NewMarketStream | tesser-data/src/parquet.rs:34-53 | a cursor exists for ticks, or candles, exactly when paths of that kind were given, and it reads those paths |
| DataParquet.NextTick | tesser-data/src/parquet.rs:77-82 | without a tick cursor the answer is always nothing; reading ticks never touches the candle cursor |
| DataParquet.NextCandle | tesser-data/src/parquet.rs:84-89 | without a candle cursor the answer is always nothing; reading candles never touches the tick cursor |
| DataParquet.NoTickPathsNoTicks | tesser-data/src/parquet.rs:34-82 | a stream built without tick paths answers no tick and stays as it was |
| EtlPipeline.DecimalToI128 | tesser-data/src/etl/mod.rs:483-506 | a decimal with more places than the canonical scale always converts, to a value within half a unit of the original and even at an exact midpoint (`MidpointNearestEven`); one with fewer is scaled up exactly, to its value times 10 to the canonical scale, or fails with an overflow error; every result fits `i128` |
| EtlPipeline.RoundsHalfToEven | tesser-data/src/etl/mod.rs:484-489 | at the canonical scale 0, 1.5 and 2.5 both convert to 2 and -2.5 to -2 |
| EtlPipeline.PartFileName | tesser-data/src/etl/mod.rs:415-419 | a part-file name is `part-`, a middle and `.parquet`, at least 13 characters, and its middle is all digits exactly for a partition's first chunk |
| EtlPipeline.PartFileNameRoundTrip | tesser-data/src/etl/mod.rs:415-419 | every part-file name reads back as the source number and chunk it was made from |
| EtlPipeline.PartFileNamesDistinct | tesser-data/src/etl/mod.rs:415-419 | two writes with different source numbers or chunks never share a file name |
| EtlPipeline.ForFile | tesser-data/src/etl/mod.rs:237-242 | the `i`-th file of a run is parsed with the run's mapping and symbol and written with source number `i` |
| EtlPipeline.FlushPartition | tesser-data/src/etl/mod.rs:365-384 | a flush reports how many rows it moved, empties that buffer only, keeps the set of partitions, and fails exactly when a row of that buffer does not fit the decimal column |
| EtlPipeline.FlushKeeps | tesser-data/src/etl/mod.rs:365-384 | a flush keeps every row either written or pending in its partition in order, and keeps each partition's chunk numbers consecutive |
| EtlPipeline.FlushAppends | tesser-data/src/etl/mod.rs:365-384 | a flush appends at most one part file, holding the flushed rows, under a chunk number the partition has not used |
| EtlPipeline.FlushWriter | tesser-data/src/etl/mod.rs:365-384 | a successful flush keeps all the writer's invariants, only appends part files and empties just the flushed buffer |
| EtlPipeline.FlushAll | tesser-data/src/etl/mod.rs:386-402 | flushing everything succeeds exactly when every buffered row fits the decimal column, and then every buffer is empty, earlier part files are kept and the writer's invariants hold |
| EtlPipeline.BufferRow | tesser-data/src/etl/mod.rs:331-357 | buffering a row keeps it accounted for in its partition, flushes so no buffer reaches 100000 rows, and fails only when some row does not fit the decimal column |
| EtlPipeline.NormalizeFile | tesser-data/src/etl/mod.rs:246-363 | a file normalizes exactly when every record parses and every decimal fits; it then counts its records, each partition's part files hold exactly its rows in file order, chunks are numbered 0, 1, … per partition, every part file holds 1 to 100000 rows, and no partition receives the same chunk twice |
| EtlPipeline.FinishFile | tesser-data/src/etl/mod.rs:360-362 | once every record is parsed and every buffer written out, the part files hold the whole file partition by partition |
| EtlPipeline.ParsedFails | tesser-data/src/etl/mod.rs:265-319 | a single record that does not parse makes the whole file fail |
| EtlPipeline.DistinctFiles | tesser-data/src/etl/mod.rs:381-399 | increasing chunk numbers per partition mean no partition is written the same chunk twice |
| EtlPipeline.Run | tesser-data/src/etl/mod.rs:222-244 | no matched file is an error; otherwise the run succeeds exactly when every file normalizes with its own source number, and then returns the total record count |
| EtlPipeline.KeyOf | tesser-data/src/etl/mod.rs:331-336 | a candle's key starts with the candle's own sanitized symbol and interval segments |
| StrategyRegistry.Empty | tesser-strategy/src/lib.rs:225-229 | a new registry knows no canonical name and no alias |
| StrategyRegistry.NormalizeName | tesser-strategy/src/lib.rs:298-300 | the normalized name is no longer than the name, has no upper-case ASCII letter and neither starts nor ends with a space |
| StrategyRegistry.NormalizeIdempotent | tesser-strategy/src/lib.rs:298-300 | normalizing a normalized name changes nothing |
| StrategyRegistry.NormalizeIgnoresCase | tesser-strategy/src/lib.rs:298-300 | upper-case letters and surrounding spaces do not change which name is looked up |
| StrategyRegistry.LowercaseTrim | tesser-strategy/src/lib.rs:298-300 | trimming and lower-casing commute |
| StrategyRegistry.InsertAliases | tesser-strategy/src/lib.rs:247-270 | after inserting the aliases each normalized alias leads to the factory, the map gains exactly those keys, and every other key keeps its factory |
| StrategyRegistry.AllNames | tesser-strategy/src/lib.rs:231-249 | the names a factory is registered under are exactly its canonical name and its aliases |
| StrategyRegistry.Register | tesser-strategy/src/lib.rs:231-250 | the factory replaces whatever held its canonical name and every normalized name and alias, and every other name keeps its factory |
| StrategyRegistry.Get | tesser-strategy/src/lib.rs:279-282 | a factory is found exactly when the normalized name is registered, and it is the one registered under it |
| StrategyRegistry.RegisterThenGet | tesser-strategy/src/lib.rs:231-282 | after registering, any spelling of any of the factory's names finds that factory |
| StrategyRegistry.RegisterKeepsOthers | tesser-strategy/src/lib.rs:231-282 | registering leaves lookups of every unrelated name as they were |
| StrategyRegistry.Build | tesser-strategy/src/lib.rs:272-277 | an unknown name is the error `unknown strategy: <name>`; a known one is built by its factory |
| StrategyRegistry.CanonicalNames | tesser-strategy/src/lib.rs:284-289 | every canonical name exactly once, in ascending byte order |
| RpcStrategy.Default | tesser-rpc/src/strategy.rs:39-50 | a fresh remote strategy holds no client and no transport, sends `{}` as its configuration, subscribes to nothing, has nothing queued and calls its symbol `UNKNOWN` |
| RpcStrategy.Name | tesser-rpc/src/strategy.rs:124-126 | the registered name is `rpc-strategy` |
| RpcStrategy.BuildClient | tesser-rpc/src/strategy.rs:53-63 | the client is a gRPC adapter for the configured endpoint and timeout |
| RpcStrategy.ApplyRemoteMetadata | tesser-rpc/src/strategy.rs:105-113 | the remote symbols become the subscriptions and the first of them the primary symbol; an empty list keeps the current symbol as the only subscription; nothing else changes |
| RpcStrategy.Subscriptions | tesser-rpc/src/strategy.rs:132-138 | never empty: the stored list, or the primary symbol alone when the list is empty |
| RpcStrategy.MetadataPrimaryFirst | tesser-rpc/src/strategy.rs:105-138 | once the remote metadata is applied, the primary symbol heads the subscriptions |
| RpcStrategy.Configure | tesser-rpc/src/strategy.rs:140-152 | a configuration that does not parse is an `InvalidConfig` error; one that does replaces the transport and resets client, subscriptions, symbol and queue, keeping the parameters as JSON or `{}` |
| RpcStrategy.EnsureClient | tesser-rpc/src/strategy.rs:65-103 | a held client is kept; otherwise each failure (no transport, connect failure, init failure, rejected init) gives its own error and leaves no client, and success applies the remote symbols and holds a client |
| RpcStrategy.InitializeOnce | tesser-rpc/src/strategy.rs:65-67 | once a client is held, asking again changes nothing whatever the remote side would answer |
| RpcStrategy.HandleSignals | tesser-rpc/src/strategy.rs:115-120 | the received signals are converted and queued after the earlier ones, in order, and nothing else changes |
| RpcStrategy.OnEvent | tesser-rpc/src/strategy.rs:154-212 | a failure to obtain a client is returned; a failed call is swallowed and queues nothing; a successful call queues its signals |
| RpcStrategy.Drain | tesser-rpc/src/strategy.rs:214-216 | hands over the whole queue in order and leaves it empty |
| RpcStrategy.FailedCallQueuesNothing | tesser-rpc/src/strategy.rs:154-166 | after a failed call, draining hands over only what was queued before |
| RpcConversions.FromDecimalProto | tesser-rpc/src/conversions.rs:18-20 | text that parses reads as its value, and text that does not reads as zero |
| RpcConversions.DecimalRoundTrip | tesser-rpc/src/conversions.rs:12-20 | a decimal whose text parses back to it survives the trip over the wire |
| RpcConversions.ToTimestampProto | tesser-rpc/src/conversions.rs:22-27 | whole seconds and a sub-second remainder below 10^9 that together give back the instant |
| RpcConversions.SideToProto | tesser-rpc/src/conversions.rs:31-36 | never the unspecified side, and read back gives the same side |
| RpcConversions.SideToProtoInjective | tesser-rpc/src/conversions.rs:31-36 | distinct sides are sent as distinct wire sides |
| RpcConversions.IntervalToProto | tesser-rpc/src/conversions.rs:38-48 | read back gives the same interval |
| RpcConversions.IntervalToProtoInjective | tesser-rpc/src/conversions.rs:38-48 | distinct intervals are sent as distinct wire intervals |
| RpcConversions.FillToProto | tesser-rpc/src/conversions.rs:100-116 | the wire fill has the fill's order, symbol and side, renders price and quantity, sends a missing fee as zero, and encodes the same instant |
| RpcConversions.PositionToProto | tesser-rpc/src/conversions.rs:118-137 | the wire position reads back to the position's side (unspecified for flat), renders its amounts with a missing entry price as zero, and encodes the same instant |
| RpcConversions.ContextToProto | tesser-rpc/src/conversions.rs:139-145 | one wire position per position, in order |
| RpcConversions.KindFromProto | tesser-rpc/src/conversions.rs:150-160 | each named wire kind gives the kind of that name; unspecified and unknown codes fall back to entering long |
| RpcConversions.KindRoundTrip | tesser-rpc/src/conversions.rs:150-160 | every signal kind survives the trip to the wire and back |
| RpcConversions.SignalFromProto | tesser-rpc/src/conversions.rs:149-181 | symbol, kind and confidence carried over; stop-loss and take-profit present exactly when sent; an empty note is no note |
| RpcConversions.SignalsFromProto | tesser-rpc/src/strategy.rs:115-120 | one signal per wire signal, in order |
| RpcTransport.New | tesser-rpc/src/transport/grpc.rs:26-33 | not yet connected, a timeout of at least 1 ms that keeps any positive timeout, and three attempts |
| RpcTransport.ShouldRetry | tesser-rpc/src/transport/grpc.rs:35-38 | retry exactly when attempts remain and the status is `Unavailable` or `DeadlineExceeded` |
| RpcTransport.Loop | tesser-rpc/src/transport/grpc.rs:40-76 | every attempt before the last was retried; a value or a non-retried status comes from the last attempt with the client kept; a connect failure drops the client; the attempt count is bounded by the retry bound |
| RpcTransport.CallWithRetry | tesser-rpc/src/transport/grpc.rs:40-76 | at most three attempts for a fresh adapter; a value is the answer of the last attempt and every earlier attempt was retried |
| RpcTransport.GivesUpAfterThree | tesser-rpc/src/transport/grpc.rs:35-76 | a server that is always unavailable is tried exactly three times and its last status is returned |
| RpcTransport.FailsFastOnPermanentError | tesser-rpc/src/transport/grpc.rs:66-69 | a status that is not transient is returned after one attempt, with the client kept |
| RpcTransport.ReconnectFailure | tesser-rpc/src/transport/grpc.rs:46-48 | a failed reconnection after a transient error ends the call with the connection error and no client |
| Text.Trim | tesser-execution/src/wasm/engine.rs:44 | the trimmed text is the input between its leading and trailing runs of white space, and neither starts nor ends with white space |
| Text.TrimIdempotent | tesser-execution/src/wasm/engine.rs:44 | trimming twice is trimming once |
| Text.Lowercase | tesser-strategy/src/lib.rs:299 | each character is lower-cased on its own, only `A` to `Z` change, and the length is kept |
| Text.ZeroPad | tesser-data/src/etl/mod.rs:416-418 | the zero-padded text denotes the number and is as wide as the number's digits or the requested width, whichever is larger |
| Text.ParseI64 | tesser-data/src/download.rs:162 | an accepted text is an optional sign and a run of digits whose value lies in the 64-bit range; empty text is rejected |
| Text.ParseShow | tesser-data/src/download.rs:162 | every 64-bit integer reads back from its own decimal text |
| Text.ParseRejectsOverflow | tesser-data/src/download.rs:162 | the text of an integer outside the 64-bit range is rejected |
| TuiEndpoint.NormalizeEndpoint | tesser-cli/src/tui/mod.rs:234-240 | the result always carries a scheme and ends with the address; an address with `http://` or `https://` is kept, any other gets `http://` in front |
| TuiEndpoint.NormalizeIdempotent | tesser-cli/src/tui/mod.rs:234-240 | normalizing twice is normalizing once |
| TuiEndpoint.NormalizeMeets | tesser-cli/src/tui/mod.rs:234-240 | two addresses normalize alike only when equal or when one is the other with `http://` added |

## Left out

- Storage engines are not modelled: SQLite, the Arrow and Parquet readers and writers, directory walking, glob and gzip. A stored ledger is a sequence of entries. A Parquet file is its schema and record batches, as returned by an `open` parameter. A written part file is recorded as a `Write`.
- Async code, the network and concurrency are not modelled: the gRPC control plane, the TUI event loop, the event bus, the rate limiter, HTTP in the downloader, and the order-management channel calls of the reconciliation handlers. Replies are parameters, and the handlers return the commands they would send.
- EtlPipeline.Run normalizes the files in order. The source uses rayon to normalize them in parallel and returns whichever failure comes first. The model says only that a failure occurs.
- WebAssembly compilation, instantiation, the plugin calls and the `wit_bindgen`/serde JSON plumbing are not modelled. Compiling is a parameter that returns a component number or an error.
- Floating-point code is not modelled: the `f64` strategies (ML classifier, pairs trading, RSI reversion, Bollinger reversion) and the research scripts. SmaCross's confidence and its `low * 0.98` stop-loss are kept as exact constants.
- `rust_decimal` arithmetic is exact `real` arithmetic. The 28-digit rounding of division is not modelled, so the RSI, EMA, Bollinger and fee values are exact quotients.
- `sqrt`, `Decimal::to_string` and `Decimal::from_str` are parameters. the Bollinger state carries `root`, and the conversion, ETL, download and chase modules take `parse` or `render`.
- The civil calendar is not modelled. Turning a timestamp into a year, month and day is a `civil` parameter.
- UUID generation and `Utc::now()` are inputs. This applies to the trailing-stop id, new ledger entries, synthetic order updates and the plugin test signal.
- Where the source iterates a `HashMap` or `HashSet`, the model states results as sets or maps instead of ordered lists. This covers zombies and discrepancies in the differ, ghost resolution, and the OCO winners.
- PaperConditional.Evaluate reports one winner per fired group as a map. The source appends the winners after the ungrouped orders in hash-map order.
- EtlPipeline.FlushAll stops at the first failing write, in the key order of a `BTreeMap`. The model does not specify which partition that is.
- LedgerSequencer.DrawStrictlyIncreasing and the other counting lemmas require `counter + n < 2^64`. Past that point the counter wraps. LedgerSequencer.Next models the release build, where the value after 2^64 - 1 is 0 (see LedgerSequencer.NextWrapsAtMax). A debug build panics on the `+ 1` instead, and that panic is not modelled.
- DataDownload.Truncate cuts after `max` characters. The source slices bytes, which panics inside a multi-byte UTF-8 character. The model has one character per byte, except that the appended suffix is held as its three characters, which are seven bytes in UTF-8.
- DataParquet.DecimalValue returns `Unrepresentable` where the source's `Decimal::from_i128_with_scale` panics. That happens for a scale above 28, which includes every negative Arrow scale after `as u32`, or a mantissa beyond 96 bits. The model does not stop the process.
- LedgerStore.WritePartition encodes amounts with the corrected encoder, LedgerAmount.Encode. A scaled mantissa beyond 96 bits is refused with a `Serialization` error. The source writes such a row and panics when reading it back (see Findings).
- LedgerStore.AppendBatch inherits that refusal from LedgerStore.WritePartition. The `timestamp_nanos_opt` error cannot arise, because model timestamps are already nanosecond integers. The part file left on disk when encoding fails after `File::create` is not modelled. The decimal form of each amount is the `repr` parameter.
- LedgerStore.AppendThenQueryAll holds for a batch that appends successfully. A batch holding an amount that does not encode fails, as LedgerStore.AppendBatch states.
- DataEtl.PartitionPath takes the date from the corrected day, DataEtl.Day (see Findings). The source's `datetime_from_ns` path is DataEtl.PartitionPathAsWritten. The two agree from the epoch on, and differ only within the last second before a midnight at or before the epoch.
- EtlPipeline.NormalizeFile partitions candles by DataEtl.PartitionPath, so it shares that correction. It also takes the CSV records already split into fields. The CSV reader's own record errors fail the source's file with `failed to read record n`; these are a row whose field count differs from the header's, invalid UTF-8 and read failures, and they are not modelled.
- Trailing-stop `state`/`from_state` is left out. It is serde JSON of the state record, which the model holds as a datatype.
- `StartupHandler::apply` builds a `Portfolio` from the exchange state (`tesser_portfolio`), which is not part of this model. The model states only the open orders and zombie cancellations it returns.
- The alert text, the `tracing` log lines and the live metrics counters of the reconciliation handlers are not modelled. Severe findings are kept as a set of findings, not as joined alert text.
- SmaCrossStrategy.New requires positive periods. The source panics through `expect` when a period is zero. `SmaCrossStrategy.Configure` models the error path that `configure` has.
- The documentation comment of `Ema` calls its smoothing "Wilder's". The code uses `alpha = 2 / (period + 1)`, and the model follows the code.
- RsiIndicator.ComputeRsi answers 0 where `1 + gain / loss` is zero, a division by zero the source does not guard. Averages of gains and losses are never negative, so that case never arises.
- WasmEngine.ResolvePath joins paths as strings. `Path::join` edge cases (`..`, repeated separators, a trailing `/` on the file name) are not modelled.
- DataMerger.NextEvent and DataParquet.CursorNext: read errors of the Parquet cursors in the merger are not modelled. The replay stream models batch read failures.
- DataParquet.TimestampValue: the overflow error of `DateTime::from_timestamp` is not modelled. It cannot occur for the seconds of an `i64` nanosecond count.
- DataEtl.ParseTimestamp and DataDownload.ParseEntry take RFC 3339 parsing and the representable range of `chrono` as parameters.
- EtlPipeline.DecimalToI128 leaves out the source's scale check after rounding, which cannot fail. It also takes the canonical decimal scale of `crate::schema` as a parameter, since that module is not part of this model.
- EtlPipeline.FlushPartition: the chunk counter's `saturating_add` on `usize` is unbounded in the model.
- DataEtl.SanitizeSymbol: as in the source, the sanitized symbol may still contain `/`. Sanitizing is not injective either: `binance:BTC` and `binance_BTC` share a partition, and so do the intervals `1 m` and `1-m`.
- The tesser_core types (`Side::as_i8`, `SignalKind::side`, `Interval::from_str`) are not part of this model. `Side` maps buy to +1 and sell to -1. `SignalKind::side` is the `sideOf` parameter and `Interval::from_str` is `parseInterval`.
- The TUI is modelled only as far as `normalize_endpoint`. Its terminal setup, pollers and key loop are left out, as are the Python SDK and the integration tests that need a built binary or a mock exchange.

## Findings

| source | as written | input that shows it | evidently intended | confidence | as-written member | corrected member |
|---|---|---|---|---|---|---|
| tesser-ledger/src/parquet.rs:382-400 | `decimal_to_i128` accepts any scaled mantissa that fits an `i128`, but `decimal_from_i128` builds the amount with `Decimal::from_i128_with_scale`, which panics beyond 96 bits | the amount 10^11 at scale 0 encodes to 10^29, which fits an `i128` but exceeds the 96-bit mantissa, so reading the row back panics | an amount is stored only if it can be read back: the encoder should reject values whose scaled mantissa exceeds 96 bits with a `Serialization` error | high (not executed) | LedgerAmount.EncodeAsWritten, LedgerAmount.EncodedAmountCannotBeDecoded | LedgerAmount.Encode, LedgerAmount.RoundTrip, LedgerStore.AppendBatch |
| tesser-data/src/etl/mod.rs:538-543 | `datetime_from_ns` splits nanoseconds with truncating `/` and takes `unsigned_abs` of the truncated `%`. A negative timestamp that is not a whole second moves to its mirror point inside its second: the whole second plus the fraction instead of minus it. The day changes only for a timestamp in the last second before a midnight at or before the epoch, and only timestamps in (-1 s, 0) cross the epoch | -1 ns becomes 0 s + 1 ns (1970-01-01) instead of -1 s + 999999999 ns (1969-12-31), so the candle is filed under 1970-01 instead of 1969-12. -1.5 s becomes -0.5 s and stays on 1969-12-31 | the Euclidean split (`div_euclid`/`rem_euclid`), as in the Parquet reader, so the instant is preserved | high (not executed) | DataEtl.DateTimeFromNsAsWritten, DataEtl.NegativeTimestampMisplaced, DataEtl.PartitionPathAsWritten, DataEtl.PartitionPathMisfiles | DataEtl.Day, DataEtl.DayOfSeconds, DataEtl.PartitionPath |

=== FILE: chase_plugin.dfy ===
/**
 * The example "chase" execution plugin (`examples/plugin-chase/src/lib.rs`):
 * it works a target quantity off in slices of at most `clip_size`, one
 * limit order per timer tick at the last seen price. Decimal parsing of
 * the `clip_size` parameter is an input (`parse`).
 */
module ChasePlugin {
  import opened Wrappers
  import opened Core
  import opened PluginTypes

  /** A JSON parameter value: only strings matter to the plugin. */
  datatype JsonValue = JString(s: string) | JOther

  datatype PluginInitContext = PluginInitContext(
    plugin: string,
    params: map<string, JsonValue>,
    signal: PluginSignal,
    risk: PluginRiskContext)

  datatype Chase = Chase(symbol: string, side: PluginSide, remaining: real, clipSize: real, lastPrice: real)

  /** The `clip_size` parameter when it is a string that parses, else 1. */
  function ClipSize(params: map<string, JsonValue>, parse: string -> Option<real>): (c: real)
    ensures ("clip_size" in params && params["clip_size"].JString? && parse(params["clip_size"].s).Some?)
      ==> c == parse(params["clip_size"].s).value
    ensures !("clip_size" in params && params["clip_size"].JString? && parse(params["clip_size"].s).Some?)
      ==> c == 1.0
  {
    if "clip_size" in params && params["clip_size"].JString? then
      parse(params["clip_size"].s).GetOr(1.0)
    else 1.0
  }

  /** `init`: take symbol and side from the signal, clamp the target at zero and the price at one. */
  function Init(ctx: PluginInitContext, parse: string -> Option<real>): (r: (Chase, PluginResult))
    ensures r.0.symbol == ctx.signal.symbol && r.0.side == ctx.signal.side
    ensures r.0.remaining == MaxReal(ctx.signal.targetQuantity, 0.0) && r.0.remaining >= 0.0
    ensures r.0.lastPrice == MaxReal(ctx.risk.lastPrice, 1.0) && r.0.lastPrice >= 1.0
    ensures r.0.clipSize == ClipSize(ctx.params, parse)
    ensures r.1 == EmptyResult()
  {
    (Chase(ctx.signal.symbol, ctx.signal.side, MaxReal(ctx.signal.targetQuantity, 0.0),
           ClipSize(ctx.params, parse), MaxReal(ctx.risk.lastPrice, 1.0)),
     EmptyResult())
  }

  /** `on_tick`: remember the price, emit nothing. */
  function OnTick(c: Chase, tick: PluginTick): (r: (Chase, PluginResult))
    ensures r.0.lastPrice == tick.price && r.0.(lastPrice := c.lastPrice) == c
    ensures r.1 == EmptyResult()
  {
    (c.(lastPrice := tick.price), EmptyResult())
  }

  /** The order for one slice: a limit order at the last price. */
  function SliceOrder(c: Chase, slice: real): PluginOrderRequest {
    PluginOrderRequest(c.symbol, c.side, PluginOrderType.Limit, slice, Some(c.lastPrice), None, None, None, None, None, None)
  }

  /** `on_timer`: with something left, place one slice of `min(clip, remaining)`. */
  function OnTimer(c: Chase): (r: (Chase, PluginResult))
    ensures c.remaining <= 0.0 ==> r == (c, EmptyResult())
    ensures c.remaining > 0.0 ==>
      var slice := MinReal(c.clipSize, c.remaining);
      && r.1.orders == [PluginChildOrderRequest(Place(SliceOrder(c, slice)))]
      && r.0.remaining == c.remaining - slice
      && r.0.(remaining := c.remaining) == c
    ensures !r.1.completed && r.1.logs == []
  {
    if c.remaining <= 0.0 then (c, EmptyResult())
    else
      var slice := MinReal(c.clipSize, c.remaining);
      (c.(remaining := c.remaining - slice), WithOrder(EmptyResult(), Place(SliceOrder(c, slice))))
  }

  /** The quantities of the orders `n` timer ticks place, and the state after them. */
  function RunTimers(c: Chase, n: nat): (r: (Chase, seq<real>))
    decreases n
  {
    if n == 0 then (c, [])
    else
      var step := OnTimer(c);
      var rest := RunTimers(step.0, n - 1);
      (rest.0, (if |step.1.orders| == 1 then [step.1.orders[0].action.request.quantity] else []) + rest.1)
  }

  function Sum(xs: seq<real>): real {
    if |xs| == 0 then 0.0 else xs[0] + Sum(xs[1..])
  }

  /**
   * With a positive clip the slices are positive, at most the clip, and
   * together with what remains they add up to the starting remainder, which
   * never goes negative.
   */
  lemma {:induction false} SlicesAddUp(c: Chase, n: nat)
    requires c.clipSize > 0.0 && c.remaining >= 0.0
    ensures var r := RunTimers(c, n);
      Sum(r.1) + r.0.remaining == c.remaining && 0.0 <= r.0.remaining <= c.remaining
      && (forall x :: x in r.1 ==> 0.0 < x <= c.clipSize)
      && r.0.clipSize == c.clipSize
    decreases n
  {
    if n > 0 {
      var step := OnTimer(c);
      SlicesAddUp(step.0, n - 1);
      var rest := RunTimers(step.0, n - 1).1;
      if c.remaining > 0.0 {
        var slice := MinReal(c.clipSize, c.remaining);
        assert ([slice] + rest)[1..] == rest;
        assert RunTimers(c, n).1 == [slice] + rest;
      } else {
        assert RunTimers(c, n).1 == rest;
      }
    }
  }

  /** Enough ticks work the whole target off: `n` clips cover the remainder. */
  lemma {:induction false} WorkedOff(c: Chase, n: nat)
    requires c.clipSize > 0.0 && c.remaining >= 0.0
    requires n as real * c.clipSize >= c.remaining
    ensures RunTimers(c, n).0.remaining == 0.0
    decreases n
  {
    if n == 0 {
      assert c.remaining == 0.0;
    } else {
      var next := OnTimer(c).0;
      assert (n - 1) as real * c.clipSize == n as real * c.clipSize - c.clipSize;
      assert (n - 1) as real * c.clipSize >= 0.0;
      WorkedOff(next, n - 1);
    }
  }

  /** A non-positive clip never works anything off: the remainder stays put while orders keep coming. */
  lemma NonPositiveClipStalls(c: Chase)
    requires c.clipSize <= 0.0 && c.remaining > 0.0
    ensures OnTimer(c).0.remaining >= c.remaining && |OnTimer(c).1.orders| == 1
  {
  }

  /** The plugin's example: 0.25 in clips of 0.1 goes out as 0.1, 0.1, 0.05. */
  lemma ClipExample(c: Chase)
    requires c.remaining == 0.25 && c.clipSize == 0.1
    ensures RunTimers(c, 4).1 == [0.1, 0.1, 0.05] && RunTimers(c, 4).0.remaining == 0.0
  {
    var s1 := OnTimer(c).0;
    var s2 := OnTimer(s1).0;
    var s3 := OnTimer(s2).0;
    assert s3.remaining == 0.0;
    assert RunTimers(s3, 1).1 == [];
  }
}

=== FILE: core.dfy ===
/**
 * Domain types shared by the trading components. They stand for the records
 * of the `tesser_core` crate, which is not part of this model: only the fields
 * the modelled code reads or writes are kept. Decimals are exact `real`s and
 * timestamps are integers on a single monotone clock.
 */
module Core {
  import opened Wrappers

  /** Direction of an order, fill or position. */
  datatype Side = Buy | Sell

  /**
   * The side as a signed unit (`Side::as_i8`): a buy adds to a position and a
   * sell removes from it.
   */
  function SideSign(side: Side): (r: int)
    ensures r == 1 || r == -1
    ensures r == 1 <==> side == Buy
  {
    if side == Buy then 1 else -1
  }

  type Symbol = string
  type ExchangeId = string

  /** An asset is a currency code on one exchange. */
  datatype AssetId = AssetId(exchange: ExchangeId, code: string)

  datatype InstrumentKind = Spot | LinearPerpetual | InversePerpetual

  datatype Instrument = Instrument(
    symbol: Symbol,
    kind: InstrumentKind,
    base: AssetId,
    quote: AssetId,
    settlement: AssetId)

  /** An execution report: `quantity` units traded at `price`. */
  datatype Fill = Fill(
    orderId: string,
    symbol: Symbol,
    side: Side,
    price: real,
    quantity: real,
    fee: Option<real>,
    feeAsset: Option<AssetId>,
    timestamp: int)

  datatype OrderStatus = PendingNew | Accepted | PartiallyFilled | Filled | Canceled | Rejected

  /** The order types the modelled code produces or inspects. */
  datatype OrderType = Market | Limit | StopMarket

  /** An order request; the fields the modelled code never reads are left out. */
  datatype OrderRequest = OrderRequest(
    symbol: Symbol,
    side: Side,
    orderType: OrderType,
    quantity: real,
    price: Option<real>,
    triggerPrice: Option<real>,
    clientOrderId: Option<string>)

  datatype Order = Order(
    id: string,
    request: OrderRequest,
    status: OrderStatus,
    filledQuantity: real,
    avgFillPrice: Option<real>,
    updatedAt: int)

  /** A position; `side` is absent for a flat position. */
  datatype Position = Position(
    symbol: Symbol,
    side: Option<Side>,
    quantity: real,
    entryPrice: Option<real>,
    unrealizedPnl: real,
    updatedAt: int)

  datatype AccountBalance = AccountBalance(asset: AssetId, total: real, available: real)

  datatype Interval = OneSecond | OneMinute | FiveMinutes | FifteenMinutes | OneHour | FourHours | OneDay

  datatype Candle = Candle(
    symbol: Symbol,
    interval: Interval,
    open: real,
    high: real,
    low: real,
    close: real,
    volume: real,
    timestamp: int)

  datatype Tick = Tick(
    symbol: Symbol,
    price: real,
    size: real,
    side: Side,
    exchangeTimestamp: int,
    receivedAt: int)

  datatype BookLevel = BookLevel(price: real, size: real)

  datatype OrderBook = OrderBook(symbol: Symbol, bids: seq<BookLevel>, asks: seq<BookLevel>, timestamp: int)

  datatype SignalKind = EnterLong | ExitLong | EnterShort | ExitShort | Flatten

  /** A trading intent emitted by a strategy. */
  datatype Signal = Signal(
    symbol: Symbol,
    kind: SignalKind,
    confidence: real,
    stopLoss: Option<real>,
    takeProfit: Option<real>,
    note: Option<string>)

  /** `Signal::new`: a signal with no stop-loss, take-profit or note. */
  function NewSignal(symbol: Symbol, kind: SignalKind, confidence: real): (s: Signal)
    ensures s.symbol == symbol && s.kind == kind && s.confidence == confidence
    ensures s.stopLoss.None? && s.takeProfit.None? && s.note.None?
  {
    Signal(symbol, kind, confidence, None, None, None)
  }

  function Abs(x: real): (r: real)
    ensures r >= 0.0
    ensures r == x || r == -x
  {
    if x < 0.0 then -x else x
  }

  function MaxReal(a: real, b: real): (r: real)
    ensures r >= a && r >= b
    ensures r == a || r == b
  {
    if a >= b then a else b
  }

  function MinReal(a: real, b: real): (r: real)
    ensures r <= a && r <= b
    ensures r == a || r == b
  {
    if a <= b then a else b
  }

  /** `10^n` as an integer. */
  function Pow10(n: nat): (r: nat)
    ensures r >= 1
  {
    if n == 0 then 1 else 10 * Pow10(n - 1)
  }

  const NANOS_PER_SECOND: int := 1_000_000_000

  /**
   * A nanosecond timestamp as whole seconds and a sub-second part in
   * `[0, 10^9)` (`div_euclid`/`rem_euclid`): the instant it names is exactly
   * the timestamp.
   */
  function SplitNanos(nanos: int): (r: (int, nat))
    ensures r.1 < NANOS_PER_SECOND
    ensures r.0 * NANOS_PER_SECOND + r.1 == nanos
  {
    (nanos / NANOS_PER_SECOND, nanos % NANOS_PER_SECOND)
  }
}

=== FILE: data_download.dfy ===
/**
 * The Bybit kline downloader of `tesser-data/src/download.rs`: the endpoint
 * URL, the parsing of one kline entry, the log-snippet truncation and the
 * paging loop that walks a time range with a moving cursor and returns the
 * candles in time order without repeated timestamps. Timestamps are
 * milliseconds since the epoch. The HTTP exchange is a function from the
 * query sent to the reply received; decimal text parsing and the date range
 * of `chrono` are parameters.
 */
module DataDownload {
  import opened Wrappers
  import opened Core
  import opened Text
  import opened Ordering

  /** The largest page Bybit serves. */
  const MAX_LIMIT: nat := 1000

  /** `Interval::as_duration` in milliseconds. */
  function IntervalMillis(interval: Interval): (ms: nat)
    ensures ms > 0
    ensures ms % 1000 == 0
  {
    match interval
    case OneSecond => 1_000
    case OneMinute => 60_000
    case FiveMinutes => 300_000
    case FifteenMinutes => 900_000
    case OneHour => 3_600_000
    case FourHours => 14_400_000
    case OneDay => 86_400_000
  }

  /** A kline download request; `start` and `end` are milliseconds. */
  datatype KlineRequest = KlineRequest(
    category: string,
    symbol: Symbol,
    interval: Interval,
    start: int,
    end: int,
    limit: nat)

  /** `KlineRequest::new`: the given range at the largest page size. */
  function NewRequest(category: string, symbol: Symbol, interval: Interval, start: int, end: int): (r: KlineRequest)
    ensures r.limit == MAX_LIMIT
    ensures r.category == category && r.symbol == symbol && r.interval == interval
    ensures r.start == start && r.end == end
  {
    KlineRequest(category, symbol, interval, start, end, MAX_LIMIT)
  }

  /** The page size sent: the request's limit, capped at `MAX_LIMIT`. */
  function PageLimit(req: KlineRequest): (n: nat)
    ensures n <= MAX_LIMIT && n <= req.limit
    ensures n == req.limit || n == MAX_LIMIT
  {
    if req.limit <= MAX_LIMIT then req.limit else MAX_LIMIT
  }

  /** `trim_end_matches('/')`: the longest prefix that does not end in a separator. */
  function TrimEndSlashes(s: string): (r: string)
    ensures |r| <= |s| && r == s[..|r|]
    ensures forall k :: |r| <= k < |s| ==> s[k] == '/'
    ensures |r| > 0 ==> r[|r| - 1] != '/'
  {
    if |s| == 0 || s[|s| - 1] != '/' then s
    else TrimEndSlashes(s[..|s| - 1])
  }

  /** `endpoint`: the base URL without trailing separators, one `/`, then the path. */
  function Endpoint(baseUrl: string, path: string): (r: string)
    ensures |r| > |path| && r[|r| - |path|..] == path && r[|r| - |path| - 1] == '/'
    ensures var base := r[..|r| - |path| - 1];
      && |base| <= |baseUrl| && base == baseUrl[..|base|]
      && (forall k :: |base| <= k < |baseUrl| ==> baseUrl[k] == '/')
      && (|base| > 0 ==> base[|base| - 1] != '/')
  {
    var base := TrimEndSlashes(baseUrl);
    var r := base + "/" + path;
    assert r[..|r| - |path| - 1] == base;
    r
  }

  /** Trailing separators on the base URL make no difference to the endpoint. */
  lemma {:induction false} EndpointIgnoresTrailingSlashes(baseUrl: string, extra: nat, path: string)
    ensures Endpoint(baseUrl + seq(extra, _ => '/'), path) == Endpoint(baseUrl, path)
    decreases extra
  {
    if extra > 0 {
      var longer := baseUrl + seq(extra, _ => '/');
      assert longer[..|longer| - 1] == baseUrl + seq(extra - 1, _ => '/');
      EndpointIgnoresTrailingSlashes(baseUrl, extra - 1, path);
    } else {
      assert baseUrl + seq(extra, _ => '/') == baseUrl;
    }
  }

  /**
   * The suffix appended to a truncated snippet: the three characters
   * U+00E2 U+20AC U+00A6 of the source's literal (the UTF-8 bytes of an
   * ellipsis read back as Windows-1252), not a single ellipsis character.
   */
  const ELLIPSIS: string := "\U{00E2}\U{20AC}\U{00A6}"

  /**
   * `truncate`: the body itself when it is at most `max` long, else its
   * first `max` characters and the suffix. One character stands for one
   * byte of the UTF-8 text.
   */
  function Truncate(body: string, max: nat): (r: string)
    ensures |body| <= max ==> r == body
    ensures |body| > max ==> |r| == max + 3 && r[..max] == body[..max] && r[max..] == ELLIPSIS
  {
    if |body| <= max then body else body[..max] + ELLIPSIS
  }

  /** Truncating a snippet again changes nothing. */
  lemma TruncateIdempotent(body: string, max: nat)
    ensures Truncate(Truncate(body, max), max) == Truncate(body, max)
  {
    if |body| > max {
      var once := Truncate(body, max);
      assert once[..max] + ELLIPSIS == once;
    }
  }

  /**
   * `parse_entry`: a kline entry is at least six texts, read in order as the
   * start time, open, high, low, close and volume. Each must parse, and the
   * time must be a date `chrono` can represent (`representable`).
   */
  function ParseEntry(
    entry: seq<string>, symbol: Symbol, interval: Interval,
    parseDecimal: string -> Option<real>, representable: int -> bool)
    : (r: Option<Candle>)
    ensures r.Some? <==>
      (&& |entry| >= 6
       && ParseI64(entry[0]).Some? && representable(ParseI64(entry[0]).value)
       && (forall k :: 1 <= k < 6 ==> parseDecimal(entry[k]).Some?))
    ensures r.Some? ==>
      && r.value.timestamp == ParseI64(entry[0]).value
      && Some(r.value.open) == parseDecimal(entry[1])
      && Some(r.value.high) == parseDecimal(entry[2])
      && Some(r.value.low) == parseDecimal(entry[3])
      && Some(r.value.close) == parseDecimal(entry[4])
      && Some(r.value.volume) == parseDecimal(entry[5])
      && r.value.symbol == symbol && r.value.interval == interval
  {
    if |entry| < 6 then None
    else
      match ParseI64(entry[0])
      case None => None
      case Some(ts) =>
        if !representable(ts) then None
        else
          var fields := [parseDecimal(entry[1]), parseDecimal(entry[2]), parseDecimal(entry[3]),
                         parseDecimal(entry[4]), parseDecimal(entry[5])];
          if exists k :: 0 <= k < 5 && fields[k].None? then
            assert forall k :: 1 <= k < 6 ==> parseDecimal(entry[k]) == fields[k - 1];
            None
          else
            Some(Candle(symbol, interval, fields[0].value, fields[1].value, fields[2].value,
                        fields[3].value, fields[4].value, ts))
  }

  /** An entry with five fields is never a candle, whatever they hold. */
  lemma ShortEntryRejected(entry: seq<string>, symbol: Symbol, interval: Interval,
                           parseDecimal: string -> Option<real>, representable: int -> bool)
    requires |entry| == 5
    ensures ParseEntry(entry, symbol, interval, parseDecimal, representable).None?
  {
  }

  /** The query of one page: the endpoint and its parameters. */
  datatype Query = Query(
    url: string,
    category: string,
    symbol: Symbol,
    interval: Interval,
    start: int,
    end: int,
    limit: nat)

  /** The body Bybit sends, as decoded from JSON. */
  datatype KlineResponse = KlineResponse(retCode: int, retMsg: string, result: Option<seq<seq<string>>>)

  /**
   * What a page request produces: a transport failure (sending or reading
   * the body), or an HTTP status with the body and what the JSON decoder
   * makes of it.
   */
  datatype Reply =
    | TransportFailed(message: string)
    | Http(status: nat, body: string, decoded: Option<KlineResponse>)

  datatype DownloadError =
    | InvalidRange
    | Transport(message: string)
    | Status(status: nat, snippet: string)
    | Malformed(snippet: string)
    | Api(retCode: int, retMsg: string)

  predicate IsSuccess(status: nat) {
    200 <= status < 300
  }

  /** The effects the downloader depends on. */
  datatype Env = Env(
    fetch: Query -> Reply,
    parseDecimal: string -> Option<real>,
    representable: int -> bool)

  /** The candle an entry denotes, if it parses and starts within `[from, to]`. */
  predicate InPage(entry: seq<string>, req: KlineRequest, env: Env, from: int, to: int) {
    var c := ParseEntry(entry, req.symbol, req.interval, env.parseDecimal, env.representable);
    c.Some? && from <= c.value.timestamp <= to
  }

  /** The parsed entries of a page that start within `[from, to]`, in page order. */
  function PageBatch(list: seq<seq<string>>, req: KlineRequest, env: Env, from: int, to: int): (r: seq<Candle>)
    ensures forall c :: c in r ==> from <= c.timestamp <= to && c.symbol == req.symbol && c.interval == req.interval
    ensures forall c :: c in r <==>
      exists i :: 0 <= i < |list| && InPage(list[i], req, env, from, to)
                  && ParseEntry(list[i], req.symbol, req.interval, env.parseDecimal, env.representable) == Some(c)
    ensures |r| <= |list|
    decreases |list|
  {
    if |list| == 0 then []
    else
      var rest := PageBatch(list[1..], req, env, from, to);
      assert forall i :: 1 <= i < |list| ==> list[i] == list[1..][i - 1];
      assert forall j :: 0 <= j < |list[1..]| ==> list[1..][j] == list[j + 1];
      if InPage(list[0], req, env, from, to) then
        [ParseEntry(list[0], req.symbol, req.interval, env.parseDecimal, env.representable).value] + rest
      else rest
  }

  /** Candles compare by start time (`sort_by_key(|c| c.timestamp)`). */
  function TimeLeq(a: Candle, b: Candle): bool {
    a.timestamp <= b.timestamp
  }

  lemma TimeOrder()
    ensures TotalPreorder(TimeLeq)
  {
  }

  /** The outcome of one page: an error, the end of the data, or a batch and the next cursor. */
  datatype Page = Failed(error: DownloadError) | Done | Batch(candles: seq<Candle>, next: int)

  /**
   * One round of the loop at `cursor`: request the page; a transport
   * failure, an unsuccessful status, an undecodable body or a non-zero
   * return code is an error; a missing result, an empty list or a page with
   * no candle in `[cursor, end]` ends the download; otherwise the kept
   * candles, sorted, and the cursor one interval past the last of them.
   */
  function FetchPage(baseUrl: string, req: KlineRequest, env: Env, cursor: int): (p: Page)
    ensures p.Batch? ==>
      && |p.candles| > 0
      && (forall c :: c in p.candles ==> cursor <= c.timestamp <= req.end)
      && (forall c :: c in p.candles ==> c.symbol == req.symbol && c.interval == req.interval)
      && (forall c :: c in p.candles ==> c.timestamp < p.next)
      && p.next > cursor
  {
    var query := Query(Endpoint(baseUrl, "v5/market/kline"), req.category, req.symbol, req.interval,
                       cursor, req.end, PageLimit(req));
    match env.fetch(query)
    case TransportFailed(m) => Failed(Transport(m))
    case Http(status, body, decoded) =>
      if !IsSuccess(status) then Failed(Status(status, Truncate(body, 256)))
      else if decoded.None? then Failed(Malformed(Truncate(body, 256)))
      else if decoded.value.retCode != 0 then Failed(Api(decoded.value.retCode, decoded.value.retMsg))
      else if decoded.value.result.None? || |decoded.value.result.value| == 0 then Done
      else
        PageOf(PageBatch(decoded.value.result.value, req, env, cursor, req.end), req, cursor)
  }

  /** The end of the data when no candle was kept, else the kept candles sorted and the cursor one interval past the last. */
  function PageOf(batch: seq<Candle>, req: KlineRequest, cursor: int): (p: Page)
    requires forall c :: c in batch ==> cursor <= c.timestamp <= req.end && c.symbol == req.symbol && c.interval == req.interval
    ensures p.Batch? ==>
      && |p.candles| > 0
      && (forall c :: c in p.candles ==> cursor <= c.timestamp <= req.end)
      && (forall c :: c in p.candles ==> c.symbol == req.symbol && c.interval == req.interval)
      && (forall c :: c in p.candles ==> c.timestamp < p.next)
      && p.next > cursor
    ensures p.Done? <==> |batch| == 0
    ensures p.Batch? ==> multiset(p.candles) == multiset(batch)
  {
    if |batch| == 0 then Done
    else
      var sorted := SortByTime(batch);
      Batch(sorted, sorted[|sorted| - 1].timestamp + IntervalMillis(req.interval))
  }

  /** `sort_by_key(|c| c.timestamp)`: the same candles in time order, the last one the latest. */
  function SortByTime(s: seq<Candle>): (r: seq<Candle>)
    ensures multiset(r) == multiset(s)
    ensures Sorted(r, TimeLeq)
    ensures forall c :: c in r <==> c in s
    ensures |r| == |s|
    ensures |r| > 0 ==> forall c :: c in r ==> c.timestamp <= r[|r| - 1].timestamp
  {
    TimeOrder();
    var r := Sort(s, TimeLeq);
    SameMembers(r, s);
    r
  }

  /** Candles with equal timestamps keep the order they arrived in, as `sort_by_key` is stable. */
  lemma SortByTimeStable(s: seq<Candle>, y: Candle)
    ensures Tied(SortByTime(s), y, TimeLeq) == Tied(s, y, TimeLeq)
  {
    TimeOrder();
    SortStable(s, y, TimeLeq);
  }

  /** Sequences with the same multiset have the same members. */
  lemma SameMembers(a: seq<Candle>, b: seq<Candle>)
    requires multiset(a) == multiset(b)
    ensures forall c :: c in a <==> c in b
  {
    forall c ensures c in a <==> c in b {
      assert c in a <==> c in multiset(a);
      assert c in b <==> c in multiset(b);
    }
  }

  /**
   * The loop from `cursor` on: while the cursor is before the end, fetch a
   * page and append its candles. Every candle collected starts within
   * `[cursor, end]` and the collected candles are in the order received.
   */
  function Collect(baseUrl: string, req: KlineRequest, env: Env, cursor: int): (r: Result<seq<Candle>, DownloadError>)
    ensures r.Ok? ==> forall c :: c in r.value ==>
      cursor <= c.timestamp <= req.end && c.symbol == req.symbol && c.interval == req.interval
    ensures cursor >= req.end ==> r == Ok([])
    decreases req.end - cursor
  {
    if cursor >= req.end then Ok([])
    else
      match FetchPage(baseUrl, req, env, cursor)
      case Failed(e) => Err(e)
      case Done => Ok([])
      case Batch(candles, next) =>
        match Collect(baseUrl, req, env, next)
        case Err(e) => Err(e)
        case Ok(more) => Ok(candles + more)
  }

  /** Pages never overlap: every candle of a later page starts after every candle of an earlier one. */
  lemma {:induction false} CollectPagesAscend(baseUrl: string, req: KlineRequest, env: Env, cursor: int)
    requires cursor < req.end && FetchPage(baseUrl, req, env, cursor).Batch?
    ensures var p := FetchPage(baseUrl, req, env, cursor);
      var rest := Collect(baseUrl, req, env, p.next);
      rest.Ok? ==> forall a, b :: a in p.candles && b in rest.value ==> a.timestamp < b.timestamp
  {
  }

  /**
   * `dedup_by_key(|c| c.timestamp)`: of each run of candles with the same
   * start time, only the first is kept.
   */
  function Dedup(s: seq<Candle>): (r: seq<Candle>)
    ensures |r| <= |s|
    ensures |s| > 0 ==> |r| > 0 && r[0] == s[0]
    decreases |s|
  {
    if |s| <= 1 then s
    else if s[0].timestamp == s[1].timestamp then Dedup([s[0]] + s[2..])
    else [s[0]] + Dedup(s[1..])
  }

  /** `Dedup` keeps only candles of its input. */
  lemma {:induction false} DedupSubset(s: seq<Candle>)
    ensures forall c :: c in Dedup(s) ==> c in s
    decreases |s|
  {
    if |s| <= 1 {
    } else if s[0].timestamp == s[1].timestamp {
      DropSecond(s);
      DedupSubset([s[0]] + s[2..]);
    } else {
      DedupSubset(s[1..]);
    }
  }

  /** `Dedup` keeps a candle for every start time of its input. */
  lemma {:induction false} DedupCovers(s: seq<Candle>)
    ensures forall c :: c in s ==> exists d :: d in Dedup(s) && d.timestamp == c.timestamp
    decreases |s|
  {
    if |s| <= 1 {
      assert Dedup(s) == s;
    } else if s[0].timestamp == s[1].timestamp {
      DropSecond(s);
      DedupCovers([s[0]] + s[2..]);
    } else {
      DedupCovers(s[1..]);
      var r := Dedup(s);
      forall c | c in s ensures exists d :: d in r && d.timestamp == c.timestamp {
        if c != s[0] {
          assert c in s[1..];
          var d :| d in Dedup(s[1..]) && d.timestamp == c.timestamp;
          assert d in r;
        } else {
          assert r[0] == c;
        }
      }
    }
  }

  /** On a time-ordered input, `Dedup` leaves strictly ascending start times. */
  lemma {:induction false} DedupAscending(s: seq<Candle>)
    requires Sorted(s, TimeLeq)
    ensures forall i :: 0 <= i < |Dedup(s)| - 1 ==> Dedup(s)[i].timestamp < Dedup(s)[i + 1].timestamp
    decreases |s|
  {
    if |s| <= 1 {
    } else if s[0].timestamp == s[1].timestamp {
      DropSecond(s);
      DedupAscending([s[0]] + s[2..]);
    } else {
      assert Sorted(s[1..], TimeLeq);
      DedupAscending(s[1..]);
      var r := Dedup(s);
      assert r == [s[0]] + Dedup(s[1..]);
      assert Dedup(s[1..])[0] == s[1];
    }
  }

  /** Dropping the second of two candles with the same start time keeps order and start times. */
  lemma DropSecond(s: seq<Candle>)
    requires |s| >= 2 && s[0].timestamp == s[1].timestamp
    ensures var t := [s[0]] + s[2..];
      && (Sorted(s, TimeLeq) ==> Sorted(t, TimeLeq))
      && (forall c :: c in t ==> c in s)
      && (forall c :: c in s ==> exists d :: d in t && d.timestamp == c.timestamp)
  {
    var t := [s[0]] + s[2..];
    if Sorted(s, TimeLeq) {
      forall i, j | 0 <= i < j < |t| ensures TimeLeq(t[i], t[j]) {
        assert t[j] == s[j + 1];
        assert t[i] == s[if i == 0 then 0 else i + 1];
      }
    }
    forall c | c in s ensures exists d :: d in t && d.timestamp == c.timestamp {
      var i :| 0 <= i < |s| && s[i] == c;
      if i >= 2 {
        assert t[i - 1] == c;
      } else {
        assert t[0] == s[0];
      }
    }
  }

  /**
   * `download_klines`: a range that does not start before it ends is
   * rejected; otherwise the pages are collected from the start, then sorted
   * by start time with repeated start times dropped.
   */
  function DownloadKlines(baseUrl: string, req: KlineRequest, env: Env): (r: Result<seq<Candle>, DownloadError>)
    ensures req.start >= req.end ==> r == Err(InvalidRange)
    ensures r.Ok? ==> Ascending(r.value)
    ensures r.Ok? ==> forall c :: c in r.value ==>
      req.start <= c.timestamp <= req.end && c.symbol == req.symbol && c.interval == req.interval
    ensures req.start < req.end ==> (r.Err? <==> Collect(baseUrl, req, env, req.start).Err?)
    ensures r.Ok? ==>
      (forall c :: c in Collect(baseUrl, req, env, req.start).value ==>
         exists d :: d in r.value && d.timestamp == c.timestamp)
      && (forall d :: d in r.value ==> d in Collect(baseUrl, req, env, req.start).value)
  {
    if req.start >= req.end then Err(InvalidRange)
    else
      var collected := Collect(baseUrl, req, env, req.start);
      if collected.Err? then Err(collected.error) else Ok(Clean(collected.value))
  }

  /** Strictly increasing start times. */
  predicate Ascending(s: seq<Candle>) {
    forall i :: 0 <= i < |s| - 1 ==> s[i].timestamp < s[i + 1].timestamp
  }

  /** The collected candles sorted by start time, with repeated start times dropped. */
  function Clean(candles: seq<Candle>): (r: seq<Candle>)
    ensures Ascending(r)
    ensures forall c :: c in candles ==> exists d :: d in r && d.timestamp == c.timestamp
    ensures forall d :: d in r ==> d in candles
  {
    CleanFacts(candles);
    Dedup(SortByTime(candles))
  }

  lemma CleanFacts(candles: seq<Candle>)
    ensures var r := Dedup(SortByTime(candles));
      && Ascending(r)
      && (forall c :: c in candles ==> exists d :: d in r && d.timestamp == c.timestamp)
      && (forall d :: d in r ==> d in candles)
  {
    var sorted := SortByTime(candles);
    DedupSubset(sorted);
    DedupCovers(sorted);
    DedupAscending(sorted);
    assert Ascending(Dedup(sorted));
    hide *;
  }

  /** A failing first request fails the whole download. */
  lemma FirstPageFailure(baseUrl: string, req: KlineRequest, env: Env)
    requires req.start < req.end && FetchPage(baseUrl, req, env, req.start).Failed?
    ensures DownloadKlines(baseUrl, req, env) == Err(FetchPage(baseUrl, req, env, req.start).error)
  {
  }

  /** A first page with nothing in range ends the download with no candles. */
  lemma EmptyFirstPage(baseUrl: string, req: KlineRequest, env: Env)
    requires req.start < req.end && FetchPage(baseUrl, req, env, req.start).Done?
    ensures DownloadKlines(baseUrl, req, env) == Ok([])
  {
  }
}

=== FILE: data_etl.dfy ===
/**
 * Row-level parsing and file naming of the CSV-to-Parquet candle pipeline
 * (`tesser-data/src/etl/mod.rs`). A CSV record is a sequence of fields;
 * `rust_decimal` text parsing, RFC 3339 parsing and the civil calendar are
 * inputs, and the canonical decimal scale of `crate::schema` is a parameter.
 */
module DataEtl {
  import opened Wrappers
  import opened Core
  import opened Text
  import opened FixedPoint

  datatype Partitioning = Daily | Monthly

  datatype TimestampUnit = Seconds | Milliseconds | Microseconds | Nanoseconds

  /** A mapping that names no unit reads milliseconds. */
  const DEFAULT_UNIT: TimestampUnit := Milliseconds

  datatype TimestampFormat = Unix | Rfc3339

  const DEFAULT_FORMAT: TimestampFormat := Unix

  /** A mapping that names no interval labels its candles `1m`. */
  const DEFAULT_INTERVAL: string := "1m"

  /** `TimestampUnit::multiplier`: nanoseconds per unit. */
  function Multiplier(u: TimestampUnit): (r: int)
    ensures 1 <= r <= NANOS_PER_SECOND
    ensures u == Nanoseconds <==> r == 1
  {
    match u
    case Seconds => 1_000_000_000
    case Milliseconds => 1_000_000
    case Microseconds => 1_000
    case Nanoseconds => 1
  }

  /** Each unit is a thousand of the next finer one, and a second is 10^9 nanoseconds. */
  lemma MultipliersAreNanosPerUnit()
    ensures Multiplier(Seconds) == NANOS_PER_SECOND
    ensures Multiplier(Seconds) == 1000 * Multiplier(Milliseconds)
    ensures Multiplier(Milliseconds) == 1000 * Multiplier(Microseconds)
    ensures Multiplier(Microseconds) == 1000 * Multiplier(Nanoseconds)
  {
  }

  datatype EtlError =
    | MissingColumn(name: string, col: nat)
    | EmptyColumn(name: string, col: nat)
    | InvalidValue(name: string, raw: string)
    | TimestampOverflow(raw: string)
    | HighBelowLow(row: nat)
    | NegativeVolume(row: nat)
    | NoSources
    | ScaleTooLarge
    | DecimalOverflow

  type Record = seq<string>

  /** Column `col` of a record, trimmed; a missing or blank column is an error naming `name`. */
  function Column(record: Record, col: nat, name: string): (r: Result<string, EtlError>)
    ensures r == Err(MissingColumn(name, col)) <==> col >= |record|
    ensures r == Err(EmptyColumn(name, col)) <==> col < |record| && |Trim(record[col])| == 0
    ensures r.Ok? <==> col < |record| && |Trim(record[col])| > 0
    ensures r.Ok? ==> r.value == Trim(record[col])
  {
    if col >= |record| then Err(MissingColumn(name, col))
    else
      var raw := Trim(record[col]);
      if |raw| == 0 then Err(EmptyColumn(name, col)) else Ok(raw)
  }

  /**
   * `parse_unix`: a 64-bit integer count of `unit`s, converted to
   * nanoseconds with overflow checking.
   */
  function ParseUnix(raw: string, unit: TimestampUnit): (r: Result<int, EtlError>)
    ensures r.Ok? <==> ParseI64(raw).Some? && I64_MIN <= ParseI64(raw).value * Multiplier(unit) <= I64_MAX
    ensures r.Ok? ==> r.value == ParseI64(raw).value * Multiplier(unit)
    ensures ParseI64(raw).None? ==> r == Err(InvalidValue("timestamp", raw))
  {
    match ParseI64(raw)
    case None => Err(InvalidValue("timestamp", raw))
    case Some(v) =>
      var nanos := v * Multiplier(unit);
      if I64_MIN <= nanos <= I64_MAX then Ok(nanos) else Err(TimestampOverflow(raw))
  }

  /** The same instant written in seconds and in milliseconds parses to the same nanoseconds. */
  lemma UnitsAgree(v: int)
    requires I64_MIN <= v * NANOS_PER_SECOND <= I64_MAX
    ensures ParseUnix(ShowInt(v), Seconds).Ok?
    ensures ParseUnix(ShowInt(v), Seconds) == ParseUnix(ShowInt(1000 * v), Milliseconds)
  {
    assert I64_MIN <= v <= I64_MAX;
    assert I64_MIN <= 1000 * v <= I64_MAX;
    ParseShow(v);
    ParseShow(1000 * v);
    assert (1000 * v) * 1_000_000 == v * 1_000_000_000;
  }

  datatype TimestampField = TimestampField(col: nat, unit: TimestampUnit, format: TimestampFormat)

  /**
   * `TimestampField::parse`: the trimmed column read as Unix time in the
   * field's unit, or as RFC 3339 text through `rfc3339` (nanoseconds, `None`
   * when the text is invalid or out of range).
   */
  function ParseTimestamp(field: TimestampField, record: Record, rfc3339: string -> Option<int>): (r: Result<int, EtlError>)
    ensures Column(record, field.col, "timestamp").Err? ==> r == Column(record, field.col, "timestamp").PropagateFailure()
    ensures Column(record, field.col, "timestamp").Ok? && field.format == Unix ==>
      r == ParseUnix(Column(record, field.col, "timestamp").value, field.unit)
    ensures r.Ok? && field.format == Rfc3339 ==> Some(r.value) == rfc3339(Trim(record[field.col]))
  {
    match Column(record, field.col, "timestamp")
    case Err(e) => Err(e)
    case Ok(raw) =>
      match field.format
      case Unix => ParseUnix(raw, field.unit)
      case Rfc3339 =>
        match rfc3339(raw)
        case Some(nanos) => Ok(nanos)
        case None => Err(InvalidValue("timestamp", raw))
  }

  datatype ValueField = ValueField(col: nat)

  /** `ValueField::parse_decimal`: the trimmed column read as a decimal through `parse`. */
  function ParseDecimal(field: ValueField, record: Record, name: string, parse: string -> Option<WfDecimal>): (r: Result<WfDecimal, EtlError>)
    ensures Column(record, field.col, name).Err? ==> r == Column(record, field.col, name).PropagateFailure()
    ensures r.Ok? ==> Some(r.value) == parse(Trim(record[field.col])) && |Trim(record[field.col])| > 0
    ensures Column(record, field.col, name).Ok? && parse(Trim(record[field.col])).Some? ==> r.Ok?
  {
    match Column(record, field.col, name)
    case Err(e) => Err(e)
    case Ok(raw) =>
      match parse(raw)
      case Some(d) => Ok(d)
      case None => Err(InvalidValue(name, raw))
  }

  datatype CsvConfig = CsvConfig(delimiter: Option<string>, hasHeader: bool)

  /** The CSV settings a mapping gets when it names none: comma-separated, with a header row. */
  const DEFAULT_CSV: CsvConfig := CsvConfig(None, true)

  /** The first byte of a character's UTF-8 encoding. */
  function Utf8LeadByte(c: char): (b: nat)
    ensures b < 256
    ensures (c as int) < 0x80 ==> b == c as int
    ensures (c as int) >= 0x80 ==> b >= 0xC0
  {
    var n := c as int;
    if n < 0x80 then n
    else if n < 0x800 then 0xC0 + n / 0x40
    else if n < 0x1_0000 then 0xE0 + n / 0x1000
    else 0xF0 + n / 0x4_0000
  }

  /** `CsvConfig::delimiter`: the first byte of the configured text, a comma when there is none. */
  function Delimiter(config: CsvConfig): (r: nat)
    ensures r < 256
    ensures config.delimiter.None? || |config.delimiter.value| == 0 ==> r == ',' as int
    ensures config.delimiter.Some? && |config.delimiter.value| > 0 && (config.delimiter.value[0] as int) < 0x80 ==>
      r == config.delimiter.value[0] as int
  {
    match config.delimiter
    case Some(text) => if |text| > 0 then Utf8LeadByte(text[0]) else ',' as int
    case None => ',' as int
  }

  /** A semicolon delimiter, and the default comma. */
  lemma DelimiterExample()
    ensures Delimiter(CsvConfig(Some(";"), true)) == ';' as int
    ensures Delimiter(CsvConfig(Some(";;"), true)) == Delimiter(CsvConfig(Some(";"), true))
    ensures Delimiter(DEFAULT_CSV) == 44 && DEFAULT_CSV.hasHeader
  {
  }

  datatype FieldMapping = FieldMapping(
    timestamp: TimestampField,
    open: ValueField,
    high: ValueField,
    low: ValueField,
    close: ValueField,
    volume: Option<ValueField>)

  datatype MappingConfig = MappingConfig(csv: CsvConfig, fields: FieldMapping, interval: string)

  datatype CanonicalCandle = CanonicalCandle(
    timestamp: int,
    symbol: string,
    interval: string,
    open: WfDecimal,
    high: WfDecimal,
    low: WfDecimal,
    close: WfDecimal,
    volume: Option<WfDecimal>)

  /** The text inputs a row's parsing depends on. */
  datatype Parsers = Parsers(rfc3339: string -> Option<int>, decimal: string -> Option<WfDecimal>)

  /**
   * One CSV record of `normalize_file` (its `idx`-th, counted from 0): the
   * timestamp and the four prices in that order, then `high >= low`, then
   * the optional volume, which must not be negative.
   */
  function ParseRow(mapping: MappingConfig, record: Record, idx: nat, symbol: string, parsers: Parsers): (r: Result<CanonicalCandle, EtlError>)
    ensures r.Ok? ==> Value(r.value.high) >= Value(r.value.low)
    ensures r.Ok? && r.value.volume.Some? ==> Value(r.value.volume.value) >= 0.0
    ensures r.Ok? ==> r.value.symbol == symbol && r.value.interval == mapping.interval
  {
    var f := mapping.fields;
    var timestamp :- ParseTimestamp(f.timestamp, record, parsers.rfc3339);
    var open :- ParseDecimal(f.open, record, "open", parsers.decimal);
    var high :- ParseDecimal(f.high, record, "high", parsers.decimal);
    var low :- ParseDecimal(f.low, record, "low", parsers.decimal);
    var close :- ParseDecimal(f.close, record, "close", parsers.decimal);
    if Value(high) < Value(low) then Err(HighBelowLow(idx + 1))
    else
      var volume :- ParseVolume(f.volume, record, idx, parsers.decimal);
      Ok(CanonicalCandle(timestamp, symbol, mapping.interval, open, high, low, close, volume))
  }

  /** The optional volume column: absent when unmapped, an error when negative. */
  function ParseVolume(field: Option<ValueField>, record: Record, idx: nat, parse: string -> Option<WfDecimal>): (r: Result<Option<WfDecimal>, EtlError>)
    ensures field.None? ==> r == Ok(None)
    ensures r.Ok? && r.value.Some? ==> field.Some? && Value(r.value.value) >= 0.0
    ensures field.Some? && ParseDecimal(field.value, record, "volume", parse).Ok? ==>
      (r == Err(NegativeVolume(idx + 1)) <==> Value(ParseDecimal(field.value, record, "volume", parse).value) < 0.0)
  {
    match field
    case None => Ok(None)
    case Some(vf) =>
      var v :- ParseDecimal(vf, record, "volume", parse);
      if Value(v) < 0.0 then Err(NegativeVolume(idx + 1)) else Ok(Some(v))
  }

  /** Whether every column of a row is present and parses. */
  predicate Parses(mapping: MappingConfig, record: Record, parsers: Parsers) {
    var f := mapping.fields;
    && ParseTimestamp(f.timestamp, record, parsers.rfc3339).Ok?
    && ParseDecimal(f.open, record, "open", parsers.decimal).Ok?
    && ParseDecimal(f.high, record, "high", parsers.decimal).Ok?
    && ParseDecimal(f.low, record, "low", parsers.decimal).Ok?
    && ParseDecimal(f.close, record, "close", parsers.decimal).Ok?
    && (f.volume.Some? ==> ParseDecimal(f.volume.value, record, "volume", parsers.decimal).Ok?)
  }

  /**
   * A row whose columns all parse is rejected exactly when its high is below
   * its low or its volume is negative, and accepted otherwise.
   */
  lemma RowValidation(mapping: MappingConfig, record: Record, idx: nat, symbol: string, parsers: Parsers)
    requires Parses(mapping, record, parsers)
    ensures var f := mapping.fields;
      var high := ParseDecimal(f.high, record, "high", parsers.decimal).value;
      var low := ParseDecimal(f.low, record, "low", parsers.decimal).value;
      var r := ParseRow(mapping, record, idx, symbol, parsers);
      && (r == Err(HighBelowLow(idx + 1)) <==> Value(high) < Value(low))
      && (r.Ok? <==> (Value(high) >= Value(low)
            && (f.volume.Some? ==> Value(ParseDecimal(f.volume.value, record, "volume", parsers.decimal).value) >= 0.0)))
  {
  }

  /** `sanitize_symbol`: every `:` becomes `_`. */
  function SanitizeSymbol(symbol: string): (r: string)
    ensures |r| == |symbol|
    ensures forall i :: 0 <= i < |r| ==> r[i] != ':'
    ensures forall i :: 0 <= i < |r| && symbol[i] != ':' ==> r[i] == symbol[i]
    ensures forall i :: 0 <= i < |r| && symbol[i] == ':' ==> r[i] == '_'
  {
    seq(|symbol|, i requires 0 <= i < |symbol| => if symbol[i] == ':' then '_' else symbol[i])
  }

  /** `sanitize_interval`: every character other than an ASCII letter or digit becomes `_`. */
  function SanitizeInterval(interval: string): (r: string)
    ensures |r| == |interval|
    ensures forall i :: 0 <= i < |r| ==> IsAsciiAlphanumeric(r[i]) || r[i] == '_'
    ensures forall i :: 0 <= i < |r| && IsAsciiAlphanumeric(interval[i]) ==> r[i] == interval[i]
  {
    seq(|interval|, i requires 0 <= i < |interval| => if IsAsciiAlphanumeric(interval[i]) then interval[i] else '_')
  }

  /** Sanitizing is idempotent: a sanitized name is left alone. */
  lemma SanitizeIdempotent(symbol: string, interval: string)
    ensures SanitizeSymbol(SanitizeSymbol(symbol)) == SanitizeSymbol(symbol)
    ensures SanitizeInterval(SanitizeInterval(interval)) == SanitizeInterval(interval)
  {
  }

  /** `binance:BTCUSDT` and `1m` as the pipeline's tests use them. */
  lemma SanitizeExample()
    ensures SanitizeSymbol("binance:BTCUSDT") == "binance_BTCUSDT"
    ensures SanitizeInterval("1m") == "1m"
    ensures SanitizeInterval("1 m") == "1_m"
  {
  }

  const NANOS_PER_DAY: int := 86_400_000_000_000

  /** A civil date, as the calendar gives it for a day number. */
  datatype Date = Date(year: nat, month: nat, day: nat)

  /**
   * `datetime_from_ns` as written: seconds by truncating division and the
   * magnitude of the truncated remainder as the sub-second part.
   */
  function DateTimeFromNsAsWritten(timestamp: int): (r: (int, nat))
    ensures r.1 < NANOS_PER_SECOND
    ensures timestamp >= 0 ==> r == SplitNanos(timestamp)
  {
    var q := if timestamp >= 0 then timestamp / NANOS_PER_SECOND else -((-timestamp) / NANOS_PER_SECOND);
    var rem := timestamp - q * NANOS_PER_SECOND;
    (q, if rem < 0 then -rem else rem)
  }

  /** The day (counted from 1970-01-01) that the as-written conversion places a timestamp on. */
  function DayAsWritten(timestamp: int): int {
    DateTimeFromNsAsWritten(timestamp).0 / 86_400
  }

  /**
   * One nanosecond before the epoch is converted to one nanosecond after
   * it, which falls on day 0 (1970-01-01) instead of day -1 (1969-12-31).
   */
  lemma NegativeTimestampMisplaced()
    ensures DateTimeFromNsAsWritten(-1) == (0, 1)
    ensures SplitNanos(-1) == (-1, 999_999_999)
    ensures DayAsWritten(-1) == 0 && Day(-1) == -1
  {
  }

  /**
   * The day a timestamp falls on, counted from 1970-01-01: the whole days
   * of nanoseconds below it.
   */
  function Day(timestamp: int): (r: int)
    ensures r * NANOS_PER_DAY <= timestamp < (r + 1) * NANOS_PER_DAY
  {
    timestamp / NANOS_PER_DAY
  }

  /** The corrected day agrees with the whole seconds of the exact split, and with the code on non-negative input. */
  lemma DayOfSeconds(timestamp: int)
    ensures Day(timestamp) == SplitNanos(timestamp).0 / 86_400
    ensures timestamp >= 0 ==> Day(timestamp) == DayAsWritten(timestamp)
  {
    var (s, n) := SplitNanos(timestamp);
    var d := s / 86_400;
    assert d * 86_400 <= s < (d + 1) * 86_400;
    assert d * NANOS_PER_DAY <= timestamp < (d + 1) * NANOS_PER_DAY;
    DayUnique(timestamp, d);
  }

  lemma DayUnique(timestamp: int, d: int)
    requires d * NANOS_PER_DAY <= timestamp < (d + 1) * NANOS_PER_DAY
    ensures Day(timestamp) == d
  {
  }

  /**
   * `partition_path`: `symbol=…/interval=…/year=YYYY/month=MM`, with
   * `/day=DD` for daily partitioning; `civil` gives the date of a day number.
   * The date is that of the corrected `Day` (see `PartitionPathAsWritten`).
   */
  function PartitionPath(symbol: string, interval: string, timestamp: int, partitioning: Partitioning, civil: int -> Date): (r: string)
    ensures var (a, b, c, d, e) := Segments(symbol, interval, civil(Day(timestamp)));
      r == if partitioning == Daily then a + "/" + b + "/" + c + "/" + d + "/" + e else a + "/" + b + "/" + c + "/" + d
  {
    PathLayout(symbol, interval, civil(Day(timestamp)), partitioning);
    PathOfDate(symbol, interval, civil(Day(timestamp)), partitioning)
  }

  /** The partition directory of a calendar date. */
  function PathOfDate(symbol: string, interval: string, date: Date, partitioning: Partitioning): string
  {
    var segments := ["symbol=" + SanitizeSymbol(symbol), "interval=" + SanitizeInterval(interval),
                     "year=" + ZeroPad(date.year, 4), "month=" + ZeroPad(date.month, 2)]
      + (if partitioning == Daily then ["day=" + ZeroPad(date.day, 2)] else []);
    JoinSlash(segments)
  }

  /**
   * `partition_path` as written: the date comes from `datetime_from_ns`, so
   * a timestamp is filed under the corrected partition of the day its
   * as-written seconds fall on.
   */
  function PartitionPathAsWritten(symbol: string, interval: string, timestamp: int, partitioning: Partitioning, civil: int -> Date): (r: string)
    ensures timestamp >= 0 ==> r == PartitionPath(symbol, interval, timestamp, partitioning, civil)
    ensures r == PartitionPath(symbol, interval, DayAsWritten(timestamp) * NANOS_PER_DAY, partitioning, civil)
  {
    DayOfSeconds(timestamp);
    DayUnique(DayAsWritten(timestamp) * NANOS_PER_DAY, DayAsWritten(timestamp));
    PathOfDate(symbol, interval, civil(DayAsWritten(timestamp)), partitioning)
  }

  /**
   * One nanosecond before the epoch, monthly partitions: the source files
   * the candle under 1970-01, the corrected path under 1969-12.
   */
  lemma PartitionPathMisfiles(symbol: string, interval: string, civil: int -> Date)
    requires civil(0) == Date(1970, 1, 1) && civil(-1) == Date(1969, 12, 31)
    ensures PartitionPathAsWritten(symbol, interval, -1, Monthly, civil) != PartitionPath(symbol, interval, -1, Monthly, civil)
  {
    NegativeTimestampMisplaced();
    var early := PartitionPathAsWritten(symbol, interval, -1, Monthly, civil);
    var late := PartitionPath(symbol, interval, -1, Monthly, civil);
    assert early == PathOfDate(symbol, interval, Date(1970, 1, 1), Monthly);
    assert late == PathOfDate(symbol, interval, Date(1969, 12, 31), Monthly);
    assert |ShowNat(1)| == 1 && |ShowNat(12)| == 2;
    MonthSuffix(symbol, interval, Date(1970, 1, 1));
    MonthSuffix(symbol, interval, Date(1969, 12, 31));
    hide *;
    assert DigitsValue(ZeroPad(1, 2)) != DigitsValue(ZeroPad(12, 2));
  }

  /** A monthly partition path ends with the two digits of its month. */
  lemma MonthSuffix(symbol: string, interval: string, date: Date)
    requires |ShowNat(date.month)| <= 2
    ensures var path := PathOfDate(symbol, interval, date, Monthly);
      |path| >= 2 && path[|path| - 2..] == ZeroPad(date.month, 2)
  {
    var (a, b, c, d, _) := Segments(symbol, interval, date);
    PathLayout(symbol, interval, date, Monthly);
    var m := ZeroPad(date.month, 2);
    assert d == "month=" + m;
    assert |m| == 2;
    hide *;
    assert PathOfDate(symbol, interval, date, Monthly) == (a + "/" + b + "/" + c + "/" + "month=") + m;
  }

  lemma JoinSlashSnoc(segments: seq<string>, last: string)
    requires |segments| >= 1
    ensures JoinSlash(segments + [last]) == JoinSlash(segments) + "/" + last
  {
    assert (segments + [last])[..|segments|] == segments;
  }

  lemma JoinFour(a: string, b: string, c: string, d: string)
    ensures JoinSlash([a, b, c, d]) == a + "/" + b + "/" + c + "/" + d
  {
    JoinSlashSnoc([a], b);
    assert [a] + [b] == [a, b];
    JoinSlashSnoc([a, b], c);
    assert [a, b] + [c] == [a, b, c];
    JoinSlashSnoc([a, b, c], d);
    assert [a, b, c] + [d] == [a, b, c, d];
  }

  lemma JoinFive(a: string, b: string, c: string, d: string, e: string)
    ensures JoinSlash([a, b, c, d, e]) == JoinSlash([a, b, c, d]) + "/" + e
  {
    JoinSlashSnoc([a, b, c, d], e);
    assert [a, b, c, d] + [e] == [a, b, c, d, e];
  }

  /** `segments.join("/")`. */
  function JoinSlash(segments: seq<string>): (r: string)
    decreases |segments|
  {
    if |segments| == 0 then ""
    else if |segments| == 1 then segments[0]
    else JoinSlash(segments[..|segments| - 1]) + "/" + segments[|segments| - 1]
  }

  /** The `key=value` segments of a partition path, outermost first. */
  function Segments(symbol: string, interval: string, date: Date): (r: (string, string, string, string, string))
  {
    ("symbol=" + SanitizeSymbol(symbol), "interval=" + SanitizeInterval(interval),
     "year=" + ZeroPad(date.year, 4), "month=" + ZeroPad(date.month, 2), "day=" + ZeroPad(date.day, 2))
  }

  /** A partition path starts with its symbol and interval segments. */
  lemma SeriesPrefix(symbol: string, interval: string, timestamp: int, partitioning: Partitioning, civil: int -> Date)
    ensures var (a, b, _, _, _) := Segments(symbol, interval, civil(Day(timestamp)));
      a + "/" + b + "/" <= PartitionPath(symbol, interval, timestamp, partitioning, civil)
  {
    hide *;
    var (a, b, x, y, z) := Segments(symbol, interval, civil(Day(timestamp)));
    var rest := if partitioning == Daily then x + "/" + y + "/" + z else x + "/" + y;
    assert PartitionPath(symbol, interval, timestamp, partitioning, civil) == (a + "/" + b + "/") + rest;
  }

  /**
   * The directory of a date is the symbol, interval, year and month segments,
   * slash-separated, followed by the day segment exactly when partitioning
   * is daily.
   */
  lemma PathLayout(symbol: string, interval: string, date: Date, partitioning: Partitioning)
    ensures var (a, b, c, d, e) := Segments(symbol, interval, date);
      PathOfDate(symbol, interval, date, partitioning)
        == if partitioning == Daily then a + "/" + b + "/" + c + "/" + d + "/" + e else a + "/" + b + "/" + c + "/" + d
  {
    var (a, b, c, d, e) := Segments(symbol, interval, date);
    JoinFour(a, b, c, d);
    JoinFive(a, b, c, d, e);
    assert [a, b, c, d] + [e] == [a, b, c, d, e];
    assert [a, b, c, d] + [] == [a, b, c, d];
  }

  /**
   * Daily partitions nest inside monthly ones, and candles on the same
   * calendar date share a partition.
   */
  lemma PartitionsNest(symbol: string, interval: string, t1: int, t2: int, civil: int -> Date)
    ensures var monthly := PartitionPath(symbol, interval, t1, Monthly, civil);
      PartitionPath(symbol, interval, t1, Daily, civil) == monthly + "/" + "day=" + ZeroPad(civil(Day(t1)).day, 2)
    ensures civil(Day(t1)) == civil(Day(t2)) ==>
      PartitionPath(symbol, interval, t1, Daily, civil) == PartitionPath(symbol, interval, t2, Daily, civil)
    ensures civil(Day(t1)).year == civil(Day(t2)).year && civil(Day(t1)).month == civil(Day(t2)).month ==>
      PartitionPath(symbol, interval, t1, Monthly, civil) == PartitionPath(symbol, interval, t2, Monthly, civil)
  {
  }

  /** The segments of the pipeline's first test row, for the calendar date 2023-11-14. */
  lemma PartitionExample(civil: int -> Date)
    requires civil(19_675) == Date(2023, 11, 14)
    ensures Day(1_700_000_000_000 * 1_000_000) == 19_675
    ensures Segments("binance:BTCUSDT", "1m", civil(19_675))
      == ("symbol=binance_BTCUSDT", "interval=1m", "year=2023", "month=11", "day=14")
  {
    DayUnique(1_700_000_000_000 * 1_000_000, 19_675);
    SegmentsExample();
  }

  lemma SegmentsExample()
    ensures Segments("binance:BTCUSDT", "1m", Date(2023, 11, 14))
      == ("symbol=binance_BTCUSDT", "interval=1m", "year=2023", "month=11", "day=14")
  {
    hide ZeroPad, SanitizeSymbol, SanitizeInterval;
    PadExamples();
    SanitizeExample();
    assert "symbol=" + "binance_BTCUSDT" == "symbol=binance_BTCUSDT";
    assert "interval=" + "1m" == "interval=1m";
    assert "year=" + "2023" == "year=2023";
    assert "month=" + "11" == "month=11";
    assert "day=" + "14" == "day=14";
  }

  lemma PadExamples()
    ensures ZeroPad(2023, 4) == "2023" && ZeroPad(11, 2) == "11" && ZeroPad(14, 2) == "14"
  {
    assert ShowNat(2) == "2";
    assert ShowNat(20) == "20";
    assert ShowNat(202) == "202";
    assert ShowNat(2023) == "2023";
    assert ShowNat(1) == "1";
    assert ShowNat(11) == "11";
    assert ShowNat(14) == "14";
  }
}

=== FILE: data_merger.dfy ===
/**
 * The chronological merge of tick, order-book and depth streams
 * (`tesser-data/src/merger.rs`). Each parquet cursor is the sequence of
 * events it still has to yield; cursor read errors are not modelled.
 * A stream without files behaves like an empty cursor.
 */
module DataMerger {
  import opened Wrappers
  import opened Core

  /** A depth update; only the fields the merge reads are kept. */
  datatype DepthUpdate = DepthUpdate(symbol: Symbol, timestamp: int)

  datatype UnifiedEvent =
    | Trade(tick: Tick)
    | Book(book: OrderBook)
    | Depth(update: DepthUpdate)

  function Time(e: UnifiedEvent): int {
    match e
    case Trade(t) => t.exchangeTimestamp
    case Book(b) => b.timestamp
    case Depth(d) => d.timestamp
  }

  function SymbolOf(e: UnifiedEvent): Symbol {
    match e
    case Trade(t) => t.symbol
    case Book(b) => b.symbol
    case Depth(d) => d.symbol
  }

  /** The stream sources, in the order the merge consults them. */
  datatype Source = TickSource | BookSource | DepthSource

  /** One source: what its cursor still holds and the event peeked from it. */
  datatype Feed = Feed(cursor: seq<UnifiedEvent>, peek: Option<UnifiedEvent>)

  datatype Merger = Merger(symbols: set<Symbol>, ticks: Feed, books: Feed, depth: Feed)

  /** An empty filter admits every symbol. */
  predicate Admitted(symbols: set<Symbol>, e: UnifiedEvent) {
    |symbols| == 0 || SymbolOf(e) in symbols
  }

  /** Each feed yields only its own kind of event. */
  predicate WellTyped(m: Merger) {
    && (forall e :: e in Pending(m.ticks) ==> e.Trade?)
    && (forall e :: e in Pending(m.books) ==> e.Book?)
    && (forall e :: e in Pending(m.depth) ==> e.Depth?)
  }

  /** `from_paths`: at least one stream must have files; each cursor reads its files' events. */
  function FromPaths(symbols: seq<Symbol>, ticks: seq<UnifiedEvent>, books: seq<UnifiedEvent>, depth: seq<UnifiedEvent>,
                     tickFiles: nat, bookFiles: nat, depthFiles: nat): (r: Result<Merger, string>)
    ensures r.Err? <==> tickFiles == 0 && bookFiles == 0 && depthFiles == 0
    ensures r.Ok? ==> (r.value.symbols == (set s | s in symbols)
      && r.value.ticks.peek.None? && r.value.books.peek.None? && r.value.depth.peek.None?
      && r.value.ticks.cursor == (if tickFiles == 0 then [] else ticks))
  {
    if tickFiles == 0 && bookFiles == 0 && depthFiles == 0 then Err("at least one parquet data source must be provided")
    else Ok(Merger((set s | s in symbols),
                   Feed(if tickFiles == 0 then [] else ticks, None),
                   Feed(if bookFiles == 0 then [] else books, None),
                   Feed(if depthFiles == 0 then [] else depth, None)))
  }

  /** Everything a feed will still yield, peeked event first. */
  function Pending(f: Feed): seq<UnifiedEvent> {
    (if f.peek.Some? then [f.peek.value] else []) + f.cursor
  }

  /** The position of the first admitted event in a cursor, or its length. */
  function SkipIndex(cursor: seq<UnifiedEvent>, symbols: set<Symbol>): (k: nat)
    ensures k <= |cursor|
    ensures forall j :: 0 <= j < k ==> !Admitted(symbols, cursor[j])
    ensures k < |cursor| ==> Admitted(symbols, cursor[k])
  {
    if |cursor| == 0 || Admitted(symbols, cursor[0]) then 0 else 1 + SkipIndex(cursor[1..], symbols)
  }

  /** The `ensure_*` refill: keep a peeked event, else read until an admitted one. */
  function Ensure(f: Feed, symbols: set<Symbol>): (r: Feed)
    ensures f.peek.Some? ==> r == f
    ensures f.peek.None? && r.peek.Some? ==> Admitted(symbols, r.peek.value)
    ensures f.peek.None? ==> Pending(r) == f.cursor[SkipIndex(f.cursor, symbols)..]
  {
    if f.peek.Some? then f
    else
      var k := SkipIndex(f.cursor, symbols);
      if k < |f.cursor| then
        assert Pending(Feed(f.cursor[k + 1..], Some(f.cursor[k]))) == f.cursor[k..];
        Feed(f.cursor[k + 1..], Some(f.cursor[k]))
      else Feed([], None)
  }

  /** Refilling only ever drops events: what it still holds is a suffix of what the feed held. */
  lemma EnsureSuffix(f: Feed, symbols: set<Symbol>)
    ensures exists k :: 0 <= k <= |Pending(f)| && Pending(Ensure(f, symbols)) == Pending(f)[k..]
  {
    if f.peek.None? {
      assert Pending(f) == f.cursor;
      var k := SkipIndex(f.cursor, symbols);
      assert Pending(Ensure(f, symbols)) == Pending(f)[k..];
    } else {
      assert Pending(Ensure(f, symbols)) == Pending(f)[0..];
    }
  }

  /** A refill that finds nothing leaves the feed empty. */
  lemma EnsureEmpty(f: Feed, symbols: set<Symbol>)
    ensures Ensure(f, symbols).peek.None? ==> Pending(Ensure(f, symbols)) == []
  {
  }

  /** Refilling drops no admitted event. */
  lemma EnsureKeepsAdmitted(f: Feed, symbols: set<Symbol>, e: UnifiedEvent)
    requires e in Pending(f) && Admitted(symbols, e)
    ensures e in Pending(Ensure(f, symbols))
  {
    hide Ensure;
    if f.peek.None? {
      assert Pending(f) == f.cursor;
      SkipKeeps(f.cursor, symbols, e);
    }
  }

  /** Skipping to the first admitted event passes over no admitted one. */
  lemma SkipKeeps(cursor: seq<UnifiedEvent>, symbols: set<Symbol>, e: UnifiedEvent)
    requires e in cursor && Admitted(symbols, e)
    ensures e in cursor[SkipIndex(cursor, symbols)..]
  {
    var k := SkipIndex(cursor, symbols);
    hide *;
    var j :| 0 <= j < |cursor| && cursor[j] == e;
    assert j >= k;
    assert cursor[k..][j - k] == e;
  }

  /** A refill that finds nothing means the feed held no admitted event. */
  lemma EnsureExhausted(f: Feed, symbols: set<Symbol>, e: UnifiedEvent)
    requires f.peek.None? && Ensure(f, symbols).peek.None?
    requires e in Pending(f)
    ensures !Admitted(symbols, e)
  {
    assert Pending(f) == f.cursor;
    var j :| 0 <= j < |f.cursor| && f.cursor[j] == e;
  }

  /** `pick_candidate`: a later source replaces the candidate only with a strictly earlier time. */
  function PickCandidate(current: Option<(int, Source)>, ts: int, source: Source): (r: Option<(int, Source)>)
    ensures r.Some?
    ensures current.None? ==> r.value == (ts, source)
    ensures current.Some? && ts < current.value.0 ==> r.value == (ts, source)
    ensures current.Some? && ts >= current.value.0 ==> r == current
  {
    match current
    case Some((existingTs, existingSource)) =>
      if ts < existingTs then Some((ts, source)) else Some((existingTs, existingSource))
    case None => Some((ts, source))
  }

  function Offer(current: Option<(int, Source)>, f: Feed, source: Source): Option<(int, Source)> {
    if f.peek.Some? then PickCandidate(current, Time(f.peek.value), source) else current
  }

  /** The refill of all three feeds that starts `next_event`. */
  function Refill(m: Merger): (r: Merger)
    ensures r.symbols == m.symbols
  {
    m.(ticks := Ensure(m.ticks, m.symbols), books := Ensure(m.books, m.symbols), depth := Ensure(m.depth, m.symbols))
  }

  /** `next_event`: refill, pick the earliest head (ticks before books before depth on ties), take it. */
  function NextEvent(m: Merger): (r: (Merger, Option<UnifiedEvent>))
    ensures var f := Refill(m);
      r.1.None? <==> f.ticks.peek.None? && f.books.peek.None? && f.depth.peek.None?
    ensures var f := Refill(m);
      r.1.Some? ==> (
        && (f.ticks.peek.Some? ==> Time(r.1.value) <= Time(f.ticks.peek.value))
        && (f.books.peek.Some? ==> Time(r.1.value) <= Time(f.books.peek.value))
        && (f.depth.peek.Some? ==> Time(r.1.value) <= Time(f.depth.peek.value)))
    ensures var f := Refill(m);
      WellTyped(f) && r.1.Some? && r.1.value.Book? && f.ticks.peek.Some? ==> Time(f.ticks.peek.value) > Time(r.1.value)
    ensures var f := Refill(m);
      WellTyped(f) && r.1.Some? && r.1.value.Depth? ==> (
        && (f.ticks.peek.Some? ==> Time(f.ticks.peek.value) > Time(r.1.value))
        && (f.books.peek.Some? ==> Time(f.books.peek.value) > Time(r.1.value)))
  {
    var f := Refill(m);
    var c := Choose(f);
    if c.None? then (f, None) else Take(f, c.value)
  }

  /** The source holding the earliest head, earlier sources winning ties. */
  function Choose(f: Merger): Option<Source> {
    var c := Offer(Offer(Offer(None, f.ticks, TickSource), f.books, BookSource), f.depth, DepthSource);
    if c.Some? then Some(c.value.1) else None
  }

  /** Consume the peeked event of one source, leaving the others untouched. */
  function Take(f: Merger, source: Source): (Merger, Option<UnifiedEvent>) {
    match source
    case TickSource => (f.(ticks := f.ticks.(peek := None)), f.ticks.peek)
    case BookSource => (f.(books := f.books.(peek := None)), f.books.peek)
    case DepthSource => (f.(depth := f.depth.(peek := None)), f.depth.peek)
  }

  /** A stream in chronological order. */
  predicate Sorted(s: seq<UnifiedEvent>) {
    forall i, j :: 0 <= i < j < |s| ==> Time(s[i]) <= Time(s[j])
  }

  /** A chronological feed whose peeked event, if any, passed the filter. */
  predicate FeedOk(f: Feed, symbols: set<Symbol>) {
    Sorted(Pending(f)) && (f.peek.Some? ==> Admitted(symbols, f.peek.value))
  }

  /** No event a feed still holds is earlier than `t`. */
  predicate NotBefore(f: Feed, t: int) {
    forall x :: x in Pending(f) ==> t <= Time(x)
  }

  predicate Ordered(m: Merger) {
    FeedOk(m.ticks, m.symbols) && FeedOk(m.books, m.symbols) && FeedOk(m.depth, m.symbols)
  }

  predicate Holds(m: Merger, e: UnifiedEvent) {
    e in Pending(m.ticks) || e in Pending(m.books) || e in Pending(m.depth)
  }

  function Size(m: Merger): nat {
    |Pending(m.ticks)| + |Pending(m.books)| + |Pending(m.depth)|
  }

  lemma SuffixSorted(s: seq<UnifiedEvent>, k: nat)
    requires Sorted(s) && k <= |s|
    ensures Sorted(s[k..])
  {
    forall i, j | 0 <= i < j < |s[k..]| ensures Time(s[k..][i]) <= Time(s[k..][j]) {
      assert s[k..][i] == s[k + i] && s[k..][j] == s[k + j];
    }
  }

  lemma SuffixMembers(s: seq<UnifiedEvent>, k: nat, e: UnifiedEvent)
    requires k <= |s| && e in s[k..]
    ensures e in s
  {
    var i :| 0 <= i < |s[k..]| && s[k..][i] == e;
    assert s[k + i] == e;
  }

  /** Refilling one feed keeps it chronological, drops nothing admitted, and adds nothing. */
  lemma EnsureFeedOk(f: Feed, symbols: set<Symbol>)
    requires FeedOk(f, symbols)
    ensures FeedOk(Ensure(f, symbols), symbols)
    ensures |Pending(Ensure(f, symbols))| <= |Pending(f)|
    ensures forall e :: e in Pending(Ensure(f, symbols)) ==> e in Pending(f)
    ensures Ensure(f, symbols).peek.None? ==> Pending(Ensure(f, symbols)) == []
  {
    EnsureSuffix(f, symbols);
    EnsureEmpty(f, symbols);
    hide Ensure, SkipIndex;
    var k :| 0 <= k <= |Pending(f)| && Pending(Ensure(f, symbols)) == Pending(f)[k..];
    SuffixSorted(Pending(f), k);
    forall e | e in Pending(Ensure(f, symbols)) ensures e in Pending(f) {
      SuffixMembers(Pending(f), k, e);
    }
  }

  lemma RefillOrdered(m: Merger)
    requires Ordered(m)
    ensures Ordered(Refill(m))
    ensures Size(Refill(m)) <= Size(m)
    ensures forall e :: Holds(Refill(m), e) ==> Holds(m, e)
  {
    EnsureFeedOk(m.ticks, m.symbols);
    EnsureFeedOk(m.books, m.symbols);
    EnsureFeedOk(m.depth, m.symbols);
  }

  /** A chronological feed holds nothing earlier than its head, nor than anything earlier than the head. */
  lemma HeadBounds(f: Feed, t: int)
    requires Sorted(Pending(f)) && f.peek.Some? && t <= Time(f.peek.value)
    ensures NotBefore(f, t)
  {
    forall x | x in Pending(f) ensures t <= Time(x) {
      var i :| 0 <= i < |Pending(f)| && Pending(f)[i] == x;
      assert Pending(f)[0] == f.peek.value;
    }
  }

  /** Taking the head of a chronological feed leaves a chronological feed not earlier than the head. */
  lemma TakeHead(f: Feed, symbols: set<Symbol>)
    requires FeedOk(f, symbols) && f.peek.Some?
    ensures FeedOk(f.(peek := None), symbols)
    ensures |Pending(f.(peek := None))| < |Pending(f)|
    ensures NotBefore(f.(peek := None), Time(f.peek.value))
    ensures forall x :: x in Pending(f.(peek := None)) ==> x in Pending(f)
  {
    var g := f.(peek := None);
    assert Pending(g) == Pending(f)[1..];
    SuffixSorted(Pending(f), 1);
    HeadBounds(f, Time(f.peek.value));
    forall x | x in Pending(g) ensures x in Pending(f) {
      SuffixMembers(Pending(f), 1, x);
    }
  }

  /** A refilled feed not consulted as the winner holds nothing earlier than the winner. */
  lemma OtherFeedBound(f: Feed, symbols: set<Symbol>, t: int)
    requires FeedOk(f, symbols)
    requires f.peek.None? ==> Pending(f) == []
    requires f.peek.Some? ==> t <= Time(f.peek.value)
    ensures NotBefore(f, t)
  {
    if f.peek.Some? {
      HeadBounds(f, t);
    }
  }

  /**
   * One step of the merge from a chronological state: the event it yields
   * comes no later than anything left, the state stays chronological, and
   * the event was held by the merger and passed the filter.
   */
  lemma NextEventStep(m: Merger)
    requires Ordered(m) && NextEvent(m).1.Some?
    ensures var (n, e) := NextEvent(m);
      && Ordered(n) && Size(n) < Size(m) && n.symbols == m.symbols
      && Holds(m, e.value) && Admitted(m.symbols, e.value)
      && NotBefore(n.ticks, Time(e.value)) && NotBefore(n.books, Time(e.value)) && NotBefore(n.depth, Time(e.value))
      && forall x :: Holds(n, x) ==> Holds(m, x)
  {
    var f := Refill(m);
    EnsureFeedOk(m.ticks, m.symbols);
    EnsureFeedOk(m.books, m.symbols);
    EnsureFeedOk(m.depth, m.symbols);
    var (n, e) := NextEvent(m);
    var t := Time(e.value);
    var c := Choose(f);
    assert c.Some? && (n, e) == Take(f, c.value);
    match c.value {
      case TickSource =>
        TakeHead(f.ticks, m.symbols);
        OtherFeedBound(f.books, m.symbols, t);
        OtherFeedBound(f.depth, m.symbols, t);
      case BookSource =>
        TakeHead(f.books, m.symbols);
        OtherFeedBound(f.ticks, m.symbols, t);
        OtherFeedBound(f.depth, m.symbols, t);
      case DepthSource =>
        TakeHead(f.depth, m.symbols);
        OtherFeedBound(f.ticks, m.symbols, t);
        OtherFeedBound(f.books, m.symbols, t);
    }
  }

  /** The whole merged stream: `next_event` until it reports exhaustion. */
  function Drain(m: Merger): seq<UnifiedEvent>
    decreases Size(m)
  {
    var (n, e) := NextEvent(m);
    if e.None? then []
    else if Size(n) < Size(m) then [e.value] + Drain(n)
    else [e.value]
  }

  /**
   * If every source is chronological, the merged stream is chronological,
   * and it carries only events the merger held and the filter admits.
   */
  lemma {:induction false} DrainSorted(m: Merger)
    requires Ordered(m)
    ensures Sorted(Drain(m))
    ensures forall x :: x in Drain(m) ==> Holds(m, x) && Admitted(m.symbols, x)
    decreases Size(m)
  {
    DrainUnfold(m);
    hide *;
    var (n, e) := NextEvent(m);
    if e.Some? {
      NextEventStep(m);
      DrainSorted(n);
      var rest := Drain(n);
      forall x | x in rest ensures Time(e.value) <= Time(x) {
        assert Holds(n, x);
        HeldNotBefore(n, Time(e.value), x);
      }
      SortedCons(e.value, rest);
    }
  }

  /** One step of `Drain`. */
  lemma DrainUnfold(m: Merger)
    ensures NextEvent(m).1.None? ==> Drain(m) == [] && Sorted(Drain(m))
    ensures NextEvent(m).1.Some? && Size(NextEvent(m).0) < Size(m) ==>
      Drain(m) == [NextEvent(m).1.value] + Drain(NextEvent(m).0)
  {
  }

  lemma HeldNotBefore(n: Merger, t: int, x: UnifiedEvent)
    requires NotBefore(n.ticks, t) && NotBefore(n.books, t) && NotBefore(n.depth, t)
    requires Holds(n, x)
    ensures t <= Time(x)
  {
  }

  lemma SortedCons(e: UnifiedEvent, rest: seq<UnifiedEvent>)
    requires Sorted(rest)
    requires forall x :: x in rest ==> Time(e) <= Time(x)
    ensures Sorted([e] + rest)
  {
    var d := [e] + rest;
    forall i, j | 0 <= i < j < |d| ensures Time(d[i]) <= Time(d[j]) {
      assert d[j] == rest[j - 1];
      if i > 0 {
        assert d[i] == rest[i - 1];
      }
    }
  }

  /**
   * A tick and a book at the same instant, with a filtered-out tick ahead:
   * the rejected tick is skipped and the tie goes to the tick stream.
   */
  lemma TieExample(book: OrderBook, kept: Tick, dropped: Tick)
    requires book.symbol == "BTCUSDT" && kept.symbol == "BTCUSDT" && dropped.symbol == "ETHUSDT"
    requires book.timestamp == 5 && kept.exchangeTimestamp == 5
    ensures var m := Merger({"BTCUSDT"}, Feed([Trade(dropped), Trade(kept)], None), Feed([Book(book)], None), Feed([], None));
      && NextEvent(m).1 == Some(Trade(kept))
      && NextEvent(NextEvent(m).0).1 == Some(Book(book))
      && NextEvent(NextEvent(NextEvent(m).0).0).1.None?
  {
    var m := Merger({"BTCUSDT"}, Feed([Trade(dropped), Trade(kept)], None), Feed([Book(book)], None), Feed([], None));
    assert !Admitted(m.symbols, Trade(dropped));
    assert SkipIndex(m.ticks.cursor, m.symbols) == 1;
    assert Refill(m).ticks == Feed([], Some(Trade(kept)));
    assert Refill(m).books == Feed([], Some(Book(book)));
    var m1 := NextEvent(m).0;
    assert m1.books == Feed([], Some(Book(book)));
    var m2 := NextEvent(m1).0;
    assert m2.ticks == Feed([], None);
  }
}

=== FILE: data_parquet.dfy ===
/**
 * The Parquet replay stream of `tesser-data/src/parquet.rs`: cell decoders
 * for the Arrow columns a flight-recorder file holds, the batch loader that
 * walks the files in path order, and the tick and candle cursors built on
 * it. A file is what `open` returns for its path: its schema (column names)
 * and its record batches, any of which may fail to read.
 */
module DataParquet {
  import opened Wrappers
  import opened Core
  import opened FixedPoint
  import opened Ordering

  /** Rows per record batch requested from the Parquet reader. */
  const DEFAULT_BATCH_SIZE: nat := 4_096

  /** An Arrow `i8`. */
  type I8 = x: int | -128 <= x < 128

  /** An Arrow column with its per-row values (`None` for null). */
  datatype Column =
    | Strings(strings: seq<Option<string>>)
    | Decimals(scale: I8, mantissas: seq<Option<int>>)
    | Timestamps(nanos: seq<Option<int>>)
    | Int8s(bytes: seq<Option<I8>>)

  datatype Batch = Batch(columns: seq<Column>, numRows: nat)

  datatype ReadError =
    | TypeMismatch(column: nat)
    | NullValue(column: nat)
    | Unrepresentable(column: nat)
    | MissingColumn(name: string)
    | SchemaNotInitialized
    | InvalidInterval(raw: string)
    | Io(message: string)

  /** The column at an index, if the batch has it. */
  function ColumnAt(batch: Batch, column: nat): Option<Column> {
    if column < |batch.columns| then Some(batch.columns[column]) else None
  }

  /** `string_value`: a non-null cell of a string column. */
  function StringValue(batch: Batch, column: nat, row: nat): (r: Result<string, ReadError>)
    ensures r.Ok? <==> (ColumnAt(batch, column).Some? && ColumnAt(batch, column).value.Strings?
      && row < |ColumnAt(batch, column).value.strings| && ColumnAt(batch, column).value.strings[row].Some?)
    ensures r.Ok? ==> Some(r.value) == ColumnAt(batch, column).value.strings[row]
    ensures r.Err? ==> r.error == TypeMismatch(column) || r.error == NullValue(column)
  {
    match ColumnAt(batch, column)
    case Some(Strings(values)) =>
      if row < |values| && values[row].Some? then Ok(values[row].value) else Err(NullValue(column))
    case _ => Err(TypeMismatch(column))
  }

  /**
   * `decimal_value`: `Decimal::from_i128_with_scale(value, scale as u32)`.
   * The Arrow scale is an `i8`, so a negative scale wraps to a huge `u32`;
   * a scale above 28 or a mantissa wider than 96 bits makes the conversion
   * panic, reported here as `Unrepresentable`.
   */
  function DecimalValue(batch: Batch, column: nat, row: nat): (r: Result<WfDecimal, ReadError>)
    ensures r.Ok? ==> ColumnAt(batch, column).Some? && ColumnAt(batch, column).value.Decimals?
    ensures r.Ok? ==> var c := ColumnAt(batch, column).value;
      0 <= c.scale <= MAX_SCALE && row < |c.mantissas| && c.mantissas[row].Some?
      && r.value.scale == c.scale && r.value.mantissa == c.mantissas[row].value
    ensures (ColumnAt(batch, column).Some? && ColumnAt(batch, column).value.Decimals?
      && 0 <= ColumnAt(batch, column).value.scale <= MAX_SCALE
      && row < |ColumnAt(batch, column).value.mantissas|
      && ColumnAt(batch, column).value.mantissas[row].Some?
      && -MAX_MANTISSA <= ColumnAt(batch, column).value.mantissas[row].value <= MAX_MANTISSA) ==> r.Ok?
    ensures r.Err? ==> r.error in {TypeMismatch(column), NullValue(column), Unrepresentable(column)}
  {
    match ColumnAt(batch, column)
    case Some(Decimals(scale, values)) =>
      if row >= |values| || values[row].None? then Err(NullValue(column))
      else
        (match FromI128WithScale(values[row].value, ScaleAsU32(scale))
         case Some(d) => Ok(d)
         case None => Err(Unrepresentable(column)))
    case _ => Err(TypeMismatch(column))
  }

  /** `scale as u32` on an `i8`: a negative scale wraps around modulo 2^32, far above 28. */
  function ScaleAsU32(scale: I8): (r: nat)
    ensures scale >= 0 ==> r == scale
    ensures scale < 0 ==> r == scale + 0x1_0000_0000 && r > MAX_SCALE
  {
    scale % 0x1_0000_0000
  }

  /** A negative Arrow scale is never accepted: it wraps to a scale above 28. */
  lemma NegativeScaleRejected(mantissa: int)
    ensures DecimalValue(Batch([Decimals(-2, [Some(mantissa)])], 1), 0, 0) == Err(Unrepresentable(0))
  {
    assert ScaleAsU32(-2) == 0xFFFF_FFFE;
  }

  /** An instant as whole seconds and nanoseconds within the second. */
  datatype DateTime = DateTime(secs: int, subsec: nat)

  /** The nanoseconds since the epoch an instant stands for. */
  function Instant(t: DateTime): int {
    t.secs * NANOS_PER_SECOND + t.subsec
  }

  /**
   * `timestamp_value`: a non-null nanosecond cell split with `div_euclid`
   * and `rem_euclid`. (`DateTime::from_timestamp` cannot fail for the
   * seconds of an `i64` nanosecond count, so its overflow error is left out.)
   */
  function TimestampValue(batch: Batch, column: nat, row: nat): (r: Result<DateTime, ReadError>)
    ensures r.Ok? <==> (ColumnAt(batch, column).Some? && ColumnAt(batch, column).value.Timestamps?
      && row < |ColumnAt(batch, column).value.nanos| && ColumnAt(batch, column).value.nanos[row].Some?)
    ensures r.Ok? ==> (r.value.subsec < NANOS_PER_SECOND
      && Instant(r.value) == ColumnAt(batch, column).value.nanos[row].value)
    ensures r.Err? ==> r.error == TypeMismatch(column) || r.error == NullValue(column)
  {
    match ColumnAt(batch, column)
    case Some(Timestamps(values)) =>
      if row < |values| && values[row].Some? then
        var (secs, sub) := SplitNanos(values[row].value);
        Ok(DateTime(secs, sub))
      else Err(NullValue(column))
    case _ => Err(TypeMismatch(column))
  }

  /** The split of an instant is the only one with a sub-second part in range. */
  lemma TimestampSplitUnique(nanos: int, t: DateTime)
    requires t.subsec < NANOS_PER_SECOND && Instant(t) == nanos
    ensures t == DateTime(SplitNanos(nanos).0, SplitNanos(nanos).1)
  {
    var (s, n) := SplitNanos(nanos);
    assert (t.secs - s) * NANOS_PER_SECOND == n - t.subsec;
  }

  /** One nanosecond before the epoch is the last nanosecond of second -1. */
  lemma TimestampBeforeEpoch()
    ensures TimestampValue(Batch([Timestamps([Some(-1)])], 1), 0, 0) == Ok(DateTime(-1, 999_999_999))
  {
  }

  /** `side_value`: a non-negative `i8` is a buy, a negative one a sell. */
  function SideValue(batch: Batch, column: nat, row: nat): (r: Result<Side, ReadError>)
    ensures r.Ok? <==> (ColumnAt(batch, column).Some? && ColumnAt(batch, column).value.Int8s?
      && row < |ColumnAt(batch, column).value.bytes| && ColumnAt(batch, column).value.bytes[row].Some?)
    ensures r.Ok? ==> (r.value == Buy <==> ColumnAt(batch, column).value.bytes[row].value >= 0)
    ensures r.Err? ==> r.error == TypeMismatch(column) || r.error == NullValue(column)
  {
    match ColumnAt(batch, column)
    case Some(Int8s(values)) =>
      if row < |values| && values[row].Some? then
        Ok(if values[row].value >= 0 then Buy else Sell)
      else Err(NullValue(column))
    case _ => Err(TypeMismatch(column))
  }

  /** A side written as its signed unit (`Side::as_i8`) reads back as the same side. */
  lemma SideRoundTrip(side: Side)
    ensures SideValue(Batch([Int8s([Some(SideSign(side))])], 1), 0, 0) == Ok(side)
  {
  }

  /** `column_index`: the first column with the name. */
  function ColumnIndex(schema: seq<string>, name: string): (r: Result<nat, ReadError>)
    ensures r.Ok? ==> (r.value < |schema| && schema[r.value] == name
      && forall k :: 0 <= k < r.value ==> schema[k] != name)
    ensures r.Err? <==> name !in schema
    ensures r.Err? ==> r.error == MissingColumn(name)
  {
    if |schema| == 0 then Err(MissingColumn(name))
    else if schema[0] == name then Ok(0)
    else
      match ColumnIndex(schema[1..], name)
      case Ok(i) => Ok(i + 1)
      case Err(e) => Err(e)
  }

  datatype TickColumns = TickColumns(symbol: nat, price: nat, size: nat, side: nat, exchangeTs: nat, receivedTs: nat)

  /** `TickColumns::from_schema`: every tick column must be present; the first missing one is reported. */
  function TickColumnsFrom(schema: seq<string>): (r: Result<TickColumns, ReadError>)
    ensures r.Ok? <==> ("symbol" in schema && "price" in schema && "size" in schema && "side" in schema
      && "exchange_timestamp" in schema && "received_at" in schema)
    ensures r.Ok? ==> (r.value.price < |schema| && schema[r.value.price] == "price"
      && r.value.side < |schema| && schema[r.value.side] == "side"
      && r.value.exchangeTs < |schema| && schema[r.value.exchangeTs] == "exchange_timestamp")
  {
    var symbol :- ColumnIndex(schema, "symbol");
    var price :- ColumnIndex(schema, "price");
    var size :- ColumnIndex(schema, "size");
    var side :- ColumnIndex(schema, "side");
    var exchangeTs :- ColumnIndex(schema, "exchange_timestamp");
    var receivedTs :- ColumnIndex(schema, "received_at");
    Ok(TickColumns(symbol, price, size, side, exchangeTs, receivedTs))
  }

  datatype CandleColumns = CandleColumns(
    symbol: nat, interval: nat, open: nat, high: nat, low: nat, close: nat, volume: nat, timestamp: nat)

  /** `CandleColumns::from_schema`: every candle column must be present. */
  function CandleColumnsFrom(schema: seq<string>): (r: Result<CandleColumns, ReadError>)
    ensures r.Ok? <==> ("symbol" in schema && "interval" in schema && "open" in schema && "high" in schema
      && "low" in schema && "close" in schema && "volume" in schema && "timestamp" in schema)
    ensures r.Ok? ==> (r.value.open < |schema| && schema[r.value.open] == "open"
      && r.value.close < |schema| && schema[r.value.close] == "close"
      && r.value.timestamp < |schema| && schema[r.value.timestamp] == "timestamp")
  {
    var symbol :- ColumnIndex(schema, "symbol");
    var interval :- ColumnIndex(schema, "interval");
    var open :- ColumnIndex(schema, "open");
    var high :- ColumnIndex(schema, "high");
    var low :- ColumnIndex(schema, "low");
    var close :- ColumnIndex(schema, "close");
    var volume :- ColumnIndex(schema, "volume");
    var timestamp :- ColumnIndex(schema, "timestamp");
    Ok(CandleColumns(symbol, interval, open, high, low, close, volume, timestamp))
  }

  /** `decode_tick`: the tick of one row, its decimals as exact values and its times as instants. */
  function DecodeTick(batch: Batch, row: nat, cols: TickColumns): (r: Result<Tick, ReadError>)
    ensures r.Ok? <==> (
      && StringValue(batch, cols.symbol, row).Ok?
      && DecimalValue(batch, cols.price, row).Ok?
      && DecimalValue(batch, cols.size, row).Ok?
      && SideValue(batch, cols.side, row).Ok?
      && TimestampValue(batch, cols.exchangeTs, row).Ok?
      && TimestampValue(batch, cols.receivedTs, row).Ok?)
    ensures r.Ok? ==> (r.value.price == Value(DecimalValue(batch, cols.price, row).value)
      && r.value.side == SideValue(batch, cols.side, row).value
      && r.value.exchangeTimestamp == Instant(TimestampValue(batch, cols.exchangeTs, row).value))
  {
    var symbol :- StringValue(batch, cols.symbol, row);
    var price :- DecimalValue(batch, cols.price, row);
    var size :- DecimalValue(batch, cols.size, row);
    var side :- SideValue(batch, cols.side, row);
    var exchangeTs :- TimestampValue(batch, cols.exchangeTs, row);
    var receivedAt :- TimestampValue(batch, cols.receivedTs, row);
    Ok(Tick(symbol, Value(price), Value(size), side, Instant(exchangeTs), Instant(receivedAt)))
  }

  /**
   * `decode_candle`: the candle of one row. `Interval::from_str` belongs to
   * `tesser_core`, which is not part of this model, so it is a parameter.
   */
  function DecodeCandle(batch: Batch, row: nat, cols: CandleColumns, parseInterval: string -> Option<Interval>)
    : (r: Result<Candle, ReadError>)
    ensures (StringValue(batch, cols.symbol, row).Ok? && StringValue(batch, cols.interval, row).Ok?
      && parseInterval(StringValue(batch, cols.interval, row).value).None?)
      ==> r == Err(InvalidInterval(StringValue(batch, cols.interval, row).value))
    ensures r.Ok? ==> (StringValue(batch, cols.interval, row).Ok?
      && parseInterval(StringValue(batch, cols.interval, row).value).Some?
      && DecimalValue(batch, cols.open, row).Ok? && TimestampValue(batch, cols.timestamp, row).Ok?)
    ensures r.Ok? ==> (r.value.interval == parseInterval(StringValue(batch, cols.interval, row).value).value
      && r.value.open == Value(DecimalValue(batch, cols.open, row).value)
      && r.value.timestamp == Instant(TimestampValue(batch, cols.timestamp, row).value))
  {
    var symbol :- StringValue(batch, cols.symbol, row);
    var raw :- StringValue(batch, cols.interval, row);
    var interval :- if parseInterval(raw).Some? then Ok(parseInterval(raw).value) else Err(InvalidInterval(raw));
    var open :- DecimalValue(batch, cols.open, row);
    var high :- DecimalValue(batch, cols.high, row);
    var low :- DecimalValue(batch, cols.low, row);
    var close :- DecimalValue(batch, cols.close, row);
    var volume :- DecimalValue(batch, cols.volume, row);
    var timestamp :- TimestampValue(batch, cols.timestamp, row);
    Ok(Candle(symbol, interval, Value(open), Value(high), Value(low), Value(close), Value(volume), Instant(timestamp)))
  }

  /** A file as the reader finds it: its schema and batches, or an error opening it. */
  datatype SourceFile =
    | Readable(schema: seq<string>, batches: seq<Result<Batch, string>>)
    | Unreadable(message: string)

  /**
   * `BatchLoader`: the files still to open, the open file's remaining
   * batches, the current batch and row, and a schema not yet handed to
   * the cursor.
   */
  datatype Loader = Loader(
    files: seq<Path>,
    stream: Option<seq<Result<Batch, string>>>,
    batch: Option<Batch>,
    rowIndex: nat,
    schemaUpdate: Option<seq<string>>)

  /** `BatchLoader::new`: the paths in `Path` order, nothing open yet. */
  function NewLoader(paths: seq<Path>): (l: Loader)
    ensures multiset(l.files) == multiset(paths)
    ensures forall i, j :: 0 <= i < j < |l.files| ==> PathLeq(l.files[i], l.files[j])
    ensures l.stream.None? && l.batch.None? && l.rowIndex == 0 && l.schemaUpdate.None?
  {
    PathOrder();
    Loader(Sort(paths, PathLeq), None, None, 0, None)
  }

  function StreamSize(stream: Option<seq<Result<Batch, string>>>): nat {
    if stream.None? then 0 else |stream.value| + 1
  }

  /**
   * `ensure_batch`: make a batch with an unread row current. An exhausted
   * batch is dropped; the open file's next batch is taken (an unreadable
   * batch is an error); an exhausted file is closed and the next file
   * opened (its schema becomes the pending schema update); with no file
   * left the answer is `false`.
   */
  function EnsureBatch(l: Loader, open: Path -> SourceFile): (r: (Result<bool, ReadError>, Loader))
    ensures r.0 == Ok(true) ==> r.1.batch.Some? && r.1.rowIndex < r.1.batch.value.numRows
    ensures r.0 == Ok(false) ==> r.1.files == [] && r.1.stream.None? && r.1.batch.None?
    ensures IsSuffix(r.1.files, l.files)
    ensures r.1.files == l.files ==> r.1.schemaUpdate == l.schemaUpdate
    decreases |l.files|, StreamSize(l.stream)
  {
    if l.batch.Some? && l.rowIndex < l.batch.value.numRows then (Ok(true), l)
    else
      var l1 := l.(batch := None);
      if l1.stream.Some? && |l1.stream.value| > 0 then
        var items := l1.stream.value;
        match items[0]
        case Ok(b) => EnsureBatch(l1.(rowIndex := 0, batch := Some(b), stream := Some(items[1..])), open)
        case Err(e) => (Err(Io(e)), l1.(stream := Some(items[1..])))
      else
        var l2 := l1.(stream := None);
        if |l2.files| == 0 then (Ok(false), l2)
        else
          match open(l2.files[0])
          case Unreadable(m) => (Err(Io(m)), l2.(files := l2.files[1..]))
          case Readable(schema, items) =>
            var r := EnsureBatch(l2.(files := l2.files[1..], stream := Some(items), schemaUpdate := Some(schema)), open);
            SuffixOfTail(r.1.files, l.files);
            r
  }

  /** `a` is what is left of `b` after dropping some leading elements. */
  predicate IsSuffix<T(==)>(a: seq<T>, b: seq<T>) {
    |a| <= |b| && a == b[|b| - |a|..]
  }

  lemma SuffixOfTail<T>(a: seq<T>, b: seq<T>)
    requires |b| > 0 && IsSuffix(a, b[1..])
    ensures IsSuffix(a, b)
  {
    assert b[1..][|b| - 1 - |a|..] == b[|b| - |a|..];
  }

  /** `next_row`: the current batch and row index, advancing the index by one. */
  function NextRow(l: Loader): (r: (Option<(Batch, nat)>, Loader))
    ensures r.0.Some? <==> l.batch.Some?
    ensures r.0.Some? ==> r.0.value == (l.batch.value, l.rowIndex) && r.1 == l.(rowIndex := l.rowIndex + 1)
    ensures r.0.None? ==> r.1 == l
  {
    if l.batch.None? then (None, l) else (Some((l.batch.value, l.rowIndex)), l.(rowIndex := l.rowIndex + 1))
  }

  function BatchRows(items: seq<Result<Batch, string>>): nat
    decreases |items|
  {
    if |items| == 0 then 0 else (if items[0].Ok? then items[0].value.numRows else 0) + BatchRows(items[1..])
  }

  function FileRows(files: seq<Path>, open: Path -> SourceFile): nat
    decreases |files|
  {
    if |files| == 0 then 0
    else (if open(files[0]).Readable? then BatchRows(open(files[0]).batches) else 0) + FileRows(files[1..], open)
  }

  /** The rows the loader has yet to hand out. */
  function RowsLeft(l: Loader, open: Path -> SourceFile): nat {
    (if l.batch.Some? && l.rowIndex < l.batch.value.numRows then l.batch.value.numRows - l.rowIndex else 0)
    + (if l.stream.Some? then BatchRows(l.stream.value) else 0)
    + FileRows(l.files, open)
  }

  predicate CleanBatches(items: seq<Result<Batch, string>>) {
    forall k :: 0 <= k < |items| ==> items[k].Ok?
  }

  /** No batch still to read and no file still to open fails. */
  ghost predicate Clean(l: Loader, open: Path -> SourceFile) {
    && (l.stream.Some? ==> CleanBatches(l.stream.value))
    && forall k :: 0 <= k < |l.files| ==> open(l.files[k]).Readable? && CleanBatches(open(l.files[k]).batches)
  }

  lemma CleanTail(items: seq<Result<Batch, string>>)
    requires |items| > 0 && CleanBatches(items)
    ensures CleanBatches(items[1..]) && items[0].Ok?
  {
    forall k | 0 <= k < |items[1..]| ensures items[1..][k].Ok? {
      assert items[1..][k] == items[k + 1];
    }
  }

  /** Taking the open file's next batch keeps every row and the absence of errors. */
  lemma StreamStep(l: Loader, open: Path -> SourceFile)
    requires Clean(l, open) && l.batch.None? && l.stream.Some? && |l.stream.value| > 0
    ensures var items := l.stream.value;
      var next := l.(rowIndex := 0, batch := Some(items[0].value), stream := Some(items[1..]));
      Clean(next, open) && RowsLeft(next, open) == RowsLeft(l, open)
  {
    CleanTail(l.stream.value);
  }

  /** Opening the next file keeps every row and the absence of errors. */
  lemma OpenStep(l: Loader, open: Path -> SourceFile)
    requires Clean(l, open) && l.batch.None? && l.stream.None? && |l.files| > 0
    ensures var f := open(l.files[0]);
      var next := l.(files := l.files[1..], stream := Some(f.batches), schemaUpdate := Some(f.schema));
      Clean(next, open) && RowsLeft(next, open) == RowsLeft(l, open)
  {
    var f := open(l.files[0]);
    var next := l.(files := l.files[1..], stream := Some(f.batches), schemaUpdate := Some(f.schema));
    forall k | 0 <= k < |next.files| ensures open(next.files[k]).Readable? && CleanBatches(open(next.files[k]).batches) {
      assert next.files[k] == l.files[k + 1];
    }
  }

  /**
   * Without read errors, `ensure_batch` succeeds, loses no row, and answers
   * `false` exactly when no row is left in any batch of any file.
   */
  lemma {:induction false} EnsureBatchClean(l: Loader, open: Path -> SourceFile)
    requires Clean(l, open)
    ensures var (ok, l') := EnsureBatch(l, open);
      ok.Ok? && Clean(l', open) && RowsLeft(l', open) == RowsLeft(l, open)
      && (ok.value <==> RowsLeft(l, open) > 0)
    decreases |l.files|, StreamSize(l.stream)
  {
    if l.batch.Some? && l.rowIndex < l.batch.value.numRows {
    } else {
      var l1 := l.(batch := None);
      assert RowsLeft(l1, open) == RowsLeft(l, open);
      if l1.stream.Some? && |l1.stream.value| > 0 {
        var items := l1.stream.value;
        StreamStep(l1, open);
        EnsureBatchClean(l1.(rowIndex := 0, batch := Some(items[0].value), stream := Some(items[1..])), open);
      } else {
        var l2 := l1.(stream := None);
        assert RowsLeft(l2, open) == RowsLeft(l, open);
        if |l2.files| > 0 {
          var f := open(l2.files[0]);
          OpenStep(l2, open);
          EnsureBatchClean(l2.(files := l2.files[1..], stream := Some(f.batches), schemaUpdate := Some(f.schema)), open);
        }
      }
    }
  }

  /** Handing out a row of a current batch uses up exactly one of the rows left. */
  lemma NextRowUsesOne(l: Loader, open: Path -> SourceFile)
    requires l.batch.Some? && l.rowIndex < l.batch.value.numRows
    ensures RowsLeft(NextRow(l).1, open) == RowsLeft(l, open) - 1
    ensures Clean(l, open) ==> Clean(NextRow(l).1, open)
  {
  }

  /** A tick or candle cursor: its loader and the column indices of the current file. */
  datatype Cursor<Cols> = Cursor(loader: Loader, columns: Option<Cols>)

  /**
   * `TickCursor::next` and `CandleCursor::next`: make a batch current; at
   * the end answer `None`; adopt a pending schema (an error in it is
   * returned, and the columns of the previous file stay in place); then
   * decode the next row with the current columns.
   */
  function CursorNext<Cols, T>(
    c: Cursor<Cols>,
    open: Path -> SourceFile,
    fromSchema: seq<string> -> Result<Cols, ReadError>,
    decode: (Batch, nat, Cols) -> Result<T, ReadError>)
    : (r: (Result<Option<T>, ReadError>, Cursor<Cols>))
    ensures EnsureBatch(c.loader, open).0 == Ok(false) ==> r == (Ok(None), c.(loader := EnsureBatch(c.loader, open).1))
    ensures r.0.Ok? && r.0.value.Some? ==>
      var l := EnsureBatch(c.loader, open).1;
      l.batch.Some? && r.1.loader.rowIndex == l.rowIndex + 1 && r.1.columns.Some?
      && decode(l.batch.value, l.rowIndex, r.1.columns.value) == Ok(r.0.value.value)
  {
    var (ok, l1) := EnsureBatch(c.loader, open);
    if ok.Err? then (Err(ok.error), c.(loader := l1))
    else if !ok.value then (Ok(None), c.(loader := l1))
    else
      var l2 := l1.(schemaUpdate := None);
      var adopted := if l1.schemaUpdate.Some? then Some(fromSchema(l1.schemaUpdate.value)) else None;
      if adopted.Some? && adopted.value.Err? then (Err(adopted.value.error), Cursor(l2, c.columns))
      else
        var columns := if adopted.Some? then Some(adopted.value.value) else c.columns;
        var (row, l3) := NextRow(l2);
        var (batch, index) := row.value;
        if columns.None? then (Err(SchemaNotInitialized), Cursor(l3, columns))
        else
          match decode(batch, index, columns.value)
          case Ok(t) => (Ok(Some(t)), Cursor(l3, columns))
          case Err(e) => (Err(e), Cursor(l3, columns))
  }

  /**
   * Without read, schema or decode errors, each call hands out one row
   * while rows are left and `None` once they are all used.
   */
  lemma CursorNextClean<Cols, T>(
    c: Cursor<Cols>,
    open: Path -> SourceFile,
    fromSchema: seq<string> -> Result<Cols, ReadError>,
    decode: (Batch, nat, Cols) -> Result<T, ReadError>)
    requires Clean(c.loader, open) && (c.loader.schemaUpdate.Some? || c.columns.Some?)
    requires forall s :: fromSchema(s).Ok?
    requires forall s, b: Batch, i: nat :: decode(b, i, fromSchema(s).value).Ok?
    requires c.columns.Some? ==> forall b: Batch, i: nat :: decode(b, i, c.columns.value).Ok?
    ensures var (res, c') := CursorNext(c, open, fromSchema, decode);
      res.Ok? && Clean(c'.loader, open)
      && (res.value.Some? <==> RowsLeft(c.loader, open) > 0)
      && (res.value.Some? ==> RowsLeft(c'.loader, open) == RowsLeft(c.loader, open) - 1)
      && (res.value.None? ==> RowsLeft(c'.loader, open) == 0)
  {
    EnsureBatchClean(c.loader, open);
    var l1 := EnsureBatch(c.loader, open).1;
    if RowsLeft(c.loader, open) > 0 {
      var l2 := l1.(schemaUpdate := None);
      assert Clean(l2, open);
      NextRowUsesOne(l2, open);
      assert l1.schemaUpdate.Some? || c.columns.Some? by {
        SchemaPendingOrKept(c.loader, open);
      }
      var columns := if l1.schemaUpdate.Some? then Some(fromSchema(l1.schemaUpdate.value).value) else c.columns;
      assert columns.Some?;
      var (row, l3) := NextRow(l2);
      var (batch, index) := row.value;
      assert decode(batch, index, columns.value).Ok?;
    }
  }

  /** `ensure_batch` only ever replaces a pending schema with a newer one; it never clears it. */
  lemma {:induction false} SchemaPendingOrKept(l: Loader, open: Path -> SourceFile)
    ensures l.schemaUpdate.Some? ==> EnsureBatch(l, open).1.schemaUpdate.Some?
    ensures EnsureBatch(l, open).0 == Ok(true) && EnsureBatch(l, open).1.files != l.files ==>
      EnsureBatch(l, open).1.schemaUpdate.Some?
    decreases |l.files|, StreamSize(l.stream)
  {
    if l.batch.Some? && l.rowIndex < l.batch.value.numRows {
    } else {
      var l1 := l.(batch := None);
      if l1.stream.Some? && |l1.stream.value| > 0 {
        var items := l1.stream.value;
        if items[0].Ok? {
          SchemaPendingOrKept(l1.(rowIndex := 0, batch := Some(items[0].value), stream := Some(items[1..])), open);
        }
      } else {
        var l2 := l1.(stream := None);
        if |l2.files| > 0 && open(l2.files[0]).Readable? {
          var f := open(l2.files[0]);
          SchemaPendingOrKept(l2.(files := l2.files[1..], stream := Some(f.batches), schemaUpdate := Some(f.schema)), open);
        }
      }
    }
  }

  /**
   * After a file whose schema lacks a column, the error is returned once;
   * the next call decodes that file's rows with the previous file's column
   * indices, since the pending schema has been consumed.
   */
  lemma StaleColumnsAfterSchemaError<Cols, T>(
    c: Cursor<Cols>,
    open: Path -> SourceFile,
    fromSchema: seq<string> -> Result<Cols, ReadError>,
    decode: (Batch, nat, Cols) -> Result<T, ReadError>)
    requires var (ok, l) := EnsureBatch(c.loader, open);
      ok == Ok(true) && l.schemaUpdate.Some? && fromSchema(l.schemaUpdate.value).Err?
    ensures var (res, c') := CursorNext(c, open, fromSchema, decode);
      res.Err? && c'.columns == c.columns && c'.loader.schemaUpdate.None?
  {
  }

  /** `ParquetMarketStream`: a cursor for ticks and one for candles, each absent when it has no paths. */
  datatype MarketStream = MarketStream(
    markets: seq<Symbol>,
    ticks: Option<Cursor<TickColumns>>,
    candles: Option<Cursor<CandleColumns>>)

  /** `ParquetMarketStream::new`. */
  function NewMarketStream(symbols: seq<Symbol>, tickPaths: seq<Path>, candlePaths: seq<Path>): (s: MarketStream)
    ensures s.ticks.None? <==> |tickPaths| == 0
    ensures s.candles.None? <==> |candlePaths| == 0
    ensures s.ticks.Some? ==> multiset(s.ticks.value.loader.files) == multiset(tickPaths)
    ensures s.candles.Some? ==> multiset(s.candles.value.loader.files) == multiset(candlePaths)
    ensures s.markets == symbols
  {
    MarketStream(
      symbols,
      if |tickPaths| == 0 then None else Some(Cursor(NewLoader(tickPaths), None)),
      if |candlePaths| == 0 then None else Some(Cursor(NewLoader(candlePaths), None)))
  }

  /** `next_tick`: from the tick cursor, or always `None` without one. */
  function NextTick(s: MarketStream, open: Path -> SourceFile): (r: (Result<Option<Tick>, ReadError>, MarketStream))
    ensures s.ticks.None? ==> r == (Ok(None), s)
    ensures r.1.candles == s.candles
  {
    match s.ticks
    case None => (Ok(None), s)
    case Some(c) =>
      var (res, c') := CursorNext(c, open, TickColumnsFrom, DecodeTick);
      (res, s.(ticks := Some(c')))
  }

  /** `next_candle`: from the candle cursor, or always `None` without one. */
  function NextCandle(s: MarketStream, open: Path -> SourceFile, parseInterval: string -> Option<Interval>)
    : (r: (Result<Option<Candle>, ReadError>, MarketStream))
    ensures s.candles.None? ==> r == (Ok(None), s)
    ensures r.1.ticks == s.ticks
  {
    match s.candles
    case None => (Ok(None), s)
    case Some(c) =>
      var decode := (b: Batch, i: nat, cols: CandleColumns) => DecodeCandle(b, i, cols, parseInterval);
      var (res, c') := CursorNext(c, open, CandleColumnsFrom, decode);
      (res, s.(candles := Some(c')))
  }

  /** A stream built without tick paths never yields a tick, however often it is asked. */
  lemma NoTickPathsNoTicks(symbols: seq<Symbol>, candlePaths: seq<Path>, open: Path -> SourceFile)
    ensures var s := NewMarketStream(symbols, [], candlePaths);
      NextTick(s, open) == (Ok(None), s)
  {
  }
}

=== FILE: etl_pipeline.dfy ===
/**
 * The file-level part of the CSV-to-Parquet candle pipeline
 * (`tesser-data/src/etl/mod.rs`): decimal encoding, part-file names, the
 * per-partition buffers of `normalize_file` with their flushes, and the
 * row totals of `run`. Writing a part file is recorded as a `Write`; the
 * Arrow batch and the file system are not modelled.
 */
module EtlPipeline {
  import opened Wrappers
  import opened Core
  import opened Text
  import opened FixedPoint
  import opened DataEtl

  const MAX_ROWS_PER_PART: nat := 100_000
  const MAX_TOTAL_BUFFERED_ROWS: nat := 1_000_000

  /**
   * `decimal_to_i128` at the canonical scale: round half-even when there are
   * more places, then scale the mantissa up with overflow checking. (Its
   * check that the rounded scale does not exceed the canonical one can never
   * fail, since rounding sets the scale to the canonical one.)
   */
  function DecimalToI128(d: WfDecimal, canonicalScale: nat): (r: Result<int, EtlError>)
    ensures r.Ok? ==> FitsI128(r.value)
    ensures r.Err? ==> r.error == DecimalOverflow
    ensures d.scale <= canonicalScale && r.Ok? ==> r.value as real == Value(d) * Pow10(canonicalScale) as real
    ensures d.scale > canonicalScale ==> r.Ok?
    ensures d.scale > canonicalScale ==>
      var unit := Pow10(d.scale - canonicalScale);
      && 2 * (r.value * unit - d.mantissa) <= unit && 2 * (d.mantissa - r.value * unit) <= unit
      && (2 * (r.value * unit - d.mantissa) == unit || 2 * (d.mantissa - r.value * unit) == unit ==> r.value % 2 == 0)
  {
    RescaleCases(d, canonicalScale);
    match Rescale(d, canonicalScale)
    case Some(v) => Ok(v)
    case None => Err(DecimalOverflow)
  }

  /** Midpoints go to the even neighbour: 1.5 and 2.5 both become 2, and -2.5 becomes -2. */
  lemma RoundsHalfToEven()
    ensures DecimalToI128(Decimal(15, 1), 0) == Ok(2)
    ensures DecimalToI128(Decimal(25, 1), 0) == Ok(2)
    ensures DecimalToI128(Decimal(-25, 1), 0) == Ok(-2)
  {
    assert Pow10(1) == 10;
    hide DecimalToI128;
    var a, b, c := DecimalToI128(Decimal(15, 1), 0), DecimalToI128(Decimal(25, 1), 0), DecimalToI128(Decimal(-25, 1), 0);
    assert a.Ok? && b.Ok? && c.Ok?;
  }

  /**
   * The part-file name of one flush: `part-{source:05}.parquet` for a
   * partition's first chunk, `part-{source:05}-{chunk:05}.parquet` after it.
   */
  function PartFileName(source: nat, chunk: nat): (r: string)
    ensures |r| >= 13 && r[..5] == "part-" && r[|r| - 8..] == ".parquet"
    ensures AllDigits(r[5..|r| - 8]) <==> chunk == 0
  {
    var a := ZeroPad(source, 5);
    var tail := if chunk == 0 then "" else "-" + ZeroPad(chunk, 5);
    var r := "part-" + a + tail + ".parquet";
    assert r[5..|r| - 8] == a + tail;
    assert chunk > 0 ==> (a + tail)[|a|] == '-';
    r
  }

  /** The position of the first `c` in `s`, or its length. */
  function IndexOf(s: string, c: char): (k: nat)
    ensures k <= |s|
    ensures forall j :: 0 <= j < k ==> s[j] != c
    ensures k < |s| ==> s[k] == c
  {
    if |s| == 0 || s[0] == c then 0 else 1 + IndexOf(s[1..], c)
  }

  /** Reads a part-file name back into its source number and chunk. */
  function ParsePartFileName(name: string): Option<(nat, nat)> {
    if |name| < 13 || name[..5] != "part-" || name[|name| - 8..] != ".parquet" then None
    else
      var middle := name[5..|name| - 8];
      var k := IndexOf(middle, '-');
      if k == |middle| then
        if AllDigits(middle) then Some((DigitsValue(middle), 0)) else None
      else if AllDigits(middle[..k]) && AllDigits(middle[k + 1..]) then
        Some((DigitsValue(middle[..k]), DigitsValue(middle[k + 1..])))
      else None
  }

  lemma FrameParts(name: string, middle: string)
    requires name == "part-" + middle + ".parquet"
    ensures |name| >= 13 && name[..5] == "part-" && name[|name| - 8..] == ".parquet"
    ensures name[5..|name| - 8] == middle
  {
  }

  lemma ParseFirstChunk(a: string)
    requires AllDigits(a)
    ensures ParsePartFileName("part-" + a + ".parquet") == Some((DigitsValue(a), 0))
  {
    FrameParts("part-" + a + ".parquet", a);
  }

  lemma ParseLaterChunk(a: string, b: string)
    requires AllDigits(a) && AllDigits(b)
    ensures ParsePartFileName("part-" + (a + "-" + b) + ".parquet") == Some((DigitsValue(a), DigitsValue(b)))
  {
    var middle := a + "-" + b;
    FrameParts("part-" + middle + ".parquet", middle);
    assert middle[|a|] == '-';
    var k := IndexOf(middle, '-');
    assert k == |a|;
    assert middle[..k] == a;
    assert middle[k + 1..] == b;
  }

  /** Every part-file name reads back as the source and chunk it was made from. */
  lemma PartFileNameRoundTrip(source: nat, chunk: nat)
    ensures ParsePartFileName(PartFileName(source, chunk)) == Some((source, chunk))
  {
    var a := ZeroPad(source, 5);
    if chunk == 0 {
      assert PartFileName(source, chunk) == "part-" + a + ".parquet";
      ParseFirstChunk(a);
    } else {
      var b := ZeroPad(chunk, 5);
      assert PartFileName(source, chunk) == "part-" + (a + "-" + b) + ".parquet";
      ParseLaterChunk(a, b);
    }
  }

  /** Different sources or chunks never share a file name. */
  lemma PartFileNamesDistinct(s1: nat, c1: nat, s2: nat, c2: nat)
    requires PartFileName(s1, c1) == PartFileName(s2, c2)
    ensures s1 == s2 && c1 == c2
  {
    PartFileNameRoundTrip(s1, c1);
    PartFileNameRoundTrip(s2, c2);
  }

  /**
   * The settings one `normalize_file` call works with. `parse` turns the
   * `idx`-th record into a candle; `ForFile` sets it to `ParseRow` with the
   * pipeline's mapping and symbol.
   */
  datatype Job = Job(
    parse: (Record, nat) -> Result<CanonicalCandle, EtlError>,
    partitioning: Partitioning,
    civil: int -> Date,
    sourceSeq: nat,
    canonicalScale: nat)

  /** The job of the `sourceSeq`-th file of a run. */
  function ForFile(mapping: MappingConfig, symbol: string, parsers: Parsers, partitioning: Partitioning,
                   civil: int -> Date, sourceSeq: nat, canonicalScale: nat): (j: Job)
    ensures forall record, idx :: j.parse(record, idx) == ParseRow(mapping, record, idx, symbol, parsers)
    ensures j.partitioning == partitioning && j.civil == civil
    ensures j.sourceSeq == sourceSeq && j.canonicalScale == canonicalScale
  {
    Job((record: Record, idx: nat) => ParseRow(mapping, record, idx, symbol, parsers), partitioning, civil, sourceSeq, canonicalScale)
  }

  /** A partition's pending rows and the chunk number its next part file gets. */
  datatype Buffer = Buffer(rows: seq<CanonicalCandle>, chunk: nat)

  /** One part file written: its partition directory, chunk number and rows. */
  datatype Write = Write(partition: string, chunk: nat, rows: seq<CanonicalCandle>)

  function FilePath(w: Write, sourceSeq: nat): string {
    w.partition + "/" + PartFileName(sourceSeq, w.chunk)
  }

  function Buf(parts: map<string, Buffer>, key: string): Buffer {
    if key in parts then parts[key] else Buffer([], 0)
  }

  /**
   * The partition a candle is buffered under: its sanitized symbol and
   * interval segments lead the key.
   */
  function KeyOf(job: Job, c: CanonicalCandle): (r: string)
    ensures var (a, b, _, _, _) := Segments(c.symbol, c.interval, job.civil(Day(c.timestamp)));
      a + "/" + b + "/" <= r
  {
    SeriesPrefix(c.symbol, c.interval, c.timestamp, job.partitioning, job.civil);
    PartitionPath(c.symbol, c.interval, c.timestamp, job.partitioning, job.civil)
  }

  /** The rows written so far to one partition, in order. */
  function WrittenFor(writes: seq<Write>, key: string): seq<CanonicalCandle>
    decreases |writes|
  {
    if |writes| == 0 then []
    else (WrittenFor(writes[..|writes| - 1], key)
      + (if writes[|writes| - 1].partition == key then writes[|writes| - 1].rows else []))
  }

  /** The chunk numbers written so far to one partition, in order. */
  function ChunksFor(writes: seq<Write>, key: string): seq<nat>
    decreases |writes|
  {
    if |writes| == 0 then []
    else (ChunksFor(writes[..|writes| - 1], key)
      + (if writes[|writes| - 1].partition == key then [writes[|writes| - 1].chunk] else []))
  }

  /** `0, 1, …, n - 1`. */
  function Upto(n: nat): (r: seq<nat>)
    ensures |r| == n && forall i :: 0 <= i < n ==> r[i] == i
  {
    seq(n, i => i)
  }

  /** The candles of a sequence that belong to one partition, in order. */
  function RowsFor(job: Job, candles: seq<CanonicalCandle>, key: string): seq<CanonicalCandle>
    decreases |candles|
  {
    if |candles| == 0 then []
    else (RowsFor(job, candles[..|candles| - 1], key)
      + (if KeyOf(job, candles[|candles| - 1]) == key then [candles[|candles| - 1]] else []))
  }

  /** Every row of `candles` is either written or pending, in its partition, in order. */
  ghost predicate Accounts(job: Job, writes: seq<Write>, parts: map<string, Buffer>, candles: seq<CanonicalCandle>) {
    forall key :: WrittenFor(writes, key) + Buf(parts, key).rows == RowsFor(job, candles, key)
  }

  /** Each partition's part files are chunks `0, 1, …` in order, and its buffer holds the next number. */
  ghost predicate Chunked(writes: seq<Write>, parts: map<string, Buffer>) {
    forall key :: ChunksFor(writes, key) == Upto(Buf(parts, key).chunk)
  }

  /** Part files hold between one and `MAX_ROWS_PER_PART` rows. */
  predicate Bounded(writes: seq<Write>) {
    forall i :: 0 <= i < |writes| ==> 0 < |writes[i].rows| <= MAX_ROWS_PER_PART
  }

  /** Whether every decimal of a row fits the canonical column. */
  predicate Encodable(c: CanonicalCandle, canonicalScale: nat) {
    && DecimalToI128(c.open, canonicalScale).Ok?
    && DecimalToI128(c.high, canonicalScale).Ok?
    && DecimalToI128(c.low, canonicalScale).Ok?
    && DecimalToI128(c.close, canonicalScale).Ok?
    && (c.volume.Some? ==> DecimalToI128(c.volume.value, canonicalScale).Ok?)
  }

  lemma WrittenSnoc(writes: seq<Write>, w: Write, key: string)
    ensures WrittenFor(writes + [w], key) == WrittenFor(writes, key) + (if w.partition == key then w.rows else [])
    ensures ChunksFor(writes + [w], key) == ChunksFor(writes, key) + (if w.partition == key then [w.chunk] else [])
  {
    assert (writes + [w])[..|writes|] == writes;
  }

  lemma RowsSnoc(job: Job, candles: seq<CanonicalCandle>, c: CanonicalCandle, key: string)
    ensures RowsFor(job, candles + [c], key) == RowsFor(job, candles, key) + (if KeyOf(job, c) == key then [c] else [])
  {
    assert (candles + [c])[..|candles|] == candles;
  }

  /**
   * Within one partition the part files carry increasing chunk numbers, all
   * below the number its buffer will use next.
   */
  predicate Distinct(writes: seq<Write>, parts: map<string, Buffer>) {
    && (forall i, j :: 0 <= i < j < |writes| && writes[i].partition == writes[j].partition ==> writes[i].chunk < writes[j].chunk)
    && (forall i :: 0 <= i < |writes| ==> writes[i].chunk < Buf(parts, writes[i].partition).chunk)
  }

  /** Whether every decimal of every row fits the canonical column. */
  predicate AllEncodable(rows: seq<CanonicalCandle>, canonicalScale: nat) {
    forall i :: 0 <= i < |rows| ==> Encodable(rows[i], canonicalScale)
  }

  /**
   * `flush_partition`: write a non-empty buffer as the partition's next
   * chunk and empty it; an absent or empty buffer writes nothing. The write
   * fails when a decimal does not fit the column.
   */
  function FlushPartition(job: Job, parts: map<string, Buffer>, writes: seq<Write>, key: string)
    : (r: Result<(map<string, Buffer>, seq<Write>, nat), EtlError>)
    ensures r.Ok? ==> r.value.2 == |Buf(parts, key).rows|
    ensures r.Ok? ==> Buf(r.value.0, key).rows == []
    ensures r.Ok? ==> forall k :: k != key ==> Buf(r.value.0, k) == Buf(parts, k)
    ensures r.Ok? ==> r.value.0.Keys == parts.Keys
    ensures r.Err? <==> !AllEncodable(Buf(parts, key).rows, job.canonicalScale)
  {
    if key !in parts || |parts[key].rows| == 0 then Ok((parts, writes, 0))
    else
      var b := parts[key];
      if AllEncodable(b.rows, job.canonicalScale) then
        Ok((parts[key := Buffer([], b.chunk + 1)], writes + [Write(key, b.chunk, b.rows)], |b.rows|))
      else Err(DecimalOverflow)
  }

  /** Moving a buffer into a new part file changes neither a partition's rows nor the next chunk it expects. */
  lemma FlushOne(parts: map<string, Buffer>, writes: seq<Write>, key: string, k: string)
    requires key in parts
    ensures var b := parts[key];
      var p := parts[key := Buffer([], b.chunk + 1)];
      var w := writes + [Write(key, b.chunk, b.rows)];
      WrittenFor(w, k) + Buf(p, k).rows == WrittenFor(writes, k) + Buf(parts, k).rows
      && (ChunksFor(writes, k) == Upto(Buf(parts, k).chunk) ==> ChunksFor(w, k) == Upto(Buf(p, k).chunk))
  {
    var b := parts[key];
    WrittenSnoc(writes, Write(key, b.chunk, b.rows), k);
    if k == key {
      assert Upto(b.chunk) + [b.chunk] == Upto(b.chunk + 1);
    }
  }

  /** Flushing keeps every row accounted for and the chunk numbering consecutive. */
  lemma FlushKeeps(job: Job, parts: map<string, Buffer>, writes: seq<Write>, key: string, candles: seq<CanonicalCandle>)
    requires Accounts(job, writes, parts, candles) && Chunked(writes, parts) && Bounded(writes)
    requires |Buf(parts, key).rows| <= MAX_ROWS_PER_PART
    requires FlushPartition(job, parts, writes, key).Ok?
    ensures var (p, w, _) := FlushPartition(job, parts, writes, key).value;
      Accounts(job, w, p, candles) && Chunked(w, p) && Bounded(w)
  {
    hide KeyOf;
    if key in parts && |parts[key].rows| > 0 {
      var b := parts[key];
      var p := parts[key := Buffer([], b.chunk + 1)];
      var w := writes + [Write(key, b.chunk, b.rows)];
      assert FlushPartition(job, parts, writes, key).value == (p, w, |b.rows|);
      forall k ensures WrittenFor(w, k) + Buf(p, k).rows == RowsFor(job, candles, k)
        && ChunksFor(w, k) == Upto(Buf(p, k).chunk)
      {
        FlushOne(parts, writes, key, k);
      }
    }
  }

  /** A flush appends at most one part file, of the flushed partition's rows, under a fresh chunk number. */
  lemma FlushAppends(job: Job, parts: map<string, Buffer>, writes: seq<Write>, key: string)
    requires Distinct(writes, parts)
    requires FlushPartition(job, parts, writes, key).Ok?
    ensures var (p, w, _) := FlushPartition(job, parts, writes, key).value;
      Distinct(w, p) && |w| >= |writes| && w[..|writes|] == writes
      && forall i :: |writes| <= i < |w| ==> w[i].rows == Buf(parts, key).rows
  {
    if key in parts && |parts[key].rows| > 0 {
      var b := parts[key];
      var w := writes + [Write(key, b.chunk, b.rows)];
      assert w[..|writes|] == writes;
    }
  }

  /** All the invariants of the buffered writer. */
  ghost predicate Writer(job: Job, writes: seq<Write>, parts: map<string, Buffer>, candles: seq<CanonicalCandle>) {
    && Accounts(job, writes, parts, candles) && Chunked(writes, parts) && Bounded(writes) && Distinct(writes, parts)
    && (forall i :: 0 <= i < |writes| ==> AllEncodable(writes[i].rows, job.canonicalScale))
    && (forall k :: |Buf(parts, k).rows| <= MAX_ROWS_PER_PART)
  }

  /** A successful flush keeps the writer's invariants. */
  lemma FlushWriter(job: Job, parts: map<string, Buffer>, writes: seq<Write>, key: string, candles: seq<CanonicalCandle>)
    requires Writer(job, writes, parts, candles)
    requires FlushPartition(job, parts, writes, key).Ok?
    ensures var (p, w, _) := FlushPartition(job, parts, writes, key).value;
      Writer(job, w, p, candles) && |w| >= |writes| && w[..|writes|] == writes
      && Buf(p, key).rows == [] && (forall k :: k != key ==> Buf(p, k) == Buf(parts, k)) && p.Keys == parts.Keys
  {
    FlushKeeps(job, parts, writes, key, candles);
    FlushAppends(job, parts, writes, key);
    var (p, w, _) := FlushPartition(job, parts, writes, key).value;
    forall i | 0 <= i < |w| ensures AllEncodable(w[i].rows, job.canonicalScale) {
      if i < |writes| {
        assert w[i] == w[..|writes|][i];
      }
    }
  }

  lemma PrefixOfPrefix<T>(a: seq<T>, b: seq<T>, c: seq<T>)
    requires |b| >= |a| && b[..|a|] == a && |c| >= |b| && c[..|b|] == b
    ensures c[..|a|] == a
  {
    assert c[..|b|][..|a|] == c[..|a|];
  }

  /** Adding a row to the buffer of its partition `key` accounts for it in every partition `k`. */
  lemma PushOne(job: Job, writes: seq<Write>, parts: map<string, Buffer>, candles: seq<CanonicalCandle>, c: CanonicalCandle, key: string, k: string)
    requires key == KeyOf(job, c)
    requires WrittenFor(writes, k) + Buf(parts, k).rows == RowsFor(job, candles, k)
    ensures var p := parts[key := Buffer(Buf(parts, key).rows + [c], Buf(parts, key).chunk)];
      WrittenFor(writes, k) + Buf(p, k).rows == RowsFor(job, candles + [c], k)
  {
    RowsSnoc(job, candles, c, k);
    PushBuffers(parts, key, c);
    hide *;
  }

  /** Adding a row to its partition's buffer accounts for it. */
  lemma PushKeeps(job: Job, writes: seq<Write>, parts: map<string, Buffer>, candles: seq<CanonicalCandle>, c: CanonicalCandle)
    requires Accounts(job, writes, parts, candles) && Chunked(writes, parts) && Distinct(writes, parts)
    ensures var key := KeyOf(job, c);
      var p := parts[key := Buffer(Buf(parts, key).rows + [c], Buf(parts, key).chunk)];
      Accounts(job, writes, p, candles + [c]) && Chunked(writes, p) && Distinct(writes, p)
  {
    hide KeyOf;
    var key := KeyOf(job, c);
    var p := parts[key := Buffer(Buf(parts, key).rows + [c], Buf(parts, key).chunk)];
    forall k ensures WrittenFor(writes, k) + Buf(p, k).rows == RowsFor(job, candles + [c], k) {
      PushOne(job, writes, parts, candles, c, key, k);
    }
    assert forall k :: Buf(p, k).chunk == Buf(parts, k).chunk;
  }

  /**
   * Part way through flushing everything: the partitions still to visit are
   * as they were, and the visited ones are empty and were encodable.
   */
  ghost predicate Progress(job: Job, parts: map<string, Buffer>, p: map<string, Buffer>, todo: set<string>) {
    && todo <= parts.Keys && p.Keys == parts.Keys
    && (forall k :: k in todo ==> Buf(p, k) == Buf(parts, k))
    && (forall k :: k in parts && k !in todo ==> p[k].rows == [] && AllEncodable(parts[k].rows, job.canonicalScale))
  }

  lemma ProgressStep(job: Job, parts: map<string, Buffer>, p: map<string, Buffer>, w: seq<Write>, todo: set<string>, key: string)
    requires Progress(job, parts, p, todo) && key in todo
    requires FlushPartition(job, p, w, key).Ok?
    ensures Progress(job, parts, FlushPartition(job, p, w, key).value.0, todo - {key})
  {
  }

  lemma ProgressFails(job: Job, parts: map<string, Buffer>, p: map<string, Buffer>, w: seq<Write>, todo: set<string>, key: string)
    requires Progress(job, parts, p, todo) && key in todo
    requires FlushPartition(job, p, w, key).Err?
    ensures !forall k :: k in parts ==> AllEncodable(parts[k].rows, job.canonicalScale)
  {
  }

  lemma ProgressStart(job: Job, parts: map<string, Buffer>)
    ensures Progress(job, parts, parts, parts.Keys)
  {
  }

  lemma ProgressDone(job: Job, parts: map<string, Buffer>, p: map<string, Buffer>)
    requires Progress(job, parts, p, {})
    ensures forall k :: Buf(p, k).rows == []
    ensures forall k :: k in parts ==> AllEncodable(parts[k].rows, job.canonicalScale)
  {
  }

  /**
   * `flush_all_partitions`: write every non-empty buffer as its partition's
   * next chunk. The partitions are visited in some order (the source's is
   * the key order of a `BTreeMap`); the first failing write ends the flush.
   */
  method FlushAll(job: Job, parts: map<string, Buffer>, writes: seq<Write>, ghost candles: seq<CanonicalCandle>)
    returns (r: Result<(map<string, Buffer>, seq<Write>), EtlError>)
    requires Writer(job, writes, parts, candles)
    ensures r.Ok? ==> Writer(job, r.value.1, r.value.0, candles)
    ensures r.Ok? ==> forall k :: Buf(r.value.0, k).rows == []
    ensures r.Ok? ==> |r.value.1| >= |writes| && r.value.1[..|writes|] == writes
    ensures r.Ok? <==> forall k :: k in parts ==> AllEncodable(parts[k].rows, job.canonicalScale)
  {
    ProgressStart(job, parts);
    hide *;
    var p, w := parts, writes;
    var todo := parts.Keys;
    while todo != {}
      invariant Progress(job, parts, p, todo)
      invariant Writer(job, w, p, candles)
      invariant |w| >= |writes| && w[..|writes|] == writes
      decreases |todo|
    {
      var key :| key in todo;
      var f := FlushPartition(job, p, w, key);
      if f.Err? {
        ProgressFails(job, parts, p, w, todo, key);
        return Err(f.error);
      }
      ProgressStep(job, parts, p, w, todo, key);
      FlushWriter(job, p, w, key, candles);
      PrefixOfPrefix(writes, w, f.value.1);
      p, w := f.value.0, f.value.1;
      todo := todo - {key};
    }
    ProgressDone(job, parts, p);
    return Ok((p, w));
  }

  /** Record `i` of a file parsed into a candle (`idx` in the source's messages). */
  function Row(job: Job, records: seq<Record>, i: nat): Result<CanonicalCandle, EtlError>
    requires i < |records|
  {
    job.parse(records[i], i)
  }

  predicate AllParse(job: Job, records: seq<Record>) {
    forall i :: 0 <= i < |records| ==> Row(job, records, i).Ok?
  }

  /** What a file normalizes without error: every record parses and every decimal fits its column. */
  predicate Normalizes(job: Job, records: seq<Record>) {
    && AllParse(job, records)
    && forall i :: 0 <= i < |records| ==> Encodable(Row(job, records, i).value, job.canonicalScale)
  }

  /** The candles of a file whose records all parse. */
  function Candles(job: Job, records: seq<Record>): (r: seq<CanonicalCandle>)
    requires AllParse(job, records)
    ensures |r| == |records|
    ensures forall i :: 0 <= i < |records| ==> r[i] == Row(job, records, i).value
  {
    seq(|records|, i requires 0 <= i < |records| => Row(job, records, i).value)
  }

  /** `candles` are the candles of the first `|candles|` records. */
  predicate ParsedAs(job: Job, records: seq<Record>, candles: seq<CanonicalCandle>) {
    |candles| <= |records|
    && forall i :: 0 <= i < |candles| ==> Row(job, records, i).Ok? && candles[i] == Row(job, records, i).value
  }

  /** A partition's rows are rows of the file. */
  lemma {:induction false} RowsForIn(job: Job, candles: seq<CanonicalCandle>, key: string, x: CanonicalCandle)
    requires x in RowsFor(job, candles, key)
    ensures x in candles
    decreases |candles|
  {
    var init := candles[..|candles| - 1];
    var last := candles[|candles| - 1];
    assert candles == init + [last];
    RowsSnoc(job, init, last, key);
    hide RowsFor, KeyOf;
    if x in RowsFor(job, init, key) {
      RowsForIn(job, init, key, x);
      assert x in init;
    }
  }

  /** Every row of the file is among the rows of its own partition. */
  lemma {:induction false} RowsForHas(job: Job, candles: seq<CanonicalCandle>, i: nat)
    requires i < |candles|
    ensures candles[i] in RowsFor(job, candles, KeyOf(job, candles[i]))
    decreases |candles|
  {
    var init := candles[..|candles| - 1];
    var last := candles[|candles| - 1];
    assert candles == init + [last];
    RowsSnoc(job, init, last, KeyOf(job, candles[i]));
    hide RowsFor, KeyOf;
    if i < |init| {
      RowsForHas(job, init, i);
      assert init[i] == candles[i];
    }
  }

  /** A row written to a partition is in one of the part files. */
  lemma {:induction false} WrittenForIn(writes: seq<Write>, key: string, x: CanonicalCandle)
    requires x in WrittenFor(writes, key)
    ensures exists j :: 0 <= j < |writes| && x in writes[j].rows
    decreases |writes|
  {
    var init := writes[..|writes| - 1];
    if x in WrittenFor(init, key) {
      WrittenForIn(init, key, x);
      var j :| 0 <= j < |init| && x in init[j].rows;
      assert writes[j] == init[j];
    } else {
      assert x in writes[|writes| - 1].rows;
    }
  }

  /** A buffered row that does not fit its column is one of the file's rows. */
  lemma FlushFailure(job: Job, candles: seq<CanonicalCandle>, writes: seq<Write>, parts: map<string, Buffer>, key: string)
    requires Accounts(job, writes, parts, candles)
    requires !AllEncodable(Buf(parts, key).rows, job.canonicalScale)
    ensures exists x :: x in candles && !Encodable(x, job.canonicalScale)
  {
    var j :| 0 <= j < |Buf(parts, key).rows| && !Encodable(Buf(parts, key).rows[j], job.canonicalScale);
    var x := Buf(parts, key).rows[j];
    assert x in WrittenFor(writes, key) + Buf(parts, key).rows;
    RowsForIn(job, candles, key, x);
  }

  /** `FlushFailure` for a flush of every partition. */
  lemma FlushAllFailure(job: Job, candles: seq<CanonicalCandle>, writes: seq<Write>, parts: map<string, Buffer>)
    requires Accounts(job, writes, parts, candles)
    requires !forall k :: k in parts ==> AllEncodable(parts[k].rows, job.canonicalScale)
    ensures exists x :: x in candles && !Encodable(x, job.canonicalScale)
  {
    var k :| k in parts && !AllEncodable(parts[k].rows, job.canonicalScale);
    FlushFailure(job, candles, writes, parts, k);
  }

  /** A parsed row that does not fit its column means the file does not normalize. */
  lemma NotNormalizes(job: Job, records: seq<Record>, candles: seq<CanonicalCandle>)
    requires ParsedAs(job, records, candles)
    requires exists x :: x in candles && !Encodable(x, job.canonicalScale)
    ensures !Normalizes(job, records)
  {
    var x :| x in candles && !Encodable(x, job.canonicalScale);
    var i :| 0 <= i < |candles| && candles[i] == x;
  }

  /** Parsing the next record extends the parsed candles. */
  lemma ParsedSnoc(job: Job, records: seq<Record>, candles: seq<CanonicalCandle>)
    requires ParsedAs(job, records, candles) && |candles| < |records| && Row(job, records, |candles|).Ok?
    ensures ParsedAs(job, records, candles + [Row(job, records, |candles|).value])
  {
  }

  /** When every row has been written, and only encodable rows are written, the file normalizes. */
  lemma WrittenAll(job: Job, records: seq<Record>, writes: seq<Write>)
    requires AllParse(job, records)
    requires forall key :: WrittenFor(writes, key) == RowsFor(job, Candles(job, records), key)
    requires forall j :: 0 <= j < |writes| ==> AllEncodable(writes[j].rows, job.canonicalScale)
    ensures Normalizes(job, records)
  {
    var candles := Candles(job, records);
    forall i | 0 <= i < |records| ensures Encodable(Row(job, records, i).value, job.canonicalScale) {
      RowsForHas(job, candles, i);
      WrittenForIn(writes, KeyOf(job, candles[i]), candles[i]);
      var j :| 0 <= j < |writes| && candles[i] in writes[j].rows;
      var k :| 0 <= k < |writes[j].rows| && writes[j].rows[k] == candles[i];
    }
  }

  /** Buffering a row keeps the writer's invariants while no buffer is full. */
  lemma PushWriter(job: Job, writes: seq<Write>, parts: map<string, Buffer>, candles: seq<CanonicalCandle>, c: CanonicalCandle)
    requires Writer(job, writes, parts, candles)
    requires forall k :: |Buf(parts, k).rows| < MAX_ROWS_PER_PART
    ensures var key := KeyOf(job, c);
      var p := parts[key := Buffer(Buf(parts, key).rows + [c], Buf(parts, key).chunk)];
      Writer(job, writes, p, candles + [c])
  {
    PushKeeps(job, writes, parts, candles, c);
  }

  /**
   * One record's buffering in `normalize_file`: add the candle to its
   * partition, write that partition out once it holds `MAX_ROWS_PER_PART`
   * rows, and write every partition out once `MAX_TOTAL_BUFFERED_ROWS` rows
   * are pending. `total` is the count of pending rows the source keeps.
   */
  method BufferRow(job: Job, parts: map<string, Buffer>, writes: seq<Write>, total: nat, c: CanonicalCandle, ghost candles: seq<CanonicalCandle>)
    returns (r: Result<(map<string, Buffer>, seq<Write>, nat), EtlError>)
    requires Writer(job, writes, parts, candles)
    requires forall k :: |Buf(parts, k).rows| < MAX_ROWS_PER_PART
    ensures r.Ok? ==> Writer(job, r.value.1, r.value.0, candles + [c])
    ensures r.Ok? ==> forall k :: |Buf(r.value.0, k).rows| < MAX_ROWS_PER_PART
    ensures r.Err? ==> exists x :: x in candles + [c] && !Encodable(x, job.canonicalScale)
  {
    PushWriter(job, writes, parts, candles, c);
    var key := KeyOf(job, c);
    var b := Buf(parts, key);
    var p := parts[key := Buffer(b.rows + [c], b.chunk)];
    PushBuffers(parts, key, c);
    hide *;
    var w := writes;
    var n: nat := total + 1;
    if |b.rows| + 1 >= MAX_ROWS_PER_PART {
      var f := FlushPartition(job, p, w, key);
      if f.Err? {
        WriterAccounts(job, w, p, candles + [c]);
        FlushFailure(job, candles + [c], w, p, key);
        return Err(f.error);
      }
      FlushWriter(job, p, w, key, candles + [c]);
      p, w := f.value.0, f.value.1;
      n := if n >= f.value.2 then n - f.value.2 else 0;
    }
    if n >= MAX_TOTAL_BUFFERED_ROWS {
      var all := FlushAll(job, p, w, candles + [c]);
      if all.Err? {
        WriterAccounts(job, w, p, candles + [c]);
        FlushAllFailure(job, candles + [c], w, p);
        return Err(all.error);
      }
      p, w := all.value.0, all.value.1;
      // every buffer is now empty, so the recomputed total is zero
      n := 0;
    }
    return Ok((p, w, n));
  }

  lemma WriterAccounts(job: Job, writes: seq<Write>, parts: map<string, Buffer>, candles: seq<CanonicalCandle>)
    requires Writer(job, writes, parts, candles)
    ensures Accounts(job, writes, parts, candles)
  {
  }

  /** Adding a row to one buffer leaves the others as they were. */
  lemma PushBuffers(parts: map<string, Buffer>, key: string, c: CanonicalCandle)
    ensures var p := parts[key := Buffer(Buf(parts, key).rows + [c], Buf(parts, key).chunk)];
      Buf(p, key).rows == Buf(parts, key).rows + [c] && forall k :: k != key ==> Buf(p, k) == Buf(parts, k)
  {
  }

  /**
   * `normalize_file` on the records of one file: parse each record and
   * buffer its candle (`BufferRow`), then write what remains at the end.
   * The result counts the rows; `writes` lists the part files in the order
   * they were written.
   */
  method NormalizeFile(job: Job, records: seq<Record>) returns (r: Result<nat, EtlError>, writes: seq<Write>)
    ensures r.Ok? <==> Normalizes(job, records)
    ensures r.Ok? ==> r.value == |records|
    ensures r.Ok? ==> (AllParse(job, records)
      && forall key :: WrittenFor(writes, key) == RowsFor(job, Candles(job, records), key))
    ensures r.Ok? ==> forall key :: ChunksFor(writes, key) == Upto(|ChunksFor(writes, key)|)
    ensures r.Ok? ==> forall i :: 0 <= i < |writes| ==> 0 < |writes[i].rows| <= MAX_ROWS_PER_PART
    ensures r.Ok? ==> forall i, j :: 0 <= i < j < |writes| ==>
      writes[i].partition != writes[j].partition || writes[i].chunk != writes[j].chunk
  {
    StartFile(job, records);
    hide *;
    var parts: map<string, Buffer> := map[];
    var total: nat := 0;
    writes := [];
    ghost var candles: seq<CanonicalCandle> := [];
    var idx := 0;
    while idx < |records|
      invariant idx <= |records| && |candles| == idx && ParsedAs(job, records, candles)
      invariant Writer(job, writes, parts, candles)
      invariant forall k :: |Buf(parts, k).rows| < MAX_ROWS_PER_PART
    {
      var row := Row(job, records, idx);
      if row.Err? {
        ParsedFails(job, records, idx);
        return Err(row.error), writes;
      }
      ParsedSnoc(job, records, candles);
      var step := BufferRow(job, parts, writes, total, row.value, candles);
      candles := candles + [row.value];
      if step.Err? {
        NotNormalizes(job, records, candles);
        return Err(step.error), writes;
      }
      parts, writes, total := step.value.0, step.value.1, step.value.2;
      idx := idx + 1;
    }
    var all := FlushAll(job, parts, writes, candles);
    if all.Err? {
      WriterAccounts(job, writes, parts, candles);
      FlushAllFailure(job, candles, writes, parts);
      NotNormalizes(job, records, candles);
      return Err(all.error), writes;
    }
    parts, writes := all.value.0, all.value.1;
    FinishFile(job, records, candles, writes, parts);
    return Ok(idx), writes;
  }

  /** Nothing parsed, nothing buffered and nothing written is where a file starts. */
  lemma StartFile(job: Job, records: seq<Record>)
    ensures ParsedAs(job, records, [])
    ensures Writer(job, [], map[], [])
    ensures forall k :: |Buf(map[], k).rows| < MAX_ROWS_PER_PART
  {
  }

  /** A record that does not parse means the file does not normalize. */
  lemma ParsedFails(job: Job, records: seq<Record>, i: nat)
    requires i < |records| && Row(job, records, i).Err?
    ensures !Normalizes(job, records)
  {
  }

  /** With every record parsed and every buffer written out, the writes are the whole file, partition by partition. */
  lemma FinishFile(job: Job, records: seq<Record>, candles: seq<CanonicalCandle>, writes: seq<Write>, parts: map<string, Buffer>)
    requires ParsedAs(job, records, candles) && |candles| == |records|
    requires Writer(job, writes, parts, candles)
    requires forall k :: Buf(parts, k).rows == []
    ensures Normalizes(job, records)
    ensures AllParse(job, records) && forall key :: WrittenFor(writes, key) == RowsFor(job, Candles(job, records), key)
    ensures forall key :: ChunksFor(writes, key) == Upto(|ChunksFor(writes, key)|)
    ensures forall i :: 0 <= i < |writes| ==> 0 < |writes[i].rows| <= MAX_ROWS_PER_PART
    ensures forall i, j :: 0 <= i < j < |writes| ==>
      writes[i].partition != writes[j].partition || writes[i].chunk != writes[j].chunk
  {
    assert candles == Candles(job, records);
    forall key ensures WrittenFor(writes, key) == RowsFor(job, candles, key) {
      assert WrittenFor(writes, key) + Buf(parts, key).rows == RowsFor(job, candles, key);
      assert WrittenFor(writes, key) + [] == WrittenFor(writes, key);
    }
    WrittenAll(job, records, writes);
    DistinctFiles(writes, parts);
  }

  /** Increasing chunk numbers per partition mean no partition gets the same chunk twice. */
  lemma DistinctFiles(writes: seq<Write>, parts: map<string, Buffer>)
    requires Distinct(writes, parts) && Chunked(writes, parts)
    ensures forall key :: ChunksFor(writes, key) == Upto(|ChunksFor(writes, key)|)
    ensures forall i, j :: 0 <= i < j < |writes| ==>
      writes[i].partition != writes[j].partition || writes[i].chunk != writes[j].chunk
  {
    forall i, j | 0 <= i < j < |writes| && writes[i].partition == writes[j].partition
      ensures writes[i].chunk != writes[j].chunk
    {
    }
  }

  /** The number of records over all files. */
  function TotalRows(files: seq<seq<Record>>): nat
    decreases |files|
  {
    if |files| == 0 then 0 else TotalRows(files[..|files| - 1]) + |files[|files| - 1]|
  }

  lemma TotalRowsSnoc(files: seq<seq<Record>>, i: nat)
    requires i < |files|
    ensures TotalRows(files[..i + 1]) == TotalRows(files[..i]) + |files[i]|
  {
    assert files[..i + 1][..i] == files[..i];
  }

  /**
   * `run` over the matched source files, in their sorted order: no file is
   * an error; otherwise the `i`-th file is normalized with source number
   * `i`, and the run succeeds with the total row count exactly when every
   * file normalizes. (The source normalizes the files in parallel and
   * reports one of the failures; which one is not modelled.)
   */
  method Run(mapping: MappingConfig, symbol: string, parsers: Parsers, partitioning: Partitioning,
             civil: int -> Date, canonicalScale: nat, files: seq<seq<Record>>)
    returns (r: Result<nat, EtlError>)
    ensures |files| == 0 ==> r == Err(NoSources)
    ensures r.Ok? <==> |files| > 0 && forall i :: 0 <= i < |files| ==>
      Normalizes(ForFile(mapping, symbol, parsers, partitioning, civil, i, canonicalScale), files[i])
    ensures r.Ok? ==> r.value == TotalRows(files)
  {
    if |files| == 0 {
      return Err(NoSources);
    }
    assert files[..0] == [];
    hide *;
    var total := 0;
    var i := 0;
    while i < |files|
      invariant i <= |files| && total == TotalRows(files[..i])
      invariant forall j :: 0 <= j < i ==>
        Normalizes(ForFile(mapping, symbol, parsers, partitioning, civil, j, canonicalScale), files[j])
    {
      var job := ForFile(mapping, symbol, parsers, partitioning, civil, i, canonicalScale);
      var count, _ := NormalizeFile(job, files[i]);
      if count.Err? {
        return Err(count.error);
      }
      TotalRowsSnoc(files, i);
      total := total + count.value;
      i := i + 1;
    }
    assert files[..i] == files;
    return Ok(total);
  }
}

=== FILE: fixed_point.dfy ===
/**
 * `rust_decimal` values as the modelled code uses them, and their conversion
 * to and from the `i128` fixed-point representation of an Arrow
 * `Decimal128` column. A `rust_decimal::Decimal` is a signed 96-bit mantissa
 * with a decimal scale of at most 28.
 */
module FixedPoint {
  import opened Wrappers
  import opened Core

  /** Largest mantissa magnitude of a `rust_decimal::Decimal` (2^96 - 1). */
  const MAX_MANTISSA: int := 0xFFFF_FFFF_FFFF_FFFF_FFFF_FFFF
  const MAX_SCALE: nat := 28

  const I128_MIN: int := -0x8000_0000_0000_0000_0000_0000_0000_0000
  const I128_MAX: int := 0x7FFF_FFFF_FFFF_FFFF_FFFF_FFFF_FFFF_FFFF

  /** A decimal number `mantissa * 10^-scale`. */
  datatype Decimal = Decimal(mantissa: int, scale: nat)

  predicate WellFormed(d: Decimal) {
    -MAX_MANTISSA <= d.mantissa <= MAX_MANTISSA && d.scale <= MAX_SCALE
  }

  /** A decimal `rust_decimal` can represent. */
  type WfDecimal = d: Decimal | WellFormed(d) witness Decimal(0, 0)

  function Value(d: Decimal): real {
    d.mantissa as real / Pow10(d.scale) as real
  }

  lemma {:induction false} Pow10Add(a: nat, b: nat)
    ensures Pow10(a + b) == Pow10(a) * Pow10(b)
  {
    if a > 0 {
      Pow10Add(a - 1, b);
    }
  }

  /** `m * a == (m / b) * c` over the reals when `c == a * b`. */
  lemma ScaleGen(m: int, a: nat, b: nat, c: nat)
    requires b > 0 && c == a * b
    ensures (m * a) as real == (m as real / b as real) * c as real
  {
    assert c as real == a as real * b as real;
    calc {
      (m as real / b as real) * c as real;
      (m as real / b as real) * (a as real * b as real);
      ((m as real / b as real) * b as real) * a as real;
      m as real * a as real;
    }
  }

  /** Scaling a mantissa from `s` up to `n` places keeps the value. */
  lemma ScaleUp(m: int, s: nat, n: nat)
    requires s <= n
    ensures (m * Pow10(n - s)) as real == (m as real / Pow10(s) as real) * Pow10(n) as real
  {
    hide *;
    var k := n - s;
    Pow10Add(k, s);
    assert k + s == n;
    ScaleGen(m, Pow10(k), Pow10(s), Pow10(n));
  }

  /**
   * `n / d` for `n >= 0`, rounded to the nearest integer with ties going to
   * the even neighbour.
   */
  function HalfEvenQuotient(n: nat, d: nat): (q: nat)
    requires d > 0
    ensures 2 * (q * d - n) <= d && 2 * (n - q * d) <= d
    ensures 2 * (q * d - n) == d || 2 * (n - q * d) == d ==> q % 2 == 0
  {
    var q0 := n / d;
    var rem := n % d;
    assert n == q0 * d + rem;
    assert (q0 + 1) * d == q0 * d + d;
    if 2 * rem > d then q0 + 1
    else if 2 * rem < d then q0
    else if q0 % 2 == 0 then q0 else q0 + 1
  }

  /**
   * `round_dp(dp)` for a decimal with more than `dp` places: the mantissa is
   * divided by 10^(scale - dp) with banker's rounding, symmetrically in sign.
   */
  function RoundDp(d: Decimal, dp: nat): (r: Decimal)
    requires d.scale > dp
    ensures r.scale == dp
    ensures var unit := Pow10(d.scale - dp);
      2 * (r.mantissa * unit - d.mantissa) <= unit && 2 * (d.mantissa - r.mantissa * unit) <= unit
    ensures var unit := Pow10(d.scale - dp);
      2 * (r.mantissa * unit - d.mantissa) == unit || 2 * (d.mantissa - r.mantissa * unit) == unit ==>
        r.mantissa % 2 == 0
  {
    var unit := Pow10(d.scale - dp);
    if d.mantissa >= 0 then Decimal(HalfEvenQuotient(d.mantissa, unit), dp)
    else
      var q := HalfEvenQuotient(-d.mantissa, unit);
      assert (0 - q) * unit == 0 - q * unit;
      Decimal(0 - q, dp)
  }

  /** The rounded mantissa never grows in magnitude beyond the original's. */
  lemma RoundDpBounded(d: Decimal, dp: nat)
    requires d.scale > dp && WellFormed(d)
    ensures WellFormed(RoundDp(d, dp))
  {
    var unit := Pow10(d.scale - dp);
    assert unit >= 10 by {
      assert d.scale - dp >= 1;
      Pow10Add(1, d.scale - dp - 1);
    }
    var m := RoundDp(d, dp).mantissa;
    if d.mantissa >= 0 {
      QuotientBound(m, unit, d.mantissa);
    } else {
      QuotientBound(-m, unit, -d.mantissa);
    }
  }

  /** A quotient rounded from `n <= MAX_MANTISSA` by a unit of at least 10 stays within range. */
  lemma QuotientBound(m: int, unit: int, n: int)
    requires unit >= 10 && 0 <= n <= MAX_MANTISSA
    requires 2 * (m * unit - n) <= unit
    ensures m <= MAX_MANTISSA
  {
  }

  /** Whether `v` fits in an `i128` (`checked_mul` succeeds). */
  predicate FitsI128(v: int) {
    I128_MIN <= v <= I128_MAX
  }

  /**
   * Reading `rm` at `n` places (`f = 10^n`) differs from `dm` at `n + k` places
   * (`unit = 10^k`) by at most half of 10^-n when `rm` is `dm / unit` rounded to nearest.
   */
  lemma RoundingError(rm: int, dm: int, unit: nat, f: nat)
    requires unit > 0 && f > 0
    requires 2 * (rm * unit - dm) <= unit && 2 * (dm - rm * unit) <= unit
    ensures var back := rm as real / f as real;
      var value := dm as real / (f * unit) as real;
      2.0 * (back - value) * f as real <= 1.0 && 2.0 * (value - back) * f as real <= 1.0
  {
    var x, y, u, ff := rm as real, dm as real, unit as real, f as real;
    assert (f * unit) as real == ff * u;
    assert (rm * unit) as real == x * u;
    ShiftedDifference(x, y, ff, u);
    HalfUnit(x * u - y, u);
    HalfUnit(y - x * u, u);
  }

  /** `(x / f - y / (f * u)) * f == (x * u - y) / u`. */
  lemma ShiftedDifference(x: real, y: real, f: real, u: real)
    requires f > 0.0 && u > 0.0
    ensures (x / f - y / (f * u)) * f == (x * u - y) / u
    ensures (y / (f * u) - x / f) * f == (y - x * u) / u
  {
    assert (x / f) * f == x;
    assert (y / (f * u)) * f == y / u;
    assert x == (x * u) / u;
  }

  /** A quantity at most half a positive unit is at most half when measured in that unit. */
  lemma HalfUnit(a: real, u: real)
    requires u > 0.0 && 2.0 * a <= u
    ensures 2.0 * (a / u) <= 1.0
  {
    assert 2.0 * (a / u) == (2.0 * a) / u;
  }

  lemma {:induction false} Pow10Monotone(a: nat, b: nat)
    requires a <= b
    ensures Pow10(a) <= Pow10(b)
    decreases b
  {
    if a < b {
      Pow10Monotone(a, b - 1);
    }
  }

  /** Scaling a mantissa from its own scale up to `target` places keeps the value. */
  lemma ScaleUpValue(d: Decimal, target: nat)
    requires d.scale <= target
    ensures (d.mantissa * Pow10(target - d.scale)) as real == Value(d) * Pow10(target) as real
  {
    ScaleUp(d.mantissa, d.scale, target);
  }

  /** `m.checked_mul(10i128.checked_pow(k))`. */
  function ScaleMantissa(m: int, k: nat): (r: Option<int>)
    ensures r.Some? <==> FitsI128(Pow10(k)) && FitsI128(m * Pow10(k))
    ensures r.Some? ==> r.value == m * Pow10(k)
  {
    var factor := Pow10(k);
    if FitsI128(factor) && FitsI128(m * factor) then Some(m * factor) else None
  }

  /**
   * The `decimal_to_i128` conversion to a column of `target` places: round
   * half-even to `target` places when there are more, then multiply the
   * mantissa by `10^(target - scale)`; `None` when the power or the product
   * leaves the `i128` range (`checked_pow`, `checked_mul`).
   */
  function Rescale(d: Decimal, target: nat): (r: Option<int>)
    requires WellFormed(d)
    ensures r.Some? ==> FitsI128(r.value)
  {
    if d.scale > target then ScaleMantissa(RoundDp(d, target).mantissa, 0)
    else ScaleMantissa(d.mantissa, target - d.scale)
  }

  /** With no more than `target` places the conversion is exact, and fails only on overflow. */
  lemma RescaleExact(d: Decimal, target: nat)
    requires WellFormed(d) && d.scale <= target
    ensures Rescale(d, target).Some? <==>
      FitsI128(Pow10(target - d.scale)) && FitsI128(d.mantissa * Pow10(target - d.scale))
    ensures Rescale(d, target).Some? ==> Rescale(d, target).value as real == Value(d) * Pow10(target) as real
  {
    ScaleUpValue(d, target);
  }

  /** With more than `target` places the conversion always succeeds, rounded to the nearest unit. */
  lemma RescaleRounded(d: Decimal, target: nat)
    requires WellFormed(d) && d.scale > target
    ensures Rescale(d, target).Some?
    ensures -MAX_MANTISSA <= Rescale(d, target).value <= MAX_MANTISSA
    ensures var v, unit := Rescale(d, target).value, Pow10(d.scale - target);
      2 * (v * unit - d.mantissa) <= unit && 2 * (d.mantissa - v * unit) <= unit
    ensures var v, unit := Rescale(d, target).value, Pow10(d.scale - target);
      2 * (v * unit - d.mantissa) == unit || 2 * (d.mantissa - v * unit) == unit ==> v % 2 == 0
  {
    RoundDpBounded(d, target);
    var m := RoundDp(d, target).mantissa;
    assert Pow10(0) == 1;
    assert m * Pow10(0) == m;
  }

  /** Both cases of the conversion at once. */
  lemma RescaleCases(d: Decimal, target: nat)
    requires WellFormed(d)
    ensures d.scale <= target && Rescale(d, target).Some? ==>
      Rescale(d, target).value as real == Value(d) * Pow10(target) as real
    ensures d.scale > target ==> Rescale(d, target).Some?
    ensures d.scale > target ==>
      var v, unit := Rescale(d, target).value, Pow10(d.scale - target);
      && 2 * (v * unit - d.mantissa) <= unit && 2 * (d.mantissa - v * unit) <= unit
      && (2 * (v * unit - d.mantissa) == unit || 2 * (d.mantissa - v * unit) == unit ==> v % 2 == 0)
  {
    if d.scale <= target {
      RescaleExact(d, target);
    } else {
      RescaleRounded(d, target);
    }
  }

  /**
   * `Decimal::from_i128_with_scale`: `None` where the library panics, that
   * is when the value needs more than 96 bits or the scale exceeds 28.
   */
  function FromI128WithScale(v: int, scale: nat): (r: Option<Decimal>)
    ensures r.None? <==> !(-MAX_MANTISSA <= v <= MAX_MANTISSA) || scale > MAX_SCALE
    ensures r.Some? ==> WellFormed(r.value) && Value(r.value) * Pow10(scale) as real == v as real
    ensures r.Some? ==> r.value.scale == scale && r.value.mantissa == v
  {
    if -MAX_MANTISSA <= v <= MAX_MANTISSA && scale <= MAX_SCALE then
      var p := Pow10(scale) as real;
      assert (v as real / p) * p == v as real;
      Some(Decimal(v, scale))
    else None
  }

  /**
   * A decimal with at most `target` places converts and reads back as the
   * same number whenever the stored integer stays within 96 bits.
   */
  lemma RescaleRoundTrip(d: Decimal, target: nat)
    requires WellFormed(d) && d.scale <= target <= MAX_SCALE
    requires Rescale(d, target).Some? && -MAX_MANTISSA <= Rescale(d, target).value <= MAX_MANTISSA
    ensures FromI128WithScale(Rescale(d, target).value, target).Some?
    ensures Value(FromI128WithScale(Rescale(d, target).value, target).value) == Value(d)
  {
    var k := target - d.scale;
    var v := Rescale(d, target).value;
    assert v == d.mantissa * Pow10(k);
    assert FromI128WithScale(v, target) == Some(Decimal(v, target));
    Pow10Add(k, d.scale);
    MulAssoc(d.mantissa, Pow10(k), Pow10(d.scale));
    EqualValue(Decimal(v, target), d);
  }

  lemma MulAssoc(a: int, b: int, c: int)
    ensures (a * b) * c == a * (b * c)
  {
  }

  /** Two decimals whose mantissas agree once brought to a common scale have the same value. */
  lemma EqualValue(a: Decimal, b: Decimal)
    requires a.mantissa * Pow10(b.scale) == b.mantissa * Pow10(a.scale)
    ensures Value(a) == Value(b)
  {
    var pa, pb := Pow10(a.scale), Pow10(b.scale);
    assert (a.mantissa * pb) as real == a.mantissa as real * pb as real;
    assert (b.mantissa * pa) as real == b.mantissa as real * pa as real;
    CrossDivide(a.mantissa as real, b.mantissa as real, pa as real, pb as real);
  }

  /** `x / p == y / q` when `x * q == y * p` and both divisors are positive. */
  lemma CrossDivide(x: real, y: real, p: real, q: real)
    requires p > 0.0 && q > 0.0 && x * q == y * p
    ensures x / p == y / q
  {
    assert x / p == (x * q) / (p * q);
    assert y / q == (y * p) / (p * q);
  }
}

=== FILE: indicator_atr.dfy ===
/**
 * The average true range of `tesser-indicators/src/indicators/atr.rs`: each
 * candle's true range against the previous close (its own close for the
 * first candle), averaged over `period` candles and then smoothed with
 * Wilder's step.
 */
module AtrIndicator {
  import opened Wrappers
  import opened Core
  import opened IndicatorCore

  datatype Atr = Atr(period: Period, prevClose: Option<real>, atr: Option<real>, warmupSum: real, warmupCount: nat)

  /** The warm-up count stays below the period until the average is set. */
  predicate Valid(a: Atr) {
    a.atr.None? ==> a.warmupCount < a.period
  }

  function Init(period: Period): (a: Atr)
    ensures Valid(a) && a.prevClose.None? && a.atr.None?
  {
    Atr(period, None, None, 0.0, 0)
  }

  /** `Atr::new`: a zero period is rejected. */
  function New(period: nat): (r: Result<Atr, IndicatorError>)
    ensures r.Err? <==> period == 0
    ensures r.Ok? ==> r.value == Init(period) && r.value.period == period
  {
    if period == 0 then Err(InvalidPeriod("ATR", period)) else Ok(Init(period))
  }

  /**
   * `true_range`: the largest of the candle's own range and its distances
   * from the previous close. It is never negative, and when the previous
   * close lies within an ordered candle it is just the candle's range.
   */
  function TrueRange(c: Candle, prevClose: real): (r: real)
    ensures r >= c.high - c.low && r >= Abs(c.high - prevClose) && r >= Abs(c.low - prevClose)
    ensures r == c.high - c.low || r == Abs(c.high - prevClose) || r == Abs(c.low - prevClose)
    ensures r >= 0.0
    ensures c.low <= prevClose <= c.high ==> r == c.high - c.low
  {
    MaxReal(MaxReal(c.high - c.low, Abs(c.high - prevClose)), Abs(c.low - prevClose))
  }

  /**
   * `next`: the true range against the previous close, or against the
   * candle's own close for the first one. Ranges are summed until `period`
   * of them are in, which seeds the average; after that each range is
   * folded in with Wilder's step.
   */
  function Next(a: Atr, c: Candle): (r: (Atr, Option<real>))
    ensures r.0.period == a.period
    ensures r.0.prevClose == Some(c.close)
    ensures Valid(a) ==> Valid(r.0)
    ensures r.1.Some? ==> r.0.atr == r.1
    ensures a.atr.Some? ==> r.1.Some?
    ensures a.atr.None? ==> (r.1.Some? <==> a.warmupCount + 1 == a.period)
  {
    var tr := TrueRange(c, a.prevClose.GetOr(c.close));
    var a1 := a.(prevClose := Some(c.close));
    if a.atr.Some? then
      var next := WilderStep(a.atr.value, tr, a.period);
      (a1.(atr := Some(next)), Some(next))
    else
      var sum := a.warmupSum + tr;
      var count := a.warmupCount + 1;
      if count == a.period then
        var init := sum / a.period as real;
        (a1.(atr := Some(init), warmupSum := 0.0, warmupCount := count), Some(init))
      else
        (a1.(warmupSum := sum, warmupCount := count), None)
  }

  /** `reset`: every field but the period returns to its initial value. */
  function Reset(a: Atr): (r: Atr)
    ensures r == Init(a.period)
  {
    a.(prevClose := None, atr := None, warmupSum := 0.0, warmupCount := 0)
  }

  /** The true range of each candle, the first measured against its own close. */
  function TrueRanges(candles: seq<Candle>): (r: seq<real>)
    ensures |r| == |candles|
    ensures |r| > 0 ==> r[0] == TrueRange(candles[0], candles[0].close)
    ensures forall i :: 0 < i < |r| ==> r[i] == TrueRange(candles[i], candles[i - 1].close)
    ensures forall i :: 0 <= i < |r| ==> r[i] >= 0.0
    decreases |candles|
  {
    if |candles| == 0 then []
    else
      var front := candles[..|candles| - 1];
      var c := candles[|candles| - 1];
      TrueRanges(front) + [TrueRange(c, if |front| == 0 then c.close else front[|front| - 1].close)]
  }

  /** The reference: Wilder's average of the true ranges. */
  function AtrOf(candles: seq<Candle>, period: Period): (r: Option<real>)
    ensures r.Some? <==> |candles| >= period
    ensures r.Some? ==> r.value >= 0.0
  {
    var ranges := TrueRanges(candles);
    if |ranges| >= period then
      assert forall i :: 0 <= i < |ranges| ==> ranges[i] in ranges;
      WilderOfBounded(ranges, period, 0.0, MaxOf(ranges).value);
      WilderOf(ranges, period)
    else None
  }

  /** The reference is Wilder's average of the true ranges. */
  lemma AtrOfIs(candles: seq<Candle>, period: Period)
    ensures AtrOf(candles, period) == WilderOf(TrueRanges(candles), period)
  {
  }

  /** What the state holds after any candles, against the reference. */
  predicate Tracks(a: Atr, candles: seq<Candle>) {
    && Valid(a)
    && a.prevClose == (if |candles| == 0 then None else Some(candles[|candles| - 1].close))
    && a.atr == WilderOf(TrueRanges(candles), a.period)
    && (|candles| < a.period ==> a.warmupCount == |candles| && a.warmupSum == Sum(TrueRanges(candles)))
  }

  lemma StepTracks(prev: Atr, before: seq<Candle>, c: Candle)
    requires Tracks(prev, before)
    ensures Tracks(Next(prev, c).0, before + [c])
    ensures Next(prev, c).1 == AtrOf(before + [c], prev.period)
  {
    if |before| + 1 < prev.period {
      StepWarming(prev, before, c);
    } else if |before| + 1 == prev.period {
      StepSeeding(prev, before, c);
    } else {
      StepSmoothing(prev, before, c);
    }
  }

  /** Before the period is reached the range joins the warm-up sum. */
  lemma StepWarming(prev: Atr, before: seq<Candle>, c: Candle)
    requires Tracks(prev, before) && |before| + 1 < prev.period
    ensures Tracks(Next(prev, c).0, before + [c])
  {
    hide TrueRanges, TrueRange, Sum, Next, WilderStep, WilderOf;
    var tr := TrueRange(c, prev.prevClose.GetOr(c.close));
    RangesSnoc(before, c, prev.prevClose.GetOr(c.close));
    SumSnoc(TrueRanges(before), tr);
    NextWarming(prev, c);
  }

  /** A warm-up step only moves the sum and the count on. */
  lemma NextWarming(a: Atr, c: Candle)
    requires a.atr.None? && a.warmupCount + 1 < a.period
    ensures Next(a, c).0 == a.(prevClose := Some(c.close),
                               warmupSum := a.warmupSum + TrueRange(c, a.prevClose.GetOr(c.close)),
                               warmupCount := a.warmupCount + 1)
  {
  }

  /** The range that completes the period seeds the average with the mean. */
  lemma StepSeeding(prev: Atr, before: seq<Candle>, c: Candle)
    requires Tracks(prev, before) && |before| + 1 == prev.period
    ensures Tracks(Next(prev, c).0, before + [c])
    ensures Next(prev, c).1 == AtrOf(before + [c], prev.period)
  {
    hide TrueRanges, TrueRange, Sum, WilderOf, AtrOf, WilderStep;
    var tr := TrueRange(c, prev.prevClose.GetOr(c.close));
    RangesSnoc(before, c, prev.prevClose.GetOr(c.close));
    SumSnoc(TrueRanges(before), tr);
    WilderOfSeed(TrueRanges(before + [c]), prev.period);
    AtrOfIs(before + [c], prev.period);
  }

  /** Past the period each range is folded in with Wilder's step. */
  lemma StepSmoothing(prev: Atr, before: seq<Candle>, c: Candle)
    requires Tracks(prev, before) && |before| + 1 > prev.period
    ensures Tracks(Next(prev, c).0, before + [c])
    ensures Next(prev, c).1 == AtrOf(before + [c], prev.period)
  {
    var tr := TrueRange(c, prev.prevClose.GetOr(c.close));
    RangesSnoc(before, c, prev.prevClose.GetOr(c.close));
    var ranges := TrueRanges(before + [c]);
    assert ranges[..|ranges| - 1] == TrueRanges(before);
    assert WilderOf(ranges, prev.period) == Some(WilderStep(prev.atr.value, tr, prev.period));
  }

  /** One more candle adds its true range against the close before it. */
  lemma RangesSnoc(before: seq<Candle>, c: Candle, prevClose: real)
    requires prevClose == (if |before| == 0 then c.close else before[|before| - 1].close)
    ensures TrueRanges(before + [c]) == TrueRanges(before) + [TrueRange(c, prevClose)]
  {
    assert (before + [c])[..|before|] == before;
  }

  lemma {:induction false} RunTracks(period: Period, candles: seq<Candle>)
    ensures var a := Run(Next, Init(period), candles).0;
      a.period == period && Tracks(a, candles)
    decreases |candles|
  {
    if |candles| == 0 {
      assert Run(Next, Init(period), candles).0 == Init(period);
    } else {
      var before := candles[..|candles| - 1];
      var c := candles[|candles| - 1];
      var prev := Run(Next, Init(period), before).0;
      assert prev.period == period && Tracks(prev, before) by {
        RunTracks(period, before);
      }
      assert before + [c] == candles;
      assert Run(Next, Init(period), candles).0 == Next(prev, c).0 by {
        RunSnoc(Next, Init(period), before, c);
      }
      StepTracks(prev, before, c);
    }
  }

  /**
   * Every answer is the reference value: nothing for the first
   * `period - 1` candles, the mean true range at the `period`-th, Wilder's
   * average after; so every answer is non-negative.
   */
  lemma Outputs(period: Period, candles: seq<Candle>, c: Candle)
    ensures Next(Run(Next, Init(period), candles).0, c).1 == AtrOf(candles + [c], period)
  {
    RunTracks(period, candles);
    StepTracks(Run(Next, Init(period), candles).0, candles, c);
  }
}

=== FILE: indicator_bollinger.dfy ===
/**
 * The Bollinger bands of `tesser-indicators/src/indicators/bollinger.rs`: a
 * rolling window of `period` inputs with its running sum and sum of
 * squares; the middle band is the window's mean and the outer bands lie
 * `multiplier` standard deviations either side. The decimal square root is
 * a parameter (`root`), answering `None` where the library gives up.
 */
module BollingerIndicator {
  import opened Wrappers
  import opened IndicatorCore

  datatype Bands = Bands(upper: real, middle: real, lower: real)

  datatype Bollinger = Bollinger(
    period: Period,
    multiplier: real,
    root: real -> Option<real>,
    sum: real,
    sumOfSquares: real,
    window: seq<real>)

  function SumSquares(s: seq<real>): real
    decreases |s|
  {
    if |s| == 0 then 0.0 else SumSquares(s[..|s| - 1]) + s[|s| - 1] * s[|s| - 1]
  }

  /** The sum of squares taken from the front: what is left after dropping the oldest value. */
  lemma {:induction false} SumSquaresFront(s: seq<real>)
    requires |s| > 0
    ensures SumSquares(s) == s[0] * s[0] + SumSquares(s[1..])
    decreases |s|
  {
    if |s| > 1 {
      SumSquaresFront(s[..|s| - 1]);
      assert s[..|s| - 1][1..] == s[1..][..|s| - 2];
    }
  }

  /** The running totals are the window's and the window never exceeds the period. */
  predicate Valid(b: Bollinger) {
    && |b.window| <= b.period
    && b.sum == Sum(b.window)
    && b.sumOfSquares == SumSquares(b.window)
  }

  function Init(period: Period, multiplier: real, root: real -> Option<real>): (b: Bollinger)
    ensures Valid(b) && b.window == []
  {
    Bollinger(period, multiplier, root, 0.0, 0.0, [])
  }

  /** `BollingerBands::new`: a zero period, then a negative multiplier, is rejected. */
  function New(period: nat, multiplier: real, root: real -> Option<real>): (r: Result<Bollinger, IndicatorError>)
    ensures r.Ok? <==> period > 0 && multiplier >= 0.0
    ensures period == 0 ==> r == Err(InvalidPeriod("BollingerBands", 0))
    ensures period > 0 && multiplier < 0.0 ==> r == Err(InvalidParameter("BollingerBands", "std_multiplier", multiplier))
    ensures r.Ok? ==> r.value == Init(period, multiplier, root)
  {
    if period == 0 then Err(InvalidPeriod("BollingerBands", period))
    else if multiplier < 0.0 then Err(InvalidParameter("BollingerBands", "std_multiplier", multiplier))
    else Ok(Init(period, multiplier, root))
  }

  /** The sum of squared distances of the values from `m`. */
  function SquaredDeviation(s: seq<real>, m: real): real
    decreases |s|
  {
    if |s| == 0 then 0.0
    else SquaredDeviation(s[..|s| - 1], m) + (s[|s| - 1] - m) * (s[|s| - 1] - m)
  }

  lemma {:induction false} DeviationNonNegative(s: seq<real>, m: real)
    ensures SquaredDeviation(s, m) >= 0.0
    decreases |s|
  {
    if |s| > 0 {
      DeviationNonNegative(s[..|s| - 1], m);
      var d := s[|s| - 1] - m;
      assert d * d >= 0.0;
    }
  }

  /** The textbook population variance: the mean squared distance from the mean. */
  function Variance(s: seq<real>): real
    requires |s| > 0
  {
    SquaredDeviation(s, Mean(s)) / |s| as real
  }

  lemma VarianceNonNegative(s: seq<real>)
    requires |s| > 0
    ensures Variance(s) >= 0.0
  {
    var v := SquaredDeviation(s, Mean(s));
    DeviationNonNegative(s, Mean(s));
    assert v / |s| as real * |s| as real == v;
  }

  /** The variance by the running-sum formula: mean of squares less the square of the mean. */
  function TotalsVariance(sum: real, squares: real, n: real): real
    requires n > 0.0
  {
    squares / n - (sum / n) * (sum / n)
  }

  /** The three totals one value back. */
  lemma UnfoldTotals(s: seq<real>, m: real)
    requires |s| > 0
    ensures var front, x := s[..|s| - 1], s[|s| - 1];
      && SquaredDeviation(s, m) == SquaredDeviation(front, m) + (x - m) * (x - m)
      && SumSquares(s) == SumSquares(front) + x * x
      && Sum(s) == Sum(front) + x
      && |s| as real == |front| as real + 1.0
  {
  }

  /** One value more keeps the expansion. */
  lemma ExpandOnce(s: seq<real>, m: real)
    requires |s| > 0
    requires var front := s[..|s| - 1];
      SquaredDeviation(front, m) == SumSquares(front) - 2.0 * m * Sum(front) + |front| as real * m * m
    ensures SquaredDeviation(s, m) == SumSquares(s) - 2.0 * m * Sum(s) + |s| as real * m * m
  {
    hide *;
    var front := s[..|s| - 1];
    UnfoldTotals(s, m);
    ExpandStep(SquaredDeviation(front, m), SumSquares(front), Sum(front), |front| as real, m, s[|s| - 1],
      SquaredDeviation(s, m), SumSquares(s), Sum(s), |s| as real);
  }

  /** Expanding the squares: the deviation is the sum of squares less twice `m` times the sum plus `|s|` times `m` squared. */
  lemma {:induction false} DeviationExpands(s: seq<real>, m: real)
    ensures SquaredDeviation(s, m) == SumSquares(s) - 2.0 * m * Sum(s) + |s| as real * m * m
    decreases |s|
  {
    if |s| > 0 {
      DeviationExpands(s[..|s| - 1], m);
      ExpandOnce(s, m);
    }
  }

  /** One more term of the expansion. */
  lemma ExpandStep(d: real, ss: real, sm: real, n: real, m: real, x: real, d': real, ss': real, sm': real, n': real)
    requires d == ss - 2.0 * m * sm + n * m * m
    requires d' == d + (x - m) * (x - m) && ss' == ss + x * x && sm' == sm + x && n' == n + 1.0
    ensures d' == ss' - 2.0 * m * sm' + n' * m * m
  {
  }

  /** At a point `m` with `m * n` the sum, the cross term cancels half of the square term, and dividing by `n` gives the running-sum formula. */
  lemma VarianceIdentity(ss: real, sm: real, n: real, m: real, dev: real)
    requires n > 0.0 && m * n == sm
    requires dev == ss - 2.0 * m * sm + n * m * m
    ensures TotalsVariance(sm, ss, n) == dev / n
  {
    assert sm / n == m;
    assert dev == ss - n * m * m;
    assert (ss - n * m * m) / n == ss / n - m * m;
  }

  /** The running-sum formula at any point whose multiple by the count is the sum. */
  lemma DeviationAtBalance(s: seq<real>, m: real)
    requires |s| > 0 && m * |s| as real == Sum(s)
    ensures TotalsVariance(Sum(s), SumSquares(s), |s| as real) == SquaredDeviation(s, m) / |s| as real
  {
    hide *;
    DeviationExpands(s, m);
    VarianceIdentity(SumSquares(s), Sum(s), |s| as real, m, SquaredDeviation(s, m));
  }

  lemma MeanTimesCount(s: seq<real>)
    requires |s| > 0
    ensures Mean(s) * |s| as real == Sum(s)
  {
  }

  /**
   * The running-sum formula is the textbook variance, so with exact
   * arithmetic it is never negative and the clamp to zero never applies.
   */
  lemma RunningVariance(s: seq<real>)
    requires |s| > 0
    ensures TotalsVariance(Sum(s), SumSquares(s), |s| as real) == Variance(s)
  {
    MeanTimesCount(s);
    DeviationAtBalance(s, Mean(s));
  }

  /**
   * `compute_bands` over running totals: the mean, the variance by the
   * running-sum formula clamped at zero, its square root or 0 when there
   * is none, and the bands that far times the multiplier either side.
   */
  function ComputeBands(sum: real, sumOfSquares: real, n: Period, multiplier: real, root: real -> Option<real>): (r: Bands)
    ensures r.middle == sum / n as real
    ensures r.upper - r.middle == r.middle - r.lower
    ensures multiplier >= 0.0 && (forall v :: root(v).Some? ==> root(v).value >= 0.0) ==> r.lower <= r.middle <= r.upper
  {
    var mean := sum / n as real;
    var variance := TotalsVariance(sum, sumOfSquares, n as real);
    var clamped := if variance < 0.0 then 0.0 else variance;
    var deviation := root(clamped).GetOr(0.0);
    var offset := multiplier * deviation;
    assert multiplier >= 0.0 && deviation >= 0.0 ==> offset >= 0.0;
    Bands(mean + offset, mean, mean - offset)
  }

  /**
   * `next`: append the input, drop the oldest once the window is longer
   * than the period, and answer the bands exactly when the window is full.
   */
  function Next(b: Bollinger, x: real): (r: (Bollinger, Option<Bands>))
    ensures r.0.period == b.period && r.0.multiplier == b.multiplier && r.0.root == b.root
    ensures Valid(b) ==> Valid(r.0) && r.0.window == Window(b.window + [x], b.period)
    ensures r.1.Some? <==> |r.0.window| == b.period
  {
    PushKeepsValid(b, x);
    var b' := Push(b, x);
    (b', if |b'.window| == b.period then Some(ComputeBands(b'.sum, b'.sumOfSquares, b.period, b.multiplier, b.root)) else None)
  }

  /** The totals after appending one value. */
  lemma AppendTotals(w: seq<real>, x: real)
    ensures Sum(w + [x]) == Sum(w) + x && SumSquares(w + [x]) == SumSquares(w) + x * x
  {
    assert (w + [x])[..|w|] == w;
  }

  /** The totals after dropping the oldest value. */
  lemma DropTotals(w: seq<real>)
    requires |w| > 0
    ensures Sum(w[1..]) == Sum(w) - w[0] && SumSquares(w[1..]) == SumSquares(w) - w[0] * w[0]
  {
    SumFront(w);
    SumSquaresFront(w);
  }

  /** The state half of `next`: the input appended to the window and the totals, the oldest dropped past the period. */
  function Push(b: Bollinger, x: real): (r: Bollinger)
    ensures r.period == b.period && r.multiplier == b.multiplier && r.root == b.root
  {
    var window := b.window + [x];
    var sum := b.sum + x;
    var squares := b.sumOfSquares + x * x;
    if |window| > b.period then b.(sum := sum - window[0], sumOfSquares := squares - window[0] * window[0], window := window[1..])
    else b.(sum := sum, sumOfSquares := squares, window := window)
  }

  /** Pushing keeps the totals those of the window, which is the last `period` inputs. */
  lemma PushKeepsValid(b: Bollinger, x: real)
    ensures Valid(b) ==> Valid(Push(b, x)) && Push(b, x).window == Window(b.window + [x], b.period)
  {
    if Valid(b) {
      var window := b.window + [x];
      AppendTotals(b.window, x);
      if |window| > b.period {
        DropTotals(window);
      }
      hide Sum, SumSquares;
    }
  }

  /** `reset`: the totals and window are cleared, which is the fresh state again. */
  function Reset(b: Bollinger): (r: Bollinger)
    ensures r == Init(b.period, b.multiplier, b.root)
  {
    b.(sum := 0.0, sumOfSquares := 0.0, window := [])
  }

  /** The reference bands of a full window: its mean, and the textbook deviation times the multiplier either side. */
  function BandsOf(window: seq<real>, multiplier: real, root: real -> Option<real>): Bands
    requires |window| > 0
  {
    var m := Mean(window);
    var offset := multiplier * root(Variance(window)).GetOr(0.0);
    Bands(m + offset, m, m - offset)
  }

  /** The reference series: nothing before `period` inputs, then the bands of the last `period`. */
  function BollingerOf(inputs: seq<real>, period: Period, multiplier: real, root: real -> Option<real>): (r: Option<Bands>)
    ensures r.Some? <==> |inputs| >= period
  {
    if |inputs| >= period then Some(BandsOf(Window(inputs, period), multiplier, root)) else None
  }

  /** The running totals of a full window give the reference bands. */
  lemma FullWindowBands(b: Bollinger)
    requires Valid(b) && |b.window| == b.period
    ensures ComputeBands(b.sum, b.sumOfSquares, b.period, b.multiplier, b.root) == BandsOf(b.window, b.multiplier, b.root)
  {
    RunningVariance(b.window);
    VarianceNonNegative(b.window);
  }

  /** After any inputs, the state holds exactly the last `period` of them. */
  lemma {:induction false} RunWindow(period: Period, multiplier: real, root: real -> Option<real>, inputs: seq<real>)
    ensures var b := Run(Next, Init(period, multiplier, root), inputs).0;
      Valid(b) && b.period == period && b.multiplier == multiplier && b.root == root && b.window == Window(inputs, period)
    decreases |inputs|
  {
    var start := Init(period, multiplier, root);
    if |inputs| == 0 {
      assert Run(Next, start, inputs).0 == start;
    } else {
      var before := inputs[..|inputs| - 1];
      var x := inputs[|inputs| - 1];
      var prev := Run(Next, start, before).0;
      assert Valid(prev) && prev.period == period && prev.multiplier == multiplier && prev.root == root
        && prev.window == Window(before, period) by {
        RunWindow(period, multiplier, root, before);
      }
      assert before + [x] == inputs;
      assert Run(Next, start, inputs).0 == Next(prev, x).0 by {
        RunSnoc(Next, start, before, x);
      }
      WindowSnoc(before, x, period);
    }
  }

  /**
   * Every answer is the reference: nothing until `period` inputs, then the
   * mean of the last `period` and the bands the textbook deviation away.
   */
  lemma Outputs(period: Period, multiplier: real, root: real -> Option<real>, inputs: seq<real>, x: real)
    ensures Next(Run(Next, Init(period, multiplier, root), inputs).0, x).1 == BollingerOf(inputs + [x], period, multiplier, root)
  {
    var b := Run(Next, Init(period, multiplier, root), inputs).0;
    RunWindow(period, multiplier, root, inputs);
    WindowSnoc(inputs, x, period);
    var r := Next(b, x);
    if |r.0.window| == period {
      FullWindowBands(r.0);
    }
  }

  /** Period 2 over 1 and 3: the middle band is 2, and the bands sit the root of the variance 1 either side. */
  lemma Example(root: real -> Option<real>)
    ensures BollingerOf([1.0, 3.0], 2, 1.0, root).value.middle == 2.0
    ensures BollingerOf([1.0, 3.0], 2, 1.0, root).value.upper == 2.0 + root(1.0).GetOr(0.0)
  {
    var w := [1.0, 3.0];
    assert Window(w, 2) == w;
    assert w[..1] == [1.0] && [1.0][..0] == [];
    assert Sum(w) == 4.0;
    assert Mean(w) == 2.0;
    assert SquaredDeviation(w, 2.0) == 2.0;
    assert Variance(w) == 1.0;
  }
}

=== FILE: indicator_core.dfy ===
/**
 * What the indicators of `tesser-indicators` share: a positive period, the
 * construction error, sums, means and trailing windows over exact decimals,
 * and `Run`, which drives any indicator's `next` over a series of inputs.
 * An indicator is a pure step function from its state and one input to
 * its next state and an optional output.
 */
module IndicatorCore {
  import opened Wrappers

  /** A lookback period; the constructors reject 0. */
  type Period = p: nat | p > 0 witness 1

  datatype IndicatorError =
    | InvalidPeriod(indicator: string, period: nat)
    | InvalidParameter(indicator: string, parameter: string, value: real)

  function Sum(s: seq<real>): real
    decreases |s|
  {
    if |s| == 0 then 0.0 else Sum(s[..|s| - 1]) + s[|s| - 1]
  }

  /** Appending a value adds it to the sum. */
  lemma SumSnoc(s: seq<real>, x: real)
    ensures Sum(s + [x]) == Sum(s) + x
  {
    assert (s + [x])[..|s|] == s;
  }

  /** The sum taken from the front: what is left after dropping the oldest value. */
  lemma {:induction false} SumFront(s: seq<real>)
    requires |s| > 0
    ensures Sum(s) == s[0] + Sum(s[1..])
    decreases |s|
  {
    if |s| > 1 {
      SumFront(s[..|s| - 1]);
      assert s[..|s| - 1][1..] == s[1..][..|s| - 2];
    }
  }

  /** A sum of values within `[lo, hi]` lies within `|s|` times those bounds. */
  lemma {:induction false} SumBounds(s: seq<real>, lo: real, hi: real)
    requires forall i :: 0 <= i < |s| ==> lo <= s[i] <= hi
    ensures |s| as real * lo <= Sum(s) <= |s| as real * hi
    decreases |s|
  {
    if |s| > 0 {
      var n := (|s| - 1) as real;
      SumBounds(s[..|s| - 1], lo, hi);
      assert n * lo + lo <= Sum(s) <= n * hi + hi;
      assert (n + 1.0) * lo == n * lo + lo && (n + 1.0) * hi == n * hi + hi;
    }
  }

  /** The mean of values within `[lo, hi]` lies within `[lo, hi]`. */
  lemma MeanBounds(s: seq<real>, lo: real, hi: real)
    requires |s| > 0
    requires forall i :: 0 <= i < |s| ==> lo <= s[i] <= hi
    ensures lo <= Sum(s) / |s| as real <= hi
  {
    SumBounds(s, lo, hi);
    var n := |s| as real;
    assert Sum(s) / n * n == Sum(s);
  }

  function Mean(s: seq<real>): real
    requires |s| > 0
  {
    Sum(s) / |s| as real
  }

  /** The last `n` elements, or all of them when there are fewer. */
  function Window<T>(s: seq<T>, n: nat): (r: seq<T>)
    ensures |r| == if |s| <= n then |s| else n
    ensures r == s[|s| - |r|..]
  {
    if |s| <= n then s else s[|s| - n..]
  }

  /** The window after one more value is the previous window with it appended, trimmed again. */
  lemma WindowSnoc<T>(s: seq<T>, x: T, n: nat)
    ensures Window(s + [x], n) == Window(Window(s, n) + [x], n)
  {
    var t := s + [x];
    if |s| > n {
      assert Window(s, n) + [x] == t[|t| - n - 1..];
    }
  }

  /**
   * Feed `inputs` one by one through `next` starting from `s`: the final
   * state and the outputs produced, in order (`None`s dropped).
   */
  function Run<S, I, O>(next: (S, I) -> (S, Option<O>), s: S, inputs: seq<I>): (r: (S, seq<O>))
    ensures |r.1| <= |inputs|
    decreases |inputs|
  {
    if |inputs| == 0 then (s, [])
    else
      var before := Run(next, s, inputs[..|inputs| - 1]);
      var (s', out) := next(before.0, inputs[|inputs| - 1]);
      (s', before.1 + (if out.Some? then [out.value] else []))
  }

  /** Running over one more input is one more step after the run. */
  lemma RunSnoc<S, I, O>(next: (S, I) -> (S, Option<O>), s: S, inputs: seq<I>, x: I)
    ensures var before := Run(next, s, inputs);
      var step := next(before.0, x);
      Run(next, s, inputs + [x]) == (step.0, before.1 + (if step.1.Some? then [step.1.value] else []))
  {
    assert (inputs + [x])[..|inputs|] == inputs;
  }

  /** Dividing by at least one moves a value toward zero without crossing it. */
  lemma DivShrinks(d: real, n: real)
    requires n >= 1.0
    ensures d >= 0.0 ==> 0.0 <= d / n <= d
    ensures d <= 0.0 ==> d <= d / n <= 0.0
  {
    var q := d / n;
    assert q * n == d;
    assert d - q == q * (n - 1.0);
  }

  /**
   * Wilder's smoothing step, shared by RSI and ATR: the previous average
   * weighted `period - 1` against one new value.
   */
  function WilderStep(prev: real, x: real, period: Period): (r: real)
    ensures period == 1 ==> r == x
    ensures prev <= x ==> prev <= r <= x
    ensures x <= prev ==> x <= r <= prev
  {
    WilderStepMoves(prev, x, period);
    (prev * (period - 1) as real + x) / period as real
  }

  /** The weighted step is the previous average moved a `period`-th of the way toward the new value. */
  lemma WilderStepMoves(prev: real, x: real, period: Period)
    ensures (prev * (period - 1) as real + x) / period as real == prev + (x - prev) / period as real
    ensures period == 1 ==> (x - prev) / period as real == x - prev
    ensures x - prev >= 0.0 ==> 0.0 <= (x - prev) / period as real <= x - prev
    ensures x - prev <= 0.0 ==> x - prev <= (x - prev) / period as real <= 0.0
  {
    var w := (period - 1) as real;
    var n := period as real;
    DivShrinks(x - prev, n);
    assert prev * w + x == prev * n + (x - prev);
    assert (prev * n + (x - prev)) / n == prev + (x - prev) / n;
  }

  /**
   * Wilder's average of a series: none before `period` values, their mean
   * at the `period`-th, then one `WilderStep` per further value.
   */
  function WilderOf(s: seq<real>, period: Period): (r: Option<real>)
    ensures r.Some? <==> |s| >= period
    decreases |s|
  {
    if |s| < period then None
    else if |s| == period then Some(Sum(s) / period as real)
    else Some(WilderStep(WilderOf(s[..|s| - 1], period).value, s[|s| - 1], period))
  }

  /** With exactly `period` values the average is their mean. */
  lemma WilderOfSeed(s: seq<real>, period: Period)
    requires |s| == period
    ensures WilderOf(s, period) == Some(Sum(s) / period as real)
  {
  }

  /** Values within `[lo, hi]` have a Wilder average within `[lo, hi]`. */
  lemma {:induction false} WilderOfBounded(s: seq<real>, period: Period, lo: real, hi: real)
    requires |s| >= period
    requires forall i :: 0 <= i < |s| ==> lo <= s[i] <= hi
    ensures lo <= WilderOf(s, period).value <= hi
    decreases |s|
  {
    if |s| == period {
      MeanBounds(s, lo, hi);
    } else {
      var front := s[..|s| - 1];
      assert forall i :: 0 <= i < |front| ==> lo <= front[i] <= hi;
      WilderOfBounded(front, period, lo, hi);
      var prev := WilderOf(front, period).value;
      assert lo <= s[|s| - 1] <= hi;
      assert WilderOf(s, period).value == WilderStep(prev, s[|s| - 1], period);
    }
  }

  /** The largest value (`reduce(Decimal::max)`), absent for an empty sequence. */
  function MaxOf(s: seq<real>): (r: Option<real>)
    ensures r.None? <==> |s| == 0
    ensures r.Some? ==> r.value in s && forall x :: x in s ==> x <= r.value
    decreases |s|
  {
    if |s| == 0 then None
    else if |s| == 1 then Some(s[0])
    else
      var m := MaxOf(s[..|s| - 1]).value;
      assert s == s[..|s| - 1] + [s[|s| - 1]];
      Some(if m >= s[|s| - 1] then m else s[|s| - 1])
  }

  /** The smallest value (`reduce(Decimal::min)`), absent for an empty sequence. */
  function MinOf(s: seq<real>): (r: Option<real>)
    ensures r.None? <==> |s| == 0
    ensures r.Some? ==> r.value in s && forall x :: x in s ==> r.value <= x
    decreases |s|
  {
    if |s| == 0 then None
    else if |s| == 1 then Some(s[0])
    else
      var m := MinOf(s[..|s| - 1]).value;
      assert s == s[..|s| - 1] + [s[|s| - 1]];
      Some(if m <= s[|s| - 1] then m else s[|s| - 1])
  }
}

=== FILE: indicator_ema.dfy ===
/**
 * The exponential moving average of `tesser-indicators/src/indicators/ema.rs`:
 * seeded with the simple mean of the first `period` inputs, then smoothed
 * with `alpha = 2 / (period + 1)`.
 */
module EmaIndicator {
  import opened Wrappers
  import opened IndicatorCore

  datatype Ema = Ema(period: Period, alpha: real, state: Option<real>, warmupSum: real, warmupCount: nat)

  function Alpha(period: Period): (a: real)
    ensures 0.0 < a <= 1.0
  {
    2.0 / (period + 1) as real
  }

  /** The smoothing factor belongs to the period, and the warm-up is cleared once seeded. */
  predicate Valid(e: Ema) {
    && e.alpha == Alpha(e.period)
    && e.warmupCount < e.period
    && (e.state.Some? ==> e.warmupSum == 0.0 && e.warmupCount == 0)
  }

  function Init(period: Period): (e: Ema)
    ensures Valid(e) && e.state.None? && e.warmupCount == 0
  {
    Ema(period, Alpha(period), None, 0.0, 0)
  }

  /** `Ema::new`: a zero period is rejected. */
  function New(period: nat): (r: Result<Ema, IndicatorError>)
    ensures r.Err? <==> period == 0
    ensures r.Ok? ==> r.value == Init(period) && r.value.period == period
  {
    if period == 0 then Err(InvalidPeriod("EMA", period)) else Ok(Init(period))
  }

  /**
   * `next`: while unseeded, accumulate; the `period`-th input seeds the
   * average with the mean so far. Once seeded, move toward the input by
   * `alpha` of the distance.
   */
  function Next(e: Ema, x: real): (r: (Ema, Option<real>))
    ensures r.0.period == e.period
    ensures Valid(e) ==> Valid(r.0)
    ensures r.1.Some? ==> r.0.state == r.1
    ensures e.state.Some? ==> r.1.Some?
    ensures Valid(e) && e.state.None? ==> (r.1.Some? <==> e.warmupCount + 1 == e.period)
  {
    if e.state.None? then
      var sum := e.warmupSum + x;
      var count := e.warmupCount + 1;
      if count == e.period then
        var average := sum / e.period as real;
        (e.(state := Some(average), warmupSum := 0.0, warmupCount := 0), Some(average))
      else
        (e.(warmupSum := sum, warmupCount := count), None)
    else
      var current := e.state.value;
      var next := Smooth(current, x, e.alpha);
      (e.(state := Some(next)), Some(next))
  }

  /** `value`: the current average, if seeded. */
  function Value(e: Ema): Option<real> {
    e.state
  }

  /** `reset`: state and warm-up cleared, which is the fresh state again. */
  function Reset(e: Ema): (r: Ema)
    ensures r.period == e.period && r.state.None? && r.warmupCount == 0
    ensures Valid(e) ==> r == Init(e.period)
  {
    e.(state := None, warmupSum := 0.0, warmupCount := 0)
  }

  /** One smoothing step: move from `prev` toward `x` by `alpha` of the distance. */
  function Smooth(prev: real, x: real, alpha: real): (r: real)
    ensures 0.0 <= alpha <= 1.0 && prev <= x ==> prev <= r <= x
    ensures 0.0 <= alpha <= 1.0 && x <= prev ==> x <= r <= prev
    ensures alpha == 1.0 ==> r == x
  {
    var d := x - prev;
    assert 0.0 <= alpha <= 1.0 && d >= 0.0 ==> 0.0 <= d * alpha <= d;
    assert 0.0 <= alpha <= 1.0 && d <= 0.0 ==> d <= d * alpha <= 0.0;
    d * alpha + prev
  }

  /**
   * The reference: nothing before `period` inputs, the mean of the first
   * `period`, then each input pulls the previous value by `alpha`.
   */
  function EmaOf(inputs: seq<real>, period: Period): (r: Option<real>)
    ensures r.Some? <==> |inputs| >= period
    decreases |inputs|
  {
    if |inputs| < period then None
    else if |inputs| == period then Some(Sum(inputs) / period as real)
    else Some(Smooth(EmaOf(inputs[..|inputs| - 1], period).value, inputs[|inputs| - 1], Alpha(period)))
  }

  /** What the state holds after any inputs: the reference value, and the warm-up sum and count before seeding. */
  predicate Tracks(e: Ema, inputs: seq<real>) {
    && Valid(e)
    && e.state == EmaOf(inputs, e.period)
    && (|inputs| < e.period ==> e.warmupSum == Sum(inputs) && e.warmupCount == |inputs|)
  }

  lemma StepTracks(prev: Ema, before: seq<real>, x: real)
    requires Tracks(prev, before)
    ensures Tracks(Next(prev, x).0, before + [x])
    ensures Next(prev, x).1 == EmaOf(before + [x], prev.period)
  {
    var inputs := before + [x];
    assert inputs[..|inputs| - 1] == before;
    if |before| + 1 < prev.period {
      assert Sum(inputs) == Sum(before) + x;
    } else if |before| + 1 == prev.period {
      assert Sum(inputs) == Sum(before) + x;
      assert EmaOf(inputs, prev.period) == Some(Sum(inputs) / prev.period as real);
    } else {
      assert prev.state.Some?;
      var p := prev.period;
      assert |inputs| > p && inputs[|inputs| - 1] == x;
      assert EmaOf(inputs[..|inputs| - 1], p) == prev.state;
      assert EmaOf(inputs, p) == Some(Smooth(prev.state.value, x, Alpha(p)));
    }
  }

  lemma {:induction false} RunTracks(period: Period, inputs: seq<real>)
    ensures var e := Run(Next, Init(period), inputs).0;
      e.period == period && Tracks(e, inputs)
    decreases |inputs|
  {
    if |inputs| == 0 {
      assert Run(Next, Init(period), inputs).0 == Init(period);
    } else {
      var before := inputs[..|inputs| - 1];
      var x := inputs[|inputs| - 1];
      var prev := Run(Next, Init(period), before).0;
      assert prev.period == period && Tracks(prev, before) by {
        RunTracks(period, before);
      }
      assert before + [x] == inputs;
      assert Run(Next, Init(period), inputs).0 == Next(prev, x).0 by {
        RunSnoc(Next, Init(period), before, x);
      }
      StepTracks(prev, before, x);
    }
  }

  /**
   * Every answer is the reference value: none for the first `period - 1`
   * inputs, their mean at the `period`-th, the smoothed value after.
   */
  lemma Outputs(period: Period, inputs: seq<real>, x: real)
    ensures Next(Run(Next, Init(period), inputs).0, x).1 == EmaOf(inputs + [x], period)
  {
    RunTracks(period, inputs);
    var e := Run(Next, Init(period), inputs).0;
    StepTracks(e, inputs, x);
  }

  /** The average never leaves the range of the inputs it has seen. */
  lemma {:induction false} EmaOfBounded(inputs: seq<real>, period: Period, lo: real, hi: real)
    requires |inputs| >= period
    requires forall i :: 0 <= i < |inputs| ==> lo <= inputs[i] <= hi
    ensures lo <= EmaOf(inputs, period).value <= hi
    decreases |inputs|
  {
    if |inputs| == period {
      MeanBounds(inputs, lo, hi);
    } else {
      EmaOfBounded(inputs[..|inputs| - 1], period, lo, hi);
    }
  }

  /** Period 3 over 1, 2, 3 answers 2; alpha is one half, so 4 then answers 3. */
  lemma Example()
    ensures EmaOf([1.0, 2.0, 3.0], 3) == Some(2.0)
    ensures EmaOf([1.0, 2.0, 3.0, 4.0], 3) == Some(3.0)
  {
    assert [1.0, 2.0, 3.0][..2] == [1.0, 2.0];
    assert [1.0, 2.0][..1] == [1.0];
    assert [1.0][..0] == [];
    assert Sum([1.0, 2.0, 3.0]) == 6.0;
    assert [1.0, 2.0, 3.0, 4.0][..3] == [1.0, 2.0, 3.0];
  }
}

=== FILE: indicator_ichimoku.dfy ===
/**
 * The Ichimoku cloud of `tesser-indicators/src/indicators/ichimoku.rs`:
 * three pairs of bounded queues of highs and lows, one pair per period;
 * each line is the midpoint of the highest high and the lowest low over
 * its queue, and nothing is answered until the span B queue is full.
 */
module IchimokuIndicator {
  import opened Wrappers
  import opened Core
  import opened IndicatorCore

  datatype Lines = Lines(conversionLine: real, baseLine: real, spanA: real, spanB: real)

  datatype Ichimoku = Ichimoku(
    conversionPeriod: Period,
    basePeriod: Period,
    spanBPeriod: Period,
    highsConv: seq<real>,
    lowsConv: seq<real>,
    highsBase: seq<real>,
    lowsBase: seq<real>,
    highsSpanB: seq<real>,
    lowsSpanB: seq<real>)

  /** Every queue holds at most its period, and each pair is filled in step. */
  predicate Valid(k: Ichimoku) {
    && |k.highsConv| <= k.conversionPeriod && |k.lowsConv| == |k.highsConv|
    && |k.highsBase| <= k.basePeriod && |k.lowsBase| == |k.highsBase|
    && |k.highsSpanB| <= k.spanBPeriod && |k.lowsSpanB| == |k.highsSpanB|
  }

  function Init(conversion: Period, base: Period, spanB: Period): (k: Ichimoku)
    ensures Valid(k)
  {
    Ichimoku(conversion, base, spanB, [], [], [], [], [], [])
  }

  /** `Ichimoku::new`: each period is checked in turn and a zero one is rejected. */
  function New(conversion: nat, base: nat, spanB: nat): (r: Result<Ichimoku, IndicatorError>)
    ensures r.Ok? <==> conversion > 0 && base > 0 && spanB > 0
    ensures r.Err? ==> r.error == InvalidPeriod("Ichimoku", 0)
    ensures r.Ok? ==> r.value == Init(conversion, base, spanB)
  {
    if conversion == 0 then Err(InvalidPeriod("Ichimoku", conversion))
    else if base == 0 then Err(InvalidPeriod("Ichimoku", base))
    else if spanB == 0 then Err(InvalidPeriod("Ichimoku", spanB))
    else Ok(Init(conversion, base, spanB))
  }

  /** `push_queue`: append, then drop the oldest once over the period; a queue within its period keeps exactly the last `period` values. */
  function PushQueue(queue: seq<real>, period: Period, value: real): (r: seq<real>)
    ensures |queue| <= period ==> r == Window(queue + [value], period)
    ensures |r| > 0 && r[|r| - 1] == value
    ensures |queue| <= period ==> |r| == (if |queue| < period then |queue| + 1 else period)
  {
    var q := queue + [value];
    if |q| > period then q[1..] else q
  }

  /** `midpoint`: halfway between the highest high and the lowest low, absent when either queue is empty. */
  function Midpoint(highs: seq<real>, lows: seq<real>): (r: Option<real>)
    ensures r.Some? <==> |highs| > 0 && |lows| > 0
    ensures r.Some? ==> exists h, l :: (h in highs && l in lows && r.value == (h + l) / 2.0
      && (forall x :: x in highs ==> x <= h) && (forall x :: x in lows ==> l <= x))
  {
    if |highs| == 0 || |lows| == 0 then None
    else
      var h, l := MaxOf(highs).value, MinOf(lows).value;
      assert h in highs && l in lows;
      Some(MidOf(highs, lows))
  }

  /**
   * `next`: push the candle's high and low into every queue, and once the
   * span B queue is full answer each line's midpoint and span A halfway
   * between the conversion and base lines.
   */
  function Next(k: Ichimoku, c: Candle): (r: (Ichimoku, Option<Lines>))
    ensures r.0.conversionPeriod == k.conversionPeriod && r.0.basePeriod == k.basePeriod && r.0.spanBPeriod == k.spanBPeriod
    ensures Valid(k) ==> Valid(r.0)
    ensures Valid(k) ==> (r.1.Some? <==> |r.0.highsSpanB| == k.spanBPeriod)
    ensures r.1.Some? ==> r.1.value.spanA == (r.1.value.conversionLine + r.1.value.baseLine) / 2.0
  {
    var k' := Push(k, c);
    (k', Answer(k'))
  }

  /** The queue half of `next`: the candle's high and low go into every queue. */
  function Push(k: Ichimoku, c: Candle): (r: Ichimoku)
    ensures r.conversionPeriod == k.conversionPeriod && r.basePeriod == k.basePeriod && r.spanBPeriod == k.spanBPeriod
    ensures Valid(k) ==> Valid(r)
    ensures |r.highsConv| > 0 && |r.lowsConv| > 0 && |r.highsBase| > 0 && |r.lowsBase| > 0
    ensures |r.highsSpanB| > 0 && |r.lowsSpanB| > 0
  {
    k.(
      highsConv := PushQueue(k.highsConv, k.conversionPeriod, c.high),
      lowsConv := PushQueue(k.lowsConv, k.conversionPeriod, c.low),
      highsBase := PushQueue(k.highsBase, k.basePeriod, c.high),
      lowsBase := PushQueue(k.lowsBase, k.basePeriod, c.low),
      highsSpanB := PushQueue(k.highsSpanB, k.spanBPeriod, c.high),
      lowsSpanB := PushQueue(k.lowsSpanB, k.spanBPeriod, c.low))
  }

  /** The lines of a state, once its span B queue is full. */
  function Answer(k: Ichimoku): (r: Option<Lines>)
    ensures r.Some? ==> r.value.spanA == (r.value.conversionLine + r.value.baseLine) / 2.0
    ensures r.Some? ==> |k.highsSpanB| >= k.spanBPeriod
    ensures (&& |k.highsSpanB| >= k.spanBPeriod && |k.highsConv| > 0 && |k.lowsConv| > 0
             && |k.highsBase| > 0 && |k.lowsBase| > 0 && |k.lowsSpanB| > 0) ==> r.Some?
  {
    if |k.highsSpanB| < k.spanBPeriod then None
    else
      var conversion := Midpoint(k.highsConv, k.lowsConv);
      var base := Midpoint(k.highsBase, k.lowsBase);
      var spanB := Midpoint(k.highsSpanB, k.lowsSpanB);
      if conversion.None? || base.None? || spanB.None? then None
      else Some(Lines(conversion.value, base.value, (conversion.value + base.value) / 2.0, spanB.value))
  }

  /** `reset`: every queue is emptied, which is the fresh state again. */
  function Reset(k: Ichimoku): (r: Ichimoku)
    ensures r == Init(k.conversionPeriod, k.basePeriod, k.spanBPeriod)
  {
    k.(highsConv := [], lowsConv := [], highsBase := [], lowsBase := [], highsSpanB := [], lowsSpanB := [])
  }

  /** The highs of the candles, in order. */
  function Highs(candles: seq<Candle>): (r: seq<real>)
    ensures |r| == |candles| && forall i :: 0 <= i < |r| ==> r[i] == candles[i].high
  {
    if |candles| == 0 then [] else Highs(candles[..|candles| - 1]) + [candles[|candles| - 1].high]
  }

  /** The lows of the candles, in order. */
  function Lows(candles: seq<Candle>): (r: seq<real>)
    ensures |r| == |candles| && forall i :: 0 <= i < |r| ==> r[i] == candles[i].low
  {
    if |candles| == 0 then [] else Lows(candles[..|candles| - 1]) + [candles[|candles| - 1].low]
  }

  /** After any candles, every queue holds the last `period` highs or lows. */
  predicate Tracks(k: Ichimoku, candles: seq<Candle>) {
    && Valid(k)
    && k.highsConv == Window(Highs(candles), k.conversionPeriod)
    && k.lowsConv == Window(Lows(candles), k.conversionPeriod)
    && k.highsBase == Window(Highs(candles), k.basePeriod)
    && k.lowsBase == Window(Lows(candles), k.basePeriod)
    && k.highsSpanB == Window(Highs(candles), k.spanBPeriod)
    && k.lowsSpanB == Window(Lows(candles), k.spanBPeriod)
  }

  /** The reference: nothing before `spanB` candles, then the midpoints of the trailing windows. */
  function IchimokuOf(candles: seq<Candle>, conversion: Period, base: Period, spanB: Period): (r: Option<Lines>)
    ensures r.Some? <==> |candles| >= spanB
  {
    if |candles| < spanB then None
    else
      var highs, lows := Highs(candles), Lows(candles);
      Some(LinesOf(Window(highs, conversion), Window(lows, conversion), Window(highs, base), Window(lows, base),
        Window(highs, spanB), Window(lows, spanB)))
  }

  /** The four lines from the three pairs of highs and lows. */
  function LinesOf(highsConv: seq<real>, lowsConv: seq<real>, highsBase: seq<real>, lowsBase: seq<real>,
                   highsSpanB: seq<real>, lowsSpanB: seq<real>): Lines
    requires |highsConv| > 0 && |lowsConv| > 0 && |highsBase| > 0 && |lowsBase| > 0
    requires |highsSpanB| > 0 && |lowsSpanB| > 0
  {
    var conversion, base := MidOf(highsConv, lowsConv), MidOf(highsBase, lowsBase);
    Lines(conversion, base, (conversion + base) / 2.0, MidOf(highsSpanB, lowsSpanB))
  }

  /** Halfway between the largest of `highs` and the smallest of `lows`, both non-empty. */
  function MidOf(highs: seq<real>, lows: seq<real>): real
    requires |highs| > 0 && |lows| > 0
  {
    (MaxOf(highs).value + MinOf(lows).value) / 2.0
  }

  lemma StepTracks(prev: Ichimoku, before: seq<Candle>, c: Candle)
    requires Tracks(prev, before)
    ensures Tracks(Push(prev, c), before + [c])
    ensures Tracks(Next(prev, c).0, before + [c])
  {
    var candles := before + [c];
    assert candles[..|candles| - 1] == before;
    WindowSnoc(Highs(before), c.high, prev.conversionPeriod);
    WindowSnoc(Lows(before), c.low, prev.conversionPeriod);
    WindowSnoc(Highs(before), c.high, prev.basePeriod);
    WindowSnoc(Lows(before), c.low, prev.basePeriod);
    WindowSnoc(Highs(before), c.high, prev.spanBPeriod);
    WindowSnoc(Lows(before), c.low, prev.spanBPeriod);
  }

  lemma {:induction false} RunTracks(conversion: Period, base: Period, spanB: Period, candles: seq<Candle>)
    ensures var k := Run(Next, Init(conversion, base, spanB), candles).0;
      && k.conversionPeriod == conversion && k.basePeriod == base && k.spanBPeriod == spanB
      && Tracks(k, candles)
    decreases |candles|
  {
    var start := Init(conversion, base, spanB);
    if |candles| == 0 {
      assert Run(Next, start, candles).0 == start;
    } else {
      var before := candles[..|candles| - 1];
      var c := candles[|candles| - 1];
      assert before + [c] == candles;
      var prev := Run(Next, start, before).0;
      assert prev.conversionPeriod == conversion && prev.basePeriod == base && prev.spanBPeriod == spanB
        && Tracks(prev, before) by {
        RunTracks(conversion, base, spanB, before);
      }
      assert Run(Next, start, candles).0 == Next(prev, c).0 by {
        RunSnoc(Next, start, before, c);
      }
      StepTracks(prev, before, c);
    }
  }

  /** With every queue non-empty and span B's full, the answer is each queue's midpoint. */
  lemma AnswerFull(k: Ichimoku)
    requires |k.highsConv| > 0 && |k.lowsConv| > 0 && |k.highsBase| > 0 && |k.lowsBase| > 0
    requires |k.highsSpanB| > 0 && |k.lowsSpanB| > 0 && |k.highsSpanB| >= k.spanBPeriod
    ensures Answer(k) == Some(LinesOf(k.highsConv, k.lowsConv, k.highsBase, k.lowsBase, k.highsSpanB, k.lowsSpanB))
  {
  }

  /** A state that tracks the candles answers what the reference answers for them. */
  lemma AnswerTracks(k: Ichimoku, candles: seq<Candle>)
    requires Tracks(k, candles) && |candles| > 0
    ensures Answer(k) == IchimokuOf(candles, k.conversionPeriod, k.basePeriod, k.spanBPeriod)
  {
    assert |k.highsConv| > 0 && |k.lowsConv| > 0 && |k.highsBase| > 0 && |k.lowsBase| > 0;
    assert |k.highsSpanB| > 0 && |k.lowsSpanB| > 0;
    if |candles| >= k.spanBPeriod {
      assert |k.highsSpanB| == k.spanBPeriod;
      AnswerFull(k);
    }
  }

  /**
   * Every answer is the reference: nothing until `spanB` candles, then the
   * midpoints of the last `period` highs and lows for each line.
   */
  lemma Outputs(conversion: Period, base: Period, spanB: Period, candles: seq<Candle>, c: Candle)
    ensures Next(Run(Next, Init(conversion, base, spanB), candles).0, c).1 == IchimokuOf(candles + [c], conversion, base, spanB)
  {
    var prev := Run(Next, Init(conversion, base, spanB), candles).0;
    RunTracks(conversion, base, spanB, candles);
    StepTracks(prev, candles, c);
    AnswerTracks(Push(prev, c), candles + [c]);
  }
}

=== FILE: indicator_macd.dfy ===
/**
 * The moving average convergence divergence of
 * `tesser-indicators/src/indicators/macd.rs`: a fast and a slow EMA of the
 * inputs, their difference (the MACD line), an EMA of that difference (the
 * signal line) and the distance between the two (the histogram).
 */
module MacdIndicator {
  import opened Wrappers
  import opened IndicatorCore
  import EmaIndicator

  datatype MacdOutput = MacdOutput(macd: real, signal: real, histogram: real)

  datatype Macd = Macd(fast: EmaIndicator.Ema, slow: EmaIndicator.Ema, signal: EmaIndicator.Ema, lastHistogram: Option<real>)

  function Init(fast: Period, slow: Period, signal: Period): (m: Macd)
    ensures m.fast.period == fast && m.slow.period == slow && m.signal.period == signal
  {
    Macd(EmaIndicator.Init(fast), EmaIndicator.Init(slow), EmaIndicator.Init(signal), None)
  }

  /** `Macd::new`: the fast, slow and signal periods are checked in turn and a zero one is rejected. */
  function New(fast: nat, slow: nat, signal: nat): (r: Result<Macd, IndicatorError>)
    ensures r.Ok? <==> fast > 0 && slow > 0 && signal > 0
    ensures r.Err? ==> r.error == InvalidPeriod("MACD", 0)
    ensures r.Ok? ==> r.value == Init(fast, slow, signal)
  {
    if fast == 0 then Err(InvalidPeriod("MACD", fast))
    else if slow == 0 then Err(InvalidPeriod("MACD", slow))
    else if signal == 0 then Err(InvalidPeriod("MACD", signal))
    else Ok(Init(fast, slow, signal))
  }

  /**
   * `next`: both averages take the input; only when both answer is their
   * difference fed to the signal average, and only when that answers too
   * is there an output, which is also kept as the last histogram.
   */
  function Next(m: Macd, x: real): (r: (Macd, Option<MacdOutput>))
    ensures r.0.fast.period == m.fast.period && r.0.slow.period == m.slow.period && r.0.signal.period == m.signal.period
    ensures r.1.Some? ==> r.1.value.histogram == r.1.value.macd - r.1.value.signal
    ensures r.1.Some? ==> r.0.lastHistogram == Some(r.1.value.histogram)
    ensures r.1.None? ==> r.0.lastHistogram == m.lastHistogram
  {
    Advance(m, EmaIndicator.Next(m.fast, x), EmaIndicator.Next(m.slow, x))
  }

  /** The rest of `next` once the fast and slow averages have taken the input. */
  function Advance(m: Macd, fast: (EmaIndicator.Ema, Option<real>), slow: (EmaIndicator.Ema, Option<real>)): (r: (Macd, Option<MacdOutput>))
    requires fast.0.period == m.fast.period && slow.0.period == m.slow.period
    ensures r.0.fast.period == m.fast.period && r.0.slow.period == m.slow.period && r.0.signal.period == m.signal.period
    ensures r.1.Some? ==> r.1.value.histogram == r.1.value.macd - r.1.value.signal
    ensures r.1.Some? ==> r.0.lastHistogram == Some(r.1.value.histogram)
    ensures r.1.None? ==> r.0.lastHistogram == m.lastHistogram
  {
    if fast.1.Some? && slow.1.Some? then
      var macd := fast.1.value - slow.1.value;
      Signal(m, fast.0, slow.0, macd, EmaIndicator.Next(m.signal, macd))
    else
      (m.(fast := fast.0, slow := slow.0), None)
  }

  /** The end of `next` once the signal average has taken the MACD value: an output exactly when it answers. */
  function Signal(m: Macd, fast: EmaIndicator.Ema, slow: EmaIndicator.Ema, macd: real, signal: (EmaIndicator.Ema, Option<real>))
    : (r: (Macd, Option<MacdOutput>))
    ensures r.1.Some? <==> signal.1.Some?
    ensures r.1.Some? ==> r.1.value == MacdOutput(macd, signal.1.value, macd - signal.1.value)
    ensures r.0 == Macd(fast, slow, signal.0, if r.1.Some? then Some(r.1.value.histogram) else m.lastHistogram)
  {
    if signal.1.Some? then
      var histogram := macd - signal.1.value;
      (Macd(fast, slow, signal.0, Some(histogram)), Some(MacdOutput(macd, signal.1.value, histogram)))
    else
      (Macd(fast, slow, signal.0, m.lastHistogram), None)
  }

  /** `reset`: all three averages and the last histogram are cleared. */
  function Reset(m: Macd): (r: Macd)
    ensures r.fast.period == m.fast.period && r.slow.period == m.slow.period && r.signal.period == m.signal.period
    ensures r.lastHistogram.None?
    ensures EmaIndicator.Valid(m.fast) && EmaIndicator.Valid(m.slow) && EmaIndicator.Valid(m.signal)
      ==> r == Init(m.fast.period, m.slow.period, m.signal.period)
  {
    Macd(EmaIndicator.Reset(m.fast), EmaIndicator.Reset(m.slow), EmaIndicator.Reset(m.signal), None)
  }

  /** The number of inputs before both averages answer. */
  function Warmup(fast: Period, slow: Period): (w: Period)
    ensures w >= fast && w >= slow && (w == fast || w == slow)
  {
    if fast >= slow then fast else slow
  }

  /**
   * The MACD line as the signal average sees it: one difference of the
   * two reference averages for every prefix on which both are defined.
   */
  function MacdSeries(inputs: seq<real>, fast: Period, slow: Period): (r: seq<real>)
    ensures |r| == if |inputs| < Warmup(fast, slow) then 0 else |inputs| - Warmup(fast, slow) + 1
    ensures |inputs| >= Warmup(fast, slow) ==>
      r[|r| - 1] == EmaIndicator.EmaOf(inputs, fast).value - EmaIndicator.EmaOf(inputs, slow).value
    decreases |inputs|
  {
    if |inputs| < Warmup(fast, slow) then []
    else
      MacdSeries(inputs[..|inputs| - 1], fast, slow)
        + [EmaIndicator.EmaOf(inputs, fast).value - EmaIndicator.EmaOf(inputs, slow).value]
  }

  /**
   * The reference: once the signal average over the MACD line answers, the
   * latest difference, the signal and their distance.
   */
  function MacdOf(inputs: seq<real>, fast: Period, slow: Period, signal: Period): (r: Option<MacdOutput>)
    ensures r.Some? <==> |inputs| >= Warmup(fast, slow) + signal - 1
    ensures r.Some? ==> && r.value.macd == EmaIndicator.EmaOf(inputs, fast).value - EmaIndicator.EmaOf(inputs, slow).value
                        && Some(r.value.signal) == EmaIndicator.EmaOf(MacdSeries(inputs, fast, slow), signal)
                        && r.value.histogram == r.value.macd - r.value.signal
  {
    var series := MacdSeries(inputs, fast, slow);
    var signalLine := EmaIndicator.EmaOf(series, signal);
    if signalLine.None? then None
    else
      var macd := series[|series| - 1];
      Some(MacdOutput(macd, signalLine.value, macd - signalLine.value))
  }

  /** The histogram of an output, if any. */
  function HistogramOf(out: Option<MacdOutput>): Option<real> {
    if out.Some? then Some(out.value.histogram) else None
  }

  /** What the state holds after any inputs: each average tracks its inputs, and the last histogram is the reference's. */
  predicate Tracks(m: Macd, inputs: seq<real>) {
    && EmaIndicator.Tracks(m.fast, inputs)
    && EmaIndicator.Tracks(m.slow, inputs)
    && EmaIndicator.Tracks(m.signal, MacdSeries(inputs, m.fast.period, m.slow.period))
    && m.lastHistogram == HistogramOf(MacdOf(inputs, m.fast.period, m.slow.period, m.signal.period))
  }

  lemma StepTracks(prev: Macd, before: seq<real>, x: real)
    requires Tracks(prev, before)
    ensures Tracks(Next(prev, x).0, before + [x])
    ensures Next(prev, x).1 == MacdOf(before + [x], prev.fast.period, prev.slow.period, prev.signal.period)
  {
    var fast, slow := EmaIndicator.Next(prev.fast, x), EmaIndicator.Next(prev.slow, x);
    EmaIndicator.StepTracks(prev.fast, before, x);
    EmaIndicator.StepTracks(prev.slow, before, x);
    AdvanceTracks(prev, before, x, fast, slow);
  }

  /** `Advance` keeps the state tracking its inputs, given averages that took the input. */
  lemma AdvanceTracks(prev: Macd, before: seq<real>, x: real,
                      fast: (EmaIndicator.Ema, Option<real>), slow: (EmaIndicator.Ema, Option<real>))
    requires Tracks(prev, before)
    requires fast.0.period == prev.fast.period && slow.0.period == prev.slow.period
    requires EmaIndicator.Tracks(fast.0, before + [x]) && fast.1 == EmaIndicator.EmaOf(before + [x], fast.0.period)
    requires EmaIndicator.Tracks(slow.0, before + [x]) && slow.1 == EmaIndicator.EmaOf(before + [x], slow.0.period)
    ensures Tracks(Advance(prev, fast, slow).0, before + [x])
    ensures Advance(prev, fast, slow).1 == MacdOf(before + [x], prev.fast.period, prev.slow.period, prev.signal.period)
  {
    var inputs := before + [x];
    var fp, sp, gp := prev.fast.period, prev.slow.period, prev.signal.period;
    if |inputs| >= Warmup(fp, sp) {
      var d := fast.1.value - slow.1.value;
      var series := MacdSeries(before, fp, sp);
      var signal := EmaIndicator.Next(prev.signal, d);
      assert EmaIndicator.Tracks(signal.0, series + [d]) && signal.1 == EmaIndicator.EmaOf(series + [d], gp) by {
        EmaIndicator.StepTracks(prev.signal, series, d);
      }
      assert Advance(prev, fast, slow) == Signal(prev, fast.0, slow.0, d, signal);
      SignalTracks(prev, before, x, fp, sp, gp, fast.0, fast.1.value, slow.0, slow.1.value, signal);
    } else {
      assert fast.1.None? || slow.1.None?;
      assert MacdSeries(inputs, fp, sp) == [] == MacdSeries(before, fp, sp);
      assert MacdOf(inputs, fp, sp, gp).None? && MacdOf(before, fp, sp, gp).None?;
    }
  }

  /** `Signal` keeps the state tracking its inputs, given a signal average that took the MACD value. */
  lemma SignalTracks(prev: Macd, before: seq<real>, x: real, fp: Period, sp: Period, gp: Period,
                     fast: EmaIndicator.Ema, fastOut: real, slow: EmaIndicator.Ema, slowOut: real,
                     signal: (EmaIndicator.Ema, Option<real>))
    requires prev.fast.period == fp && prev.slow.period == sp && prev.signal.period == gp
    requires fast.period == fp && slow.period == sp && signal.0.period == gp
    requires prev.lastHistogram == HistogramOf(MacdOf(before, fp, sp, gp))
    requires |before| + 1 >= Warmup(fp, sp)
    requires EmaIndicator.Tracks(fast, before + [x]) && Some(fastOut) == EmaIndicator.EmaOf(before + [x], fp)
    requires EmaIndicator.Tracks(slow, before + [x]) && Some(slowOut) == EmaIndicator.EmaOf(before + [x], sp)
    requires var series := MacdSeries(before, fp, sp) + [fastOut - slowOut];
      EmaIndicator.Tracks(signal.0, series) && signal.1 == EmaIndicator.EmaOf(series, gp)
    ensures var r := Signal(prev, fast, slow, fastOut - slowOut, signal);
      Tracks(r.0, before + [x]) && r.1 == MacdOf(before + [x], fp, sp, gp)
  {
    var d := fastOut - slowOut;
    assert MacdSeries(before + [x], fp, sp) == MacdSeries(before, fp, sp) + [d] by {
      SeriesSnoc(before, x, fp, sp);
    }
    SignalOutput(before, x, fp, sp, gp, d, signal.1);
  }

  /** The reference after one more input, given the MACD line grew by `d` and the signal average answered `signalOut`. */
  lemma SignalOutput(before: seq<real>, x: real, fp: Period, sp: Period, gp: Period, d: real, signalOut: Option<real>)
    requires |before| + 1 >= Warmup(fp, sp)
    requires MacdSeries(before + [x], fp, sp) == MacdSeries(before, fp, sp) + [d]
    requires signalOut == EmaIndicator.EmaOf(MacdSeries(before + [x], fp, sp), gp)
    ensures signalOut.Some? ==> MacdOf(before + [x], fp, sp, gp) == Some(MacdOutput(d, signalOut.value, d - signalOut.value))
    ensures signalOut.None? ==> MacdOf(before + [x], fp, sp, gp).None? && MacdOf(before, fp, sp, gp).None?
  {
    if signalOut.None? {
      MacdOfShort(before, fp, sp, gp);
    }
  }

  /** The reference is silent while the MACD line is shorter than the signal period. */
  lemma MacdOfShort(inputs: seq<real>, fast: Period, slow: Period, signal: Period)
    requires |MacdSeries(inputs, fast, slow)| < signal
    ensures MacdOf(inputs, fast, slow, signal).None?
  {
  }

  /** One more input past the warm-up adds its difference of the averages to the MACD line. */
  lemma SeriesSnoc(before: seq<real>, x: real, fast: Period, slow: Period)
    requires |before| + 1 >= Warmup(fast, slow)
    ensures MacdSeries(before + [x], fast, slow) == MacdSeries(before, fast, slow)
      + [EmaIndicator.EmaOf(before + [x], fast).value - EmaIndicator.EmaOf(before + [x], slow).value]
  {
    assert (before + [x])[..|before|] == before;
  }

  lemma {:induction false} RunTracks(fast: Period, slow: Period, signal: Period, inputs: seq<real>)
    ensures var m := Run(Next, Init(fast, slow, signal), inputs).0;
      && m.fast.period == fast && m.slow.period == slow && m.signal.period == signal
      && Tracks(m, inputs)
    decreases |inputs|
  {
    var start := Init(fast, slow, signal);
    if |inputs| == 0 {
      assert Run(Next, start, inputs).0 == start;
    } else {
      var before := inputs[..|inputs| - 1];
      var x := inputs[|inputs| - 1];
      assert before + [x] == inputs;
      var prev := Run(Next, start, before).0;
      assert prev.fast.period == fast && prev.slow.period == slow && prev.signal.period == signal
        && Tracks(prev, before) by {
        RunTracks(fast, slow, signal, before);
      }
      assert Run(Next, start, inputs).0 == Next(prev, x).0 by {
        RunSnoc(Next, start, before, x);
      }
      StepTracks(prev, before, x);
    }
  }

  /**
   * Every answer is the reference: nothing for the first
   * `max(fast, slow) + signal - 2` inputs, then the latest MACD line value,
   * the EMA of the MACD line and their difference.
   */
  lemma Outputs(fast: Period, slow: Period, signal: Period, inputs: seq<real>, x: real)
    ensures Next(Run(Next, Init(fast, slow, signal), inputs).0, x).1 == MacdOf(inputs + [x], fast, slow, signal)
  {
    RunTracks(fast, slow, signal, inputs);
    StepTracks(Run(Next, Init(fast, slow, signal), inputs).0, inputs, x);
  }

  /** Periods 3, 6 and 3 answer from the eighth input on, so the sixteenth has an answer. */
  lemma Example(inputs: seq<real>, x: real)
    requires |inputs| == 15
    ensures Next(Run(Next, Init(3, 6, 3), inputs).0, x).1.Some?
  {
    Outputs(3, 6, 3, inputs, x);
  }
}

=== FILE: indicator_piped.dfy ===
/**
 * The piped combinator of `tesser-indicators/src/combinators.rs`: every
 * output of a first indicator becomes the input of a second, and an input
 * the first does not answer never reaches the second.
 */
module PipedIndicator {
  import opened Wrappers
  import opened IndicatorCore

  datatype Piped<A, B> = Piped(first: A, second: B)

  /** `next`: the first indicator takes the input, and only its answer is fed to the second. */
  function Next<A, B, I, M, O>(firstNext: (A, I) -> (A, Option<M>), secondNext: (B, M) -> (B, Option<O>),
                               p: Piped<A, B>, x: I): (r: (Piped<A, B>, Option<O>))
    ensures r.0.first == firstNext(p.first, x).0
    ensures firstNext(p.first, x).1.None? ==> r.0.second == p.second && r.1.None?
  {
    var (first, intermediate) := firstNext(p.first, x);
    if intermediate.None? then (Piped(first, p.second), None)
    else
      var (second, out) := secondNext(p.second, intermediate.value);
      (Piped(first, second), out)
  }

  /** The step of the pipe as one indicator, ready to be run. */
  function Step<A, B, I, M, O>(firstNext: (A, I) -> (A, Option<M>), secondNext: (B, M) -> (B, Option<O>))
    : (Piped<A, B>, I) -> (Piped<A, B>, Option<O>)
  {
    (p: Piped<A, B>, x: I) => Next(firstNext, secondNext, p, x)
  }

  /** `reset`: both indicators are reset, each by its own rule. */
  function Reset<A, B>(resetFirst: A -> A, resetSecond: B -> B, p: Piped<A, B>): (r: Piped<A, B>)
    ensures r == Piped(resetFirst(p.first), resetSecond(p.second))
  {
    p.(first := resetFirst(p.first), second := resetSecond(p.second))
  }

  /**
   * Running the pipe over any inputs is running the first indicator over
   * them and the second over the first's outputs: the pipe ends in both
   * final states and answers exactly the second's outputs.
   */
  lemma {:induction false} RunPiped<A, B, I, M, O>(firstNext: (A, I) -> (A, Option<M>), secondNext: (B, M) -> (B, Option<O>),
                                                   a: A, b: B, inputs: seq<I>)
    ensures var firsts := Run(firstNext, a, inputs);
      var seconds := Run(secondNext, b, firsts.1);
      Run(Step(firstNext, secondNext), Piped(a, b), inputs) == (Piped(firsts.0, seconds.0), seconds.1)
    decreases |inputs|
  {
    var step := Step(firstNext, secondNext);
    if |inputs| == 0 {
      assert Run(step, Piped(a, b), inputs) == (Piped(a, b), []);
      assert Run(firstNext, a, inputs) == (a, []);
      assert Run(secondNext, b, []) == (b, []);
    } else {
      var before := inputs[..|inputs| - 1];
      var x := inputs[|inputs| - 1];
      assert before + [x] == inputs;
      var firsts := Run(firstNext, a, before);
      var seconds := Run(secondNext, b, firsts.1);
      assert Run(step, Piped(a, b), before) == (Piped(firsts.0, seconds.0), seconds.1) by {
        RunPiped(firstNext, secondNext, a, b, before);
      }
      RunSnoc(step, Piped(a, b), before, x);
      RunSnoc(firstNext, a, before, x);
      assert step(Piped(firsts.0, seconds.0), x) == Next(firstNext, secondNext, Piped(firsts.0, seconds.0), x);
      var (first, intermediate) := firstNext(firsts.0, x);
      if intermediate.Some? {
        RunSnoc(secondNext, b, firsts.1, intermediate.value);
      } else {
        assert firsts.1 + [] == firsts.1 && seconds.1 + [] == seconds.1;
        assert Run(firstNext, a, inputs) == (first, firsts.1);
      }
    }
  }
}

=== FILE: indicator_rsi.dfy ===
/**
 * Wilder's relative strength index of `tesser-indicators/src/indicators/rsi.rs`:
 * the first input only records a previous value; each later input yields a
 * gain and a loss, which are averaged over `period` changes and then
 * smoothed with Wilder's step; the output is `100 - 100 / (1 + gain / loss)`.
 */
module RsiIndicator {
  import opened Wrappers
  import opened IndicatorCore

  datatype Rsi = Rsi(
    period: Period,
    prevValue: Option<real>,
    avgGain: Option<real>,
    avgLoss: Option<real>,
    warmupCount: nat,
    gainSum: real,
    lossSum: real)

  /**
   * Both averages are set together, the warm-up count stays below the period until they are, and
   * every accumulated gain or loss is non-negative.
   */
  predicate Valid(e: Rsi) {
    && (e.avgGain.Some? <==> e.avgLoss.Some?)
    && (e.avgGain.None? ==> e.warmupCount < e.period)
    && (e.prevValue.None? ==> e.avgGain.None? && e.warmupCount == 0)
    && e.gainSum >= 0.0 && e.lossSum >= 0.0
    && (e.avgGain.Some? ==> e.avgGain.value >= 0.0 && e.avgLoss.value >= 0.0)
  }

  function Init(period: Period): (e: Rsi)
    ensures Valid(e) && e.prevValue.None? && e.avgGain.None?
  {
    Rsi(period, None, None, None, 0, 0.0, 0.0)
  }

  /** `Rsi::new`: a zero period is rejected. */
  function New(period: nat): (r: Result<Rsi, IndicatorError>)
    ensures r.Err? <==> period == 0
    ensures r.Ok? ==> r.value == Init(period) && r.value.period == period
  {
    if period == 0 then Err(InvalidPeriod("RSI", period)) else Ok(Init(period))
  }

  /** The upward part of a change. */
  function Gain(prev: real, value: real): (g: real)
    ensures g >= 0.0
    ensures g > 0.0 <==> value > prev
    ensures g - Loss(prev, value) == value - prev
  {
    var change := value - prev;
    if change >= 0.0 then change else 0.0
  }

  /** The downward part of a change, as a non-negative amount. */
  function Loss(prev: real, value: real): (l: real)
    ensures l >= 0.0
    ensures l > 0.0 <==> value < prev
  {
    var change := value - prev;
    if change < 0.0 then -change else 0.0
  }

  /** A change is a gain or a loss, never both. */
  lemma GainOrLoss(prev: real, value: real)
    ensures Gain(prev, value) == 0.0 || Loss(prev, value) == 0.0
  {
  }

  /**
   * `compute_rsi`: 100 with no average loss, 0 with no average gain, else
   * `100 - 100 / (1 + rs)` with `rs = gain / loss`, which is the gain's share
   * of the total movement, scaled to 100.
   */
  function ComputeRsi(avgGain: real, avgLoss: real): (r: real)
    ensures avgLoss == 0.0 ==> r == 100.0
    ensures avgLoss != 0.0 && avgGain == 0.0 ==> r == 0.0
    ensures avgGain > 0.0 && avgLoss > 0.0 ==> r == 100.0 * avgGain / (avgGain + avgLoss)
    ensures avgGain >= 0.0 && avgLoss >= 0.0 ==> 0.0 <= r <= 100.0
  {
    if avgLoss == 0.0 then 100.0
    else if avgGain == 0.0 then 0.0
    else
      var rs := avgGain / avgLoss;
      if rs + 1.0 == 0.0 then
        // Only a negative average reaches this; gains and losses never are.
        0.0
      else
        assert avgGain > 0.0 && avgLoss > 0.0 ==> 100.0 - 100.0 / (rs + 1.0) == 100.0 * avgGain / (avgGain + avgLoss) by {
          if avgGain > 0.0 && avgLoss > 0.0 {
            ShareOfMovement(avgGain, avgLoss);
          }
        }
        100.0 - 100.0 / (rs + 1.0)
  }

  /** The algebra behind `compute_rsi` for positive averages. */
  lemma ShareOfMovement(g: real, l: real)
    requires g > 0.0 && l > 0.0
    ensures g / l + 1.0 > 0.0
    ensures 100.0 - 100.0 / (g / l + 1.0) == 100.0 * g / (g + l)
    ensures 0.0 <= 100.0 * g / (g + l) <= 100.0
  {
    var t := g + l;
    var rs := g / l;
    assert rs * l == g;
    assert rs > 0.0;
    var q := 100.0 / (rs + 1.0);
    assert q * (rs + 1.0) == 100.0;
    assert q * t == q * (rs + 1.0) * l;
    assert q == q * t / t;
    assert q == 100.0 * l / t;
    assert 100.0 * g / t + 100.0 * l / t == 100.0;
    assert 100.0 * g / t >= 0.0;
    assert 100.0 * l / t >= 0.0;
    assert 0.0 <= 100.0 * g / t <= 100.0;
  }

  /**
   * `next`: the first input only becomes the previous value. After that,
   * gains and losses are summed until `period` changes are seen, then
   * averaged; later changes are folded in with Wilder's step, and with
   * period 1 the raw gain and loss are the averages.
   */
  function Next(e: Rsi, value: real): (r: (Rsi, Option<real>))
    ensures r.0.period == e.period
    ensures Valid(e) ==> Valid(r.0)
    ensures r.0.prevValue == Some(value)
    ensures e.prevValue.None? ==> r.1.None?
    ensures Valid(e) && r.1.Some? ==> 0.0 <= r.1.value <= 100.0
    ensures Valid(e) && e.prevValue.Some? ==> (r.1.Some? <==> e.avgGain.Some? || e.warmupCount + 1 == e.period)
  {
    if e.prevValue.None? then
      (e.(prevValue := Some(value)), None)
    else
      var gain := Gain(e.prevValue.value, value);
      var loss := Loss(e.prevValue.value, value);
      var e1 := e.(prevValue := Some(value));
      if e.avgGain.None? then Warmup(e1, gain, loss) else Smoothed(e1, gain, loss)
  }

  /** A change during warm-up: summed, and averaged once `period` changes are in. */
  function Warmup(e: Rsi, gain: real, loss: real): (r: (Rsi, Option<real>))
    requires e.avgGain.None?
    ensures r.0.period == e.period && r.0.prevValue == e.prevValue
    ensures r.1.Some? <==> e.warmupCount + 1 >= e.period
    ensures Valid(e) && e.prevValue.Some? && gain >= 0.0 && loss >= 0.0 ==>
      Valid(r.0) && (r.1.Some? ==> 0.0 <= r.1.value <= 100.0)
  {
    var count := e.warmupCount + 1;
    var gainSum := e.gainSum + gain;
    var lossSum := e.lossSum + loss;
    if count < e.period then
      (e.(warmupCount := count, gainSum := gainSum, lossSum := lossSum), None)
    else
      var avgGain := gainSum / e.period as real;
      var avgLoss := lossSum / e.period as real;
      (e.(warmupCount := count, gainSum := gainSum, lossSum := lossSum,
          avgGain := Some(avgGain), avgLoss := Some(avgLoss)),
       Some(ComputeRsi(avgGain, avgLoss)))
  }

  /** A change after warm-up: Wilder's step, or the raw values with period 1. */
  function Smoothed(e: Rsi, gain: real, loss: real): (r: (Rsi, Option<real>))
    requires e.avgGain.Some?
    ensures r.0.period == e.period && r.0.prevValue == e.prevValue && r.1.Some?
    ensures Valid(e) && gain >= 0.0 && loss >= 0.0 ==> Valid(r.0) && 0.0 <= r.1.value <= 100.0
  {
    // `Valid` sets both averages together; the source unwraps the loss.
    var previousLoss := e.avgLoss.GetOr(0.0);
    var avgGain := if e.period == 1 then gain else WilderStep(e.avgGain.value, gain, e.period);
    var avgLoss := if e.period == 1 then loss else WilderStep(previousLoss, loss, e.period);
    (e.(avgGain := Some(avgGain), avgLoss := Some(avgLoss)), Some(ComputeRsi(avgGain, avgLoss)))
  }

  /** `reset`: every field but the period returns to its initial value. */
  function Reset(e: Rsi): (r: Rsi)
    ensures r.period == e.period && r.prevValue.None? && r.avgGain.None? && r.avgLoss.None?
    ensures Valid(e) ==> r == Init(e.period)
  {
    e.(prevValue := None, avgGain := None, avgLoss := None, warmupCount := 0, gainSum := 0.0, lossSum := 0.0)
  }

  /** The gain of each consecutive pair of inputs. */
  function Gains(inputs: seq<real>): (r: seq<real>)
    ensures |r| == if |inputs| == 0 then 0 else |inputs| - 1
    ensures forall i :: 0 <= i < |r| ==> r[i] == Gain(inputs[i], inputs[i + 1])
    decreases |inputs|
  {
    if |inputs| < 2 then []
    else Gains(inputs[..|inputs| - 1]) + [Gain(inputs[|inputs| - 2], inputs[|inputs| - 1])]
  }

  /** The loss of each consecutive pair of inputs. */
  function Losses(inputs: seq<real>): (r: seq<real>)
    ensures |r| == if |inputs| == 0 then 0 else |inputs| - 1
    ensures forall i :: 0 <= i < |r| ==> r[i] == Loss(inputs[i], inputs[i + 1])
    decreases |inputs|
  {
    if |inputs| < 2 then []
    else Losses(inputs[..|inputs| - 1]) + [Loss(inputs[|inputs| - 2], inputs[|inputs| - 1])]
  }

  /** One more input adds one change at the end. */
  lemma ChangesSnoc(inputs: seq<real>, x: real)
    requires |inputs| > 0
    ensures Gains(inputs + [x]) == Gains(inputs) + [Gain(inputs[|inputs| - 1], x)]
    ensures Losses(inputs + [x]) == Losses(inputs) + [Loss(inputs[|inputs| - 1], x)]
  {
    assert (inputs + [x])[..|inputs|] == inputs;
  }

  /**
   * The reference: no value until `period` changes have been seen, that is
   * `period + 1` inputs; then the index of Wilder's averages of the gains
   * and losses.
   */
  function RsiOf(inputs: seq<real>, period: Period): (r: Option<real>)
    ensures r.Some? <==> |inputs| >= period + 1
  {
    var gains := Gains(inputs);
    if |gains| < period then None
    else Some(ComputeRsi(WilderOf(gains, period).value, WilderOf(Losses(inputs), period).value))
  }

  /** Every reference value is in `[0, 100]`. */
  lemma RsiOfInRange(inputs: seq<real>, period: Period)
    requires |inputs| >= period + 1
    ensures 0.0 <= RsiOf(inputs, period).value <= 100.0
  {
    var gains := Gains(inputs);
    var losses := Losses(inputs);
    forall i | 0 <= i < |gains| ensures gains[i] >= 0.0 {
      assert gains[i] == Gain(inputs[i], inputs[i + 1]);
    }
    forall i | 0 <= i < |losses| ensures losses[i] >= 0.0 {
      assert losses[i] == Loss(inputs[i], inputs[i + 1]);
    }
    NonNegativeAverage(gains, period);
    NonNegativeAverage(losses, period);
  }

  /** The Wilder average of non-negative values is non-negative. */
  lemma NonNegativeAverage(s: seq<real>, period: Period)
    requires |s| >= period
    requires forall i :: 0 <= i < |s| ==> s[i] >= 0.0
    ensures WilderOf(s, period).value >= 0.0
  {
    var hi := MaxOf(s).value;
    assert forall i :: 0 <= i < |s| ==> s[i] in s;
    WilderOfBounded(s, period, 0.0, hi);
  }

  /** What the state holds after any inputs, against the reference series. */
  predicate Tracks(e: Rsi, inputs: seq<real>) {
    var gains := Gains(inputs);
    var losses := Losses(inputs);
    && Valid(e)
    && e.prevValue == (if |inputs| == 0 then None else Some(inputs[|inputs| - 1]))
    && e.avgGain == WilderOf(gains, e.period)
    && e.avgLoss == WilderOf(losses, e.period)
    && (|gains| < e.period ==> e.warmupCount == |gains| && e.gainSum == Sum(gains) && e.lossSum == Sum(losses))
  }

  lemma StepTracks(prev: Rsi, before: seq<real>, x: real)
    requires Tracks(prev, before)
    ensures Tracks(Next(prev, x).0, before + [x])
    ensures Next(prev, x).1 == RsiOf(before + [x], prev.period)
  {
    var inputs := before + [x];
    if |before| == 0 {
      assert Gains(inputs) == [] && Losses(inputs) == [];
    } else {
      if prev.avgGain.None? {
        StepWarmup(prev, before, x);
      } else {
        StepSmoothed(prev, before, x);
      }
    }
  }

  /** A change that arrives before the averages are set. */
  lemma StepWarmup(prev: Rsi, before: seq<real>, x: real)
    requires Tracks(prev, before) && |before| > 0 && prev.avgGain.None?
    ensures Tracks(Next(prev, x).0, before + [x])
    ensures Next(prev, x).1 == RsiOf(before + [x], prev.period)
  {
    var inputs := before + [x];
    var p := prev.period;
    var last := before[|before| - 1];
    var g, l := Gains(before), Losses(before);
    var g', l' := Gains(inputs), Losses(inputs);
    ChangesSnoc(before, x);
    var gain, loss := Gain(last, x), Loss(last, x);
    assert g'[..|g'| - 1] == g && l'[..|l'| - 1] == l;
    assert Sum(g') == Sum(g) + gain;
    assert Sum(l') == Sum(l) + loss;
    var r := Warmup(prev.(prevValue := Some(x)), gain, loss);
    assert Next(prev, x) == r;
    if |g'| == p {
      assert WilderOf(g', p) == Some(Sum(g') / p as real);
      assert WilderOf(l', p) == Some(Sum(l') / p as real);
    }
  }

  /** A change that arrives once the averages are set. */
  lemma StepSmoothed(prev: Rsi, before: seq<real>, x: real)
    requires Tracks(prev, before) && |before| > 0 && prev.avgGain.Some?
    ensures Tracks(Next(prev, x).0, before + [x])
    ensures Next(prev, x).1 == RsiOf(before + [x], prev.period)
  {
    var inputs := before + [x];
    var p := prev.period;
    var last := before[|before| - 1];
    var gain, loss := Gain(last, x), Loss(last, x);
    var ag := WilderStep(prev.avgGain.value, gain, p);
    var al := WilderStep(prev.avgLoss.value, loss, p);
    assert WilderOf(Gains(inputs), p) == Some(ag) && WilderOf(Losses(inputs), p) == Some(al) by {
      var g', l' := Gains(inputs), Losses(inputs);
      ChangesSnoc(before, x);
      assert g'[..|g'| - 1] == Gains(before) && l'[..|l'| - 1] == Losses(before);
    }
    var r := Next(prev, x);
    assert r.0 == prev.(prevValue := Some(x), avgGain := Some(ag), avgLoss := Some(al)) by {
      assert r == Smoothed(prev.(prevValue := Some(x)), gain, loss);
    }
    assert r.1 == Some(ComputeRsi(ag, al)) by {
      assert r == Smoothed(prev.(prevValue := Some(x)), gain, loss);
    }
    assert RsiOf(inputs, p) == Some(ComputeRsi(ag, al)) by {
      assert |Gains(inputs)| >= p;
    }
    assert Valid(r.0);
  }

  lemma {:induction false} RunTracks(period: Period, inputs: seq<real>)
    ensures var e := Run(Next, Init(period), inputs).0;
      e.period == period && Tracks(e, inputs)
    decreases |inputs|
  {
    if |inputs| == 0 {
      assert Run(Next, Init(period), inputs).0 == Init(period);
    } else {
      var before := inputs[..|inputs| - 1];
      var x := inputs[|inputs| - 1];
      var prev := Run(Next, Init(period), before).0;
      assert prev.period == period && Tracks(prev, before) by {
        RunTracks(period, before);
      }
      assert before + [x] == inputs;
      assert Run(Next, Init(period), inputs).0 == Next(prev, x).0 by {
        RunSnoc(Next, Init(period), before, x);
      }
      StepTracks(prev, before, x);
    }
  }

  /**
   * Every answer is the reference value: nothing for the first `period`
   * inputs, then the index of the Wilder averages of gains and losses.
   */
  lemma Outputs(period: Period, inputs: seq<real>, x: real)
    ensures Next(Run(Next, Init(period), inputs).0, x).1 == RsiOf(inputs + [x], period)
  {
    RunTracks(period, inputs);
    StepTracks(Run(Next, Init(period), inputs).0, inputs, x);
  }

  /** A constant series never loses, so once warmed up its index is 100. */
  lemma ConstantInput(inputs: seq<real>, period: Period, c: real)
    requires |inputs| >= period + 1
    requires forall i :: 0 <= i < |inputs| ==> inputs[i] == c
    ensures RsiOf(inputs, period) == Some(100.0)
  {
    var losses := Losses(inputs);
    forall i | 0 <= i < |losses| ensures losses[i] == 0.0 {
      assert losses[i] == Loss(inputs[i], inputs[i + 1]);
    }
    WilderOfBounded(losses, period, 0.0, 0.0);
  }

  /** Period 3 over 1, 2, 3, 2 answers 200/3, and a following 1 answers 400/9. */
  lemma Example()
    ensures RsiOf([1.0, 2.0, 3.0, 2.0], 3) == Some(200.0 / 3.0)
    ensures RsiOf([1.0, 2.0, 3.0, 2.0, 1.0], 3) == Some(400.0 / 9.0)
  {
    ExampleFirst();
    ExampleSecond();
  }

  /** The seed averages of the example: gains 1, 1, 0 and losses 0, 0, 1. */
  lemma ExampleSeed()
    ensures var a := [1.0, 2.0, 3.0, 2.0];
      && Gains(a) == [1.0, 1.0, 0.0] && Losses(a) == [0.0, 0.0, 1.0]
      && WilderOf(Gains(a), 3) == Some(2.0 / 3.0) && WilderOf(Losses(a), 3) == Some(1.0 / 3.0)
  {
    var a := [1.0, 2.0, 3.0, 2.0];
    assert Gains(a) == [1.0, 1.0, 0.0] && Losses(a) == [0.0, 0.0, 1.0];
    assert Sum([1.0, 1.0, 0.0]) == 2.0 by {
      assert [1.0, 1.0, 0.0][..2] == [1.0, 1.0];
      assert [1.0, 1.0][..1] == [1.0];
      assert [1.0][..0] == [];
    }
    assert Sum([0.0, 0.0, 1.0]) == 1.0 by {
      assert [0.0, 0.0, 1.0][..2] == [0.0, 0.0];
      assert [0.0, 0.0][..1] == [0.0];
      assert [0.0][..0] == [];
    }
  }

  lemma ExampleFirst()
    ensures RsiOf([1.0, 2.0, 3.0, 2.0], 3) == Some(200.0 / 3.0)
  {
    ExampleSeed();
    assert ComputeRsi(2.0 / 3.0, 1.0 / 3.0) == 200.0 / 3.0;
  }

  lemma ExampleSecond()
    ensures RsiOf([1.0, 2.0, 3.0, 2.0, 1.0], 3) == Some(400.0 / 9.0)
  {
    var a := [1.0, 2.0, 3.0, 2.0];
    var b := a + [1.0];
    assert b == [1.0, 2.0, 3.0, 2.0, 1.0];
    ExampleSeed();
    ChangesSnoc(a, 1.0);
    assert Gains(b) == Gains(a) + [0.0] && Losses(b) == Losses(a) + [1.0];
    assert Gains(b)[..3] == Gains(a) && Losses(b)[..3] == Losses(a);
    assert WilderOf(Gains(b), 3) == Some(4.0 / 9.0);
    assert WilderOf(Losses(b), 3) == Some(5.0 / 9.0);
    assert ComputeRsi(4.0 / 9.0, 5.0 / 9.0) == 400.0 / 9.0;
  }
}

=== FILE: indicator_sma.dfy ===
/**
 * The simple moving average of `tesser-indicators/src/indicators/sma.rs`:
 * a rolling window of the last `period` inputs and its running sum.
 */
module SmaIndicator {
  import opened Wrappers
  import opened IndicatorCore

  datatype Sma = Sma(period: Period, sum: real, window: seq<real>)

  /** The running sum is the window's sum and the window never exceeds the period. */
  predicate Valid(s: Sma) {
    |s.window| <= s.period && s.sum == Sum(s.window)
  }

  /** A fresh average: nothing seen yet. */
  function Init(period: Period): (s: Sma)
    ensures Valid(s) && s.window == []
  {
    Sma(period, 0.0, [])
  }

  /** `Sma::new`: a zero period is rejected. */
  function New(period: nat): (r: Result<Sma, IndicatorError>)
    ensures r.Err? <==> period == 0
    ensures r.Ok? ==> r.value == Init(period) && r.value.period == period
  {
    if period == 0 then Err(InvalidPeriod("SMA", period)) else Ok(Init(period))
  }

  /**
   * `next`: append the input, drop the oldest value once the window is
   * longer than the period, and answer the mean once the window is full.
   */
  function Next(s: Sma, x: real): (r: (Sma, Option<real>))
    ensures r.0.period == s.period
    ensures Valid(s) ==> Valid(r.0) && r.0.window == Window(s.window + [x], s.period)
    ensures Valid(s) ==> (r.1.Some? <==> |s.window| + 1 >= s.period)
    ensures Valid(s) && r.1.Some? ==> r.1.value == Mean(r.0.window)
  {
    var window := s.window + [x];
    var sum := s.sum + x;
    assert Sum(window) == Sum(s.window) + x by {
      assert window[..|window| - 1] == s.window;
    }
    var (window', sum') :=
      if |window| > s.period then
        SumFront(window);
        (window[1..], sum - window[0])
      else (window, sum);
    (Sma(s.period, sum', window'), if |window'| == s.period then Some(sum' / s.period as real) else None)
  }

  /** `reset`: the sum and window are cleared, which is the fresh state again. */
  function Reset(s: Sma): (r: Sma)
    ensures r == Init(s.period)
  {
    s.(sum := 0.0, window := [])
  }

  /** The reference: the mean of the last `period` inputs, once there are that many. */
  function SmaOf(inputs: seq<real>, period: Period): Option<real> {
    if |inputs| >= period then Some(Mean(inputs[|inputs| - period..])) else None
  }

  /** After any inputs, the state holds exactly the last `period` of them. */
  lemma {:induction false} RunWindow(period: Period, inputs: seq<real>)
    ensures var s := Run(Next, Init(period), inputs).0;
      Valid(s) && s.period == period && s.window == Window(inputs, period)
    decreases |inputs|
  {
    if |inputs| == 0 {
      assert Run(Next, Init(period), inputs).0 == Init(period);
    } else {
      var before := inputs[..|inputs| - 1];
      var x := inputs[|inputs| - 1];
      var prev := Run(Next, Init(period), before).0;
      assert Valid(prev) && prev.period == period && prev.window == Window(before, period) by {
        RunWindow(period, before);
      }
      assert before + [x] == inputs;
      assert Run(Next, Init(period), inputs).0 == Next(prev, x).0 by {
        RunSnoc(Next, Init(period), before, x);
      }
      StepKeeps(prev, x, before);
    }
  }

  /** One step extends the window of the inputs seen by the new input. */
  lemma StepKeeps(prev: Sma, x: real, before: seq<real>)
    requires Valid(prev) && prev.window == Window(before, prev.period)
    ensures var s := Next(prev, x).0;
      Valid(s) && s.period == prev.period && s.window == Window(before + [x], prev.period)
    ensures Next(prev, x).1 == SmaOf(before + [x], prev.period)
  {
    WindowSnoc(before, x, prev.period);
  }

  /** Every answer is the mean of the last `period` inputs, and there is one exactly once `period` inputs have been seen. */
  lemma Outputs(period: Period, inputs: seq<real>, x: real)
    ensures Next(Run(Next, Init(period), inputs).0, x).1 == SmaOf(inputs + [x], period)
  {
    RunWindow(period, inputs);
    WindowSnoc(inputs, x, period);
  }

  /** Period 3 over 1, 2, 3 answers 2, and then 4 answers 3. */
  lemma Example()
    ensures SmaOf([1.0, 2.0, 3.0], 3) == Some(2.0)
    ensures SmaOf([1.0, 2.0, 3.0, 4.0], 3) == Some(3.0)
    ensures SmaOf([1.0, 2.0], 3).None?
  {
    assert [1.0, 2.0, 3.0][..2] == [1.0, 2.0];
    assert [1.0, 2.0][..1] == [1.0];
    assert [1.0][..0] == [];
    assert Sum([1.0, 2.0, 3.0]) == 6.0;
    assert [1.0, 2.0, 3.0, 4.0][1..] == [2.0, 3.0, 4.0];
    assert [2.0, 3.0, 4.0][..2] == [2.0, 3.0];
    assert [2.0, 3.0][..1] == [2.0];
    assert [2.0][..0] == [];
    assert Sum([2.0, 3.0, 4.0]) == 9.0;
  }
}

=== FILE: ledger_amount.dfy ===
/**
 * The fixed-point amount encoding of the Parquet ledger
 * (`tesser-ledger/src/parquet.rs`): an amount is stored as an `i128` holding
 * the value times 10^18 (a `Decimal128(38, 18)` column).
 */
module LedgerAmount {
  import opened Wrappers
  import opened Core
  import opened LedgerEntries
  import opened FixedPoint

  const LEDGER_DECIMAL_SCALE: nat := 18
  const LEDGER_DECIMAL_PRECISION: nat := 38

  /** 10^18, the stored unit per whole amount. */
  const SCALE_FACTOR: nat := 1_000_000_000_000_000_000

  lemma Pow10Scale()
    ensures Pow10(LEDGER_DECIMAL_SCALE) == SCALE_FACTOR
  {
    assert Pow10(3) == 1000;
    Pow10Add(3, 3);
    Pow10Add(6, 6);
    Pow10Add(12, 6);
  }

  /** A mantissa read at scale 18 is worth itself over 10^18. */
  lemma AtScale(v: int)
    ensures Value(Decimal(v, LEDGER_DECIMAL_SCALE)) * SCALE_FACTOR as real == v as real
  {
    Pow10Scale();
    var f := SCALE_FACTOR as real;
    assert (v as real / f) * f == v as real;
  }

  /**
   * `decimal_to_i128` as written: round to 18 places when there are more,
   * then scale the mantissa up to 18 places with overflow checking.
   */
  function EncodeAsWritten(d: Decimal): (r: Result<int, LedgerError>)
    requires WellFormed(d)
    ensures r.Ok? ==> FitsI128(r.value)
    ensures r.Err? ==> r.error.Serialization?
    ensures d.scale <= LEDGER_DECIMAL_SCALE ==>
      (r.Ok? <==> FitsI128(d.mantissa * Pow10(LEDGER_DECIMAL_SCALE - d.scale)))
    ensures r.Ok? ==> r.value as real == Value(d) * SCALE_FACTOR as real
                      || d.scale > LEDGER_DECIMAL_SCALE
    ensures d.scale > LEDGER_DECIMAL_SCALE ==> r.Ok?
  {
    RescaleToLedgerScale(d);
    match Rescale(d, LEDGER_DECIMAL_SCALE)
    case Some(v) => Ok(v)
    case None => Err(Serialization("decimal mantissa overflow"))
  }

  /** The conversion facts at the ledger's 18 places, where the power `10^(18 - s)` always fits. */
  lemma RescaleToLedgerScale(d: Decimal)
    requires WellFormed(d)
    ensures d.scale <= LEDGER_DECIMAL_SCALE ==>
      (Rescale(d, LEDGER_DECIMAL_SCALE).Some? <==> FitsI128(d.mantissa * Pow10(LEDGER_DECIMAL_SCALE - d.scale)))
    ensures d.scale <= LEDGER_DECIMAL_SCALE && Rescale(d, LEDGER_DECIMAL_SCALE).Some? ==>
      Rescale(d, LEDGER_DECIMAL_SCALE).value as real == Value(d) * SCALE_FACTOR as real
    ensures d.scale > LEDGER_DECIMAL_SCALE ==> Rescale(d, LEDGER_DECIMAL_SCALE).Some?
  {
    Pow10Scale();
    if d.scale <= LEDGER_DECIMAL_SCALE {
      Pow10Monotone(LEDGER_DECIMAL_SCALE - d.scale, LEDGER_DECIMAL_SCALE);
      RescaleExact(d, LEDGER_DECIMAL_SCALE);
    } else {
      RescaleRounded(d, LEDGER_DECIMAL_SCALE);
    }
  }

  /**
   * `decimal_from_i128` as written: `Decimal::from_i128_with_scale(v, 18)`,
   * which panics (here: `None`) when `v` needs more than 96 bits.
   */
  function DecodeAsWritten(v: int): (r: Option<Decimal>)
    ensures r.None? <==> !(-MAX_MANTISSA <= v <= MAX_MANTISSA)
    ensures r.Some? ==> WellFormed(r.value) && Value(r.value) * SCALE_FACTOR as real == v as real
  {
    Pow10Scale();
    FromI128WithScale(v, LEDGER_DECIMAL_SCALE)
  }

  /**
   * An amount of 10^11 (scale 0) encodes to 10^29, which fits an `i128`
   * but not a 96-bit mantissa: the encoder accepts it and the decoder panics.
   */
  lemma EncodedAmountCannotBeDecoded()
    ensures var d := Decimal(100_000_000_000, 0);
      WellFormed(d) && EncodeAsWritten(d) == Ok(100_000_000_000_000_000_000_000_000_000)
      && DecodeAsWritten(EncodeAsWritten(d).value).None?
  {
    Pow10Scale();
  }

  /**
   * The encoder with the decoder's range enforced: a value whose scaled
   * mantissa exceeds 96 bits is a `Serialization` error instead of a row
   * that can never be read back.
   */
  function Encode(d: Decimal): (r: Result<int, LedgerError>)
    requires WellFormed(d)
    ensures r.Ok? ==> -MAX_MANTISSA <= r.value <= MAX_MANTISSA
    ensures r.Err? ==> r.error.Serialization?
    ensures r.Ok? ==> EncodeAsWritten(d) == r
    ensures EncodeAsWritten(d).Ok? && -MAX_MANTISSA <= EncodeAsWritten(d).value <= MAX_MANTISSA ==> r.Ok?
  {
    match EncodeAsWritten(d)
    case Err(e) => Err(e)
    case Ok(v) =>
      if -MAX_MANTISSA <= v <= MAX_MANTISSA then Ok(v)
      else Err(Serialization("decimal exceeds 96-bit mantissa"))
  }

  /** `decimal_from_i128` on the values `Encode` can produce. */
  function Decode(v: int): (r: Decimal)
    requires -MAX_MANTISSA <= v <= MAX_MANTISSA
    ensures WellFormed(r) && r.scale == LEDGER_DECIMAL_SCALE
    ensures Value(r) * SCALE_FACTOR as real == v as real
  {
    DecodeAsWritten(v).value
  }

  /** Every amount with at most 18 places that encodes reads back as the same number. */
  lemma RoundTrip(d: Decimal)
    requires WellFormed(d) && d.scale <= LEDGER_DECIMAL_SCALE && Encode(d).Ok?
    ensures Value(Decode(Encode(d).value)) == Value(d)
  {
    var v := Encode(d).value;
    var p := SCALE_FACTOR as real;
    assert Value(Decode(v)) * p == Value(d) * p;
  }

  /** `a` and `b` differ by at most half of the ledger's unit, 10^-18. */
  predicate WithinHalfUnit(a: real, b: real) {
    2.0 * (a - b) * SCALE_FACTOR as real <= 1.0 && 2.0 * (b - a) * SCALE_FACTOR as real <= 1.0
  }

  /** An amount with more than 18 places always encodes, and reads back within half a unit of 10^-18. */
  lemma RoundTripRounded(d: Decimal)
    requires WellFormed(d) && d.scale > LEDGER_DECIMAL_SCALE
    ensures Encode(d).Ok?
    ensures WithinHalfUnit(Value(Decode(Encode(d).value)), Value(d))
  {
    RoundedBound(d);
    hide *;
    ReadBackBound(Encode(d).value, Value(Decode(Encode(d).value)), Value(d));
  }

  /** A bound on `v / 10^18` carries over to the number read back from `v`. */
  lemma ReadBackBound(v: int, back: real, value: real)
    requires back * SCALE_FACTOR as real == v as real
    requires WithinHalfUnit(v as real / SCALE_FACTOR as real, value)
    ensures WithinHalfUnit(back, value)
  {
    ReadBack(back, v, SCALE_FACTOR);
  }

  /** The rounded encoding of an amount with more than 18 places, read as a number, is within half a unit of it. */
  lemma RoundedBound(d: Decimal)
    requires WellFormed(d) && d.scale > LEDGER_DECIMAL_SCALE
    ensures Encode(d).Ok?
    ensures WithinHalfUnit(Encode(d).value as real / SCALE_FACTOR as real, Value(d))
  {
    RoundedParts(d);
    var v := Rescale(d, LEDGER_DECIMAL_SCALE).value;
    var unit := Pow10(d.scale - LEDGER_DECIMAL_SCALE);
    hide *;
    HalfUnitBound(v as real / SCALE_FACTOR as real, Value(d), v, d.mantissa, unit);
  }

  /** An amount with more than 18 places encodes to its rounded mantissa, `unit` times coarser. */
  lemma RoundedParts(d: Decimal)
    requires WellFormed(d) && d.scale > LEDGER_DECIMAL_SCALE
    ensures Rescale(d, LEDGER_DECIMAL_SCALE).Some?
    ensures var v, unit := Rescale(d, LEDGER_DECIMAL_SCALE).value, Pow10(d.scale - LEDGER_DECIMAL_SCALE);
      && Encode(d) == Ok(v) && unit > 0
      && Value(d) == d.mantissa as real / (SCALE_FACTOR * unit) as real
      && 2 * (v * unit - d.mantissa) <= unit && 2 * (d.mantissa - v * unit) <= unit
  {
    RescaleRounded(d, LEDGER_DECIMAL_SCALE);
    var unit := Pow10(d.scale - LEDGER_DECIMAL_SCALE);
    Pow10Add(LEDGER_DECIMAL_SCALE, d.scale - LEDGER_DECIMAL_SCALE);
    Pow10Scale();
    assert Pow10(d.scale) == SCALE_FACTOR * unit;
  }

  /** `RoundingError` at the ledger's scale, for values given by name. */
  lemma HalfUnitBound(back: real, value: real, v: int, m: int, unit: nat)
    requires unit > 0
    requires back == v as real / SCALE_FACTOR as real && value == m as real / (SCALE_FACTOR * unit) as real
    requires 2 * (v * unit - m) <= unit && 2 * (m - v * unit) <= unit
    ensures WithinHalfUnit(back, value)
  {
    RoundingError(v, m, unit, SCALE_FACTOR);
  }

  /** The number whose scaled form is `v`. */
  lemma ReadBack(back: real, v: int, f: nat)
    requires f > 0 && back * f as real == v as real
    ensures back == v as real / f as real
  {
  }

}

=== FILE: ledger_entry.dfy ===
/**
 * Ledger records (`tesser-ledger/src/entry.rs`): the entry type with its
 * snake_case text codec, and the entry record with its two constructors.
 */
module LedgerEntries {
  import opened Wrappers
  import opened Core

  /** Errors a ledger repository reports (`LedgerError`, `tesser-ledger/src/error.rs`). */
  datatype LedgerError = Storage(msg: string) | Serialization(msg: string) | InvalidState(msg: string)

  /** The categories of ledger line items. */
  datatype LedgerType = TradeRealizedPnl | Fee | Funding | TransferIn | TransferOut | Adjustment

  /** Characters allowed in a canonical type name: lower-case letters and `_`. */
  predicate IsSnakeChar(c: char) {
    ('a' <= c <= 'z') || c == '_'
  }

  /** The canonical snake_case name of a ledger type. */
  function AsStr(t: LedgerType): (s: string)
    ensures |s| > 0
    ensures forall i :: 0 <= i < |s| ==> IsSnakeChar(s[i])
  {
    match t
    case TradeRealizedPnl => "trade_realized_pnl"
    case Fee => "fee"
    case Funding => "funding"
    case TransferIn => "transfer_in"
    case TransferOut => "transfer_out"
    case Adjustment => "adjustment"
  }

  /** `Display` writes the canonical name, which parses back to the same type. */
  function Display(t: LedgerType): (s: string)
    ensures s == AsStr(t)
    ensures FromStr(s) == Ok(t)
  {
    AsStr(t)
  }

  /**
   * Parses a canonical name; any other text is rejected with an error
   * message that quotes it.
   */
  function FromStr(s: string): (r: Result<LedgerType, string>)
    ensures r.Ok? ==> AsStr(r.value) == s
    ensures r.Err? ==> forall t :: AsStr(t) != s
  {
    if s == "trade_realized_pnl" then Ok(TradeRealizedPnl)
    else if s == "fee" then Ok(Fee)
    else if s == "funding" then Ok(Funding)
    else if s == "transfer_in" then Ok(TransferIn)
    else if s == "transfer_out" then Ok(TransferOut)
    else if s == "adjustment" then Ok(Adjustment)
    else Err("unknown ledger type: " + s)
  }

  /** Parsing the name of any type gives that type back. */
  lemma FromStrAsStr(t: LedgerType)
    ensures FromStr(AsStr(t)) == Ok(t)
  {
  }

  /** Distinct types have distinct names. */
  lemma AsStrInjective(a: LedgerType, b: LedgerType)
    ensures AsStr(a) == AsStr(b) ==> a == b
  {
    if AsStr(a) == AsStr(b) {
      FromStrAsStr(a);
      FromStrAsStr(b);
    }
  }

  /** A string parses if and only if it is the canonical name of some type. */
  lemma FromStrAcceptsExactlyNames(s: string)
    ensures FromStr(s).Ok? <==> exists t :: AsStr(t) == s
  {
    if exists t :: AsStr(t) == s {
      var t :| AsStr(t) == s;
      FromStrAsStr(t);
    }
  }

  /** Free-form metadata attached to an entry (a JSON object in the source). */
  datatype EntryMeta = EntryMeta(symbol: Symbol, component: string)

  /** A single balance delta on one asset. */
  datatype LedgerEntry = LedgerEntry(
    id: nat,
    sequence: nat,
    timestamp: int,
    exchange: ExchangeId,
    asset: AssetId,
    amount: real,
    entryType: LedgerType,
    referenceId: string,
    meta: Option<EntryMeta>)

  /**
   * `LedgerEntry::new`. The fresh UUID and the wall-clock time are inputs
   * (`id`, `now`): the entry starts unsequenced and without metadata.
   */
  function NewEntry(id: nat, now: int, exchange: ExchangeId, asset: AssetId, amount: real,
                    entryType: LedgerType, referenceId: string): (e: LedgerEntry)
    ensures e.sequence == 0 && e.meta.None?
    ensures e.id == id && e.timestamp == now
    ensures e.exchange == exchange && e.asset == asset && e.amount == amount
    ensures e.entryType == entryType && e.referenceId == referenceId
  {
    LedgerEntry(id, 0, now, exchange, asset, amount, entryType, referenceId, None)
  }

  /** `with_sequence`: assigns the replay sequence and changes nothing else. */
  function WithSequence(e: LedgerEntry, sequence: nat): (r: LedgerEntry)
    ensures r.sequence == sequence
    ensures r.(sequence := e.sequence) == e
  {
    e.(sequence := sequence)
  }
}

=== FILE: ledger_journal.dfy ===
/**
 * Derivation of ledger entries from a trade fill
 * (`tesser-ledger/src/journal.rs`). A spot fill moves the base and quote
 * balances; a perpetual fill moves the settlement balance by the signed
 * notional; realized PnL and a nonzero fee each add one more entry.
 */
module Journal {
  import opened Wrappers
  import opened Core
  import opened LedgerEntries

  /** The fill, the traded instrument and the PnL the portfolio realised on it. */
  datatype FillLedgerContext = FillLedgerContext(fill: Fill, instrument: Instrument, realizedPnl: real)

  /**
   * Fresh entry identifiers (random UUIDs in the source), one for each
   * component an entry can come from.
   */
  datatype Ids = Ids(base: nat, quote: nat, pnl: nat, fee: nat)

  /**
   * One entry for `fill`: stamped with the fill's order id and time, on the
   * asset's exchange, unsequenced, with the component recorded in its metadata.
   */
  function BuildEntry(id: nat, asset: AssetId, amount: real, fill: Fill, entryType: LedgerType,
                      component: string): (e: LedgerEntry)
    ensures e.id == id && e.sequence == 0
    ensures e.exchange == asset.exchange && e.asset == asset
    ensures e.amount == amount && e.entryType == entryType
    ensures e.referenceId == fill.orderId && e.timestamp == fill.timestamp
    ensures e.meta == Some(EntryMeta(fill.symbol, component))
  {
    NewEntry(id, fill.timestamp, asset.exchange, asset, amount, entryType, fill.orderId)
      .(meta := Some(EntryMeta(fill.symbol, component)))
  }

  /** The entry's amount is nonzero and it carries the fill's reference, time and sequence 0. */
  ghost predicate StampedBy(e: LedgerEntry, fill: Fill) {
    e.amount != 0.0 && e.referenceId == fill.orderId && e.timestamp == fill.timestamp
    && e.sequence == 0 && e.exchange == e.asset.exchange
  }

  /** Net adjustment on `asset` over `entries`: the balance change the trade legs record. */
  function NetAdjustment(entries: seq<LedgerEntry>, asset: AssetId): real {
    if |entries| == 0 then 0.0
    else
      var head := if entries[0].entryType == Adjustment && entries[0].asset == asset
                  then entries[0].amount else 0.0;
      head + NetAdjustment(entries[1..], asset)
  }

  lemma {:induction false} NetAdjustmentAppend(a: seq<LedgerEntry>, b: seq<LedgerEntry>, asset: AssetId)
    ensures NetAdjustment(a + b, asset) == NetAdjustment(a, asset) + NetAdjustment(b, asset)
  {
    if |a| > 0 {
      assert (a + b)[1..] == a[1..] + b;
      NetAdjustmentAppend(a[1..], b, asset);
    } else {
      assert a + b == b;
    }
  }

  /** Net adjustment of a sequence without any `Adjustment` entry is zero. */
  lemma {:induction false} NetAdjustmentNone(entries: seq<LedgerEntry>, asset: AssetId)
    requires forall i :: 0 <= i < |entries| ==> entries[i].entryType != Adjustment
    ensures NetAdjustment(entries, asset) == 0.0
  {
    if |entries| > 0 {
      NetAdjustmentNone(entries[1..], asset);
    }
  }

  /** `+q` for a buy and `-q` for a sell. */
  function SignedQuantity(side: Side, q: real): (r: real)
    ensures r == SideSign(side) as real * q
  {
    if side == Buy then q else -q
  }

  /**
   * Spot legs: the base asset moves by the signed quantity and the quote
   * asset by the opposite signed notional; a zero leg is not written.
   */
  function SpotEntries(fill: Fill, inst: Instrument, ids: Ids): (r: seq<LedgerEntry>)
    ensures |r| <= 2
    ensures forall i :: 0 <= i < |r| ==> StampedBy(r[i], fill) && r[i].entryType == Adjustment
    ensures forall i :: 0 <= i < |r| ==> r[i].asset == inst.base || r[i].asset == inst.quote
    ensures fill.quantity == 0.0 <==> |r| == 0
  {
    var qty := fill.quantity;
    var notional := fill.price * qty;
    var baseDelta := if fill.side == Buy then qty else -qty;
    var quoteDelta := if fill.side == Buy then -notional else notional;
    Leg(ids.base, inst.base, baseDelta, fill, "base")
      + Leg(ids.quote, inst.quote, quoteDelta, fill, "quote")
  }

  /** One adjustment leg, left out when its amount is zero. */
  function Leg(id: nat, asset: AssetId, delta: real, fill: Fill, component: string): (r: seq<LedgerEntry>)
    ensures |r| <= 1 && (|r| == 1 <==> delta != 0.0)
    ensures forall i :: 0 <= i < |r| ==> StampedBy(r[i], fill) && r[i].entryType == Adjustment && r[i].asset == asset
  {
    if delta != 0.0 then [BuildEntry(id, asset, delta, fill, Adjustment, component)] else []
  }

  /** A leg moves its own asset by its amount and no other asset. */
  lemma LegNet(id: nat, asset: AssetId, delta: real, fill: Fill, component: string, other: AssetId)
    ensures NetAdjustment(Leg(id, asset, delta, fill, component), other) == if other == asset then delta else 0.0
  {
  }

  /** The spot legs are the base leg then the quote leg. */
  lemma SpotLegs(fill: Fill, inst: Instrument, ids: Ids)
    ensures var qty := fill.quantity;
      SpotEntries(fill, inst, ids)
      == Leg(ids.base, inst.base, if fill.side == Buy then qty else -qty, fill, "base")
         + Leg(ids.quote, inst.quote, if fill.side == Buy then -(fill.price * qty) else fill.price * qty, fill, "quote")
  {
  }

  /** Perpetual legs: one settlement entry of minus the signed notional, unless it is zero. */
  function DerivativeEntries(fill: Fill, inst: Instrument, ids: Ids): (r: seq<LedgerEntry>)
    ensures |r| <= 1
    ensures forall i :: 0 <= i < |r| ==> StampedBy(r[i], fill) && r[i].entryType == Adjustment
    ensures forall i :: 0 <= i < |r| ==> r[i].asset == inst.settlement
    ensures |r| == 1 <==> fill.price * fill.quantity != 0.0
  {
    var notional := fill.price * fill.quantity;
    var direction := SideSign(fill.side) as real;
    var settlementDelta := -(notional * direction);
    if settlementDelta != 0.0
    then [BuildEntry(ids.base, inst.settlement, settlementDelta, fill, Adjustment, "settlement")]
    else []
  }

  /** The trade legs for the instrument's kind. */
  function TradeEntries(ctx: FillLedgerContext, ids: Ids): (r: seq<LedgerEntry>)
    ensures |r| <= 2
    ensures forall i :: 0 <= i < |r| ==> StampedBy(r[i], ctx.fill) && r[i].entryType == Adjustment
  {
    if ctx.instrument.kind == Spot then SpotEntries(ctx.fill, ctx.instrument, ids)
    else DerivativeEntries(ctx.fill, ctx.instrument, ids)
  }

  /** The asset a fee is charged in: the fill's own fee asset, else quote (spot) or settlement. */
  function FeeAsset(ctx: FillLedgerContext): AssetId {
    ctx.fill.feeAsset.GetOr(
      if ctx.instrument.kind == Spot then ctx.instrument.quote else ctx.instrument.settlement)
  }

  /** Position of an entry type in the output: trade legs, then PnL, then fee. */
  function Rank(t: LedgerType): nat {
    match t
    case Adjustment => 0
    case TradeRealizedPnl => 1
    case Fee => 2
    case _ => 3
  }

  /** The realized-PnL entry, present iff the PnL is nonzero, booked in the settlement currency. */
  function PnlEntries(ctx: FillLedgerContext, ids: Ids): (r: seq<LedgerEntry>)
    ensures |r| == 1 <==> ctx.realizedPnl != 0.0
    ensures |r| <= 1
    ensures forall i :: 0 <= i < |r| ==>
              (StampedBy(r[i], ctx.fill) && r[i].entryType == TradeRealizedPnl
               && r[i].amount == ctx.realizedPnl && r[i].asset == ctx.instrument.settlement)
  {
    if ctx.realizedPnl != 0.0
    then [BuildEntry(ids.pnl, ctx.instrument.settlement, ctx.realizedPnl, ctx.fill,
                     TradeRealizedPnl, "realized_pnl")]
    else []
  }

  /** The fee entry, present iff a nonzero fee is reported, debiting the fee in its asset. */
  function FeeEntries(ctx: FillLedgerContext, ids: Ids): (r: seq<LedgerEntry>)
    ensures |r| == 1 <==> ctx.fill.fee.Some? && ctx.fill.fee.value != 0.0
    ensures |r| <= 1
    ensures forall i :: 0 <= i < |r| ==>
              (StampedBy(r[i], ctx.fill) && r[i].entryType == Fee && ctx.fill.fee.Some?
               && r[i].amount == -ctx.fill.fee.value && r[i].asset == FeeAsset(ctx))
  {
    var fill := ctx.fill;
    if fill.fee.Some? && fill.fee.value != 0.0
    then [BuildEntry(ids.fee, FeeAsset(ctx), -fill.fee.value, fill, Fee, "fee")]
    else []
  }

  /** `entries_from_fill`: trade legs, then realized PnL, then the fee, skipping zeros. */
  function EntriesFromFill(ctx: FillLedgerContext, ids: Ids): (r: seq<LedgerEntry>)
    ensures |r| <= 4
    ensures forall i :: 0 <= i < |r| ==> StampedBy(r[i], ctx.fill)
  {
    TradeEntries(ctx, ids) + PnlEntries(ctx, ids) + FeeEntries(ctx, ids)
  }

  /**
   * The entries come in the order trade legs, realized PnL, fee: every
   * adjustment precedes every PnL entry, which precedes every fee entry.
   */
  lemma EntriesOrdered(ctx: FillLedgerContext, ids: Ids)
    ensures var r := EntriesFromFill(ctx, ids);
      forall i, j :: 0 <= i < j < |r| ==> Rank(r[i].entryType) <= Rank(r[j].entryType)
    ensures var r := EntriesFromFill(ctx, ids);
      forall i :: 0 <= i < |r| ==> r[i].entryType in {Adjustment, TradeRealizedPnl, Fee}
  {
  }

  /** A PnL entry is written iff the realized PnL is nonzero, for that amount in the settlement currency. */
  lemma EntriesPnl(ctx: FillLedgerContext, ids: Ids)
    ensures var r := EntriesFromFill(ctx, ids);
      (exists i :: 0 <= i < |r| && r[i].entryType == TradeRealizedPnl) <==> ctx.realizedPnl != 0.0
    ensures var r := EntriesFromFill(ctx, ids);
      forall i :: 0 <= i < |r| && r[i].entryType == TradeRealizedPnl ==>
        r[i].amount == ctx.realizedPnl && r[i].asset == ctx.instrument.settlement
  {
    var legs, pnl, fee := TradeEntries(ctx, ids), PnlEntries(ctx, ids), FeeEntries(ctx, ids);
    var r := EntriesFromFill(ctx, ids);
    if |pnl| == 1 {
      assert r[|legs|] == pnl[0];
    }
  }

  /**
   * A fee entry is written iff the fill reports a nonzero fee; it debits the
   * fee in the fill's fee asset, else the quote (spot) or settlement asset.
   */
  lemma EntriesFee(ctx: FillLedgerContext, ids: Ids)
    ensures var r := EntriesFromFill(ctx, ids);
      (exists i :: 0 <= i < |r| && r[i].entryType == Fee) <==> (ctx.fill.fee.Some? && ctx.fill.fee.value != 0.0)
    ensures var r := EntriesFromFill(ctx, ids);
      forall i :: 0 <= i < |r| && r[i].entryType == Fee ==>
        ctx.fill.fee.Some? && r[i].amount == -ctx.fill.fee.value && r[i].asset == FeeAsset(ctx)
  {
    var legs, pnl, fee := TradeEntries(ctx, ids), PnlEntries(ctx, ids), FeeEntries(ctx, ids);
    var r := EntriesFromFill(ctx, ids);
    if |fee| == 1 {
      assert r[|legs| + |pnl|] == fee[0];
    }
  }

  /** The spot legs alone: base moves by the signed quantity, quote by minus price times that. */
  lemma SpotEntriesNet(fill: Fill, inst: Instrument, ids: Ids)
    requires inst.base != inst.quote
    ensures NetAdjustment(SpotEntries(fill, inst, ids), inst.base) == SignedQuantity(fill.side, fill.quantity)
    ensures NetAdjustment(SpotEntries(fill, inst, ids), inst.quote) == -fill.price * SignedQuantity(fill.side, fill.quantity)
  {
    SpotDeltas(fill.side, fill.price, fill.quantity);
    hide *;
    SpotNetOf(fill, inst, ids, inst.base);
    SpotNetOf(fill, inst, ids, inst.quote);
  }

  /** The two spot amounts in terms of the signed quantity. */
  lemma SpotDeltas(side: Side, price: real, qty: real)
    ensures SignedQuantity(side, qty) == if side == Buy then qty else -qty
    ensures (if side == Buy then -(price * qty) else price * qty) == -price * SignedQuantity(side, qty)
  {
    if side == Sell {
      assert -price * -qty == price * qty;
    }
  }

  /** What the spot legs move one asset by. */
  lemma SpotNetOf(fill: Fill, inst: Instrument, ids: Ids, asset: AssetId)
    ensures var qty := fill.quantity;
      NetAdjustment(SpotEntries(fill, inst, ids), asset)
      == (if asset == inst.base then (if fill.side == Buy then qty else -qty) else 0.0)
         + (if asset == inst.quote then (if fill.side == Buy then -(fill.price * qty) else fill.price * qty) else 0.0)
  {
    var qty := fill.quantity;
    var baseDelta := if fill.side == Buy then qty else -qty;
    var quoteDelta := if fill.side == Buy then -(fill.price * qty) else fill.price * qty;
    var baseLeg := Leg(ids.base, inst.base, baseDelta, fill, "base");
    var quoteLeg := Leg(ids.quote, inst.quote, quoteDelta, fill, "quote");
    hide *;
    SpotLegs(fill, inst, ids);
    NetAdjustmentAppend(baseLeg, quoteLeg, asset);
    LegNet(ids.base, inst.base, baseDelta, fill, "base", asset);
    LegNet(ids.quote, inst.quote, quoteDelta, fill, "quote", asset);
  }

  /** Splits the output of `EntriesFromFill` into its trade legs and a tail free of adjustments. */
  lemma NetAdjustmentOfEntries(ctx: FillLedgerContext, ids: Ids, asset: AssetId)
    ensures NetAdjustment(EntriesFromFill(ctx, ids), asset) == NetAdjustment(TradeEntries(ctx, ids), asset)
  {
    var legs := TradeEntries(ctx, ids);
    var tail := PnlEntries(ctx, ids) + FeeEntries(ctx, ids);
    assert EntriesFromFill(ctx, ids) == legs + tail;
    NetAdjustmentAppend(legs, tail, asset);
    NetAdjustmentNone(tail, asset);
  }

  /**
   * A spot fill balances at the fill price: the base asset moves by the
   * signed quantity and the quote asset by minus price times that.
   */
  lemma SpotLegsBalance(ctx: FillLedgerContext, ids: Ids)
    requires ctx.instrument.kind == Spot
    requires ctx.instrument.base != ctx.instrument.quote
    ensures NetAdjustment(EntriesFromFill(ctx, ids), ctx.instrument.base)
            == SignedQuantity(ctx.fill.side, ctx.fill.quantity)
    ensures NetAdjustment(EntriesFromFill(ctx, ids), ctx.instrument.quote)
            == -ctx.fill.price * NetAdjustment(EntriesFromFill(ctx, ids), ctx.instrument.base)
  {
    NetAdjustmentOfEntries(ctx, ids, ctx.instrument.base);
    NetAdjustmentOfEntries(ctx, ids, ctx.instrument.quote);
    SpotEntriesNet(ctx.fill, ctx.instrument, ids);
  }

  /** A perpetual fill moves the settlement asset by minus the signed notional. */
  lemma DerivativeSettlement(ctx: FillLedgerContext, ids: Ids)
    requires ctx.instrument.kind != Spot
    ensures NetAdjustment(EntriesFromFill(ctx, ids), ctx.instrument.settlement)
            == -(ctx.fill.price * ctx.fill.quantity * SideSign(ctx.fill.side) as real)
  {
    NetAdjustmentOfEntries(ctx, ids, ctx.instrument.settlement);
    var legs := DerivativeEntries(ctx.fill, ctx.instrument, ids);
    if |legs| == 1 {
      assert legs == [legs[0]];
    }
  }
}

=== FILE: ledger_query.dfy ===
/**
 * The ledger query filter (`tesser-ledger/src/query.rs`): optional equality
 * filters, inclusive sequence and time ranges, a row limit and an ordering
 * flag, built up from the all-empty default by chained builders.
 */
module LedgerQueries {
  import opened Wrappers
  import opened Core
  import opened LedgerEntries

  datatype LedgerQuery = LedgerQuery(
    exchange: Option<ExchangeId>,
    asset: Option<AssetId>,
    entryType: Option<LedgerType>,
    startSequence: Option<nat>,
    endSequence: Option<nat>,
    startTime: Option<int>,
    endTime: Option<int>,
    limit: Option<nat>,
    ascending: bool)

  /** The derived `Default`: no filter, no limit, and descending order. */
  function Default(): (q: LedgerQuery)
    ensures q.exchange.None? && q.asset.None? && q.entryType.None?
    ensures q.startSequence.None? && q.endSequence.None?
    ensures q.startTime.None? && q.endTime.None?
    ensures q.limit.None? && !q.ascending
  {
    LedgerQuery(None, None, None, None, None, None, None, None, false)
  }

  /** Restricts to one exchange; every other field is kept. */
  function WithExchange(q: LedgerQuery, exchange: ExchangeId): (r: LedgerQuery)
    ensures r.exchange == Some(exchange)
    ensures r.(exchange := q.exchange) == q
  {
    q.(exchange := Some(exchange))
  }

  /** Restricts to one asset; every other field is kept. */
  function WithAsset(q: LedgerQuery, asset: AssetId): (r: LedgerQuery)
    ensures r.asset == Some(asset)
    ensures r.(asset := q.asset) == q
  {
    q.(asset := Some(asset))
  }

  /** Restricts to one entry type; every other field is kept. */
  function WithType(q: LedgerQuery, entryType: LedgerType): (r: LedgerQuery)
    ensures r.entryType == Some(entryType)
    ensures r.(entryType := q.entryType) == q
  {
    q.(entryType := Some(entryType))
  }

  /** Overwrites both sequence bounds, clearing a bound given as `None`. */
  function WithSequenceRange(q: LedgerQuery, start: Option<nat>, end: Option<nat>): (r: LedgerQuery)
    ensures r.startSequence == start && r.endSequence == end
    ensures r.(startSequence := q.startSequence, endSequence := q.endSequence) == q
  {
    q.(startSequence := start, endSequence := end)
  }

  /** Overwrites both time bounds, clearing a bound given as `None`. */
  function WithTimeRange(q: LedgerQuery, start: Option<int>, end: Option<int>): (r: LedgerQuery)
    ensures r.startTime == start && r.endTime == end
    ensures r.(startTime := q.startTime, endTime := q.endTime) == q
  {
    q.(startTime := start, endTime := end)
  }

  /** Caps the number of returned rows; every other field is kept. */
  function WithLimit(q: LedgerQuery, limit: nat): (r: LedgerQuery)
    ensures r.limit == Some(limit)
    ensures r.(limit := q.limit) == q
  {
    q.(limit := Some(limit))
  }

  /** Requests newest-first order; every other field is kept. */
  function Descending(q: LedgerQuery): (r: LedgerQuery)
    ensures !r.ascending
    ensures r.(ascending := q.ascending) == q
  {
    q.(ascending := false)
  }
}

=== FILE: ledger_sequencer.dfy ===
/**
 * The ledger sequencer (`tesser-ledger/src/sequencer.rs`): an unsigned 64-bit
 * counter handing out replay sequence numbers. `next` is an atomic
 * fetch-and-add, which wraps modulo 2^64; the model writes that wrap out.
 */
module LedgerSequencer {
  import opened Wrappers
  import opened LedgerEntries

  const U64_MODULUS: nat := 0x1_0000_0000_0000_0000

  /** The sequencer holds the last sequence handed out. */
  datatype Sequencer = Sequencer(counter: nat) {
    ghost predicate Valid() {
      counter < U64_MODULUS
    }
  }

  /** A sequencer whose next value follows `last`. */
  function New(last: nat): (s: Sequencer)
    requires last < U64_MODULUS
    ensures s.Valid()
    ensures Next(s).1 == (last + 1) % U64_MODULUS
  {
    Sequencer(last)
  }

  /**
   * Seeds the sequencer from the repository's latest persisted sequence, or
   * from 0 when the store is empty; a repository error is passed on.
   */
  function Bootstrap(latest: Result<Option<nat>, LedgerError>): (r: Result<Sequencer, LedgerError>)
    requires latest.Ok? && latest.value.Some? ==> latest.value.value < U64_MODULUS
    ensures latest.Err? <==> r.Err?
    ensures latest.Err? ==> r.error == latest.error
    ensures r.Ok? ==> r.value.Valid()
    ensures latest.Ok? && latest.value.None? ==> Next(r.value).1 == 1
    ensures latest.Ok? && latest.value.Some? ==> r.value.counter == latest.value.value
  {
    match latest
    case Err(e) => Err(e)
    case Ok(last) => Ok(New(last.GetOr(0)))
  }

  /**
   * Hands out the next sequence: the counter advances by one (wrapping) and
   * the new counter value is returned.
   */
  function Next(s: Sequencer): (r: (Sequencer, nat))
    ensures r.1 < U64_MODULUS && r.0.Valid()
    ensures r.0.counter == r.1
    ensures s.counter + 1 < U64_MODULUS ==> r.1 == s.counter + 1
    ensures s.counter + 1 == U64_MODULUS ==> r.1 == 0
  {
    var v := (s.counter + 1) % U64_MODULUS;
    (Sequencer(v), v)
  }

  /** `n` successive calls to `Next`: the values in order and the final state. */
  function Draw(s: Sequencer, n: nat): (r: (seq<nat>, Sequencer))
    ensures |r.0| == n
    decreases n
  {
    if n == 0 then ([], s)
    else
      var (s1, v) := Next(s);
      var (rest, s2) := Draw(s1, n - 1);
      ([v] + rest, s2)
  }

  /**
   * Without wrap-around, `n` calls from a counter at `c` return exactly
   * `c+1 .. c+n` and leave the counter at `c+n`.
   */
  lemma {:induction false} DrawIsGapless(s: Sequencer, n: nat)
    requires s.counter + n < U64_MODULUS
    ensures Draw(s, n).1.counter == s.counter + n
    ensures forall i :: 0 <= i < n ==> Draw(s, n).0[i] == s.counter + i + 1
    decreases n
  {
    if n > 0 {
      var (s1, v) := Next(s);
      DrawIsGapless(s1, n - 1);
    }
  }

  /** Values drawn without wrap-around are strictly increasing. */
  lemma DrawStrictlyIncreasing(s: Sequencer, n: nat)
    requires s.counter + n < U64_MODULUS
    ensures forall i, j :: 0 <= i < j < n ==> Draw(s, n).0[i] < Draw(s, n).0[j]
  {
    DrawIsGapless(s, n);
  }

  /**
   * The imperative reading: `n` calls to `next` in a loop collect the values
   * `c+1 .. c+n` in order.
   */
  method DrawMany(s: Sequencer, n: nat) returns (values: seq<nat>, t: Sequencer)
    requires s.counter + n < U64_MODULUS
    ensures |values| == n
    ensures forall i :: 0 <= i < n ==> values[i] == s.counter + i + 1
    ensures t.counter == s.counter + n
  {
    values := [];
    t := s;
    var k := 0;
    while k < n
      invariant 0 <= k <= n
      invariant |values| == k
      invariant t.counter == s.counter + k
      invariant forall i :: 0 <= i < k ==> values[i] == s.counter + i + 1
    {
      var next := Next(t);
      t := next.0;
      values := values + [next.1];
      k := k + 1;
    }
  }

  /** At the top of the range the counter wraps to 0: monotonicity needs the bound. */
  lemma NextWrapsAtMax()
    ensures Next(Sequencer(U64_MODULUS - 1)).1 == 0
  {
  }
}

=== FILE: ledger_store.dfy ===
/**
 * The Parquet ledger repository's in-memory logic
 * (`tesser-ledger/src/parquet.rs`): query filtering, ordering and limit, the
 * latest persisted sequence, and the bucketing of an appended batch into one
 * partition file per UTC day. Reading and writing files is left out: the
 * stored rows are a sequence in file-listing order.
 */
module LedgerStore {
  import opened Wrappers
  import opened Core
  import opened LedgerEntries
  import opened LedgerQueries
  import LedgerSequencer
  import FixedPoint
  import LedgerAmount

  /** `matches_query`: every filter that is present holds; the ranges are inclusive. */
  predicate Matches(e: LedgerEntry, q: LedgerQuery) {
    (q.exchange.Some? ==> e.exchange == q.exchange.value)
    && (q.asset.Some? ==> e.asset == q.asset.value)
    && (q.entryType.Some? ==> e.entryType == q.entryType.value)
    && (q.startSequence.Some? ==> e.sequence >= q.startSequence.value)
    && (q.endSequence.Some? ==> e.sequence <= q.endSequence.value)
    && (q.startTime.Some? ==> e.timestamp >= q.startTime.value)
    && (q.endTime.Some? ==> e.timestamp <= q.endTime.value)
  }

  /** The default query filters nothing out. */
  lemma DefaultMatchesAll(e: LedgerEntry)
    ensures Matches(e, Default())
  {
  }

  /** Each equality builder narrows the match set by exactly its own condition. */
  lemma BuildersNarrow(e: LedgerEntry, q: LedgerQuery, x: ExchangeId, a: AssetId, t: LedgerType)
    ensures Matches(e, WithExchange(q, x)) <==> Matches(e, q.(exchange := None)) && e.exchange == x
    ensures Matches(e, WithAsset(q, a)) <==> Matches(e, q.(asset := None)) && e.asset == a
    ensures Matches(e, WithType(q, t)) <==> Matches(e, q.(entryType := None)) && e.entryType == t
  {
  }

  /** A sequence range admits exactly the entries whose sequence lies inside its inclusive bounds. */
  lemma SequenceRangeMatches(e: LedgerEntry, q: LedgerQuery, lo: nat, hi: nat)
    ensures Matches(e, WithSequenceRange(q, Some(lo), Some(hi)))
            <==> Matches(e, q.(startSequence := None, endSequence := None)) && lo <= e.sequence <= hi
  {
  }

  /** Limit and order do not influence which entries match. */
  lemma LimitAndOrderDoNotFilter(e: LedgerEntry, q: LedgerQuery, n: nat)
    ensures Matches(e, WithLimit(q, n)) == Matches(e, q)
    ensures Matches(e, Descending(q)) == Matches(e, q)
  {
  }

  /** The stored rows that match `q`, in storage order (`retain`). */
  function Filter(rows: seq<LedgerEntry>, q: LedgerQuery): (r: seq<LedgerEntry>)
    ensures |r| <= |rows|
    ensures forall e :: e in r <==> e in rows && Matches(e, q)
    ensures multiset(r) <= multiset(rows)
  {
    if |rows| == 0 then []
    else
      var rest := Filter(rows[1..], q);
      assert rows == [rows[0]] + rows[1..];
      if Matches(rows[0], q) then [rows[0]] + rest else rest
  }

  /** An all-admitting filter keeps every row. */
  lemma {:induction false} FilterAll(rows: seq<LedgerEntry>, q: LedgerQuery)
    requires forall i :: 0 <= i < |rows| ==> Matches(rows[i], q)
    ensures Filter(rows, q) == rows
  {
    if |rows| > 0 {
      FilterAll(rows[1..], q);
    }
  }

  /** Every matching row that occurs `k` times in storage occurs `k` times in the filter. */
  lemma {:induction false} FilterCount(rows: seq<LedgerEntry>, q: LedgerQuery, e: LedgerEntry)
    requires Matches(e, q)
    ensures multiset(Filter(rows, q))[e] == multiset(rows)[e]
  {
    if |rows| > 0 {
      FilterCount(rows[1..], q, e);
      assert rows == [rows[0]] + rows[1..];
    }
  }

  ghost predicate SortedAscending(s: seq<LedgerEntry>) {
    forall i, j :: 0 <= i < j < |s| ==> s[i].sequence <= s[j].sequence
  }

  ghost predicate SortedDescending(s: seq<LedgerEntry>) {
    forall i, j :: 0 <= i < j < |s| ==> s[i].sequence >= s[j].sequence
  }

  /** Inserts `e` in front of the first entry whose sequence is not smaller. */
  function Insert(e: LedgerEntry, s: seq<LedgerEntry>): (r: seq<LedgerEntry>)
    requires SortedAscending(s)
    ensures SortedAscending(r)
    ensures multiset(r) == multiset(s) + multiset{e}
    ensures |r| == |s| + 1
    ensures forall x :: x in r ==> x == e || x in s
  {
    if |s| == 0 then [e]
    else if e.sequence <= s[0].sequence then [e] + s
    else
      var rest := Insert(e, s[1..]);
      assert s == [s[0]] + s[1..];
      ConsSorted(s[0], s[1..], e, rest);
      [s[0]] + rest
  }

  /** An entry below `e` and below every entry of a sorted tail stays in front once `e` is inserted into the tail. */
  lemma ConsSorted(x: LedgerEntry, tail: seq<LedgerEntry>, e: LedgerEntry, rest: seq<LedgerEntry>)
    requires SortedAscending([x] + tail) && SortedAscending(rest)
    requires forall y :: y in rest ==> y == e || y in tail
    requires x.sequence < e.sequence
    ensures SortedAscending([x] + rest)
  {
    forall y | y in rest
      ensures x.sequence <= y.sequence
    {
      if y != e {
        var k :| 0 <= k < |tail| && tail[k] == y;
        assert ([x] + tail)[0] == x && ([x] + tail)[k + 1] == y;
      }
    }
    var r := [x] + rest;
    forall i, j | 0 <= i < j < |r|
      ensures r[i].sequence <= r[j].sequence
    {
      if i > 0 {
        assert r[i] == rest[i - 1] && r[j] == rest[j - 1];
      } else {
        assert r[j] in rest;
      }
    }
  }

  /** `sort_by_key(sequence)`: ascending by sequence, the same rows. */
  function SortBySequence(s: seq<LedgerEntry>): (r: seq<LedgerEntry>)
    ensures SortedAscending(r)
    ensures multiset(r) == multiset(s)
    ensures |r| == |s|
  {
    if |s| == 0 then []
    else
      assert s == [s[0]] + s[1..];
      Insert(s[0], SortBySequence(s[1..]))
  }

  function Reverse(s: seq<LedgerEntry>): (r: seq<LedgerEntry>)
    ensures |r| == |s|
    ensures forall i :: 0 <= i < |s| ==> r[i] == s[|s| - 1 - i]
  {
    if |s| == 0 then [] else Reverse(s[1..]) + [s[0]]
  }

  lemma ReverseSameRows(s: seq<LedgerEntry>)
    ensures multiset(Reverse(s)) == multiset(s)
  {
    if |s| > 0 {
      ReverseSameRows(s[1..]);
      assert s == [s[0]] + s[1..];
    }
  }

  /** The matching rows in the requested order, before the limit is applied. */
  function Ordered(rows: seq<LedgerEntry>, q: LedgerQuery): (r: seq<LedgerEntry>)
    ensures multiset(r) == multiset(Filter(rows, q))
    ensures q.ascending ==> SortedAscending(r)
    ensures !q.ascending ==> SortedDescending(r)
  {
    var sorted := SortBySequence(Filter(rows, q));
    if q.ascending then sorted
    else
      ReverseSameRows(sorted);
      Reverse(sorted)
  }

  /**
   * `query`: the matching rows ordered by sequence (ascending or
   * descending), then cut to the limit.
   */
  function Query(rows: seq<LedgerEntry>, q: LedgerQuery): (r: seq<LedgerEntry>)
    ensures forall e :: e in r ==> e in rows && Matches(e, q)
    ensures q.ascending ==> SortedAscending(r)
    ensures !q.ascending ==> SortedDescending(r)
    ensures r <= Ordered(rows, q)
    ensures q.limit.None? ==> multiset(r) == multiset(Filter(rows, q))
    ensures q.limit.Some? ==> |r| == if q.limit.value < |Filter(rows, q)| then q.limit.value else |Filter(rows, q)|
  {
    var ordered := Ordered(rows, q);
    OrderedRows(rows, q);
    if q.limit.Some? && q.limit.value < |ordered| then ordered[..q.limit.value] else ordered
  }

  lemma OrderedRows(rows: seq<LedgerEntry>, q: LedgerQuery)
    ensures |Ordered(rows, q)| == |Filter(rows, q)|
    ensures forall e :: e in Ordered(rows, q) ==> e in rows && Matches(e, q)
  {
    var ordered := Ordered(rows, q);
    assert |multiset(ordered)| == |multiset(Filter(rows, q))|;
    forall e | e in ordered ensures e in rows && Matches(e, q) {
      assert e in multiset(ordered);
      assert e in multiset(Filter(rows, q));
    }
  }

  /** A matching stored row is returned by an unlimited query as often as it is stored. */
  lemma QueryComplete(rows: seq<LedgerEntry>, q: LedgerQuery, e: LedgerEntry)
    requires q.limit.None? && Matches(e, q)
    ensures multiset(Query(rows, q))[e] == multiset(rows)[e]
  {
    FilterCount(rows, q, e);
  }

  /** With the default query every stored row comes back, newest sequence first. */
  lemma DefaultQueryReturnsAll(rows: seq<LedgerEntry>)
    ensures multiset(Query(rows, Default())) == multiset(rows)
    ensures |Query(rows, Default())| == |rows|
    ensures SortedDescending(Query(rows, Default()))
  {
    forall i | 0 <= i < |rows| ensures Matches(rows[i], Default()) {
      DefaultMatchesAll(rows[i]);
    }
    FilterAll(rows, Default());
    assert |multiset(Query(rows, Default()))| == |multiset(rows)|;
  }

  /** `latest_sequence`: the largest stored sequence, or `None` for an empty store. */
  function LatestSequence(rows: seq<LedgerEntry>): (r: Option<nat>)
    ensures r.None? <==> |rows| == 0
    ensures r.Some? ==> exists i :: 0 <= i < |rows| && rows[i].sequence == r.value
    ensures r.Some? ==> forall i :: 0 <= i < |rows| ==> rows[i].sequence <= r.value
  {
    if |rows| == 0 then None
    else
      var rest := LatestSequence(rows[1..]);
      if rest.None? || rows[0].sequence > rest.value then Some(rows[0].sequence)
      else
        assert exists i :: 0 <= i < |rows| && rows[i].sequence == rest.value by {
          var k :| 0 <= k < |rows[1..]| && rows[1..][k].sequence == rest.value;
          assert rows[k + 1].sequence == rest.value;
        }
        rest
  }

  /**
   * A sequencer bootstrapped from the store hands out a sequence above every
   * stored one (while the counter stays below 2^64 - 1).
   */
  lemma BootstrapFollowsStore(rows: seq<LedgerEntry>)
    requires forall i :: 0 <= i < |rows| ==> rows[i].sequence < LedgerSequencer.U64_MODULUS - 1
    ensures var s := LedgerSequencer.Bootstrap(Ok(LatestSequence(rows)));
      s.Ok? && forall i :: 0 <= i < |rows| ==> rows[i].sequence < LedgerSequencer.Next(s.value).1
  {
  }

  /** One day's partition of an appended batch, in input order. */
  datatype Bucket = Bucket(day: int, entries: seq<LedgerEntry>)

  /** The entries of `s` falling on `day`, in order. */
  function OnDay(s: seq<LedgerEntry>, day: int, dayOf: int -> int): (r: seq<LedgerEntry>)
    ensures forall i :: 0 <= i < |r| ==> dayOf(r[i].timestamp) == day
  {
    if |s| == 0 then []
    else
      var init := OnDay(s[..|s| - 1], day, dayOf);
      if dayOf(s[|s| - 1].timestamp) == day then init + [s[|s| - 1]] else init
  }

  ghost predicate KeysIncreasing(bs: seq<Bucket>) {
    forall i, j :: 0 <= i < j < |bs| ==> bs[i].day < bs[j].day
  }

  ghost predicate NoneEmpty(bs: seq<Bucket>) {
    forall i :: 0 <= i < |bs| ==> |bs[i].entries| > 0
  }

  /** The entries already collected for `day`, or none. */
  function BucketOn(bs: seq<Bucket>, day: int): seq<LedgerEntry> {
    if |bs| == 0 then []
    else if bs[0].day == day then bs[0].entries
    else BucketOn(bs[1..], day)
  }

  /** All buckets' entries, in bucket order: the rows written by one batch. */
  function Flatten(bs: seq<Bucket>): seq<LedgerEntry> {
    if |bs| == 0 then [] else bs[0].entries + Flatten(bs[1..])
  }

  /** `BTreeMap::entry(day).or_default().push(e)` on buckets kept in key order. */
  function AddToBucket(bs: seq<Bucket>, day: int, e: LedgerEntry): (r: seq<Bucket>)
    requires KeysIncreasing(bs)
    ensures KeysIncreasing(r)
    ensures forall i :: 0 <= i < |r| ==> r[i].day == day || exists j :: 0 <= j < |bs| && bs[j].day == r[i].day
    ensures NoneEmpty(bs) ==> NoneEmpty(r)
  {
    if |bs| == 0 then [Bucket(day, [e])]
    else if day < bs[0].day then [Bucket(day, [e])] + bs
    else if day == bs[0].day then [Bucket(day, bs[0].entries + [e])] + bs[1..]
    else
      var rest := AddToBucket(bs[1..], day, e);
      AddBehind(bs, day, rest);
      [bs[0]] + rest
  }

  /** A later day's buckets go behind the first one, which stays first. */
  lemma AddBehind(bs: seq<Bucket>, day: int, rest: seq<Bucket>)
    requires KeysIncreasing(bs) && |bs| > 0 && bs[0].day < day
    requires KeysIncreasing(rest)
    requires forall i :: 0 <= i < |rest| ==> rest[i].day == day || exists j :: 0 <= j < |bs[1..]| && bs[1..][j].day == rest[i].day
    requires NoneEmpty(bs[1..]) ==> NoneEmpty(rest)
    ensures KeysIncreasing([bs[0]] + rest)
    ensures forall i :: 0 <= i < |[bs[0]] + rest| ==>
      ([bs[0]] + rest)[i].day == day || exists j :: 0 <= j < |bs| && bs[j].day == ([bs[0]] + rest)[i].day
    ensures NoneEmpty(bs) ==> NoneEmpty([bs[0]] + rest)
  {
    var r := [bs[0]] + rest;
    forall i | 0 <= i < |rest| ensures bs[0].day < rest[i].day {
      if rest[i].day != day {
        var j :| 0 <= j < |bs[1..]| && bs[1..][j].day == rest[i].day;
        assert bs[j + 1].day == rest[i].day;
      }
    }
    forall i | 0 <= i < |r| ensures r[i].day == day || exists j :: 0 <= j < |bs| && bs[j].day == r[i].day {
      if i == 0 {
        assert bs[0].day == r[0].day;
      } else if r[i].day != day {
        assert r[i] == rest[i - 1];
        var j :| 0 <= j < |bs[1..]| && bs[1..][j].day == rest[i - 1].day;
        assert bs[j + 1].day == r[i].day;
      }
    }
    if NoneEmpty(bs) {
      assert forall i :: 0 <= i < |bs[1..]| ==> bs[1..][i] == bs[i + 1];
    }
  }

  /** Buckets whose keys all exceed `day` hold nothing for it. */
  lemma {:induction false} BucketOnAbsent(bs: seq<Bucket>, day: int)
    requires forall i :: 0 <= i < |bs| ==> bs[i].day > day
    ensures BucketOn(bs, day) == []
  {
    if |bs| > 0 {
      BucketOnAbsent(bs[1..], day);
    }
  }

  /** Adding `e` under `day` appends it to that day's bucket and leaves every other day alone. */
  lemma {:induction false} AddToBucketOn(bs: seq<Bucket>, day: int, e: LedgerEntry, d: int)
    requires KeysIncreasing(bs)
    ensures BucketOn(AddToBucket(bs, day, e), d) == if d == day then BucketOn(bs, d) + [e] else BucketOn(bs, d)
  {
    if |bs| == 0 {
    } else if day < bs[0].day {
      if d == day {
        BucketOnAbsent(bs, day);
      }
    } else if day == bs[0].day {
    } else {
      AddToBucketOn(bs[1..], day, e, d);
    }
  }

  /** Adding `e` adds exactly one row to the flattened batch. */
  lemma {:induction false} AddToBucketRows(bs: seq<Bucket>, day: int, e: LedgerEntry)
    requires KeysIncreasing(bs)
    ensures multiset(Flatten(AddToBucket(bs, day, e))) == multiset(Flatten(bs)) + multiset{e}
  {
    if |bs| == 0 {
    } else if day < bs[0].day {
    } else if day == bs[0].day {
      assert Flatten(AddToBucket(bs, day, e)) == (bs[0].entries + [e]) + Flatten(bs[1..]);
    } else {
      AddToBucketRows(bs[1..], day, e);
      assert Flatten(AddToBucket(bs, day, e)) == bs[0].entries + Flatten(AddToBucket(bs[1..], day, e));
    }
  }

  /** Groups a batch by UTC day (`dayOf` of its timestamp), as `append_batch` does before writing. */
  function Bucketize(s: seq<LedgerEntry>, dayOf: int -> int): (r: seq<Bucket>)
    ensures KeysIncreasing(r) && NoneEmpty(r)
  {
    if |s| == 0 then []
    else AddToBucket(Bucketize(s[..|s| - 1], dayOf), dayOf(s[|s| - 1].timestamp), s[|s| - 1])
  }

  /**
   * The buckets partition the batch: each day's bucket holds exactly that
   * day's entries in input order, and together they hold every entry once.
   */
  lemma BucketizePartitions(s: seq<LedgerEntry>, dayOf: int -> int)
    ensures forall d :: BucketOn(Bucketize(s, dayOf), d) == OnDay(s, d, dayOf)
    ensures multiset(Flatten(Bucketize(s, dayOf))) == multiset(s)
  {
    BucketizeDays(s, dayOf);
    BucketizeRows(s, dayOf);
  }

  lemma {:induction false} BucketizeDays(s: seq<LedgerEntry>, dayOf: int -> int)
    ensures forall d :: BucketOn(Bucketize(s, dayOf), d) == OnDay(s, d, dayOf)
  {
    if |s| > 0 {
      BucketizeDays(s[..|s| - 1], dayOf);
      forall d ensures BucketOn(Bucketize(s, dayOf), d) == OnDay(s, d, dayOf) {
        BucketizeStep(s, dayOf, d);
      }
    }
  }

  lemma {:induction false} BucketizeRows(s: seq<LedgerEntry>, dayOf: int -> int)
    ensures multiset(Flatten(Bucketize(s, dayOf))) == multiset(s)
  {
    if |s| > 0 {
      BucketizeRows(s[..|s| - 1], dayOf);
      AddToBucketRows(Bucketize(s[..|s| - 1], dayOf), dayOf(s[|s| - 1].timestamp), s[|s| - 1]);
      assert s == s[..|s| - 1] + [s[|s| - 1]];
    }
  }

  lemma BucketizeStep(s: seq<LedgerEntry>, dayOf: int -> int, d: int)
    requires |s| > 0
    requires BucketOn(Bucketize(s[..|s| - 1], dayOf), d) == OnDay(s[..|s| - 1], d, dayOf)
    ensures BucketOn(Bucketize(s, dayOf), d) == OnDay(s, d, dayOf)
  {
    AddToBucketOn(Bucketize(s[..|s| - 1], dayOf), dayOf(s[|s| - 1].timestamp), s[|s| - 1], d);
  }

  /** In key-ordered buckets, the lookup of a bucket's own day finds that bucket. */
  lemma {:induction false} BucketOnOwnDay(bs: seq<Bucket>, i: nat)
    requires KeysIncreasing(bs) && i < |bs|
    ensures BucketOn(bs, bs[i].day) == bs[i].entries
  {
    if i > 0 {
      BucketOnOwnDay(bs[1..], i - 1);
    }
  }

  /** Each written partition holds exactly one day's entries, in input order, and is never empty. */
  lemma BucketContents(s: seq<LedgerEntry>, dayOf: int -> int, i: nat)
    requires i < |Bucketize(s, dayOf)|
    ensures Bucketize(s, dayOf)[i].entries == OnDay(s, Bucketize(s, dayOf)[i].day, dayOf)
    ensures |Bucketize(s, dayOf)[i].entries| > 0
  {
    BucketizePartitions(s, dayOf);
    BucketOnOwnDay(Bucketize(s, dayOf), i);
  }

  /**
   * The `rust_decimal` value behind an amount: `repr` gives its mantissa and
   * scale, which the number alone does not determine, and it is worth the
   * amount.
   */
  predicate Represents(repr: real -> FixedPoint.Decimal, amount: real) {
    FixedPoint.WellFormed(repr(amount)) && FixedPoint.Value(repr(amount)) == amount
  }

  /** A row whose amount `decimal_to_i128` can store at 18 places (with the 96-bit guard of the corrected encoder). */
  predicate Storable(e: LedgerEntry, repr: real -> FixedPoint.Decimal) {
    Represents(repr, e.amount) && LedgerAmount.Encode(repr(e.amount)).Ok?
  }

  /**
   * A row as it reads back once written: the amount is its decimal scaled to
   * 18 places (rounded half-even when it has more) and read back. A row that
   * cannot be stored is left as it is; it is never written.
   */
  function StoredRow(e: LedgerEntry, repr: real -> FixedPoint.Decimal): (r: LedgerEntry)
    ensures r == e.(amount := r.amount)
    ensures Storable(e, repr) ==> LedgerAmount.WithinHalfUnit(r.amount, e.amount)
    ensures Storable(e, repr) && repr(e.amount).scale <= LedgerAmount.LEDGER_DECIMAL_SCALE ==> r == e
  {
    if Storable(e, repr) then
      var v := LedgerAmount.Encode(repr(e.amount)).value;
      ReadBackClose(e, repr);
      e.(amount := FixedPoint.Value(LedgerAmount.Decode(v)))
    else e
  }

  /** The amount read back from a stored row is the row's amount, or within half of 10^-18 of it when it had more places. */
  lemma ReadBackClose(e: LedgerEntry, repr: real -> FixedPoint.Decimal)
    requires Storable(e, repr)
    ensures var back := FixedPoint.Value(LedgerAmount.Decode(LedgerAmount.Encode(repr(e.amount)).value));
      && LedgerAmount.WithinHalfUnit(back, e.amount)
      && (repr(e.amount).scale <= LedgerAmount.LEDGER_DECIMAL_SCALE ==> back == e.amount)
  {
    var d := repr(e.amount);
    if d.scale <= LedgerAmount.LEDGER_DECIMAL_SCALE {
      LedgerAmount.RoundTrip(d);
    } else {
      LedgerAmount.RoundTripRounded(d);
    }
  }

  /** The rows of a batch as they read back once written. */
  function Rows(entries: seq<LedgerEntry>, repr: real -> FixedPoint.Decimal): (r: seq<LedgerEntry>)
    ensures |r| == |entries|
    ensures forall i :: 0 <= i < |entries| ==> r[i] == StoredRow(entries[i], repr)
    decreases |entries|
  {
    if |entries| == 0 then []
    else Rows(entries[..|entries| - 1], repr) + [StoredRow(entries[|entries| - 1], repr)]
  }

  lemma RowsAppend(a: seq<LedgerEntry>, b: seq<LedgerEntry>, repr: real -> FixedPoint.Decimal)
    ensures Rows(a + b, repr) == Rows(a, repr) + Rows(b, repr)
  {
    hide StoredRow;
    assert forall i :: 0 <= i < |a + b| ==> Rows(a + b, repr)[i] == (Rows(a, repr) + Rows(b, repr))[i];
  }

  /** Rows whose amounts all have at most 18 places read back unchanged. */
  lemma RowsExact(entries: seq<LedgerEntry>, repr: real -> FixedPoint.Decimal)
    requires forall e :: e in entries ==> Storable(e, repr) && repr(e.amount).scale <= LedgerAmount.LEDGER_DECIMAL_SCALE
    ensures Rows(entries, repr) == entries
  {
  }

  /** Reading back rows does not depend on their order: a permutation of a batch reads back as a permutation. */
  lemma {:induction false} RowsPermutation(a: seq<LedgerEntry>, b: seq<LedgerEntry>, repr: real -> FixedPoint.Decimal)
    requires multiset(a) == multiset(b)
    ensures multiset(Rows(a, repr)) == multiset(Rows(b, repr))
    decreases |a|
  {
    hide *;
    if |a| > 0 {
      var x := a[|a| - 1];
      var a' := a[..|a| - 1];
      assert a == a' + [x];
      assert x in multiset(b);
      var j :| 0 <= j < |b| && b[j] == x;
      var b' := b[..j] + b[j + 1..];
      assert b == b[..j] + [x] + b[j + 1..];
      assert multiset(b') == multiset(b) - multiset{x};
      RowsPermutation(a', b', repr);
      RowsAppend(a', [x], repr);
      RowsAppend(b[..j] + [x], b[j + 1..], repr);
      RowsAppend(b[..j], [x], repr);
      RowsAppend(b[..j], b[j + 1..], repr);
    } else {
      assert |multiset(b)| == 0;
    }
  }

  /**
   * `entries_to_batch` on the amounts: every row converted in order, or the
   * `Serialization` error of the first amount that cannot be stored.
   */
  function EncodeRows(entries: seq<LedgerEntry>, repr: real -> FixedPoint.Decimal): (r: Result<seq<LedgerEntry>, LedgerError>)
    requires forall e :: e in entries ==> Represents(repr, e.amount)
    ensures r.Ok? <==> forall e :: e in entries ==> Storable(e, repr)
    ensures r.Err? ==> r.error.Serialization?
    ensures r.Ok? ==> r.value == Rows(entries, repr)
    decreases |entries|
  {
    if |entries| == 0 then Ok([])
    else
      var init, last := entries[..|entries| - 1], entries[|entries| - 1];
      EncodeRowsStep(entries, repr);
      match EncodeRows(init, repr)
      case Err(err) => Err(err)
      case Ok(rows) =>
        if Storable(last, repr) then Ok(rows + [StoredRow(last, repr)])
        else Err(LedgerAmount.Encode(repr(last.amount)).error)
  }

  /**
   * A batch is storable when its front and its last row are, and reads back
   * as they do; a last row that is not storable has a `Serialization` error.
   */
  lemma EncodeRowsStep(entries: seq<LedgerEntry>, repr: real -> FixedPoint.Decimal)
    requires |entries| > 0
    requires forall e :: e in entries ==> Represents(repr, e.amount)
    ensures var init, last := entries[..|entries| - 1], entries[|entries| - 1];
      && ((forall e :: e in entries ==> Storable(e, repr)) <==> (forall e :: e in init ==> Storable(e, repr)) && Storable(last, repr))
      && (forall e :: e in init ==> Represents(repr, e.amount))
      && Rows(entries, repr) == Rows(init, repr) + [StoredRow(last, repr)]
      && FixedPoint.WellFormed(repr(last.amount))
      && (!Storable(last, repr) ==>
            LedgerAmount.Encode(repr(last.amount)).Err? && LedgerAmount.Encode(repr(last.amount)).error.Serialization?)
  {
    var init, last := entries[..|entries| - 1], entries[|entries| - 1];
    assert last in entries;
    UnstorableError(last, repr);
    hide *;
    assert entries == init + [last];
    assert forall e :: e in init ==> e in entries;
  }

  /** A represented amount that cannot be stored is a `Serialization` error of the encoder. */
  lemma UnstorableError(e: LedgerEntry, repr: real -> FixedPoint.Decimal)
    requires Represents(repr, e.amount)
    ensures FixedPoint.WellFormed(repr(e.amount))
    ensures !Storable(e, repr) ==>
      LedgerAmount.Encode(repr(e.amount)).Err? && LedgerAmount.Encode(repr(e.amount)).error.Serialization?
  {
  }

  /**
   * `write_partition`: an empty partition is refused; otherwise the rows are
   * converted (`entries_to_batch`) and, when every amount can be stored,
   * written as they will read back.
   */
  function WritePartition(entries: seq<LedgerEntry>, repr: real -> FixedPoint.Decimal): (r: Result<seq<LedgerEntry>, LedgerError>)
    requires forall e :: e in entries ==> Represents(repr, e.amount)
    ensures |entries| == 0 ==> r == Err(InvalidState("attempted to write empty ledger partition"))
    ensures r.Ok? <==> |entries| > 0 && forall e :: e in entries ==> Storable(e, repr)
    ensures r.Err? && |entries| > 0 ==> r.error.Serialization?
    ensures r.Ok? ==> r.value == Rows(entries, repr)
  {
    if |entries| == 0 then Err(InvalidState("attempted to write empty ledger partition"))
    else EncodeRows(entries, repr)
  }

  /**
   * The rows on disk after a batch, the number of partitions written, and
   * the outcome: partitions written before a failed one stay written.
   */
  datatype Written = Written(rows: seq<LedgerEntry>, partitions: nat, result: Result<(), LedgerError>)

  /** Writes the buckets in key order, stopping at the first failed write. */
  function WriteBuckets(store: seq<LedgerEntry>, bs: seq<Bucket>, repr: real -> FixedPoint.Decimal): (r: Written)
    requires forall e :: e in Flatten(bs) ==> Represents(repr, e.amount)
    ensures r.partitions <= |bs|
    ensures r.result.Ok? <==> r.partitions == |bs|
    decreases |bs|
  {
    if |bs| == 0 then Written(store, 0, Ok(()))
    else
      WriteBucketsStep(bs, repr);
      match WritePartition(bs[0].entries, repr)
      case Err(e) => Written(store, 0, Err(e))
      case Ok(rows) =>
        var rest := WriteBuckets(store + rows, bs[1..], repr);
        Written(rest.rows, rest.partitions + 1, rest.result)
  }

  /**
   * What `WriteBuckets` leaves on disk: the rows of the partitions written,
   * after the store; on failure, the partition that failed is empty (an
   * `InvalidState` error) or holds an amount that cannot be stored (a
   * `Serialization` error). Non-empty buckets are all written exactly when
   * every amount can be stored.
   */
  lemma {:induction false} WriteBucketsWrites(store: seq<LedgerEntry>, bs: seq<Bucket>, repr: real -> FixedPoint.Decimal)
    requires forall e :: e in Flatten(bs) ==> Represents(repr, e.amount)
    ensures var r := WriteBuckets(store, bs, repr);
      && r.rows == store + Rows(Flatten(bs[..r.partitions]), repr)
      && (r.result.Err? ==> !(|bs[r.partitions].entries| > 0 && forall e :: e in bs[r.partitions].entries ==> Storable(e, repr)))
      && (r.result.Err? ==> (r.result.error.InvalidState? <==> |bs[r.partitions].entries| == 0))
      && (r.result.Err? && |bs[r.partitions].entries| > 0 ==> r.result.error.Serialization?)
      && (NoneEmpty(bs) ==> (r.result.Ok? <==> forall e :: e in Flatten(bs) ==> Storable(e, repr)))
    decreases |bs|
  {
    hide Storable, Represents, StoredRow, Rows, WritePartition;
    var r := WriteBuckets(store, bs, repr);
    if |bs| == 0 {
      assert bs[..0] == bs;
      assert Rows([], repr) == [];
    } else {
      WriteBucketsStep(bs, repr);
      var first := WritePartition(bs[0].entries, repr);
      if first.Err? {
        assert r == Written(store, 0, Err(first.error));
        assert bs[..0] == [];
        assert Rows([], repr) == [];
      } else {
        var rest := WriteBuckets(store + first.value, bs[1..], repr);
        assert r == Written(rest.rows, rest.partitions + 1, rest.result);
        WriteBucketsWrites(store + first.value, bs[1..], repr);
        WrittenPrefix(bs, rest.partitions, repr);
      }
    }
  }

  /** The rows of the buckets are the first bucket's followed by the rest's. */
  lemma WriteBucketsStep(bs: seq<Bucket>, repr: real -> FixedPoint.Decimal)
    requires |bs| > 0
    ensures Flatten(bs) == bs[0].entries + Flatten(bs[1..])
    ensures (forall e :: e in Flatten(bs) ==> Storable(e, repr))
      <==> (forall e :: e in bs[0].entries ==> Storable(e, repr)) && (forall e :: e in Flatten(bs[1..]) ==> Storable(e, repr))
    ensures (forall e :: e in Flatten(bs) ==> Represents(repr, e.amount))
      ==> (forall e :: e in bs[0].entries ==> Represents(repr, e.amount)) && (forall e :: e in Flatten(bs[1..]) ==> Represents(repr, e.amount))
    ensures NoneEmpty(bs) ==> NoneEmpty(bs[1..]) && |bs[0].entries| > 0
  {
    hide Storable, Represents;
    assert Flatten(bs) == bs[0].entries + Flatten(bs[1..]);
  }

  /** The rows of the first `k + 1` buckets are the first bucket's followed by those of the next `k`. */
  lemma WrittenPrefix(bs: seq<Bucket>, k: nat, repr: real -> FixedPoint.Decimal)
    requires 0 < |bs| && k < |bs|
    ensures Rows(Flatten(bs[..k + 1]), repr) == Rows(bs[0].entries, repr) + Rows(Flatten(bs[1..][..k]), repr)
  {
    assert bs[..k + 1][1..] == bs[1..][..k];
    RowsAppend(bs[0].entries, Flatten(bs[1..][..k]), repr);
  }

  /**
   * `append_batch`: an empty batch is a no-op; otherwise one partition per
   * day is written, in day order. Every bucket is non-empty, so the write
   * fails exactly when some amount cannot be stored, and then with a
   * `Serialization` error, after the partitions of earlier days.
   */
  function AppendBatch(store: seq<LedgerEntry>, entries: seq<LedgerEntry>, dayOf: int -> int, repr: real -> FixedPoint.Decimal)
    : (r: Written)
    requires forall e :: e in entries ==> Represents(repr, e.amount)
    ensures |entries| == 0 ==> r == Written(store, 0, Ok(()))
    ensures r.result.Ok? <==> forall e :: e in entries ==> Storable(e, repr)
    ensures r.result.Err? ==> r.result.error.Serialization?
    ensures store <= r.rows
    ensures r.result.Ok? ==> multiset(r.rows) == multiset(store) + multiset(Rows(entries, repr))
  {
    if |entries| == 0 then Written(store, 0, Ok(()))
    else
      AppendWrites(store, entries, dayOf, repr);
      WriteBuckets(store, Bucketize(entries, dayOf), repr)
  }

  /** The facts of `AppendBatch` for a non-empty batch, from the bucketing and the writes. */
  lemma AppendWrites(store: seq<LedgerEntry>, entries: seq<LedgerEntry>, dayOf: int -> int, repr: real -> FixedPoint.Decimal)
    requires |entries| > 0
    requires forall e :: e in entries ==> Represents(repr, e.amount)
    ensures forall e :: e in Flatten(Bucketize(entries, dayOf)) ==> Represents(repr, e.amount)
    ensures var w := WriteBuckets(store, Bucketize(entries, dayOf), repr);
      && (w.result.Ok? <==> forall e :: e in entries ==> Storable(e, repr))
      && (w.result.Err? ==> w.result.error.Serialization?)
      && store <= w.rows
      && (w.result.Ok? ==> multiset(w.rows) == multiset(store) + multiset(Rows(entries, repr)))
  {
    var bs := Bucketize(entries, dayOf);
    BucketizePartitions(entries, dayOf);
    assert forall e :: e in Flatten(bs) ==> e in entries by {
      forall e | e in Flatten(bs) ensures e in entries {
        assert e in multiset(Flatten(bs));
      }
    }
    assert forall e :: e in entries ==> e in Flatten(bs) by {
      forall e | e in entries ensures e in Flatten(bs) {
        assert e in multiset(entries);
      }
    }
    WriteBucketsWrites(store, bs, repr);
    var w := WriteBuckets(store, bs, repr);
    assert w.result.Ok? ==> bs[..w.partitions] == bs;
    assert w.result.Err? ==> |bs[w.partitions].entries| > 0;
    RowsPermutation(Flatten(bs), entries, repr);
  }

  /** A batch whose amounts all have at most 18 places and fit is stored row for row, unchanged. */
  lemma AppendExact(store: seq<LedgerEntry>, entries: seq<LedgerEntry>, dayOf: int -> int, repr: real -> FixedPoint.Decimal)
    requires forall e :: e in entries ==> Represents(repr, e.amount)
    requires forall e :: e in entries ==> Storable(e, repr) && repr(e.amount).scale <= LedgerAmount.LEDGER_DECIMAL_SCALE
    ensures AppendBatch(store, entries, dayOf, repr).result.Ok?
    ensures multiset(AppendBatch(store, entries, dayOf, repr).rows) == multiset(store) + multiset(entries)
  {
    RowsExact(entries, repr);
  }

  /**
   * Appending a batch to an empty store and querying with the default query
   * returns every row, as it reads back, exactly when the append succeeds.
   */
  lemma AppendThenQueryAll(entries: seq<LedgerEntry>, dayOf: int -> int, repr: real -> FixedPoint.Decimal)
    requires forall e :: e in entries ==> Represents(repr, e.amount)
    ensures var w := AppendBatch([], entries, dayOf, repr);
      w.result.Ok? ==> multiset(Query(w.rows, Default())) == multiset(Rows(entries, repr))
                       && |Query(w.rows, Default())| == |entries|
  {
    var w := AppendBatch([], entries, dayOf, repr);
    DefaultQueryReturnsAll(w.rows);
    if w.result.Ok? {
      assert |multiset(w.rows)| == |multiset(Rows(entries, repr))|;
    }
  }

  /**
   * An amount of 10^21 at scale 0 scales to 10^39, beyond an `i128`: the
   * append fails with a `Serialization` error and nothing is written.
   */
  lemma OverflowingAmountRejected(e: LedgerEntry, dayOf: int -> int)
    requires e.amount == 1_000_000_000_000_000_000_000.0
    ensures var repr := (a: real) => FixedPoint.Decimal(1_000_000_000_000_000_000_000, 0);
      && Represents(repr, e.amount)
      && AppendBatch([], [e], dayOf, repr) == Written([], 0, Err(Serialization("decimal mantissa overflow")))
  {
    var repr := (a: real) => FixedPoint.Decimal(1_000_000_000_000_000_000_000, 0);
    var d := FixedPoint.Decimal(1_000_000_000_000_000_000_000, 0);
    LedgerAmount.Pow10Scale();
    assert Pow10(0) == 1;
    assert FixedPoint.Rescale(d, LedgerAmount.LEDGER_DECIMAL_SCALE).None? by {
      LedgerAmount.RescaleToLedgerScale(d);
    }
    assert LedgerAmount.Encode(d) == Err(Serialization("decimal mantissa overflow"));
    assert Bucketize([e], dayOf) == [Bucket(dayOf(e.timestamp), [e])];
    assert EncodeRows([e], repr) == Err(Serialization("decimal mantissa overflow")) by {
      assert [e][..0] == [];
    }
  }
}

=== FILE: ordering.dfy ===
/**
 * Orders and sorting shared by the components that sort: lexicographic
 * order on sequences (strings by character, paths by component, as Rust's
 * `Ord` for `String` and `Path` compare them) and a stable insertion sort.
 */
module Ordering {

  /** `lt` is a strict total order. */
  ghost predicate StrictTotal<T(!new)>(lt: (T, T) -> bool) {
    && (forall a :: !lt(a, a))
    && (forall a, b, c :: lt(a, b) && lt(b, c) ==> lt(a, c))
    && (forall a, b :: a == b || lt(a, b) || lt(b, a))
  }

  /** `leq` is a total preorder: any two elements compare, and comparisons chain. */
  ghost predicate TotalPreorder<T(!new)>(leq: (T, T) -> bool) {
    && (forall a, b :: leq(a, b) || leq(b, a))
    && (forall a, b, c :: leq(a, b) && leq(b, c) ==> leq(a, c))
  }

  /** Lexicographic `a <= b` over an element order `lt`: a proper prefix comes first. */
  function Lex<T>(a: seq<T>, b: seq<T>, lt: (T, T) -> bool): bool
    decreases |a|
  {
    if |a| == 0 then true
    else if |b| == 0 then false
    else if lt(a[0], b[0]) then true
    else if lt(b[0], a[0]) then false
    else Lex(a[1..], b[1..], lt)
  }

  lemma {:induction false} LexTotal<T(!new)>(a: seq<T>, b: seq<T>, lt: (T, T) -> bool)
    requires StrictTotal(lt)
    ensures Lex(a, b, lt) || Lex(b, a, lt)
    decreases |a|
  {
    if |a| > 0 && |b| > 0 && !lt(a[0], b[0]) && !lt(b[0], a[0]) {
      LexTotal(a[1..], b[1..], lt);
    }
  }

  lemma {:induction false} LexAntisymmetric<T(!new)>(a: seq<T>, b: seq<T>, lt: (T, T) -> bool)
    requires StrictTotal(lt)
    requires Lex(a, b, lt) && Lex(b, a, lt)
    ensures a == b
    decreases |a|
  {
    if |a| > 0 {
      assert a[0] == b[0];
      LexAntisymmetric(a[1..], b[1..], lt);
      assert a == [a[0]] + a[1..] && b == [b[0]] + b[1..];
    }
  }

  lemma {:induction false} LexTransitive<T(!new)>(a: seq<T>, b: seq<T>, c: seq<T>, lt: (T, T) -> bool)
    requires StrictTotal(lt)
    requires Lex(a, b, lt) && Lex(b, c, lt)
    ensures Lex(a, c, lt)
    decreases |a|
  {
    if |a| > 0 && |b| > 0 && |c| > 0 && !lt(a[0], b[0]) && !lt(b[0], c[0]) {
      LexTransitive(a[1..], b[1..], c[1..], lt);
    }
  }

  /** Strict lexicographic order. */
  function LexLess<T(==)>(a: seq<T>, b: seq<T>, lt: (T, T) -> bool): bool {
    Lex(a, b, lt) && a != b
  }

  /** Lexicographic order on strings by code point (UTF-8 byte order agrees with it). */
  function CharLess(a: char, b: char): bool {
    a < b
  }

  function StringLess(a: string, b: string): bool {
    LexLess(a, b, CharLess)
  }

  function StringLeq(a: string, b: string): bool {
    Lex(a, b, CharLess)
  }

  lemma StringOrder()
    ensures StrictTotal(StringLess)
    ensures TotalPreorder(StringLeq)
    ensures forall a, b :: StringLeq(a, b) && StringLeq(b, a) ==> a == b
  {
    assert StrictTotal(CharLess);
    forall a: string, b: string ensures StringLeq(a, b) || StringLeq(b, a) {
      LexTotal(a, b, CharLess);
    }
    forall a: string, b: string, c: string | StringLeq(a, b) && StringLeq(b, c) ensures StringLeq(a, c) {
      LexTransitive(a, b, c, CharLess);
    }
    forall a: string, b: string | StringLeq(a, b) && StringLeq(b, a) ensures a == b {
      LexAntisymmetric(a, b, CharLess);
    }
    forall a: string, b: string ensures a == b || StringLess(a, b) || StringLess(b, a) {
      LexTotal(a, b, CharLess);
    }
    forall a: string, b: string, c: string | StringLess(a, b) && StringLess(b, c) ensures StringLess(a, c) {
      LexTransitive(a, b, c, CharLess);
      if a == c {
        LexAntisymmetric(a, b, CharLess);
      }
    }
  }

  /**
   * A path as its components. `Path`'s order compares component by
   * component, each by its bytes, so `a/b` sorts before `a-b` although
   * `/` is after `-` in ASCII.
   */
  type Path = seq<string>

  function PathLeq(a: Path, b: Path): bool {
    Lex(a, b, StringLess)
  }

  lemma PathOrder()
    ensures TotalPreorder(PathLeq)
    ensures forall a, b :: PathLeq(a, b) && PathLeq(b, a) ==> a == b
  {
    StringOrder();
    forall a: Path, b: Path ensures PathLeq(a, b) || PathLeq(b, a) {
      LexTotal(a, b, StringLess);
    }
    forall a: Path, b: Path, c: Path | PathLeq(a, b) && PathLeq(b, c) ensures PathLeq(a, c) {
      LexTransitive(a, b, c, StringLess);
    }
    forall a: Path, b: Path | PathLeq(a, b) && PathLeq(b, a) ensures a == b {
      LexAntisymmetric(a, b, StringLess);
    }
  }

  /** `a/b` comes before `a-b` as paths, but after it as strings. */
  lemma PathOrderIsNotStringOrder()
    ensures PathLeq(["a", "b"], ["a-b"]) && !PathLeq(["a-b"], ["a", "b"])
    ensures StringLess("a-b", "a/b")
  {
    assert StringLess("a", "a-b") by {
      assert Lex("a", "a-b", CharLess) by {
        assert Lex("", "-b", CharLess);
        assert "a"[1..] == "" && "a-b"[1..] == "-b";
      }
    }
    assert ["a", "b"][1..] == ["b"];
    assert Lex("a-b", "a/b", CharLess) by {
      assert "a-b"[1..] == "-b" && "a/b"[1..] == "/b";
    }
  }

  predicate Sorted<T>(s: seq<T>, leq: (T, T) -> bool) {
    forall i, j :: 0 <= i < j < |s| ==> leq(s[i], s[j])
  }

  /** Insert `x` after the elements that do not exceed it. */
  function Insert<T(!new)>(x: T, s: seq<T>, leq: (T, T) -> bool): (r: seq<T>)
    requires TotalPreorder(leq) && Sorted(s, leq)
    ensures multiset(r) == multiset(s) + multiset{x}
    ensures forall k :: 0 <= k < |r| ==> r[k] == x || r[k] in s
    ensures Sorted(r, leq)
    ensures |r| == |s| + 1
    decreases |s|
  {
    if |s| == 0 then [x]
    else if leq(s[0], x) then
      var rest := Insert(x, s[1..], leq);
      InsertBehind(x, s, rest, leq);
      [s[0]] + rest
    else
      InsertFront(x, s, leq);
      [x] + s
  }

  /** Putting the head of `s` before `x` inserted into the tail keeps the order and the elements. */
  lemma InsertBehind<T(!new)>(x: T, s: seq<T>, rest: seq<T>, leq: (T, T) -> bool)
    requires TotalPreorder(leq) && Sorted(s, leq) && |s| > 0
    requires multiset(rest) == multiset(s[1..]) + multiset{x}
    requires forall k :: 0 <= k < |rest| ==> rest[k] == x || rest[k] in s[1..]
    requires Sorted(rest, leq) && |rest| == |s|
    requires leq(s[0], x)
    ensures multiset([s[0]] + rest) == multiset(s) + multiset{x}
    ensures forall k :: 0 <= k < |[s[0]] + rest| ==> ([s[0]] + rest)[k] == x || ([s[0]] + rest)[k] in s
    ensures Sorted([s[0]] + rest, leq)
  {
    assert s == [s[0]] + s[1..];
    forall k | 0 <= k < |rest| ensures leq(s[0], rest[k]) {
      if rest[k] != x {
        var j :| 0 <= j < |s[1..]| && s[1..][j] == rest[k];
        assert s[1 + j] == rest[k];
      }
    }
    var r := [s[0]] + rest;
    forall i, j | 0 <= i < j < |r| ensures leq(r[i], r[j]) {
      if i > 0 {
        assert r[i] == rest[i - 1] && r[j] == rest[j - 1];
      } else {
        assert r[j] == rest[j - 1];
      }
    }
  }

  /** An `x` that some head of `s` exceeds goes first. */
  lemma InsertFront<T(!new)>(x: T, s: seq<T>, leq: (T, T) -> bool)
    requires TotalPreorder(leq) && Sorted(s, leq) && |s| > 0
    requires !leq(s[0], x)
    ensures Sorted([x] + s, leq)
  {
    var r := [x] + s;
    forall i, j | 0 <= i < j < |r| ensures leq(r[i], r[j]) {
      if i > 0 {
        assert r[i] == s[i - 1] && r[j] == s[j - 1];
      } else {
        assert leq(x, s[0]);
        assert r[j] == s[j - 1];
        if j > 1 {
          assert leq(s[0], s[j - 1]);
        }
      }
    }
  }

  /** Insertion sort: a sorted permutation of the input. */
  function Sort<T(!new)>(s: seq<T>, leq: (T, T) -> bool): (r: seq<T>)
    requires TotalPreorder(leq)
    ensures multiset(r) == multiset(s)
    ensures Sorted(r, leq)
    ensures |r| == |s|
    decreases |s|
  {
    if |s| == 0 then []
    else
      assert s == s[..|s| - 1] + [s[|s| - 1]];
      Insert(s[|s| - 1], Sort(s[..|s| - 1], leq), leq)
  }

  /** `a` and `b` compare equal under `leq`. */
  predicate Tie<T>(a: T, b: T, leq: (T, T) -> bool) {
    leq(a, b) && leq(b, a)
  }

  /** The elements of `s` that tie with `y`, in their order in `s`. */
  function Tied<T>(s: seq<T>, y: T, leq: (T, T) -> bool): seq<T>
    decreases |s|
  {
    if |s| == 0 then []
    else (if Tie(s[0], y, leq) then [s[0]] else []) + Tied(s[1..], y, leq)
  }

  lemma {:induction false} TiedAppend<T>(a: seq<T>, b: seq<T>, y: T, leq: (T, T) -> bool)
    ensures Tied(a + b, y, leq) == Tied(a, y, leq) + Tied(b, y, leq)
    decreases |a|
  {
    if |a| == 0 {
      assert a + b == b;
    } else {
      var h := if Tie(a[0], y, leq) then [a[0]] else [];
      assert (a + b)[1..] == a[1..] + b;
      assert Tied(a + b, y, leq) == h + Tied(a[1..] + b, y, leq);
      assert Tied(a, y, leq) == h + Tied(a[1..], y, leq);
      TiedAppend(a[1..], b, y, leq);
      hide *;
      assert h + (Tied(a[1..], y, leq) + Tied(b, y, leq)) == (h + Tied(a[1..], y, leq)) + Tied(b, y, leq);
    }
  }

  lemma {:induction false} TiedNone<T>(s: seq<T>, y: T, leq: (T, T) -> bool)
    requires forall k :: 0 <= k < |s| ==> !Tie(s[k], y, leq)
    ensures Tied(s, y, leq) == []
    decreases |s|
  {
    if |s| > 0 {
      assert forall k :: 0 <= k < |s[1..]| ==> s[1..][k] == s[k + 1];
      TiedNone(s[1..], y, leq);
    }
  }

  /** `x` lands after every element of `s` it ties with. */
  lemma {:induction false} InsertStable<T(!new)>(x: T, s: seq<T>, y: T, leq: (T, T) -> bool)
    requires TotalPreorder(leq) && Sorted(s, leq)
    ensures Tied(Insert(x, s, leq), y, leq) == Tied(s, y, leq) + Tied([x], y, leq)
    decreases |s|
  {
    if |s| == 0 {
      assert Insert(x, s, leq) == [x];
    } else if leq(s[0], x) {
      var rest := Insert(x, s[1..], leq);
      assert Insert(x, s, leq) == [s[0]] + rest;
      InsertStable(x, s[1..], y, leq);
      TiedBehind(x, s, rest, y, leq);
    } else {
      assert Insert(x, s, leq) == [x] + s;
      TiedFront(x, s, y, leq);
    }
  }

  lemma TiedBehind<T>(x: T, s: seq<T>, rest: seq<T>, y: T, leq: (T, T) -> bool)
    requires |s| > 0
    requires Tied(rest, y, leq) == Tied(s[1..], y, leq) + Tied([x], y, leq)
    ensures Tied([s[0]] + rest, y, leq) == Tied(s, y, leq) + Tied([x], y, leq)
  {
    TiedAppend([s[0]], rest, y, leq);
    TiedAppend([s[0]], s[1..], y, leq);
    assert s == [s[0]] + s[1..];
    hide *;
    assert Tied([s[0]] + rest, y, leq) == Tied([s[0]], y, leq) + (Tied(s[1..], y, leq) + Tied([x], y, leq));
  }

  lemma TiedFront<T(!new)>(x: T, s: seq<T>, y: T, leq: (T, T) -> bool)
    requires TotalPreorder(leq) && Sorted(s, leq) && |s| > 0
    requires !leq(s[0], x)
    ensures Tied([x] + s, y, leq) == Tied(s, y, leq) + Tied([x], y, leq)
  {
    TiedAppend([x], s, y, leq);
    if Tie(x, y, leq) {
      NoTieAfter(x, s, y, leq);
      TiedNone(s, y, leq);
    } else {
      assert Tied([x], y, leq) == [] by {
        assert [x][1..] == [];
      }
    }
  }

  /** Nothing in `s` ties with a `y` that ties with an `x` the head of `s` exceeds. */
  lemma NoTieAfter<T(!new)>(x: T, s: seq<T>, y: T, leq: (T, T) -> bool)
    requires TotalPreorder(leq) && Sorted(s, leq) && |s| > 0
    requires !leq(s[0], x) && Tie(x, y, leq)
    ensures forall k :: 0 <= k < |s| ==> !Tie(s[k], y, leq)
  {
    forall k | 0 <= k < |s| ensures !Tie(s[k], y, leq) {
      if k > 0 {
        assert leq(s[0], s[k]);
      }
    }
  }

  /**
   * The sort is stable: the elements that tie with any `y` come out in the
   * order they went in.
   */
  lemma {:induction false} SortStable<T(!new)>(s: seq<T>, y: T, leq: (T, T) -> bool)
    requires TotalPreorder(leq)
    ensures Tied(Sort(s, leq), y, leq) == Tied(s, y, leq)
    decreases |s|
  {
    if |s| > 0 {
      var init := s[..|s| - 1];
      assert s == init + [s[|s| - 1]];
      InsertStable(s[|s| - 1], Sort(init, leq), y, leq);
      SortStable(init, y, leq);
      TiedAppend(init, [s[|s| - 1]], y, leq);
    }
  }
}

=== FILE: paper_conditional.dfy ===
/**
 * Conditional (stop) orders of the paper exchange
 * (`connectors/tesser-paper/src/conditional.rs`). Orders whose client id
 * ends in `-sl` or `-tp` form one-cancels-other groups: when several
 * members of a group trigger together, only the one of best priority
 * (stop-loss, then take-profit) is reported, and the group's other
 * pending orders are dropped. The winners are reported per group here;
 * the source returns them after the ungrouped orders in hash-map order.
 */
module PaperConditional {
  import opened Wrappers
  import opened Core

  datatype TriggerKind = Standalone | StopLoss | TakeProfit

  /** `TriggerKind::priority`: lower wins. */
  function Priority(k: TriggerKind): (r: nat)
    ensures r <= 2
    ensures k == StopLoss <==> r == 0
    ensures k == TakeProfit <==> r == 1
  {
    match k
    case StopLoss => 0
    case TakeProfit => 1
    case Standalone => 2
  }

  datatype PendingConditional = PendingConditional(order: Order, kind: TriggerKind, group: Option<string>)

  datatype TriggeredOrder = TriggeredOrder(order: Order, fillPrice: real, timestamp: int, kind: TriggerKind, group: Option<string>)

  predicate HasSuffix(s: string, suffix: string) {
    |suffix| <= |s| && s[|s| - |suffix|..] == suffix
  }

  function StripSuffix(s: string, suffix: string): string
    requires HasSuffix(s, suffix)
  {
    s[..|s| - |suffix|]
  }

  /** `parse_group`: `x-sl` is stop-loss of group x, else `x-tp` take-profit of group x, else standalone. */
  function ParseGroup(order: Order): (r: (Option<string>, TriggerKind))
    ensures r.1 == Standalone <==> r.0.None?
    ensures r.1 == StopLoss <==>
      order.request.clientOrderId.Some? && HasSuffix(order.request.clientOrderId.value, "-sl")
    ensures r.1 == StopLoss ==> r.0.value + "-sl" == order.request.clientOrderId.value
    ensures r.1 == TakeProfit ==> (order.request.clientOrderId.Some?
      && r.0.value + "-tp" == order.request.clientOrderId.value
      && !HasSuffix(order.request.clientOrderId.value, "-sl"))
    ensures r.1 == Standalone ==> (order.request.clientOrderId.None?
      || (!HasSuffix(order.request.clientOrderId.value, "-sl") && !HasSuffix(order.request.clientOrderId.value, "-tp")))
  {
    var cid := order.request.clientOrderId;
    if cid.Some? && HasSuffix(cid.value, "-sl") then
      assert StripSuffix(cid.value, "-sl") + "-sl" == cid.value;
      (Some(StripSuffix(cid.value, "-sl")), StopLoss)
    else if cid.Some? && HasSuffix(cid.value, "-tp") then
      assert StripSuffix(cid.value, "-tp") + "-tp" == cid.value;
      (Some(StripSuffix(cid.value, "-tp")), TakeProfit)
    else (None, Standalone)
  }

  /** `push`: classify and append. */
  function Push(book: seq<PendingConditional>, order: Order): (r: seq<PendingConditional>)
    ensures |r| == |book| + 1 && r[..|book|] == book
    ensures r[|book|].order == order && (r[|book|].group, r[|book|].kind) == ParseGroup(order)
  {
    var (group, kind) := ParseGroup(order);
    book + [PendingConditional(order, kind, group)]
  }

  /** What is evaluated against the pending orders: a trade price or a candle. */
  datatype Trigger = ByPrice(lastPrice: real, timestamp: int) | ByCandle(candle: Candle)

  /**
   * The evaluators of `trigger_with_price` and `trigger_with_candle`: a buy
   * stop fires when the market reaches up to its trigger, a sell stop when
   * it reaches down; a trade fills at the trade price, a candle at the
   * trigger; orders without a trigger never fire.
   */
  function Fire(t: Trigger, p: PendingConditional): (r: Option<(real, int)>)
    ensures p.order.request.triggerPrice.None? ==> r.None?
    ensures t.ByPrice? && p.order.request.triggerPrice.Some? ==>
      var trig := p.order.request.triggerPrice.value;
      r.Some? <==> (if p.order.request.side == Buy then t.lastPrice >= trig else t.lastPrice <= trig)
    ensures t.ByPrice? && r.Some? ==> r.value == (t.lastPrice, t.timestamp)
    ensures t.ByCandle? && p.order.request.triggerPrice.Some? ==>
      var trig := p.order.request.triggerPrice.value;
      r.Some? <==> (if p.order.request.side == Buy then t.candle.high >= trig else t.candle.low <= trig)
    ensures t.ByCandle? && r.Some? ==> r.value == (p.order.request.triggerPrice.value, t.candle.timestamp)
  {
    match p.order.request.triggerPrice
    case None => None
    case Some(trig) =>
      match t
      case ByPrice(last, ts) =>
        var touched := if p.order.request.side == Buy then last >= trig else last <= trig;
        if touched then Some((last, ts)) else None
      case ByCandle(c) =>
        var touched := if p.order.request.side == Buy then c.high >= trig else c.low <= trig;
        if touched then Some((trig, c.timestamp)) else None
  }

  /** The triggered orders, in book order. */
  function Triggered(t: Trigger, book: seq<PendingConditional>): (r: seq<TriggeredOrder>)
    ensures |r| <= |book|
    ensures forall e :: e in r <==> exists p :: (p in book && Fire(t, p).Some?
      && e == TriggeredOrder(p.order, Fire(t, p).value.0, Fire(t, p).value.1, p.kind, p.group))
  {
    if |book| == 0 then []
    else
      var p := book[0];
      assert forall x :: x in book <==> x == p || x in book[1..] by {
        assert book == [p] + book[1..];
      }
      (if Fire(t, p).Some? then [TriggeredOrder(p.order, Fire(t, p).value.0, Fire(t, p).value.1, p.kind, p.group)] else [])
        + Triggered(t, book[1..])
  }

  /** The members of `events` in group `g`, in order. */
  function InGroup(events: seq<TriggeredOrder>, g: string): (r: seq<TriggeredOrder>)
    ensures |r| <= |events|
    ensures forall e :: e in r <==> e in events && e.group == Some(g)
  {
    if |events| == 0 then []
    else
      assert forall x :: x in events <==> x == events[0] || x in events[1..] by {
        assert events == [events[0]] + events[1..];
      }
      (if events[0].group == Some(g) then [events[0]] else []) + InGroup(events[1..], g)
  }

  /** The first event of least priority: what a stable sort by priority puts first. */
  function Best(events: seq<TriggeredOrder>): (b: TriggeredOrder)
    requires |events| > 0
    ensures b in events
    ensures forall e :: e in events ==> Priority(b.kind) <= Priority(e.kind)
    ensures exists i :: (0 <= i < |events| && events[i] == b
      && forall j :: 0 <= j < i ==> Priority(events[j].kind) > Priority(b.kind))
  {
    if |events| == 1 then events[0]
    else
      var rest := Best(events[1..]);
      BestStep(events, rest);
      if Priority(events[0].kind) <= Priority(rest.kind) then events[0] else rest
  }

  /** The earliest of the highest-priority orders, from that of all but the first. */
  lemma BestStep(events: seq<TriggeredOrder>, rest: TriggeredOrder)
    requires |events| > 1 && rest in events[1..]
    requires forall e :: e in events[1..] ==> Priority(rest.kind) <= Priority(e.kind)
    requires exists i :: (0 <= i < |events[1..]| && events[1..][i] == rest
      && forall j :: 0 <= j < i ==> Priority(events[1..][j].kind) > Priority(rest.kind))
    ensures var b := if Priority(events[0].kind) <= Priority(rest.kind) then events[0] else rest;
      && b in events
      && (forall e :: e in events ==> Priority(b.kind) <= Priority(e.kind))
      && exists i :: (0 <= i < |events| && events[i] == b
        && forall j :: 0 <= j < i ==> Priority(events[j].kind) > Priority(b.kind))
  {
    assert forall x :: x in events ==> x == events[0] || x in events[1..] by {
      assert events == [events[0]] + events[1..];
    }
    if Priority(events[0].kind) > Priority(rest.kind) {
      var i :| 0 <= i < |events[1..]| && events[1..][i] == rest
        && forall j :: 0 <= j < i ==> Priority(events[1..][j].kind) > Priority(rest.kind);
      forall j | 0 <= j < i + 1 ensures Priority(events[j].kind) > Priority(rest.kind) {
        if j > 0 {
          assert events[j] == events[1..][j - 1];
        }
      }
      assert events[i + 1] == rest;
    } else {
      assert events[0] == events[0];
    }
  }

  function Ungrouped(events: seq<TriggeredOrder>): (r: seq<TriggeredOrder>)
    ensures forall e :: e in r <==> e in events && e.group.None?
  {
    if |events| == 0 then []
    else
      assert forall x :: x in events <==> x == events[0] || x in events[1..] by {
        assert events == [events[0]] + events[1..];
      }
      (if events[0].group.None? then [events[0]] else []) + Ungrouped(events[1..])
  }

  /** The groups with a triggered member. */
  function FiredGroups(events: seq<TriggeredOrder>): set<string> {
    set e | e in events && e.group.Some? :: e.group.value
  }

  function Survivors(t: Trigger, book: seq<PendingConditional>, dropped: set<string>): (r: seq<PendingConditional>)
    ensures forall p :: p in r <==> p in book && Fire(t, p).None? && (p.group.None? || p.group.value !in dropped)
  {
    if |book| == 0 then []
    else
      var p := book[0];
      assert forall x :: x in book <==> x == p || x in book[1..] by {
        assert book == [p] + book[1..];
      }
      (if Fire(t, p).None? && (p.group.None? || p.group.value !in dropped) then [p] else [])
        + Survivors(t, book[1..], dropped)
  }

  /** The outcome of `evaluate`: ungrouped triggers in order, one winner per fired group, and the new book. */
  datatype Evaluation = Evaluation(ungrouped: seq<TriggeredOrder>, winners: map<string, TriggeredOrder>, book: seq<PendingConditional>)

  /** Every fired group has a triggered member. */
  lemma FiredGroupsNonEmpty(events: seq<TriggeredOrder>)
    ensures forall g :: g in FiredGroups(events) ==> |InGroup(events, g)| > 0
  {
    forall g | g in FiredGroups(events) ensures |InGroup(events, g)| > 0 {
      var e :| e in events && e.group.Some? && e.group.value == g;
      assert e in InGroup(events, g);
    }
  }

  /** `evaluate`. */
  function Evaluate(t: Trigger, book: seq<PendingConditional>): (r: Evaluation)
    ensures forall e :: e in r.ungrouped ==> e.group.None?
    ensures forall g :: g in r.winners ==> r.winners[g].group == Some(g)
  {
    var events := Triggered(t, book);
    var fired := FiredGroups(events);
    FiredGroupsNonEmpty(events);
    var winners := map g | g in fired :: Best(InGroup(events, g));
    Evaluation(Ungrouped(events), winners, Survivors(t, book, fired))
  }

  /** At most one report per triggered order: the ungrouped ones and one per fired group. */
  lemma EvaluateCount(t: Trigger, book: seq<PendingConditional>)
    ensures |Evaluate(t, book).ungrouped| + |Evaluate(t, book).winners| <= |book|
  {
    var events := Triggered(t, book);
    CountSplit(events);
    EvaluateParts(t, book);
    hide *;
    assert |Evaluate(t, book).winners| == |Evaluate(t, book).winners.Keys|;
  }

  /** What `evaluate` is made of, named for the proofs that take it apart. */
  lemma EvaluateParts(t: Trigger, book: seq<PendingConditional>)
    ensures var events := Triggered(t, book);
      && Evaluate(t, book).ungrouped == Ungrouped(events)
      && Evaluate(t, book).winners.Keys == FiredGroups(events)
      && (forall g :: g in FiredGroups(events) ==>
            (|InGroup(events, g)| > 0 && Evaluate(t, book).winners[g] == Best(InGroup(events, g))))
  {
    EvaluateWinners(t, book);
    hide *;
  }

  lemma EvaluateWinners(t: Trigger, book: seq<PendingConditional>)
    ensures var events := Triggered(t, book);
      && Evaluate(t, book).ungrouped == Ungrouped(events)
      && (forall g :: g in FiredGroups(events) ==> |InGroup(events, g)| > 0)
      && Evaluate(t, book).winners == (map g | g in FiredGroups(events) :: Best(InGroup(events, g)))
  {
    FiredGroupsNonEmpty(Triggered(t, book));
    hide Triggered, FiredGroups, Ungrouped, InGroup, Best, Survivors, Fire;
  }

  /** Ungrouped events and fired groups together are no more than the events. */
  lemma {:induction false} CountSplit(events: seq<TriggeredOrder>)
    ensures |Ungrouped(events)| + |FiredGroups(events)| <= |events|
  {
    if |events| > 0 {
      var e := events[0];
      var rest := events[1..];
      CountSplit(rest);
      assert events == [e] + rest;
      if e.group.Some? {
        assert FiredGroups(events) <= FiredGroups(rest) + {e.group.value};
        assert |FiredGroups(events)| <= |FiredGroups(rest)| + 1 by {
          SetCardAdd(FiredGroups(events), FiredGroups(rest), e.group.value);
        }
      } else {
        assert FiredGroups(events) == FiredGroups(rest);
      }
    }
  }

  lemma SetCardAdd(a: set<string>, b: set<string>, x: string)
    requires a <= b + {x}
    ensures |a| <= |b| + 1
  {
    assert |a| <= |b + {x}| by {
      SubsetCard(a, b + {x});
    }
  }

  lemma {:induction false} SubsetCard<T>(a: set<T>, b: set<T>)
    requires a <= b
    ensures |a| <= |b|
    decreases |b|
  {
    if a != {} {
      var x :| x in a;
      SubsetCard(a - {x}, b - {x});
    }
  }

  /**
   * One-cancels-other: every fired group reports its best-priority member,
   * earliest first among equals, and no order of a fired group stays pending.
   */
  lemma OneCancelsOther(t: Trigger, book: seq<PendingConditional>)
    ensures var r := Evaluate(t, book);
      var events := Triggered(t, book);
      && r.winners.Keys == FiredGroups(events)
      && (forall g, e :: g in r.winners && e in events && e.group == Some(g)
            ==> Priority(r.winners[g].kind) <= Priority(e.kind))
      && (forall g :: g in r.winners ==> r.winners[g] in events)
      && (forall p :: p in r.book ==> p.group.None? || p.group.value !in r.winners)
      && (forall p :: p in r.book ==> p in book && Fire(t, p).None?)
      && (forall e :: e in r.ungrouped <==> e in events && e.group.None?)
  {
  }

  /** A pending order survives iff it did not fire and no other member of its group fired. */
  lemma SurvivorsExactly(t: Trigger, book: seq<PendingConditional>, p: PendingConditional)
    ensures p in Evaluate(t, book).book <==>
      p in book && Fire(t, p).None? && (p.group.None? || p.group.value !in FiredGroups(Triggered(t, book)))
  {
  }

  /** Stop-loss at 90 and take-profit at 110 of one group, both sells, on a candle from 80 to 120: only the stop-loss is reported. */
  lemma StopLossWinsExample(sl: Order, tp: Order, candle: Candle)
    requires sl.request.side == Sell && sl.request.triggerPrice == Some(90.0) && sl.request.clientOrderId == Some("base-sl")
    requires tp.request.side == Sell && tp.request.triggerPrice == Some(110.0) && tp.request.clientOrderId == Some("base-tp")
    requires candle.high == 120.0 && candle.low == 80.0
    ensures var r := Evaluate(ByCandle(candle), Push(Push([], sl), tp));
      r.ungrouped == [] && r.winners.Keys == {"base"} && r.winners["base"].kind == StopLoss
      && r.winners["base"].fillPrice == 90.0 && r.book == []
  {
    var p1 := PendingConditional(sl, StopLoss, Some("base"));
    var p2 := PendingConditional(tp, TakeProfit, Some("base"));
    ExampleBook(sl, tp);
    var e1 := TriggeredOrder(sl, 90.0, candle.timestamp, StopLoss, Some("base"));
    var e2 := TriggeredOrder(tp, 110.0, candle.timestamp, TakeProfit, Some("base"));
    ExampleTriggered(p1, p2, candle);
    ExampleGroups(e1, e2);
    EvaluateParts(ByCandle(candle), [p1, p2]);
    hide *;
    var r := Evaluate(ByCandle(candle), [p1, p2]);
    assert r.winners.Keys == {"base"};
    assert r.winners["base"] == e1;
    if |r.book| > 0 {
      var p := r.book[0];
      SurvivorsExactly(ByCandle(candle), [p1, p2], p);
      assert false;
    }
  }

  lemma ExampleBook(sl: Order, tp: Order)
    requires sl.request.clientOrderId == Some("base-sl") && tp.request.clientOrderId == Some("base-tp")
    ensures Push(Push([], sl), tp) ==
      [PendingConditional(sl, StopLoss, Some("base")), PendingConditional(tp, TakeProfit, Some("base"))]
  {
    assert HasSuffix("base-sl", "-sl") && StripSuffix("base-sl", "-sl") == "base";
    assert !HasSuffix("base-tp", "-sl");
    assert HasSuffix("base-tp", "-tp") && StripSuffix("base-tp", "-tp") == "base";
  }

  lemma ExampleTriggered(p1: PendingConditional, p2: PendingConditional, candle: Candle)
    requires p1.order.request.side == Sell && p1.order.request.triggerPrice == Some(90.0)
    requires p2.order.request.side == Sell && p2.order.request.triggerPrice == Some(110.0)
    requires candle.low == 80.0
    ensures Triggered(ByCandle(candle), [p1, p2]) == [
      TriggeredOrder(p1.order, 90.0, candle.timestamp, p1.kind, p1.group),
      TriggeredOrder(p2.order, 110.0, candle.timestamp, p2.kind, p2.group)]
  {
    assert [p1, p2][1..] == [p2];
    assert [p2][1..] == [];
  }

  lemma ExampleGroups(e1: TriggeredOrder, e2: TriggeredOrder)
    requires e1.group == Some("base") && e2.group == Some("base") && e1.kind == StopLoss && e2.kind == TakeProfit
    ensures Ungrouped([e1, e2]) == []
    ensures FiredGroups([e1, e2]) == {"base"}
    ensures InGroup([e1, e2], "base") == [e1, e2]
    ensures Best([e1, e2]) == e1
  {
    assert [e1, e2][1..] == [e2];
    assert [e2][1..] == [];
    assert Ungrouped([e2]) == [];
    assert InGroup([e2], "base") == [e2];
  }
}

=== FILE: paper_fees.dfy ===
/**
 * The paper exchange's maker/taker fee schedule
 * (`connectors/tesser-paper/src/fees.rs`): rates in basis points, a
 * default pair and per-symbol overrides.
 */
module PaperFees {
  import opened Core

  datatype LiquidityRole = Maker | Taker

  datatype FeePair = FeePair(makerBps: real, takerBps: real)

  /** `FeePair::rate`. */
  function Rate(pair: FeePair, role: LiquidityRole): (r: real)
    ensures role == Maker ==> r == pair.makerBps
    ensures role == Taker ==> r == pair.takerBps
  {
    match role
    case Maker => pair.makerBps
    case Taker => pair.takerBps
  }

  datatype ScheduleFeeModel = ScheduleFeeModel(default: FeePair, overrides: map<Symbol, FeePair>)

  /** `pair_for`: the symbol's override, else the default. */
  function PairFor(m: ScheduleFeeModel, symbol: Symbol): (p: FeePair)
    ensures symbol in m.overrides ==> p == m.overrides[symbol]
    ensures symbol !in m.overrides ==> p == m.default
  {
    if symbol in m.overrides then m.overrides[symbol] else m.default
  }

  /** Basis points per unit. */
  const BPS_DIVISOR: real := 10000.0

  /** `fee`: the clamped rate in basis points of the absolute notional; the side plays no part. */
  function Fee(m: ScheduleFeeModel, symbol: Symbol, side: Side, role: LiquidityRole, price: real, quantity: real): (r: real)
    ensures var bps := MaxReal(Rate(PairFor(m, symbol), role), 0.0);
      r * BPS_DIVISOR == bps * price * Abs(quantity)
    ensures price >= 0.0 ==> r >= 0.0
    ensures Rate(PairFor(m, symbol), role) <= 0.0 || quantity == 0.0 || price == 0.0 ==> r == 0.0
  {
    var bps := MaxReal(Rate(PairFor(m, symbol), role), 0.0);
    if bps == 0.0 || quantity == 0.0 || price == 0.0 then 0.0
    else (bps / BPS_DIVISOR) * (price * Abs(quantity))
  }

  /** The fee is the same for a buy and a sell, and for a quantity and its negation. */
  lemma FeeSymmetric(m: ScheduleFeeModel, symbol: Symbol, role: LiquidityRole, price: real, quantity: real)
    ensures Fee(m, symbol, Buy, role, price, quantity) == Fee(m, symbol, Sell, role, price, quantity)
    ensures Fee(m, symbol, Buy, role, price, quantity) == Fee(m, symbol, Buy, role, price, -quantity)
  {
  }

  /** The fee grows with the traded quantity when the rate and price are positive. */
  lemma FeeMonotone(m: ScheduleFeeModel, symbol: Symbol, side: Side, role: LiquidityRole, price: real, q1: real, q2: real)
    requires price > 0.0 && 0.0 <= q1 <= q2
    ensures Fee(m, symbol, side, role, price, q1) <= Fee(m, symbol, side, role, price, q2)
  {
    var bps := MaxReal(Rate(PairFor(m, symbol), role), 0.0);
    assert bps * price * q1 <= bps * price * q2 by {
      assert bps * price >= 0.0;
    }
  }

  datatype MarketFeeConfig = MarketFeeConfig(makerBps: real, takerBps: real)

  /** `FeeScheduleConfig`: what a deployment configures. */
  datatype FeeScheduleConfig = FeeScheduleConfig(defaultMakerBps: real, defaultTakerBps: real, markets: map<Symbol, MarketFeeConfig>)

  /** `FeeScheduleConfig::flat`. */
  function Flat(bps: real): (c: FeeScheduleConfig)
    ensures c.defaultMakerBps == bps && c.defaultTakerBps == bps && c.markets == map[]
  {
    FeeScheduleConfig(bps, bps, map[])
  }

  /** `FeeScheduleConfig::with_defaults`. */
  function WithDefaults(makerBps: real, takerBps: real): (c: FeeScheduleConfig)
    ensures c.defaultMakerBps == makerBps && c.defaultTakerBps == takerBps && c.markets == map[]
  {
    FeeScheduleConfig(makerBps, takerBps, map[])
  }

  /** `FeeScheduleConfig::default`: no fees. */
  function DefaultConfig(): (c: FeeScheduleConfig)
    ensures c == Flat(0.0)
  {
    FeeScheduleConfig(0.0, 0.0, map[])
  }

  /** `build_model`: the default pair from the defaults, one override per configured market. */
  function BuildModel(c: FeeScheduleConfig): (m: ScheduleFeeModel)
    ensures m.default == FeePair(c.defaultMakerBps, c.defaultTakerBps)
    ensures m.overrides.Keys == c.markets.Keys
    ensures forall s :: s in c.markets ==> m.overrides[s] == FeePair(c.markets[s].makerBps, c.markets[s].takerBps)
  {
    ScheduleFeeModel(FeePair(c.defaultMakerBps, c.defaultTakerBps),
                     map s | s in c.markets :: FeePair(c.markets[s].makerBps, c.markets[s].takerBps))
  }

  /** The default configuration charges nothing, whatever the trade. */
  lemma DefaultChargesNothing(symbol: Symbol, side: Side, role: LiquidityRole, price: real, quantity: real)
    ensures Fee(BuildModel(DefaultConfig()), symbol, side, role, price, quantity) == 0.0
  {
  }

  /** A flat schedule charges `bps` of the notional to makers and takers alike. */
  lemma FlatSameForBothRoles(bps: real, symbol: Symbol, side: Side, price: real, quantity: real)
    ensures Fee(BuildModel(Flat(bps)), symbol, side, Maker, price, quantity)
         == Fee(BuildModel(Flat(bps)), symbol, side, Taker, price, quantity)
  {
  }

  /** The test schedule: 0.1 bps maker on BTCUSDT for 0.5 at 25000 is 0.125; 0.02 bps taker by default for 1 at 2000 is 0.004. */
  lemma OverrideExample()
    ensures var cfg := FeeScheduleConfig(0.01, 0.02, map["BTCUSDT" := MarketFeeConfig(0.1, 0.2)]);
      && Fee(BuildModel(cfg), "BTCUSDT", Buy, Maker, 25000.0, 0.5) == 0.125
      && Fee(BuildModel(cfg), "ETHUSDT", Sell, Taker, 2000.0, 1.0) == 2000.0 * (0.02 / 10000.0)
  {
    var cfg := FeeScheduleConfig(0.01, 0.02, map["BTCUSDT" := MarketFeeConfig(0.1, 0.2)]);
    assert "ETHUSDT" != "BTCUSDT";
    assert PairFor(BuildModel(cfg), "ETHUSDT") == FeePair(0.01, 0.02);
  }
}

=== FILE: plugin_types.dfy ===
/**
 * The data exchanged between the engine and WebAssembly execution plugins
 * (`tesser-wasm/src/types.rs`). Plugin decimals are `real`; the signal's
 * `f64` confidence is a `real` as well.
 */
module PluginTypes {
  import opened Wrappers

  datatype PluginSide = Buy | Sell

  /** `as_multiplier`: Buy is +1 and Sell is -1. */
  function AsMultiplier(side: PluginSide): (r: int)
    ensures r == 1 || r == -1
    ensures r == 1 <==> side == Buy
  {
    match side
    case Buy => 1
    case Sell => -1
  }

  datatype PluginOrderType = Market | Limit

  datatype PluginTimeInForce = Gtc | Ioc | Fok | PostOnly

  datatype PluginOrderRequest = PluginOrderRequest(
    symbol: string,
    side: PluginSide,
    orderType: PluginOrderType,
    quantity: real,
    price: Option<real>,
    triggerPrice: Option<real>,
    timeInForce: Option<PluginTimeInForce>,
    clientOrderId: Option<string>,
    takeProfit: Option<real>,
    stopLoss: Option<real>,
    displayQuantity: Option<real>)

  datatype PluginOrderUpdateRequest = PluginOrderUpdateRequest(
    orderId: string,
    symbol: string,
    side: PluginSide,
    newPrice: Option<real>,
    newQuantity: Option<real>)

  datatype PluginChildOrderAction =
    | Place(request: PluginOrderRequest)
    | Amend(update: PluginOrderUpdateRequest)

  datatype PluginChildOrderRequest = PluginChildOrderRequest(action: PluginChildOrderAction)

  datatype PluginSignal = PluginSignal(
    id: string,
    symbol: string,
    side: PluginSide,
    kind: string,
    confidence: real,
    targetQuantity: real,
    note: Option<string>,
    groupId: Option<string>)

  /** `PluginSignal::test`: a buy `enter_long` signal of full confidence for `quantity`; `id` stands for the fresh UUID. */
  function TestSignal(id: string, symbol: string, quantity: real): (s: PluginSignal)
    ensures s.side == Buy && s.kind == "enter_long" && s.confidence == 1.0
    ensures s.targetQuantity == quantity && s.symbol == symbol && s.id == id
    ensures s.note.None? && s.groupId.None?
  {
    PluginSignal(id, symbol, Buy, "enter_long", 1.0, quantity, None, None)
  }

  datatype PluginRiskContext = PluginRiskContext(
    lastPrice: real,
    portfolioEquity: real,
    exchangeEquity: real,
    signedPositionQty: real,
    baseAvailable: real,
    quoteAvailable: real,
    settlementAvailable: real,
    instrumentKind: Option<string>)

  /** `PluginRiskContext::default`: unit price and equities, nothing held or available. */
  function DefaultRiskContext(): (c: PluginRiskContext)
    ensures c.lastPrice == 1.0 && c.portfolioEquity == 1.0 && c.exchangeEquity == 1.0
    ensures c.signedPositionQty == 0.0 && c.baseAvailable == 0.0
    ensures c.quoteAvailable == 0.0 && c.settlementAvailable == 0.0
    ensures c.instrumentKind.None?
  {
    PluginRiskContext(1.0, 1.0, 1.0, 0.0, 0.0, 0.0, 0.0, None)
  }

  datatype PluginTick = PluginTick(symbol: string, price: real, size: real, side: PluginSide, timestampMs: int)

  /** `PluginResult`: the answer of every plugin callback. */
  datatype PluginResult = PluginResult(orders: seq<PluginChildOrderRequest>, logs: seq<string>, completed: bool)

  /** `PluginResult::default` and `PluginResult::new`. */
  function EmptyResult(): (r: PluginResult)
    ensures r.orders == [] && r.logs == [] && !r.completed
  {
    PluginResult([], [], false)
  }

  /** `with_order`: one more order at the end, nothing else changed. */
  function WithOrder(r: PluginResult, action: PluginChildOrderAction): (t: PluginResult)
    ensures |t.orders| == |r.orders| + 1
    ensures t.orders[..|r.orders|] == r.orders && t.orders[|r.orders|].action == action
    ensures t.logs == r.logs && t.completed == r.completed
  {
    r.(orders := r.orders + [PluginChildOrderRequest(action)])
  }

  /** `completed`: sets the flag, keeps orders and logs. */
  function MarkCompleted(r: PluginResult): (t: PluginResult)
    ensures t.completed
    ensures t.orders == r.orders && t.logs == r.logs
  {
    r.(completed := true)
  }

  /** Adding orders and completing commute, and completing twice is completing once. */
  lemma BuildersCommute(r: PluginResult, action: PluginChildOrderAction)
    ensures MarkCompleted(WithOrder(r, action)) == WithOrder(MarkCompleted(r), action)
    ensures MarkCompleted(MarkCompleted(r)) == MarkCompleted(r)
  {
  }
}

=== FILE: reconcile_diff.dfy ===
/**
 * The reconciliation differ (`tesser-cli/src/reconcile/diff.rs`): compares
 * the locally tracked open orders, positions and balances with a snapshot of
 * the exchange. Results the source collects from hash maps, whose order is
 * unspecified, are sets here.
 */
module ReconcileDiff {
  import opened Wrappers
  import opened Core

  /** A local order and the remote order with the same id. */
  datatype OrderPair = OrderPair(local: Order, remote: Order)

  /**
   * `matched`: local orders the exchange knows; `ghosts`: local orders it
   * does not; `zombies`: remote orders nobody local claimed.
   */
  datatype OrderDiff = OrderDiff(matched: seq<OrderPair>, ghosts: seq<Order>, zombies: set<Order>)

  function Ids(s: seq<Order>): set<string> {
    set o | o in s :: o.id
  }

  lemma IdsSnoc(s: seq<Order>, o: Order)
    ensures Ids(s + [o]) == Ids(s) + {o.id}
  {
    assert forall x :: x in s + [o] <==> x in s || x == o;
  }

  /** The last order in `s` with id `id`: what `HashMap::insert` keeps for duplicates. */
  function LastWithId(s: seq<Order>, id: string): (r: Option<Order>)
    ensures r.Some? <==> id in Ids(s)
    ensures r.Some? ==> r.value in s && r.value.id == id
  {
    if |s| == 0 then None
    else if s[|s| - 1].id == id then Some(s[|s| - 1])
    else
      IdsSnoc(s[..|s| - 1], s[|s| - 1]);
      assert s[..|s| - 1] + [s[|s| - 1]] == s;
      LastWithId(s[..|s| - 1], id)
  }

  /** No order after the one `LastWithId` picks carries the same id. */
  lemma {:induction false} LastWithIdIsLast(s: seq<Order>, id: string)
    requires id in Ids(s)
    ensures exists i :: 0 <= i < |s| && s[i] == LastWithId(s, id).value && NoneAfter(s, i, id)
  {
    var n := |s| - 1;
    if s[n].id == id {
      assert NoneAfter(s, n, id);
    } else {
      IdsSnoc(s[..n], s[n]);
      assert s[..n] + [s[n]] == s;
      LastWithIdIsLast(s[..n], id);
      var i :| 0 <= i < n && s[..n][i] == LastWithId(s[..n], id).value && NoneAfter(s[..n], i, id);
      assert NoneAfter(s, i, id);
    }
  }

  predicate NoneAfter(s: seq<Order>, i: nat, id: string) {
    forall j :: i < j < |s| ==> s[j].id != id
  }

  /** `remote_index`: the remote orders by id, later duplicates replacing earlier ones. */
  function RemoteIndex(remote: seq<Order>): (m: map<string, Order>)
    ensures m.Keys == Ids(remote)
    ensures forall id :: id in m ==> Some(m[id]) == LastWithId(remote, id)
  {
    if |remote| == 0 then map[]
    else
      var last := remote[|remote| - 1];
      IdsSnoc(remote[..|remote| - 1], last);
      assert remote[..|remote| - 1] + [last] == remote;
      RemoteIndex(remote[..|remote| - 1])[last.id := last]
  }

  /**
   * Local order `i` claims a remote order iff the exchange lists its id and
   * no earlier local order already claimed that id.
   */
  predicate Claimed(local: seq<Order>, remote: seq<Order>, i: nat)
    requires i < |local|
  {
    local[i].id in Ids(remote) && local[i].id !in Ids(local[..i])
  }

  /** The matched pairs, in local order (reference definition). */
  function MatchedSpec(local: seq<Order>, remote: seq<Order>): seq<OrderPair> {
    if |local| == 0 then []
    else
      var n := |local| - 1;
      MatchedSpec(local[..n], remote)
        + (if Claimed(local, remote, n) then [OrderPair(local[n], LastWithId(remote, local[n].id).value)] else [])
  }

  /** The ghosts, in local order (reference definition). */
  function GhostSpec(local: seq<Order>, remote: seq<Order>): seq<Order> {
    if |local| == 0 then []
    else
      var n := |local| - 1;
      GhostSpec(local[..n], remote) + (if Claimed(local, remote, n) then [] else [local[n]])
  }

  /** The zombies: the last remote order of every id no local order carries (reference definition). */
  function ZombieSpec(local: seq<Order>, remote: seq<Order>): set<Order> {
    set id | id in Ids(remote) && id !in Ids(local) :: LastWithId(remote, id).value
  }

  /** `diff_orders`. */
  method DiffOrders(local: seq<Order>, remote: seq<Order>) returns (d: OrderDiff)
    ensures d.matched == MatchedSpec(local, remote)
    ensures d.ghosts == GhostSpec(local, remote)
    ensures d.zombies == ZombieSpec(local, remote)
    ensures |d.matched| + |d.ghosts| == |local|
  {
    var index := RemoteIndex(remote);
    var matched: seq<OrderPair> := [];
    var ghosts: seq<Order> := [];
    var k := 0;
    while k < |local|
      invariant 0 <= k <= |local|
      invariant index.Keys == Ids(remote) - Ids(local[..k])
      invariant forall id :: id in index ==> Some(index[id]) == LastWithId(remote, id)
      invariant matched == MatchedSpec(local[..k], remote)
      invariant ghosts == GhostSpec(local[..k], remote)
      invariant |matched| + |ghosts| == k
    {
      var o := local[k];
      DiffStep(local, remote, k);
      if o.id in index {
        matched := matched + [OrderPair(o, index[o.id])];
        index := index - {o.id};
      } else {
        ghosts := ghosts + [o];
      }
      k := k + 1;
    }
    assert local[..|local|] == local;
    ZombiesFromIndex(local, remote, index);
    d := OrderDiff(matched, ghosts, index.Values);
  }

  /** One more local order extends the reference definitions by that order's own outcome. */
  lemma DiffStep(local: seq<Order>, remote: seq<Order>, k: nat)
    requires k < |local|
    ensures Ids(local[..k + 1]) == Ids(local[..k]) + {local[k].id}
    ensures Claimed(local, remote, k) <==> local[k].id in Ids(remote) - Ids(local[..k])
    ensures MatchedSpec(local[..k + 1], remote) == MatchedSpec(local[..k], remote)
      + (if Claimed(local, remote, k) then [OrderPair(local[k], LastWithId(remote, local[k].id).value)] else [])
    ensures GhostSpec(local[..k + 1], remote) == GhostSpec(local[..k], remote)
      + (if Claimed(local, remote, k) then [] else [local[k]])
  {
    var p := local[..k + 1];
    assert p[..k] == local[..k];
    assert local[..k] + [local[k]] == p;
    IdsSnoc(local[..k], local[k]);
    assert Claimed(p, remote, k) == Claimed(local, remote, k);
  }

  /** What is left of the remote index once every local id is removed holds exactly the zombies. */
  lemma ZombiesFromIndex(local: seq<Order>, remote: seq<Order>, index: map<string, Order>)
    requires index.Keys == Ids(remote) - Ids(local)
    requires forall id :: id in index ==> Some(index[id]) == LastWithId(remote, id)
    ensures index.Values == ZombieSpec(local, remote)
  {
    forall z | z in index.Values ensures z in ZombieSpec(local, remote) {
      var id :| id in index && index[id] == z;
    }
    forall z | z in ZombieSpec(local, remote) ensures z in index.Values {
      var id :| id in Ids(remote) && id !in Ids(local) && z == LastWithId(remote, id).value;
      assert index[id] == z;
    }
  }

  /** Every matched pair joins a local order to the last remote order with its id. */
  lemma {:induction false} MatchedPairsAgree(local: seq<Order>, remote: seq<Order>)
    ensures forall p :: p in MatchedSpec(local, remote) ==>
      p.local in local && p.local.id == p.remote.id && Some(p.remote) == LastWithId(remote, p.local.id)
  {
    if |local| > 0 {
      MatchedPairsAgree(local[..|local| - 1], remote);
    }
  }

  /** A local order is a ghost iff its id is unknown remotely or was already claimed earlier. */
  lemma {:induction false} GhostsExactly(local: seq<Order>, remote: seq<Order>, o: Order)
    ensures o in GhostSpec(local, remote) <==>
      exists i :: 0 <= i < |local| && local[i] == o && !Claimed(local, remote, i)
  {
    if |local| > 0 {
      var n := |local| - 1;
      GhostsExactly(local[..n], remote, o);
      forall i | 0 <= i < n ensures Claimed(local[..n], remote, i) == Claimed(local, remote, i) {
        assert local[..n][..i] == local[..i];
      }
    }
  }

  /** A zombie is a remote order whose id no local order has, and it is the last one with that id. */
  lemma ZombiesExactly(local: seq<Order>, remote: seq<Order>, z: Order)
    ensures z in ZombieSpec(local, remote) <==>
      z.id !in Ids(local) && LastWithId(remote, z.id) == Some(z)
  {
    if z.id !in Ids(local) && LastWithId(remote, z.id) == Some(z) {
      assert z == LastWithId(remote, z.id).value;
    }
  }

  /** Local orders A, B against remote B, C: A is a ghost, C a zombie, and B matches. */
  method OrdersExample(template: Order) returns (d: OrderDiff)
    ensures |d.matched| == 1 && d.matched[0].local.id == "B"
    ensures d.ghosts == [template.(id := "A")]
    ensures d.zombies == {template.(id := "C")}
  {
    var a, b, c := template.(id := "A"), template.(id := "B"), template.(id := "C");
    assert Ids([b, c]) == {"B", "C"};
    assert [a, b][..1] == [a];
    assert Ids([a]) == {"A"};
    assert Ids([a, b]) == {"A", "B"};
    assert LastWithId([b, c], "C") == Some(c) by {
      assert [b, c][..1] == [b];
    }
    assert ZombieSpec([a, b], [b, c]) == {c};
    d := DiffOrders([a, b], [b, c]);
  }

  /** `signed_quantity`: long positions count positive, shorts negative, flat ones zero. */
  function SignedQuantity(p: Position): (r: real)
    ensures p.side == Some(Buy) ==> r == p.quantity
    ensures p.side == Some(Sell) ==> r == -p.quantity
    ensures p.side.None? ==> r == 0.0
  {
    match p.side
    case Some(Buy) => p.quantity
    case Some(Sell) => -p.quantity
    case None => 0.0
  }

  datatype PositionDiscrepancy = PositionDiscrepancy(
    symbol: Symbol,
    local: Option<Position>,
    remote: Option<Position>,
    localSigned: real,
    remoteSigned: real,
    delta: real)

  /** The last position in `s` for `symbol` (what the remote index keeps). */
  function LastPosition(s: seq<Position>, symbol: Symbol): (r: Option<Position>)
    ensures r.Some? ==> r.value in s && r.value.symbol == symbol
    ensures r.None? <==> forall p :: p in s ==> p.symbol != symbol
  {
    if |s| == 0 then None
    else if s[|s| - 1].symbol == symbol then Some(s[|s| - 1])
    else
      assert forall p :: p in s ==> p in s[..|s| - 1] || p == s[|s| - 1] by {
        assert s == s[..|s| - 1] + [s[|s| - 1]];
      }
      LastPosition(s[..|s| - 1], symbol)
  }

  /** The local book: `None` when no portfolio has been restored. */
  function LocalPosition(local: Option<map<Symbol, Position>>, symbol: Symbol): Option<Position> {
    if local.Some? && symbol in local.value then Some(local.value[symbol]) else None
  }

  function SignedOrZero(p: Option<Position>): real {
    if p.Some? then SignedQuantity(p.value) else 0.0
  }

  /** The symbols compared: every local position key and every remote position's symbol. */
  function PositionSymbols(local: Option<map<Symbol, Position>>, remote: seq<Position>): set<Symbol> {
    (if local.Some? then local.value.Keys else {}) + (set p | p in remote :: p.symbol)
  }

  /** `diff_positions`: one discrepancy per compared symbol whose signed quantities differ. */
  function DiffPositions(local: Option<map<Symbol, Position>>, remote: seq<Position>): (r: set<PositionDiscrepancy>)
    ensures forall d :: d in r ==>
      d.symbol in PositionSymbols(local, remote)
      && d.local == LocalPosition(local, d.symbol) && d.remote == LastPosition(remote, d.symbol)
      && d.localSigned == SignedOrZero(d.local) && d.remoteSigned == SignedOrZero(d.remote)
      && d.localSigned != d.remoteSigned && d.delta == d.localSigned - d.remoteSigned
  {
    set s | s in PositionSymbols(local, remote) && PositionDiffers(local, remote, s) :: PositionReport(local, remote, s)
  }

  predicate PositionDiffers(local: Option<map<Symbol, Position>>, remote: seq<Position>, s: Symbol) {
    SignedOrZero(LocalPosition(local, s)) != SignedOrZero(LastPosition(remote, s))
  }

  /** The discrepancy reported for `s`: both sides, their signed quantities and the local excess. */
  function PositionReport(local: Option<map<Symbol, Position>>, remote: seq<Position>, s: Symbol): PositionDiscrepancy {
    var l, rm := SignedOrZero(LocalPosition(local, s)), SignedOrZero(LastPosition(remote, s));
    PositionDiscrepancy(s, LocalPosition(local, s), LastPosition(remote, s), l, rm, l - rm)
  }

  /**
   * A symbol of either side is reported iff its signed quantities differ,
   * a missing side counting as zero, and then exactly once.
   */
  lemma PositionReportedIff(local: Option<map<Symbol, Position>>, remote: seq<Position>, s: Symbol)
    requires s in PositionSymbols(local, remote)
    ensures (exists d :: d in DiffPositions(local, remote) && d.symbol == s)
            <==> SignedOrZero(LocalPosition(local, s)) != SignedOrZero(LastPosition(remote, s))
    ensures forall d1, d2 :: (d1 in DiffPositions(local, remote) && d2 in DiffPositions(local, remote)
              && d1.symbol == d2.symbol) ==> d1 == d2
  {
    ReportedWhenDiffer(local, remote, s);
    hide *;
  }

  /** A compared symbol whose signed quantities differ has its discrepancy reported. */
  lemma ReportedWhenDiffer(local: Option<map<Symbol, Position>>, remote: seq<Position>, s: Symbol)
    requires s in PositionSymbols(local, remote)
    ensures PositionDiffers(local, remote, s) ==> PositionReport(local, remote, s) in DiffPositions(local, remote)
  {
  }

  /** Locally long 1, remotely long 0.5: one discrepancy, of delta 0.5. */
  lemma PositionExample(local: Position, remote: Position)
    requires local.symbol == remote.symbol
    requires local.side == Some(Buy) && local.quantity == 1.0
    requires remote.side == Some(Buy) && remote.quantity == 0.5
    ensures var r := DiffPositions(Some(map[local.symbol := local]), [remote]);
      |r| == 1 && forall d :: d in r ==> d.delta == 0.5
  {
    var m := map[local.symbol := local];
    var sym := local.symbol;
    assert PositionSymbols(Some(m), [remote]) == {sym};
    var d := PositionDiscrepancy(sym, Some(local), Some(remote), 1.0, 0.5, 0.5);
    assert LastPosition([remote], sym) == Some(remote);
    assert DiffPositions(Some(m), [remote]) == {d};
  }

  /** A locally tracked cash balance. */
  datatype Cash = Cash(currency: AssetId, quantity: real)

  datatype BalanceDiscrepancy = BalanceDiscrepancy(
    asset: AssetId,
    localAvailable: Option<real>,
    remoteAvailable: Option<real>,
    delta: real)

  /** The last remote balance in `s` for `asset`. */
  function LastBalance(s: seq<AccountBalance>, asset: AssetId): (r: Option<AccountBalance>)
    ensures r.Some? ==> r.value in s && r.value.asset == asset
    ensures r.None? <==> forall b :: b in s ==> b.asset != asset
  {
    if |s| == 0 then None
    else if s[|s| - 1].asset == asset then Some(s[|s| - 1])
    else
      assert forall b :: b in s ==> b in s[..|s| - 1] || b == s[|s| - 1] by {
        assert s == s[..|s| - 1] + [s[|s| - 1]];
      }
      LastBalance(s[..|s| - 1], asset)
  }

  function LocalCash(local: Option<map<AssetId, Cash>>, asset: AssetId): Option<real> {
    if local.Some? && asset in local.value then Some(local.value[asset].quantity) else None
  }

  function RemoteAvailable(remote: seq<AccountBalance>, asset: AssetId): Option<real> {
    var b := LastBalance(remote, asset);
    if b.Some? then Some(b.value.available) else None
  }

  function BalanceAssets(local: Option<map<AssetId, Cash>>, remote: seq<AccountBalance>): set<AssetId> {
    (if local.Some? then local.value.Keys else {}) + (set b | b in remote :: b.asset)
  }

  /** `diff_balances`: local cash quantity against remote available, missing values counting as zero. */
  function DiffBalances(local: Option<map<AssetId, Cash>>, remote: seq<AccountBalance>): (r: set<BalanceDiscrepancy>)
    ensures forall d :: d in r ==>
      d.asset in BalanceAssets(local, remote)
      && d.localAvailable == LocalCash(local, d.asset) && d.remoteAvailable == RemoteAvailable(remote, d.asset)
      && d.delta != 0.0
      && d.delta == d.localAvailable.GetOr(0.0) - d.remoteAvailable.GetOr(0.0)
  {
    set a | a in BalanceAssets(local, remote)
              && LocalCash(local, a).GetOr(0.0) != RemoteAvailable(remote, a).GetOr(0.0)
      :: BalanceDiscrepancy(a, LocalCash(local, a), RemoteAvailable(remote, a),
                            LocalCash(local, a).GetOr(0.0) - RemoteAvailable(remote, a).GetOr(0.0))
  }

  /** An asset of either side is reported iff local quantity and remote availability differ, exactly once. */
  lemma BalanceReportedIff(local: Option<map<AssetId, Cash>>, remote: seq<AccountBalance>, a: AssetId)
    requires a in BalanceAssets(local, remote)
    ensures (exists d :: d in DiffBalances(local, remote) && d.asset == a)
            <==> LocalCash(local, a).GetOr(0.0) != RemoteAvailable(remote, a).GetOr(0.0)
    ensures forall d1, d2 :: (d1 in DiffBalances(local, remote) && d2 in DiffBalances(local, remote)
              && d1.asset == d2.asset) ==> d1 == d2
  {
    var l, rm := LocalCash(local, a).GetOr(0.0), RemoteAvailable(remote, a).GetOr(0.0);
    if l != rm {
      assert BalanceDiscrepancy(a, LocalCash(local, a), RemoteAvailable(remote, a), l - rm)
        in DiffBalances(local, remote);
    }
  }

  /** Local cash 10 against remote available 9: one discrepancy, of delta 1. */
  lemma BalanceExample(asset: AssetId, remote: AccountBalance)
    requires remote.asset == asset && remote.available == 9.0
    ensures var r := DiffBalances(Some(map[asset := Cash(asset, 10.0)]), [remote]);
      |r| == 1 && forall d :: d in r ==> d.delta == 1.0
  {
    var m := map[asset := Cash(asset, 10.0)];
    assert BalanceAssets(Some(m), [remote]) == {asset};
    assert LastBalance([remote], asset) == Some(remote);
    assert DiffBalances(Some(m), [remote]) == {BalanceDiscrepancy(asset, Some(10.0), Some(9.0), 1.0)};
  }
}

=== FILE: reconcile_handlers.dfy ===
/**
 * The reconciliation handlers (`tesser-cli/src/reconcile/handlers.rs`).
 * The runtime handler turns a report into commands for the order
 * management system (OMS): replayed fills, synthetic order updates and,
 * when a divergence is severe, the switch to liquidate-only mode. The
 * exchange's answers (fills of a ghost order, the outcome of cancelling a
 * zombie) and the clock are inputs.
 */
module ReconcileHandlers {
  import opened Wrappers
  import opened Core
  import ReconcileDiff

  /** The threshold used when the configured one is not positive: 10^-6. */
  const DEFAULT_THRESHOLD: real := 0.000001

  datatype RuntimeHandler = RuntimeHandler(reportingCurrency: AssetId, threshold: real)

  /** `RuntimeHandler::new`: a non-positive threshold is replaced by the default. */
  function NewRuntimeHandler(reportingCurrency: AssetId, threshold: real): (h: RuntimeHandler)
    ensures h.reportingCurrency == reportingCurrency
    ensures h.threshold > 0.0
    ensures threshold > 0.0 ==> h.threshold == threshold
    ensures threshold <= 0.0 ==> h.threshold == DEFAULT_THRESHOLD
  {
    RuntimeHandler(reportingCurrency, if threshold <= 0.0 then DEFAULT_THRESHOLD else threshold)
  }

  /** `normalize_diff`: the difference relative to the reference size, never dividing by less than one. */
  function NormalizeDiff(diff: real, reference: real): (r: real)
    ensures diff <= 0.0 ==> r == 0.0
    ensures diff > 0.0 ==> r > 0.0 && r <= diff && r * MaxReal(Abs(reference), 1.0) == diff
  {
    if diff <= 0.0 then 0.0
    else
      var den := MaxReal(Abs(reference), 1.0);
      DivideByAtLeastOne(diff, den);
      diff / den
  }

  lemma DivideByAtLeastOne(x: real, den: real)
    requires x > 0.0 && den >= 1.0
    ensures 0.0 < x / den <= x && x / den * den == x
  {
    var q := x / den;
    assert q * den == x;
    assert q > 0.0;
    assert q * den >= q * 1.0;
  }

  /** For a positive threshold, the relative difference reaches it iff the absolute one reaches threshold × max(|reference|, 1). */
  lemma NormalizedReachesThreshold(diff: real, reference: real, threshold: real)
    requires diff > 0.0 && threshold > 0.0
    ensures NormalizeDiff(diff, reference) >= threshold <==> diff >= threshold * MaxReal(Abs(reference), 1.0)
  {
    var den := MaxReal(Abs(reference), 1.0);
    var r := NormalizeDiff(diff, reference);
    assert r * den == diff;
    if r >= threshold {
      assert r * den >= threshold * den;
    } else {
      assert r * den < threshold * den;
    }
  }

  /** A severe divergence, reported in the alert. */
  datatype Finding =
    | PositionFinding(symbol: Symbol, localSigned: real, remoteSigned: real, diff: real)
    | BalanceFinding(currency: AssetId, localCash: real, remoteCash: real, diff: real)

  predicate PositionSevere(e: ReconcileDiff.PositionDiscrepancy, threshold: real) {
    Abs(e.delta) != 0.0 && NormalizeDiff(Abs(e.delta), e.remoteSigned) >= threshold
  }

  /** `handle_positions`: the severe position findings, in report order. */
  function SeverePositions(entries: seq<ReconcileDiff.PositionDiscrepancy>, threshold: real): (r: seq<Finding>)
    ensures |r| <= |entries|
    ensures forall f :: f in r ==> f.PositionFinding? && f.diff > 0.0
  {
    if |entries| == 0 then []
    else
      var e := entries[0];
      (if PositionSevere(e, threshold)
       then [PositionFinding(e.symbol, e.localSigned, e.remoteSigned, Abs(e.delta))]
       else [])
      + SeverePositions(entries[1..], threshold)
  }

  /** With a positive threshold, an entry is severe iff its absolute delta is at least threshold × max(|remote signed quantity|, 1). */
  lemma PositionSevereIff(e: ReconcileDiff.PositionDiscrepancy, threshold: real)
    requires threshold > 0.0
    ensures PositionSevere(e, threshold) <==> Abs(e.delta) >= threshold * MaxReal(Abs(e.remoteSigned), 1.0)
  {
    if Abs(e.delta) > 0.0 {
      NormalizedReachesThreshold(Abs(e.delta), e.remoteSigned, threshold);
    }
  }

  /** A symbol gets a finding iff one of its entries is severe. */
  lemma {:induction false} SeverePositionsExactly(entries: seq<ReconcileDiff.PositionDiscrepancy>, threshold: real, s: Symbol)
    ensures (exists f :: f in SeverePositions(entries, threshold) && f.symbol == s) <==>
      exists i :: 0 <= i < |entries| && entries[i].symbol == s && PositionSevere(entries[i], threshold)
  {
    if |entries| > 0 {
      var e := entries[0];
      var rest := SeverePositions(entries[1..], threshold);
      var head := if PositionSevere(e, threshold)
        then [PositionFinding(e.symbol, e.localSigned, e.remoteSigned, Abs(e.delta))] else [];
      assert SeverePositions(entries, threshold) == head + rest;
      SeverePositionsExactly(entries[1..], threshold, s);
      if exists f: Finding :: f in head + rest && f.symbol == s {
        var f: Finding :| f in head + rest && f.symbol == s;
        if f in head {
          assert entries[0].symbol == s && PositionSevere(entries[0], threshold);
        } else {
          var j :| 0 <= j < |entries[1..]| && entries[1..][j].symbol == s && PositionSevere(entries[1..][j], threshold);
          assert entries[j + 1] == entries[1..][j];
        }
      }
      if exists i :: 0 <= i < |entries| && entries[i].symbol == s && PositionSevere(entries[i], threshold) {
        var i :| 0 <= i < |entries| && entries[i].symbol == s && PositionSevere(entries[i], threshold);
        if i == 0 {
          assert head[0] in head + rest;
        } else {
          assert entries[1..][i - 1] == entries[i];
          var f: Finding :| f in rest && f.symbol == s;
          assert f in head + rest;
        }
      }
    }
  }

  /** The first discrepancy for `asset`, as `iter().find` returns it. */
  function FindBalance(entries: seq<ReconcileDiff.BalanceDiscrepancy>, asset: AssetId): (r: Option<ReconcileDiff.BalanceDiscrepancy>)
    ensures r.Some? ==> r.value in entries && r.value.asset == asset
    ensures r.None? <==> forall e :: e in entries ==> e.asset != asset
  {
    if |entries| == 0 then None
    else if entries[0].asset == asset then Some(entries[0])
    else
      assert forall e :: e in entries ==> e == entries[0] || e in entries[1..];
      FindBalance(entries[1..], asset)
  }

  /**
   * `handle_balances`: only the reporting currency is judged; missing
   * values count as zero, and the difference is relative to the remote cash.
   */
  function SevereBalance(entries: seq<ReconcileDiff.BalanceDiscrepancy>, h: RuntimeHandler): (r: seq<Finding>)
    requires h.threshold > 0.0
    ensures |r| <= 1
    ensures |r| == 1 ==> (r[0].BalanceFinding? && r[0].currency == h.reportingCurrency && r[0].diff > 0.0
      && FindBalance(entries, h.reportingCurrency).Some?)
    ensures |r| == 1 <==>
      var e := FindBalance(entries, h.reportingCurrency);
      e.Some? && Abs(e.value.localAvailable.GetOr(0.0) - e.value.remoteAvailable.GetOr(0.0))
        >= h.threshold * MaxReal(Abs(e.value.remoteAvailable.GetOr(0.0)), 1.0)
  {
    var e := FindBalance(entries, h.reportingCurrency);
    var local := if e.Some? then e.value.localAvailable.GetOr(0.0) else 0.0;
    var remote := if e.Some? then e.value.remoteAvailable.GetOr(0.0) else 0.0;
    var diff := Abs(local - remote);
    assert diff > 0.0 ==> (NormalizeDiff(diff, remote) >= h.threshold
      <==> diff >= h.threshold * MaxReal(Abs(remote), 1.0)) by {
      if diff > 0.0 {
        NormalizedReachesThreshold(diff, remote, h.threshold);
      }
    }
    if diff != 0.0 && NormalizeDiff(diff, remote) >= h.threshold
    then [BalanceFinding(h.reportingCurrency, local, remote, diff)]
    else []
  }

  /** A command sent to the order management system, in the order the handler sends them. */
  datatype OmsCommand =
    | ApplyFills(fills: seq<Fill>)
    | ApplyOrderUpdates(orders: seq<Order>)
    | EnterLiquidateOnly

  function SumQuantity(fills: seq<Fill>): real {
    if |fills| == 0 then 0.0 else fills[0].quantity + SumQuantity(fills[1..])
  }

  function SumNotional(fills: seq<Fill>): real {
    if |fills| == 0 then 0.0 else fills[0].price * fills[0].quantity + SumNotional(fills[1..])
  }

  /**
   * `build_filled_update`: the order, marked filled with the fills' total
   * quantity, their volume-weighted average price when that total is
   * positive, and the last fill's timestamp (or `now` without fills).
   */
  function BuildFilledUpdate(order: Order, fills: seq<Fill>, now: int): (r: Order)
    ensures r.id == order.id && r.request == order.request
    ensures r.status == Filled
    ensures r.filledQuantity == SumQuantity(fills)
    ensures SumQuantity(fills) > 0.0 ==>
      r.avgFillPrice.Some? && r.avgFillPrice.value * SumQuantity(fills) == SumNotional(fills)
    ensures SumQuantity(fills) <= 0.0 ==> r.avgFillPrice == order.avgFillPrice
    ensures r.updatedAt == (if |fills| > 0 then fills[|fills| - 1].timestamp else now)
  {
    var total := SumQuantity(fills);
    order.(
      avgFillPrice := if total > 0.0 then Some(SumNotional(fills) / total) else order.avgFillPrice,
      updatedAt := if |fills| > 0 then fills[|fills| - 1].timestamp else now,
      status := Filled,
      filledQuantity := total)
  }

  /** Notional and quantity sums of fills priced within [lo, hi] with positive sizes. */
  lemma {:induction false} NotionalBetween(fills: seq<Fill>, lo: real, hi: real)
    requires forall f :: f in fills ==> lo <= f.price <= hi && f.quantity > 0.0
    ensures lo * SumQuantity(fills) <= SumNotional(fills) <= hi * SumQuantity(fills)
    ensures |fills| > 0 ==> SumQuantity(fills) > 0.0
  {
    if |fills| == 0 {
      SumsEmpty(fills);
      hide *;
      assert lo * 0.0 == 0.0 && hi * 0.0 == 0.0;
    } else {
      hide *;
      assert fills[0] in fills;
      assert forall g :: g in fills[1..] ==> g in fills;
      NotionalBetween(fills[1..], lo, hi);
      NotionalStep(fills, lo, hi);
    }
  }

  /** One fill more keeps the bounds. */
  lemma NotionalStep(fills: seq<Fill>, lo: real, hi: real)
    requires |fills| > 0 && lo <= fills[0].price <= hi && fills[0].quantity > 0.0
    requires lo * SumQuantity(fills[1..]) <= SumNotional(fills[1..]) <= hi * SumQuantity(fills[1..])
    requires |fills| > 1 ==> SumQuantity(fills[1..]) > 0.0
    ensures lo * SumQuantity(fills) <= SumNotional(fills) <= hi * SumQuantity(fills)
    ensures SumQuantity(fills) > 0.0
  {
    SumsUnfold(fills);
    if |fills| == 1 {
      assert SumQuantity(fills[1..]) == 0.0;
    }
    hide *;
    BetweenStep(lo, hi, fills[0].price, fills[0].quantity, SumQuantity(fills[1..]), SumNotional(fills[1..]));
  }

  lemma SumsEmpty(fills: seq<Fill>)
    requires |fills| == 0
    ensures SumQuantity(fills) == 0.0 && SumNotional(fills) == 0.0
  {
  }

  /** The sums are the first fill's share plus the rest's. */
  lemma SumsUnfold(fills: seq<Fill>)
    requires |fills| > 0
    ensures SumQuantity(fills) == fills[0].quantity + SumQuantity(fills[1..])
    ensures SumNotional(fills) == fills[0].price * fills[0].quantity + SumNotional(fills[1..])
  {
  }

  /** Adding a fill priced within the bounds keeps the notional within the bounds times the quantity. */
  lemma BetweenStep(lo: real, hi: real, p: real, x: real, q: real, v: real)
    requires lo <= p <= hi && x > 0.0
    requires lo * q <= v <= hi * q
    requires q >= 0.0
    ensures lo * (x + q) <= p * x + v <= hi * (x + q)
    ensures x + q > 0.0
  {
    assert lo * x <= p * x <= hi * x;
    assert lo * (x + q) == lo * x + lo * q;
    assert hi * (x + q) == hi * x + hi * q;
  }

  /** A value whose multiple by a positive quantity lies within that quantity times the bounds lies within the bounds. */
  lemma DivideBounds(lo: real, hi: real, avg: real, q: real, v: real)
    requires q > 0.0 && avg * q == v && lo * q <= v <= hi * q
    ensures lo <= avg <= hi
  {
    assert (avg - lo) * q >= 0.0 && (hi - avg) * q >= 0.0;
  }

  /** The average price of a replayed ghost fill lies between the lowest and highest fill price. */
  lemma AverageWithinFillPrices(order: Order, fills: seq<Fill>, now: int, lo: real, hi: real)
    requires |fills| > 0
    requires forall f :: f in fills ==> lo <= f.price <= hi && f.quantity > 0.0
    ensures var r := BuildFilledUpdate(order, fills, now);
      r.avgFillPrice.Some? && lo <= r.avgFillPrice.value <= hi
  {
    hide *;
    NotionalBetween(fills, lo, hi);
    var r := BuildFilledUpdate(order, fills, now);
    DivideBounds(lo, hi, r.avgFillPrice.value, SumQuantity(fills), SumNotional(fills));
  }

  /** Statuses a ghost order without fills is left in. */
  predicate Terminal(s: OrderStatus) {
    s == Canceled || s == Filled || s == Rejected
  }

  /** A synthetic order update: the order with a new status, stamped `now`. */
  function Marked(order: Order, status: OrderStatus, now: int): (r: Order)
    ensures r.status == status && r.updatedAt == now
    ensures r.(status := order.status, updatedAt := order.updatedAt) == order
  {
    order.(status := status, updatedAt := now)
  }

  /** The fills the exchange reports for an order; a failed request counts as none. */
  function FetchedFills(fetch: (string, Symbol) -> Result<seq<Fill>, string>, order: Order): seq<Fill> {
    var r := fetch(order.id, order.request.symbol);
    if r.Ok? then r.value else []
  }

  /** What `resolve_ghost_orders` collects: fills to replay, synthetic cancels and fill updates. */
  datatype GhostPlan = GhostPlan(replays: seq<seq<Fill>>, canceled: seq<Order>, filled: seq<Order>)

  /** The per-order loop of `resolve_ghost_orders`. */
  function PlanGhosts(ghosts: seq<Order>, fetch: (string, Symbol) -> Result<seq<Fill>, string>, now: int): (p: GhostPlan)
    ensures |p.replays| == |p.filled|
    ensures |p.canceled| + |p.filled| <= |ghosts|
    ensures forall b :: b in p.replays ==> |b| > 0
  {
    if |ghosts| == 0 then GhostPlan([], [], [])
    else
      var g := ghosts[|ghosts| - 1];
      var p := PlanGhosts(ghosts[..|ghosts| - 1], fetch, now);
      var fills := FetchedFills(fetch, g);
      if |fills| > 0 then GhostPlan(p.replays + [fills], p.canceled, p.filled + [BuildFilledUpdate(g, fills, now)])
      else if Terminal(g.status) then p
      else GhostPlan(p.replays, p.canceled + [Marked(g, Canceled, now)], p.filled)
  }

  /**
   * A ghost with reported fills becomes a filled update; one without fills
   * and not already terminal becomes a cancel; the rest are left alone.
   */
  lemma PlanGhostsExactly(ghosts: seq<Order>, fetch: (string, Symbol) -> Result<seq<Fill>, string>, now: int, o: Order)
    ensures o in PlanGhosts(ghosts, fetch, now).filled <==>
      exists g :: g in ghosts && |FetchedFills(fetch, g)| > 0 && o == BuildFilledUpdate(g, FetchedFills(fetch, g), now)
    ensures o in PlanGhosts(ghosts, fetch, now).canceled <==>
      exists g :: g in ghosts && |FetchedFills(fetch, g)| == 0 && !Terminal(g.status) && o == Marked(g, Canceled, now)
  {
    PlanGhostsFilled(ghosts, fetch, now, o);
    PlanGhostsCanceled(ghosts, fetch, now, o);
  }

  /** The last ghost and those before it are all the ghosts. */
  lemma LastAndBefore(ghosts: seq<Order>)
    requires |ghosts| > 0
    ensures forall x :: x in ghosts <==> x in ghosts[..|ghosts| - 1] || x == ghosts[|ghosts| - 1]
  {
    assert ghosts == ghosts[..|ghosts| - 1] + [ghosts[|ghosts| - 1]];
  }

  lemma {:induction false} PlanGhostsFilled(ghosts: seq<Order>, fetch: (string, Symbol) -> Result<seq<Fill>, string>, now: int, o: Order)
    ensures o in PlanGhosts(ghosts, fetch, now).filled <==>
      exists g :: g in ghosts && |FetchedFills(fetch, g)| > 0 && o == BuildFilledUpdate(g, FetchedFills(fetch, g), now)
  {
    if |ghosts| > 0 {
      PlanGhostsFilled(ghosts[..|ghosts| - 1], fetch, now, o);
      LastAndBefore(ghosts);
    }
  }

  lemma {:induction false} PlanGhostsCanceled(ghosts: seq<Order>, fetch: (string, Symbol) -> Result<seq<Fill>, string>, now: int, o: Order)
    ensures o in PlanGhosts(ghosts, fetch, now).canceled <==>
      exists g :: g in ghosts && |FetchedFills(fetch, g)| == 0 && !Terminal(g.status) && o == Marked(g, Canceled, now)
  {
    if |ghosts| > 0 {
      PlanGhostsCanceled(ghosts[..|ghosts| - 1], fetch, now, o);
      LastAndBefore(ghosts);
    }
  }

  /** The OMS commands of `resolve_ghost_orders`: each replay, then the cancels, then the fill updates. */
  function GhostCommands(ghosts: seq<Order>, fetch: (string, Symbol) -> Result<seq<Fill>, string>, now: int): (r: seq<OmsCommand>)
    ensures forall c :: c in r ==> !c.EnterLiquidateOnly?
    ensures var p := PlanGhosts(ghosts, fetch, now);
      |r| == |p.replays| + (if |p.canceled| > 0 then 1 else 0) + (if |p.filled| > 0 then 1 else 0)
  {
    var p := PlanGhosts(ghosts, fetch, now);
    Replays(p.replays)
      + (if |p.canceled| > 0 then [ApplyOrderUpdates(p.canceled)] else [])
      + (if |p.filled| > 0 then [ApplyOrderUpdates(p.filled)] else [])
  }

  function Replays(batches: seq<seq<Fill>>): (r: seq<OmsCommand>)
    ensures |r| == |batches|
    ensures forall i :: 0 <= i < |r| ==> r[i] == ApplyFills(batches[i])
  {
    if |batches| == 0 then [] else [ApplyFills(batches[0])] + Replays(batches[1..])
  }

  /** `resolve_zombie_orders`: adopt every zombie, then record those the exchange agreed to cancel. */
  function ZombieCommands(zombies: seq<Order>, cancel: (string, Symbol) -> bool, now: int): (r: seq<OmsCommand>)
    ensures |zombies| == 0 <==> r == []
    ensures |zombies| > 0 ==> r[0] == ApplyOrderUpdates(zombies) && 1 <= |r| <= 2
    ensures forall c :: c in r ==> !c.EnterLiquidateOnly?
    ensures |r| == 2 ==> r[1].ApplyOrderUpdates? && forall o :: o in r[1].orders <==>
      exists z :: z in zombies && cancel(z.id, z.request.symbol) && o == Marked(z, Canceled, now)
  {
    if |zombies| == 0 then []
    else
      var canceled := CanceledZombies(zombies, cancel, now);
      [ApplyOrderUpdates(zombies)] + (if |canceled| > 0 then [ApplyOrderUpdates(canceled)] else [])
  }

  function CanceledZombies(zombies: seq<Order>, cancel: (string, Symbol) -> bool, now: int): (r: seq<Order>)
    ensures |r| <= |zombies|
    ensures forall o :: o in r <==>
      exists z :: z in zombies && cancel(z.id, z.request.symbol) && o == Marked(z, Canceled, now)
  {
    if |zombies| == 0 then []
    else
      var z := zombies[0];
      assert forall x :: x in zombies <==> x == z || x in zombies[1..] by {
        assert zombies == [z] + zombies[1..];
      }
      (if cancel(z.id, z.request.symbol) then [Marked(z, Canceled, now)] else [])
        + CanceledZombies(zombies[1..], cancel, now)
  }

  /** The parts of a reconciliation report the runtime handler reads. */
  datatype Report = Report(
    positions: seq<ReconcileDiff.PositionDiscrepancy>,
    balances: seq<ReconcileDiff.BalanceDiscrepancy>,
    ghosts: seq<Order>,
    zombies: seq<Order>)

  datatype Outcome = Outcome(severe: seq<Finding>, commands: seq<OmsCommand>)

  /**
   * `RuntimeHandler::handle`: findings from positions and the reporting
   * currency, ghost and zombie resolution, and liquidate-only mode exactly
   * when some finding is severe.
   */
  function Handle(
    h: RuntimeHandler, report: Report,
    fetch: (string, Symbol) -> Result<seq<Fill>, string>, cancel: (string, Symbol) -> bool, now: int): (r: Outcome)
    requires h.threshold > 0.0
    ensures r.severe == SeverePositions(report.positions, h.threshold) + SevereBalance(report.balances, h)
    ensures EnterLiquidateOnly in r.commands <==> |r.severe| > 0
    ensures |r.severe| > 0 ==> r.commands[|r.commands| - 1] == EnterLiquidateOnly
    ensures GhostCommands(report.ghosts, fetch, now) <= r.commands
  {
    var severe := SeverePositions(report.positions, h.threshold) + SevereBalance(report.balances, h);
    var work := GhostCommands(report.ghosts, fetch, now) + ZombieCommands(report.zombies, cancel, now);
    assert EnterLiquidateOnly !in work;
    Outcome(severe, work + (if |severe| > 0 then [EnterLiquidateOnly] else []))
  }

  /** A ghost whose fills the exchange reports is replayed and then marked filled, as the handler test expects. */
  lemma GhostFillReplayed(h: RuntimeHandler, order: Order, fill: Fill, now: int,
                          fetch: (string, Symbol) -> Result<seq<Fill>, string>, cancel: (string, Symbol) -> bool)
    requires h.threshold > 0.0
    requires fetch(order.id, order.request.symbol) == Ok([fill])
    ensures var r := Handle(h, Report([], [], [order], []), fetch, cancel, now);
      r.severe == [] && r.commands == [ApplyFills([fill]), ApplyOrderUpdates([BuildFilledUpdate(order, [fill], now)])]
      && BuildFilledUpdate(order, [fill], now).status == Filled
  {
    assert [order][..0] == [];
    var u := BuildFilledUpdate(order, [fill], now);
    assert PlanGhosts([order], fetch, now) == GhostPlan([[fill]], [], [u]);
    assert Replays([[fill]]) == [ApplyFills([fill])];
    assert FindBalance([], h.reportingCurrency) == None;
    assert SevereBalance([], h) == [];
  }

  /** What `StartupHandler::apply` keeps: the exchange's open orders, and the zombies to cancel. */
  datatype StartupOutcome = StartupOutcome(openOrders: seq<Order>, cancelOrders: set<Order>)

  /** `StartupHandler::reconcile`: diff the orders, adopt the remote book, cancel every zombie. */
  method StartupReconcile(localOrders: seq<Order>, remoteOrders: seq<Order>) returns (o: StartupOutcome)
    ensures o.openOrders == remoteOrders
    ensures forall z :: z in o.cancelOrders <==>
      z.id !in ReconcileDiff.Ids(localOrders) && ReconcileDiff.LastWithId(remoteOrders, z.id) == Some(z)
  {
    var d := ReconcileDiff.DiffOrders(localOrders, remoteOrders);
    forall z ensures z in d.zombies <==>
      z.id !in ReconcileDiff.Ids(localOrders) && ReconcileDiff.LastWithId(remoteOrders, z.id) == Some(z)
    {
      ReconcileDiff.ZombiesExactly(localOrders, remoteOrders, z);
    }
    o := StartupOutcome(remoteOrders, d.zombies);
  }

  /** The startup test: local order "local" against remote order "remote" cancels exactly the remote one. */
  method StartupExample(template: Order) returns (o: StartupOutcome)
    ensures o.cancelOrders == {template.(id := "remote")}
  {
    var l, r := template.(id := "local"), template.(id := "remote");
    assert ReconcileDiff.Ids([l]) == {"local"};
    assert ReconcileDiff.LastWithId([r], "remote") == Some(r);
    o := StartupReconcile([l], [r]);
    forall z | z in o.cancelOrders ensures z == r {
      assert z.id in ReconcileDiff.Ids([r]);
      assert ReconcileDiff.Ids([r]) == {"remote"};
    }
  }
}

=== FILE: rpc_conversions.dfy ===
/**
 * The translations between the trading types and their wire form in
 * `tesser-rpc/src/conversions.rs`. Decimals travel as strings; rendering a
 * decimal and parsing one back are the decimal library's and are
 * parameters here (`render`, `parse`). Timestamps are read as nanoseconds
 * since the Unix epoch.
 */
module RpcConversions {
  import opened Wrappers
  import opened Core

  datatype ProtoDecimal = ProtoDecimal(value: string)

  datatype ProtoSide = SideUnspecified | SideBuy | SideSell

  datatype ProtoInterval = Interval1s | Interval1m | Interval5m | Interval15m | Interval1h | Interval4h | Interval1d

  /** The signal kinds on the wire. */
  datatype ProtoKind = KindUnspecified | KindEnterLong | KindExitLong | KindEnterShort | KindExitShort | KindFlatten

  /** The wire carries the kind as a number, which may name no kind at all. */
  datatype KindCode = Known(kind: ProtoKind) | Unrecognized(code: int)

  datatype ProtoTimestamp = ProtoTimestamp(seconds: int, nanos: nat)

  datatype ProtoFill = ProtoFill(
    orderId: string,
    symbol: Symbol,
    side: ProtoSide,
    fillPrice: ProtoDecimal,
    fillQuantity: ProtoDecimal,
    fee: ProtoDecimal,
    timestamp: ProtoTimestamp)

  datatype ProtoPosition = ProtoPosition(
    symbol: Symbol,
    side: ProtoSide,
    quantity: ProtoDecimal,
    entryPrice: ProtoDecimal,
    unrealizedPnl: ProtoDecimal,
    updatedAt: ProtoTimestamp)

  datatype ProtoSignal = ProtoSignal(
    symbol: Symbol,
    kind: KindCode,
    confidence: real,
    stopLoss: Option<ProtoDecimal>,
    takeProfit: Option<ProtoDecimal>,
    note: string)

  /** `to_decimal_proto`: the decimal's text. */
  function ToDecimalProto(d: real, render: real -> string): (r: ProtoDecimal)
    ensures r.value == render(d)
  {
    ProtoDecimal(render(d))
  }

  /** `from_decimal_proto`: text that does not parse reads as zero. */
  function FromDecimalProto(d: ProtoDecimal, parse: string -> Option<real>): (r: real)
    ensures parse(d.value).None? ==> r == 0.0
    ensures parse(d.value).Some? ==> r == parse(d.value).value
  {
    parse(d.value).GetOr(0.0)
  }

  /** A decimal whose text parses back to it survives the trip over the wire. */
  lemma DecimalRoundTrip(d: real, render: real -> string, parse: string -> Option<real>)
    requires parse(render(d)) == Some(d)
    ensures FromDecimalProto(ToDecimalProto(d, render), parse) == d
  {
  }

  /** `to_timestamp_proto`: nanoseconds since the epoch as whole seconds and a non-negative remainder. */
  function ToTimestampProto(nanos: int): (r: ProtoTimestamp)
    ensures r.nanos < NANOS_PER_SECOND
    ensures r.seconds * NANOS_PER_SECOND + r.nanos == nanos
  {
    var (seconds, subsec) := SplitNanos(nanos);
    ProtoTimestamp(seconds, subsec)
  }

  /** `side_to_proto`: never the unspecified side. */
  function SideToProto(s: Side): (r: ProtoSide)
    ensures r != SideUnspecified
    ensures SideFromProto(r) == Some(s)
  {
    match s
    case Buy => SideBuy
    case Sell => SideSell
  }

  /** The inverse on the sides the wire can name. */
  function SideFromProto(p: ProtoSide): (r: Option<Side>)
    ensures r.None? <==> p == SideUnspecified
  {
    match p
    case SideUnspecified => None
    case SideBuy => Some(Buy)
    case SideSell => Some(Sell)
  }

  /** Distinct sides travel as distinct wire sides. */
  lemma SideToProtoInjective(a: Side, b: Side)
    requires SideToProto(a) == SideToProto(b)
    ensures a == b
  {
    assert SideFromProto(SideToProto(a)) == Some(a);
  }

  /** `interval_to_proto`: each interval has its own wire name. */
  function IntervalToProto(i: Interval): (r: ProtoInterval)
    ensures IntervalFromProto(r) == i
  {
    match i
    case OneSecond => Interval1s
    case OneMinute => Interval1m
    case FiveMinutes => Interval5m
    case FifteenMinutes => Interval15m
    case OneHour => Interval1h
    case FourHours => Interval4h
    case OneDay => Interval1d
  }

  /** The inverse. */
  function IntervalFromProto(p: ProtoInterval): (r: Interval) {
    match p
    case Interval1s => OneSecond
    case Interval1m => OneMinute
    case Interval5m => FiveMinutes
    case Interval15m => FifteenMinutes
    case Interval1h => OneHour
    case Interval4h => FourHours
    case Interval1d => OneDay
  }

  /** Distinct intervals travel as distinct wire intervals. */
  lemma IntervalToProtoInjective(a: Interval, b: Interval)
    requires IntervalToProto(a) == IntervalToProto(b)
    ensures a == b
  {
    assert IntervalFromProto(IntervalToProto(a)) == a;
  }

  /** A fill on the wire: a missing fee is sent as zero; the fee asset is not sent. */
  function FillToProto(f: Fill, render: real -> string): (r: ProtoFill)
    ensures r.orderId == f.orderId && r.symbol == f.symbol && SideFromProto(r.side) == Some(f.side)
    ensures r.fillPrice.value == render(f.price) && r.fillQuantity.value == render(f.quantity)
    ensures r.fee.value == render(if f.fee.Some? then f.fee.value else 0.0)
    ensures r.timestamp.seconds * NANOS_PER_SECOND + r.timestamp.nanos == f.timestamp
  {
    ProtoFill(
      f.orderId, f.symbol, SideToProto(f.side),
      ToDecimalProto(f.price, render), ToDecimalProto(f.quantity, render),
      ToDecimalProto(f.fee.GetOr(0.0), render),
      ToTimestampProto(f.timestamp))
  }

  /** A position on the wire: a flat position's side is unspecified and a missing entry price is zero. */
  function PositionToProto(p: Position, render: real -> string): (r: ProtoPosition)
    ensures r.symbol == p.symbol && SideFromProto(r.side) == p.side
    ensures r.quantity.value == render(p.quantity) && r.unrealizedPnl.value == render(p.unrealizedPnl)
    ensures r.entryPrice.value == render(if p.entryPrice.Some? then p.entryPrice.value else 0.0)
    ensures r.updatedAt.seconds * NANOS_PER_SECOND + r.updatedAt.nanos == p.updatedAt
  {
    var side := if p.side.Some? then SideToProto(p.side.value) else SideUnspecified;
    ProtoPosition(
      p.symbol, side,
      ToDecimalProto(p.quantity, render),
      ToDecimalProto(p.entryPrice.GetOr(0.0), render),
      ToDecimalProto(p.unrealizedPnl, render),
      ToTimestampProto(p.updatedAt))
  }

  /** The strategy context on the wire: its positions, in order. */
  function ContextToProto(positions: seq<Position>, render: real -> string): (r: seq<ProtoPosition>)
    ensures |r| == |positions|
    ensures forall i :: 0 <= i < |positions| ==> r[i] == PositionToProto(positions[i], render)
    decreases |positions|
  {
    if |positions| == 0 then []
    else ContextToProto(positions[..|positions| - 1], render) + [PositionToProto(positions[|positions| - 1], render)]
  }

  /** The kind a wire kind stands for; unspecified and unrecognized kinds fall back to entering long. */
  function KindFromProto(k: KindCode): (r: SignalKind)
    ensures k.Known? && k.kind != KindUnspecified ==> KindToProto(r) == k.kind
    ensures !(k.Known? && k.kind != KindUnspecified) ==> r == EnterLong
  {
    match k
    case Unrecognized(_) => EnterLong
    case Known(kind) =>
      match kind
      case KindEnterLong => EnterLong
      case KindExitLong => ExitLong
      case KindEnterShort => EnterShort
      case KindExitShort => ExitShort
      case KindFlatten => Flatten
      case KindUnspecified => EnterLong
  }

  /** The wire kind of the same name. */
  function KindToProto(k: SignalKind): (r: ProtoKind)
    ensures r != KindUnspecified
  {
    match k
    case EnterLong => KindEnterLong
    case ExitLong => KindExitLong
    case EnterShort => KindEnterShort
    case ExitShort => KindExitShort
    case Flatten => KindFlatten
  }

  /** Every kind survives the trip to the wire and back. */
  lemma KindRoundTrip(k: SignalKind)
    ensures KindFromProto(Known(KindToProto(k))) == k
  {
  }

  /**
   * A signal from the wire: the kind as above, stop-loss and take-profit
   * only when present (text that does not parse reads as zero), and an
   * empty note as no note.
   */
  function SignalFromProto(p: ProtoSignal, parse: string -> Option<real>): (r: Signal)
    ensures r.symbol == p.symbol && r.kind == KindFromProto(p.kind) && r.confidence == p.confidence
    ensures r.stopLoss.Some? <==> p.stopLoss.Some?
    ensures p.stopLoss.Some? ==> r.stopLoss.value == FromDecimalProto(p.stopLoss.value, parse)
    ensures r.takeProfit.Some? <==> p.takeProfit.Some?
    ensures p.takeProfit.Some? ==> r.takeProfit.value == FromDecimalProto(p.takeProfit.value, parse)
    ensures r.note.None? <==> p.note == ""
    ensures r.note.Some? ==> r.note.value == p.note
  {
    var signal := NewSignal(p.symbol, KindFromProto(p.kind), p.confidence);
    var signal := if p.stopLoss.Some? then signal.(stopLoss := Some(FromDecimalProto(p.stopLoss.value, parse))) else signal;
    var signal := if p.takeProfit.Some? then signal.(takeProfit := Some(FromDecimalProto(p.takeProfit.value, parse))) else signal;
    if |p.note| == 0 then signal else signal.(note := Some(p.note))
  }

  /** Each signal of a reply, in order. */
  function SignalsFromProto(ps: seq<ProtoSignal>, parse: string -> Option<real>): (r: seq<Signal>)
    ensures |r| == |ps|
    ensures forall i :: 0 <= i < |ps| ==> r[i] == SignalFromProto(ps[i], parse)
    decreases |ps|
  {
    if |ps| == 0 then [] else SignalsFromProto(ps[..|ps| - 1], parse) + [SignalFromProto(ps[|ps| - 1], parse)]
  }
}

=== FILE: rpc_grpc.dfy ===
/**
 * The gRPC transport of `tesser-rpc/src/transport/grpc.rs`: a timeout of at
 * least one millisecond, and a bounded retry loop that reconnects after an
 * `Unavailable` or `DeadlineExceeded` status and gives up after three
 * attempts.
 *
 * The network is a parameter: `connectError(n)` is the outcome of the
 * connection made before attempt `n` (`Some(reason)` when it fails) and
 * `reply(n)` the answer to attempt `n`.
 */
module RpcTransport {
  import opened Wrappers

  /** The gRPC status codes. */
  datatype Code =
    | Ok | Cancelled | Unknown | InvalidArgument | DeadlineExceeded | NotFound
    | AlreadyExists | PermissionDenied | ResourceExhausted | FailedPrecondition
    | Aborted | OutOfRange | Unimplemented | Internal | Unavailable | DataLoss
    | Unauthenticated

  datatype Status = Status(code: Code, message: string)

  /** The adapter: whether it holds a connected client, its timeout and its retry bound. */
  datatype Adapter = Adapter(endpoint: string, connected: bool, timeoutMs: nat, maxRetries: nat)

  /** `GrpcAdapter::new`: not yet connected, a timeout of at least 1 ms, three attempts. */
  function New(endpoint: string, timeoutMs: nat): (a: Adapter)
    ensures a.endpoint == endpoint && !a.connected
    ensures a.timeoutMs >= 1 && a.timeoutMs >= timeoutMs
    ensures timeoutMs >= 1 ==> a.timeoutMs == timeoutMs
    ensures a.maxRetries == 3
  {
    Adapter(endpoint, false, if timeoutMs >= 1 then timeoutMs else 1, 3)
  }

  /** The codes worth another attempt: the server was unreachable or too slow. */
  predicate Transient(code: Code) {
    code == Unavailable || code == DeadlineExceeded
  }

  /** `should_retry`. */
  function ShouldRetry(a: Adapter, attempts: nat, status: Status): (r: bool)
    ensures r ==> attempts < a.maxRetries
    ensures !Transient(status.code) ==> !r
    ensures attempts < a.maxRetries && Transient(status.code) ==> r
  {
    attempts < a.maxRetries && Transient(status.code)
  }

  datatype CallError = ConnectFailed(reason: string) | CallFailed(status: Status)

  /** The adapter afterwards, the call's result, and how many attempts were made in all. */
  datatype Call<T> = Call(adapter: Adapter, result: Result<T, CallError>, attempts: nat)

  /** Attempt `n` failed with a status that was retried. */
  predicate Retried<T>(reply: nat -> Result<T, Status>, n: nat) {
    reply(n).Err? && Transient(reply(n).error.code)
  }

  /**
   * The loop of `call_with_retry` after `attempts` attempts: connect when
   * no client is held, make the next attempt, and then return its value,
   * drop the client and go round again, or return its status.
   */
  function Loop<T>(a: Adapter, attempts: nat, connectError: nat -> Option<string>, reply: nat -> Result<T, Status>): (r: Call<T>)
    ensures r.adapter.endpoint == a.endpoint && r.adapter.timeoutMs == a.timeoutMs && r.adapter.maxRetries == a.maxRetries
    ensures r.attempts >= attempts
    ensures r.attempts <= attempts + 1 || r.attempts <= a.maxRetries
    ensures r.result.Ok? ==> r.attempts > attempts && reply(r.attempts) == Result.Ok(r.result.value) && r.adapter.connected
    ensures r.result.Err? && r.result.error.CallFailed? ==>
      && r.attempts > attempts && reply(r.attempts) == Err(r.result.error.status)
      && !ShouldRetry(a, r.attempts, r.result.error.status) && r.adapter.connected
    ensures r.result.Err? && r.result.error.ConnectFailed? ==>
      connectError(r.attempts + 1) == Some(r.result.error.reason) && !r.adapter.connected
    ensures forall n :: attempts < n < r.attempts ==> Retried(reply, n)
    decreases a.maxRetries - attempts
  {
    if !a.connected && connectError(attempts + 1).Some? then
      Call(a, Err(ConnectFailed(connectError(attempts + 1).value)), attempts)
    else
      var n := attempts + 1;
      var answer := reply(n);
      if answer.Ok? then Call(a.(connected := true), Result.Ok(answer.value), n)
      else if ShouldRetry(a, n, answer.error) then Loop(a.(connected := false), n, connectError, reply)
      else Call(a.(connected := true), Err(CallFailed(answer.error)), n)
  }

  /** `call_with_retry`: the loop from no attempts. */
  function CallWithRetry<T>(a: Adapter, connectError: nat -> Option<string>, reply: nat -> Result<T, Status>): (r: Call<T>)
    ensures r.attempts <= if a.maxRetries == 0 then 1 else a.maxRetries
    ensures r.result.Ok? ==> 1 <= r.attempts && reply(r.attempts) == Result.Ok(r.result.value)
    ensures forall n :: 0 < n < r.attempts ==> Retried(reply, n)
  {
    Loop(a, 0, connectError, reply)
  }

  /** With a fresh adapter, a server that is always unavailable is tried exactly three times. */
  lemma GivesUpAfterThree<T>(endpoint: string, timeoutMs: nat, reply: nat -> Result<T, Status>)
    requires forall n :: Retried(reply, n)
    ensures var r := CallWithRetry(New(endpoint, timeoutMs), _ => None, reply);
      Retried(reply, 3) && r.attempts == 3 && r.result == Err(CallFailed(reply(3).error)) && r.adapter.connected
  {
    var a := New(endpoint, timeoutMs);
    var r := Loop(a, 0, _ => None, reply);
    assert Retried(reply, r.attempts);
  }

  /** A status that is not transient is returned after the first attempt, without reconnecting. */
  lemma FailsFastOnPermanentError<T>(a: Adapter, connectError: nat -> Option<string>, reply: nat -> Result<T, Status>)
    requires a.connected && reply(1).Err? && !Transient(reply(1).error.code)
    ensures CallWithRetry(a, connectError, reply) == Call(a, Err(CallFailed(reply(1).error)), 1)
  {
  }

  /** A failed reconnection after a transient error ends the call with the connection error. */
  lemma ReconnectFailure<T>(a: Adapter, reply: nat -> Result<T, Status>, reason: string)
    requires a.connected && a.maxRetries >= 2 && Retried(reply, 1)
    ensures CallWithRetry(a, n => if n == 2 then Some(reason) else None, reply)
      == Call(a.(connected := false), Err(ConnectFailed(reason)), 1)
  {
    var connectError: nat -> Option<string> := n => if n == 2 then Some(reason) else None;
    assert connectError(2) == Some(reason);
    assert Loop(a, 0, connectError, reply) == Loop(a.(connected := false), 1, connectError, reply);
  }
}

=== FILE: rpc_strategy.dfy ===
/**
 * `RpcStrategy` of `tesser-rpc/src/strategy.rs`: a strategy whose decisions
 * are made by a remote service. The client is built, connected and
 * initialized lazily on the first event; the remote side may name the
 * symbols to subscribe to; signals received are queued until drained.
 *
 * What the remote service answers is a parameter of each operation: the
 * connection outcome, the initialization reply, and the reply to an event.
 */
module RpcStrategy {
  import opened Wrappers
  import opened Core
  import opened StrategyRegistry
  import RpcTransport
  import RpcConversions

  /** The transports a remote strategy can be reached by; only gRPC exists. */
  datatype TransportConfig = Grpc(endpoint: string, timeoutMs: nat)

  /** The timeout used when the configuration names none. */
  const DEFAULT_TIMEOUT_MS: nat := 500

  /** The remote side's answer to initialization. */
  datatype InitResponse = InitResponse(success: bool, errorMessage: string, symbols: seq<Symbol>)

  datatype Rpc = Rpc(
    client: Option<RpcTransport.Adapter>,
    transportConfig: Option<TransportConfig>,
    configPayload: string,
    subscriptions: seq<Symbol>,
    pendingSignals: seq<Signal>,
    symbol: Symbol)

  /** `Default`: no client, no transport, an empty JSON payload, and the placeholder symbol. */
  function Default(): (s: Rpc)
    ensures s.client.None? && s.transportConfig.None? && s.configPayload == "{}"
    ensures s.subscriptions == [] && s.pendingSignals == [] && s.symbol == "UNKNOWN"
  {
    Rpc(None, None, "{}", [], [], "UNKNOWN")
  }

  /** `name`. */
  function Name(): (r: string)
    ensures r == "rpc-strategy"
  {
    "rpc-strategy"
  }

  /** `build_client`: an adapter for the configured endpoint and timeout. */
  function BuildClient(config: TransportConfig): (a: RpcTransport.Adapter)
    ensures a == RpcTransport.New(config.endpoint, config.timeoutMs)
  {
    RpcTransport.New(config.endpoint, config.timeoutMs)
  }

  /**
   * `apply_remote_metadata`: the remote side's symbols become the
   * subscriptions and the first of them the primary symbol; when it names
   * none, the current symbol is kept as the only subscription.
   */
  function ApplyRemoteMetadata(s: Rpc, symbols: seq<Symbol>): (r: Rpc)
    ensures |symbols| == 0 ==> r.subscriptions == [s.symbol] && r.symbol == s.symbol
    ensures |symbols| > 0 ==> r.subscriptions == symbols && r.symbol == symbols[0]
    ensures r.client == s.client && r.transportConfig == s.transportConfig
    ensures r.configPayload == s.configPayload && r.pendingSignals == s.pendingSignals
  {
    var symbols := if |symbols| == 0 then [s.symbol] else symbols;
    s.(symbol := symbols[0], subscriptions := symbols)
  }

  /** `subscriptions`: the stored list, or the primary symbol alone when it is empty. */
  function Subscriptions(s: Rpc): (r: seq<Symbol>)
    ensures |r| > 0
    ensures |s.subscriptions| == 0 ==> r == [s.symbol]
    ensures |s.subscriptions| > 0 ==> r == s.subscriptions
  {
    if |s.subscriptions| == 0 then [s.symbol] else s.subscriptions
  }

  /** Once the remote metadata is applied, the primary symbol heads the subscriptions. */
  lemma MetadataPrimaryFirst(s: Rpc, symbols: seq<Symbol>)
    ensures var r := ApplyRemoteMetadata(s, symbols);
      Subscriptions(r)[0] == r.symbol && Subscriptions(r) == r.subscriptions
  {
  }

  /**
   * `configure`: a parsed transport (parsing is the caller's) replaces the
   * old one, and the client, subscriptions, symbol and queued signals are
   * reset; the parameters are kept as the JSON payload sent on
   * initialization, or `{}` when they cannot be written as JSON.
   */
  function Configure(s: Rpc, parsed: Result<TransportConfig, string>, json: Option<string>): (r: Result<Rpc, StrategyError>)
    ensures parsed.Err? ==> r == Err(InvalidConfig("failed to parse RPC config: " + parsed.error))
    ensures parsed.Ok? ==> r.Ok?
    ensures r.Ok? ==> && r.value.transportConfig == Some(parsed.value)
                      && r.value.client.None? && r.value.subscriptions == []
                      && r.value.symbol == "UNKNOWN" && r.value.pendingSignals == []
                      && r.value.configPayload == (if json.Some? then json.value else "{}")
  {
    if parsed.Err? then Err(InvalidConfig("failed to parse RPC config: " + parsed.error))
    else Ok(Rpc(None, Some(parsed.value), json.GetOr("{}"), [], [], "UNKNOWN"))
  }

  /**
   * `ensure_client`: with a client already held nothing happens. Otherwise
   * a transport must be configured, the connection must succeed
   * (`connectError` is its failure, if any), and the initialization reply
   * must be a success; then the remote metadata is applied and the client
   * kept. On any error the strategy is left as it was, still without a
   * client.
   */
  function EnsureClient(s: Rpc, connectError: Option<string>, init: Result<InitResponse, string>): (r: Result<Rpc, StrategyError>)
    ensures s.client.Some? ==> r == Ok(s)
    ensures r.Err? ==> s.client.None?
    ensures s.client.None? && s.transportConfig.None? ==> r == Err(InvalidConfig("transport config missing"))
    ensures s.client.None? && s.transportConfig.Some? && connectError.Some?
      ==> r == Err(Internal("RPC connect failed: " + connectError.value))
    ensures s.client.None? && s.transportConfig.Some? && connectError.None? && init.Err?
      ==> r == Err(Internal("remote strategy init failed: " + init.error))
    ensures s.client.None? && s.transportConfig.Some? && connectError.None? && init.Ok? && !init.value.success
      ==> r == Err(Internal("remote strategy rejected init: " + init.value.errorMessage))
    ensures r.Ok? ==> r.value.client.Some?
    ensures r.Ok? && s.client.None? ==> (init.Ok? && init.value.success
      && r.value == ApplyRemoteMetadata(s, init.value.symbols).(client := r.value.client))
  {
    if s.client.Some? then Ok(s)
    else if s.transportConfig.None? then Err(InvalidConfig("transport config missing"))
    else
      var adapter := BuildClient(s.transportConfig.value);
      if connectError.Some? then Err(Internal("RPC connect failed: " + connectError.value))
      else if init.Err? then Err(Internal("remote strategy init failed: " + init.error))
      else if !init.value.success then Err(Internal("remote strategy rejected init: " + init.value.errorMessage))
      else Ok(ApplyRemoteMetadata(s, init.value.symbols).(client := Some(adapter.(connected := true))))
  }

  /** Initialization happens once per client: a second call changes nothing, whatever the remote side would say. */
  lemma InitializeOnce(s: Rpc, c1: Option<string>, i1: Result<InitResponse, string>, c2: Option<string>, i2: Result<InitResponse, string>)
    requires EnsureClient(s, c1, i1).Ok?
    ensures var t := EnsureClient(s, c1, i1).value;
      EnsureClient(t, c2, i2) == Ok(t)
  {
  }

  /** `handle_signals`: the received signals are queued after the earlier ones, in order. */
  function HandleSignals(s: Rpc, signals: seq<RpcConversions.ProtoSignal>, parse: string -> Option<real>): (r: Rpc)
    ensures r.pendingSignals == s.pendingSignals + RpcConversions.SignalsFromProto(signals, parse)
    ensures r == s.(pendingSignals := r.pendingSignals)
  {
    s.(pendingSignals := s.pendingSignals + RpcConversions.SignalsFromProto(signals, parse))
  }

  /**
   * `on_tick`, `on_candle`, `on_fill` and `on_order_book`, which differ only
   * in the request they send: a failure to obtain a client is returned,
   * while a failed call is only logged and leaves the queue as it was.
   */
  function OnEvent(s: Rpc, connectError: Option<string>, init: Result<InitResponse, string>,
                   reply: Result<seq<RpcConversions.ProtoSignal>, string>, parse: string -> Option<real>): (r: Result<Rpc, StrategyError>)
    ensures EnsureClient(s, connectError, init).Err? ==> r == Err(EnsureClient(s, connectError, init).error)
    ensures EnsureClient(s, connectError, init).Ok? ==> r.Ok? && r.value.client.Some?
    ensures r.Ok? && reply.Err? ==> r.value == EnsureClient(s, connectError, init).value
    ensures r.Ok? && reply.Ok? ==>
      r.value.pendingSignals == s.pendingSignals + RpcConversions.SignalsFromProto(reply.value, parse)
  {
    var ready :- EnsureClient(s, connectError, init);
    if reply.Err? then Ok(ready) else Ok(HandleSignals(ready, reply.value, parse))
  }

  /** `drain_signals`: hand over the queue and leave it empty. */
  function Drain(s: Rpc): (r: (Rpc, seq<Signal>))
    ensures r.1 == s.pendingSignals && r.0 == s.(pendingSignals := [])
  {
    (s.(pendingSignals := []), s.pendingSignals)
  }

  /** An event whose call fails queues nothing, so draining afterwards hands over only what was queued before. */
  lemma FailedCallQueuesNothing(s: Rpc, connectError: Option<string>, init: Result<InitResponse, string>,
                                reason: string, parse: string -> Option<real>)
    requires OnEvent(s, connectError, init, Err(reason), parse).Ok?
    ensures Drain(OnEvent(s, connectError, init, Err(reason), parse).value).1 == s.pendingSignals
  {
  }
}

=== FILE: strategy_context.dfy ===
/**
 * The market-data view handed to strategies, `StrategyContext` in
 * `tesser-strategy/src/lib.rs`: three bounded histories (candles, ticks,
 * order books) that drop their oldest entry when full, and a replaceable
 * snapshot of positions.
 */
module StrategyContext {
  import opened Wrappers
  import opened Core
  import opened IndicatorCore

  datatype Context = Context(
    recentCandles: seq<Candle>,
    recentTicks: seq<Tick>,
    recentOrderBooks: seq<OrderBook>,
    positions: seq<Position>,
    maxHistory: nat)

  /** The history bound is at least one and no history exceeds it. */
  predicate Valid(ctx: Context) {
    && ctx.maxHistory >= 1
    && |ctx.recentCandles| <= ctx.maxHistory
    && |ctx.recentTicks| <= ctx.maxHistory
    && |ctx.recentOrderBooks| <= ctx.maxHistory
  }

  /** `StrategyContext::new`: empty histories, and a bound of zero is raised to one. */
  function New(maxHistory: nat): (ctx: Context)
    ensures Valid(ctx)
    ensures ctx.maxHistory == (if maxHistory == 0 then 1 else maxHistory)
    ensures ctx.recentCandles == [] && ctx.recentTicks == [] && ctx.recentOrderBooks == [] && ctx.positions == []
  {
    Context([], [], [], [], if maxHistory >= 1 then maxHistory else 1)
  }

  /** `Default`: a context keeping 512 events of each kind. */
  function Default(): (ctx: Context)
    ensures Valid(ctx) && ctx.maxHistory == 512 && ctx.recentCandles == []
  {
    New(512)
  }

  /**
   * The bounded push shared by the three histories: drop the front once the
   * history holds `maxHistory` entries, then append. Within its bound the
   * history keeps exactly the last `maxHistory` events.
   */
  function PushBounded<T>(history: seq<T>, maxHistory: nat, x: T): (r: seq<T>)
    ensures |r| > 0 && r[|r| - 1] == x
    ensures 1 <= maxHistory && |history| <= maxHistory ==> r == Window(history + [x], maxHistory)
  {
    if |history| >= maxHistory && |history| > 0 then history[1..] + [x] else history + [x]
  }

  /** `push_candle`. */
  function PushCandle(ctx: Context, c: Candle): (r: Context)
    ensures Valid(ctx) ==> Valid(r) && r.recentCandles == Window(ctx.recentCandles + [c], ctx.maxHistory)
    ensures r.recentTicks == ctx.recentTicks && r.recentOrderBooks == ctx.recentOrderBooks
    ensures r.positions == ctx.positions && r.maxHistory == ctx.maxHistory
  {
    ctx.(recentCandles := PushBounded(ctx.recentCandles, ctx.maxHistory, c))
  }

  /** `push_tick`. */
  function PushTick(ctx: Context, t: Tick): (r: Context)
    ensures Valid(ctx) ==> Valid(r) && r.recentTicks == Window(ctx.recentTicks + [t], ctx.maxHistory)
    ensures r.recentCandles == ctx.recentCandles && r.recentOrderBooks == ctx.recentOrderBooks
    ensures r.positions == ctx.positions && r.maxHistory == ctx.maxHistory
  {
    ctx.(recentTicks := PushBounded(ctx.recentTicks, ctx.maxHistory, t))
  }

  /** `push_order_book`. */
  function PushOrderBook(ctx: Context, book: OrderBook): (r: Context)
    ensures Valid(ctx) ==> Valid(r) && r.recentOrderBooks == Window(ctx.recentOrderBooks + [book], ctx.maxHistory)
    ensures r.recentCandles == ctx.recentCandles && r.recentTicks == ctx.recentTicks
    ensures r.positions == ctx.positions && r.maxHistory == ctx.maxHistory
  {
    ctx.(recentOrderBooks := PushBounded(ctx.recentOrderBooks, ctx.maxHistory, book))
  }

  /** `update_positions`: the snapshot is replaced and nothing else changes. */
  function UpdatePositions(ctx: Context, positions: seq<Position>): (r: Context)
    ensures r.positions == positions
    ensures r.recentCandles == ctx.recentCandles && r.recentTicks == ctx.recentTicks
    ensures r.recentOrderBooks == ctx.recentOrderBooks && r.maxHistory == ctx.maxHistory
  {
    ctx.(positions := positions)
  }

  /** Push each candle in turn. */
  function PushCandles(ctx: Context, candles: seq<Candle>): (r: Context)
    ensures r.maxHistory == ctx.maxHistory
    decreases |candles|
  {
    if |candles| == 0 then ctx
    else PushCandle(PushCandles(ctx, candles[..|candles| - 1]), candles[|candles| - 1])
  }

  /** However many candles are pushed, the history holds the last `maxHistory` of everything seen. */
  lemma {:induction false} PushCandlesWindow(ctx: Context, candles: seq<Candle>)
    requires Valid(ctx)
    ensures Valid(PushCandles(ctx, candles))
    ensures PushCandles(ctx, candles).recentCandles == Window(ctx.recentCandles + candles, ctx.maxHistory)
    decreases |candles|
  {
    if |candles| == 0 {
      assert ctx.recentCandles + candles == ctx.recentCandles;
    } else {
      var before := candles[..|candles| - 1];
      var c := candles[|candles| - 1];
      var prev := PushCandles(ctx, before);
      assert Valid(prev) && prev.recentCandles == Window(ctx.recentCandles + before, ctx.maxHistory) by {
        PushCandlesWindow(ctx, before);
      }
      WindowSnoc(ctx.recentCandles + before, c, ctx.maxHistory);
      assert ctx.recentCandles + before + [c] == ctx.recentCandles + candles by {
        assert before + [c] == candles;
      }
    }
  }

  /** The index of the first position for `symbol`, if any. */
  function FirstPosition(positions: seq<Position>, symbol: Symbol): (r: Option<nat>)
    ensures r.Some? ==> r.value < |positions| && positions[r.value].symbol == symbol
    ensures r.Some? ==> forall j :: 0 <= j < r.value ==> positions[j].symbol != symbol
    ensures r.None? ==> forall j :: 0 <= j < |positions| ==> positions[j].symbol != symbol
    decreases |positions|
  {
    if |positions| == 0 then None
    else if positions[0].symbol == symbol then Some(0)
    else
      var rest := FirstPosition(positions[1..], symbol);
      if rest.Some? then Some(rest.value + 1) else None
  }

  /** `position`: the first position whose symbol matches. */
  function PositionFor(ctx: Context, symbol: Symbol): (r: Option<Position>)
    ensures r.Some? <==> exists j :: 0 <= j < |ctx.positions| && ctx.positions[j].symbol == symbol
    ensures r.Some? ==> exists j :: (0 <= j < |ctx.positions| && ctx.positions[j] == r.value
      && forall k :: 0 <= k < j ==> ctx.positions[k].symbol != symbol)
  {
    var i := FirstPosition(ctx.positions, symbol);
    if i.Some? then Some(ctx.positions[i.value]) else None
  }

  /** The index of the last order book for `symbol`, if any. */
  function LastBook(books: seq<OrderBook>, symbol: Symbol): (r: Option<nat>)
    ensures r.Some? ==> r.value < |books| && books[r.value].symbol == symbol
    ensures r.Some? ==> forall j :: r.value < j < |books| ==> books[j].symbol != symbol
    ensures r.None? ==> forall j :: 0 <= j < |books| ==> books[j].symbol != symbol
    decreases |books|
  {
    if |books| == 0 then None
    else if books[|books| - 1].symbol == symbol then Some(|books| - 1)
    else LastBook(books[..|books| - 1], symbol)
  }

  /** `order_book`: the most recent snapshot whose symbol matches. */
  function OrderBookFor(ctx: Context, symbol: Symbol): (r: Option<OrderBook>)
    ensures r.Some? <==> exists j :: 0 <= j < |ctx.recentOrderBooks| && ctx.recentOrderBooks[j].symbol == symbol
    ensures r.Some? ==> exists j :: (0 <= j < |ctx.recentOrderBooks| && ctx.recentOrderBooks[j] == r.value
      && forall k :: j < k < |ctx.recentOrderBooks| ==> ctx.recentOrderBooks[k].symbol != symbol)
  {
    var i := LastBook(ctx.recentOrderBooks, symbol);
    if i.Some? then Some(ctx.recentOrderBooks[i.value]) else None
  }

  /** A book just pushed is the one `order_book` answers for its symbol. */
  lemma PushedBookIsLatest(ctx: Context, book: OrderBook)
    ensures OrderBookFor(PushOrderBook(ctx, book), book.symbol) == Some(book)
  {
  }
}

=== FILE: strategy_registry.dfy ===
/**
 * The strategy registry of `tesser-strategy/src/lib.rs`: factories are
 * found by their canonical name or any alias, compared after trimming and
 * ASCII lower-casing, and a later registration of a name overrides the
 * earlier one.
 */
module StrategyRegistry {
  import opened Wrappers
  import opened Text
  import opened Ordering

  /** The failures a strategy reports. */
  datatype StrategyError = InvalidConfig(message: string) | NotEnoughData | Internal(message: string)

  /**
   * A registered factory: its identity (the source compares factories by
   * pointer), its canonical name and its aliases. What it builds is left to
   * the caller of `Build`.
   */
  datatype Factory = Factory(id: nat, canonicalName: string, aliases: seq<string>)

  datatype Registry = Registry(byCanonical: map<string, Factory>, byAlias: map<string, Factory>)

  function Empty(): (r: Registry)
    ensures r.byCanonical == map[] && r.byAlias == map[]
  {
    Registry(map[], map[])
  }

  /** `normalize_name`: trimmed and lower-cased, so that spelling variants meet. */
  function NormalizeName(name: string): (r: string)
    ensures |r| <= |name|
    ensures forall i :: 0 <= i < |r| ==> !('A' <= r[i] <= 'Z')
    ensures |r| > 0 ==> !IsSpace(r[0]) && !IsSpace(r[|r| - 1])
  {
    Lowercase(Trim(name))
  }

  /** Normalizing a normalized name changes nothing. */
  lemma NormalizeIdempotent(name: string)
    ensures NormalizeName(NormalizeName(name)) == NormalizeName(name)
  {
    var n := NormalizeName(name);
    if |n| > 0 {
      TrimKeeps(n);
    }
    assert Trim(n) == n;
    LowercaseIdempotent(Trim(name));
  }

  /** Surrounding spaces and upper-case ASCII letters do not change the name looked up. */
  lemma NormalizeIgnoresCase(name: string)
    ensures NormalizeName(Lowercase(name)) == NormalizeName(name)
    ensures NormalizeName(Trim(name)) == NormalizeName(name)
  {
    TrimIdempotent(name);
    LowercaseTrim(name);
    LowercaseIdempotent(Trim(name));
  }

  /** Lower-casing keeps spaces where they are, so it commutes with trimming. */
  lemma LowercaseTrim(s: string)
    ensures Trim(Lowercase(s)) == Lowercase(Trim(s))
  {
    var l := Lowercase(s);
    LowercaseSpaces(s);
    SameSpaces(s, l);
    var i, j := TrimStartIndex(s), TrimEndIndex(s);
    if i < j {
      LowercaseSlice(s, i, j);
    }
    hide *;
  }

  /** Lower-casing a slice is slicing the lower-cased text. */
  lemma LowercaseSlice(s: string, i: nat, j: nat)
    requires i <= j <= |s|
    ensures Lowercase(s[i..j]) == Lowercase(s)[i..j]
  {
  }

  /** Lower-casing turns no space into a non-space and no non-space into a space. */
  lemma LowercaseSpaces(s: string)
    ensures forall k :: 0 <= k < |s| ==> (IsSpace(Lowercase(s)[k]) <==> IsSpace(s[k]))
  {
  }

  /** Two texts with spaces at the same places trim at the same places. */
  lemma {:induction false} SameSpaces(s: string, t: string)
    requires |s| == |t| && forall k :: 0 <= k < |s| ==> (IsSpace(s[k]) <==> IsSpace(t[k]))
    ensures TrimStartIndex(s) == TrimStartIndex(t) && TrimEndIndex(s) == TrimEndIndex(t)
    decreases |s|
  {
    if |s| > 0 {
      SameSpaces(s[1..], t[1..]);
      SameSpaces(s[..|s| - 1], t[..|t| - 1]);
    }
  }

  /** The normalized forms of some names. */
  function Keys(names: seq<string>): (r: set<string>)
    ensures forall a :: a in names ==> NormalizeName(a) in r
  {
    set a | a in names :: NormalizeName(a)
  }

  /** `insert_alias` for each alias in turn: its normalized form now leads to `f`. */
  function InsertAliases(byAlias: map<string, Factory>, aliases: seq<string>, f: Factory): (r: map<string, Factory>)
    ensures r.Keys == byAlias.Keys + Keys(aliases)
    ensures forall k :: k in Keys(aliases) ==> r[k] == f
    ensures forall k :: k in byAlias && k !in Keys(aliases) ==> r[k] == byAlias[k]
    decreases |aliases|
  {
    if |aliases| == 0 then byAlias
    else
      var rest := InsertAliases(byAlias, aliases[..|aliases| - 1], f);
      InsertAliasStep(byAlias, aliases, f, rest);
      rest[NormalizeName(aliases[|aliases| - 1]) := f]
  }

  /** Inserting the last alias after the others. */
  lemma InsertAliasStep(byAlias: map<string, Factory>, aliases: seq<string>, f: Factory, rest: map<string, Factory>)
    requires |aliases| > 0
    requires rest.Keys == byAlias.Keys + Keys(aliases[..|aliases| - 1])
    requires forall k :: k in Keys(aliases[..|aliases| - 1]) ==> rest[k] == f
    requires forall k :: k in byAlias && k !in Keys(aliases[..|aliases| - 1]) ==> rest[k] == byAlias[k]
    ensures var r := rest[NormalizeName(aliases[|aliases| - 1]) := f];
      && r.Keys == byAlias.Keys + Keys(aliases)
      && (forall k :: k in Keys(aliases) ==> r[k] == f)
      && (forall k :: k in byAlias && k !in Keys(aliases) ==> r[k] == byAlias[k])
  {
    KeysSnoc(aliases);
    AssignOneMore(byAlias, Keys(aliases[..|aliases| - 1]), NormalizeName(aliases[|aliases| - 1]), f, rest);
    hide *;
  }

  /** A map that sends `keys` to `f` over `base` still does so after sending one more key to `f`. */
  lemma AssignOneMore(base: map<string, Factory>, keys: set<string>, key: string, f: Factory, m: map<string, Factory>)
    requires m.Keys == base.Keys + keys
    requires forall k :: k in keys ==> m[k] == f
    requires forall k :: k in base && k !in keys ==> m[k] == base[k]
    ensures m[key := f].Keys == base.Keys + (keys + {key})
    ensures forall k :: k in keys + {key} ==> m[key := f][k] == f
    ensures forall k :: k in base && k !in keys + {key} ==> m[key := f][k] == base[k]
  {
  }

  lemma KeysSnoc(names: seq<string>)
    requires |names| > 0
    ensures Keys(names) == Keys(names[..|names| - 1]) + {NormalizeName(names[|names| - 1])}
  {
    assert names == names[..|names| - 1] + [names[|names| - 1]];
  }

  /** The names a factory answers to: its canonical name, then its aliases. */
  function AllNames(f: Factory): (r: seq<string>)
    ensures forall name :: name in r <==> name == f.canonicalName || name in f.aliases
  {
    [f.canonicalName] + f.aliases
  }

  /**
   * `register`: the factory becomes the one for its canonical name, for the
   * normalized canonical name and for every normalized alias, in that order,
   * overriding whatever held those names; every other name keeps its factory.
   */
  function Register(reg: Registry, f: Factory): (r: Registry)
    ensures r.byCanonical == reg.byCanonical[f.canonicalName := f]
    ensures r.byAlias.Keys == reg.byAlias.Keys + Keys(AllNames(f))
    ensures forall k :: k in Keys(AllNames(f)) ==> r.byAlias[k] == f
    ensures forall k :: k in reg.byAlias && k !in Keys(AllNames(f)) ==> r.byAlias[k] == reg.byAlias[k]
  {
    Registry(reg.byCanonical[f.canonicalName := f], InsertAliases(reg.byAlias, AllNames(f), f))
  }

  /** `get`: the factory registered under the normalized name. */
  function Get(reg: Registry, name: string): (r: Option<Factory>)
    ensures r.Some? <==> NormalizeName(name) in reg.byAlias
    ensures r.Some? ==> r.value == reg.byAlias[NormalizeName(name)]
  {
    var key := NormalizeName(name);
    if key in reg.byAlias then Some(reg.byAlias[key]) else None
  }

  /** After registering, every spelling of any of the factory's names finds that factory. */
  lemma RegisterThenGet(reg: Registry, f: Factory, name: string, spelling: string)
    requires (name == f.canonicalName || name in f.aliases) && NormalizeName(spelling) == NormalizeName(name)
    ensures Get(Register(reg, f), spelling) == Some(f)
  {
  }

  /** Registering leaves lookups of every other name as they were. */
  lemma RegisterKeepsOthers(reg: Registry, f: Factory, spelling: string)
    requires forall name :: name == f.canonicalName || name in f.aliases ==> NormalizeName(spelling) != NormalizeName(name)
    ensures Get(Register(reg, f), spelling) == Get(reg, spelling)
  {
  }

  /** `build`: an unknown name is a configuration error naming it; a known one is built by its factory. */
  function Build<T>(reg: Registry, name: string, build: Factory -> Result<T, StrategyError>): (r: Result<T, StrategyError>)
    ensures Get(reg, name).None? ==> r == Err(InvalidConfig("unknown strategy: " + name))
    ensures Get(reg, name).Some? ==> r == build(Get(reg, name).value)
  {
    var factory := Get(reg, name);
    if factory.None? then Err(InvalidConfig("unknown strategy: " + name)) else build(factory.value)
  }

  /** `names`: every canonical name once, in ascending byte order. */
  method CanonicalNames(reg: Registry) returns (names: seq<string>)
    ensures Sorted(names, StringLeq)
    ensures forall n :: n in names <==> n in reg.byCanonical
    ensures |names| == |reg.byCanonical.Keys|
  {
    var remaining := reg.byCanonical.Keys;
    var collected: seq<string> := [];
    while remaining != {}
      invariant remaining <= reg.byCanonical.Keys
      invariant forall n :: n in collected <==> n in reg.byCanonical && n !in remaining
      invariant |collected| + |remaining| == |reg.byCanonical.Keys|
      invariant forall i, j :: 0 <= i < j < |collected| ==> collected[i] != collected[j]
      decreases |remaining|
    {
      var n :| n in remaining;
      collected := collected + [n];
      remaining := remaining - {n};
    }
    DistinctCount(collected, reg.byCanonical.Keys);
    StringOrder();
    names := Sort(collected, StringLeq);
    SameElements(collected, names);
  }

  /** Distinct elements that are exactly a set's are as many as the set. */
  lemma {:induction false} DistinctCount(s: seq<string>, keys: set<string>)
    requires forall n :: n in s <==> n in keys
    requires forall i, j :: 0 <= i < j < |s| ==> s[i] != s[j]
    ensures |s| == |keys|
    decreases |s|
  {
    if |s| > 0 {
      var last := s[|s| - 1];
      var front := s[..|s| - 1];
      assert forall n :: n in front <==> n in keys - {last} by {
        forall n ensures n in front <==> n in keys - {last} {
          if n in front {
            var i :| 0 <= i < |front| && front[i] == n;
            assert s[i] == n && s[|s| - 1] == last;
          }
          if n in keys - {last} {
            assert n in s;
            var i :| 0 <= i < |s| && s[i] == n;
            assert i != |s| - 1;
            assert front[i] == n;
          }
        }
      }
      DistinctCount(front, keys - {last});
    } else {
      assert forall n :: n !in keys;
      assert keys == {};
    }
  }

  /** Sequences with the same multiset hold the same elements. */
  lemma SameElements(a: seq<string>, b: seq<string>)
    requires multiset(a) == multiset(b)
    ensures forall n :: n in a <==> n in b
  {
    forall n ensures n in a <==> n in b {
      assert n in a <==> n in multiset(a);
      assert n in b <==> n in multiset(b);
    }
  }
}

=== FILE: strategy_sma_cross.dfy ===
/**
 * The double moving-average crossover strategy `SmaCross` of
 * `tesser-strategy/src/lib.rs`: a fast and a slow simple moving average of
 * the closes of one symbol; when the fast average crosses above the slow one
 * it asks to enter long, when it crosses below it asks to exit.
 */
module SmaCrossStrategy {
  import opened Wrappers
  import opened Core
  import opened IndicatorCore
  import SmaIndicator
  import opened StrategyRegistry

  /** `SmaCrossConfig`; the execution-hint settings are not modelled. */
  datatype Config = Config(symbol: Symbol, fastPeriod: nat, slowPeriod: nat, minSamples: nat)

  /** The defaults: BTCUSDT, periods 5 and 20, and 25 samples before any signal. */
  function DefaultConfig(): (cfg: Config)
    ensures cfg.symbol == "BTCUSDT" && cfg.fastPeriod == 5 && cfg.slowPeriod == 20 && cfg.minSamples == 25
  {
    Config("BTCUSDT", 5, 20, 25)
  }

  datatype SmaCross = SmaCross(
    cfg: Config,
    signals: seq<Signal>,
    fastMa: SmaIndicator.Sma,
    slowMa: SmaIndicator.Sma,
    fastPrev: Option<real>,
    fastLast: Option<real>,
    slowPrev: Option<real>,
    slowLast: Option<real>,
    samples: nat)

  /** Fresh averages for the configured periods and no remembered values. */
  function Fresh(cfg: Config, signals: seq<Signal>): (s: SmaCross)
    requires cfg.fastPeriod > 0 && cfg.slowPeriod > 0
    ensures Tracks(s, []) && s.cfg == cfg && s.signals == signals
  {
    SmaCross(cfg, signals, SmaIndicator.Init(cfg.fastPeriod), SmaIndicator.Init(cfg.slowPeriod), None, None, None, None, 0)
  }

  /** `SmaCross::new`, which panics on a zero period. */
  function New(cfg: Config): (s: SmaCross)
    requires cfg.fastPeriod > 0 && cfg.slowPeriod > 0
    ensures Tracks(s, []) && s.cfg == cfg && s.signals == []
  {
    Fresh(cfg, [])
  }

  /** `name`. */
  function Name(): (r: string)
    ensures r == "sma-cross"
  {
    "sma-cross"
  }

  // ---------------------------------------------------------------------
  // The reference: what the strategy should have computed from the closes
  // of the candles of its symbol seen since it was built or configured.
  // ---------------------------------------------------------------------

  /** The closing prices, in order. */
  function Closes(candles: seq<Candle>): (r: seq<real>)
    ensures |r| == |candles|
    ensures forall i :: 0 <= i < |candles| ==> r[i] == candles[i].close
    decreases |candles|
  {
    if |candles| == 0 then [] else Closes(candles[..|candles| - 1]) + [candles[|candles| - 1].close]
  }

  /** The average one close earlier. */
  function PrevSma(closes: seq<real>, period: Period): (r: Option<real>)
    ensures r.Some? <==> |closes| > period
  {
    if |closes| == 0 then None else SmaIndicator.SmaOf(closes[..|closes| - 1], period)
  }

  /**
   * The crossover rule: entering long when the fast average moves from at
   * or below the slow one to strictly above it, exiting when it moves from
   * at or above to strictly below, and nothing otherwise.
   */
  function Cross(fastPrev: real, fastCurr: real, slowPrev: real, slowCurr: real): (r: Option<SignalKind>)
    ensures r == Some(EnterLong) <==> fastPrev <= slowPrev && fastCurr > slowCurr
    ensures r == Some(ExitLong) <==> fastPrev >= slowPrev && fastCurr < slowCurr
    ensures r.Some? ==> r.value == EnterLong || r.value == ExitLong
  {
    if fastPrev <= slowPrev && fastCurr > slowCurr then Some(EnterLong)
    else if fastPrev >= slowPrev && fastCurr < slowCurr then Some(ExitLong)
    else None
  }

  /** The signal for a crossing: an entry carries a stop-loss 2% under the candle's low; both have confidence 0.75. */
  function SignalFor(cfg: Config, candle: Candle, kind: SignalKind): (r: Signal)
    requires kind == EnterLong || kind == ExitLong
    ensures r.symbol == cfg.symbol && r.kind == kind && r.confidence == 0.75
    ensures r.stopLoss == (if kind == EnterLong then Some(candle.low * 0.98) else None)
    ensures r.takeProfit.None? && r.note.None?
  {
    if kind == EnterLong then Signal(cfg.symbol, EnterLong, 0.75, Some(candle.low * 0.98), None, None)
    else NewSignal(cfg.symbol, ExitLong, 0.75)
  }

  /** The signal owed after the last of `candles`, judged from the averages of their closes. */
  function ExpectedSignal(cfg: Config, candles: seq<Candle>): (r: Option<Signal>)
    requires cfg.fastPeriod > 0 && cfg.slowPeriod > 0 && |candles| > 0
  {
    var closes := Closes(candles);
    var fp := PrevSma(closes, cfg.fastPeriod);
    var fc := SmaIndicator.SmaOf(closes, cfg.fastPeriod);
    var sp := PrevSma(closes, cfg.slowPeriod);
    var sc := SmaIndicator.SmaOf(closes, cfg.slowPeriod);
    if |candles| < cfg.minSamples || fp.None? || fc.None? || sp.None? || sc.None? then None
    else
      var kind := Cross(fp.value, fc.value, sp.value, sc.value);
      if kind.Some? then Some(SignalFor(cfg, candles[|candles| - 1], kind.value)) else None
  }

  /** Every signal owed over a history, in order. */
  function SignalsOf(cfg: Config, candles: seq<Candle>): (r: seq<Signal>)
    requires cfg.fastPeriod > 0 && cfg.slowPeriod > 0
    ensures |r| <= |candles|
    decreases |candles|
  {
    if |candles| == 0 then []
    else SignalsOf(cfg, candles[..|candles| - 1]) + OptionSeq(ExpectedSignal(cfg, candles))
  }

  function OptionSeq<T>(o: Option<T>): (r: seq<T>)
    ensures o.None? ==> r == []
    ensures o.Some? ==> r == [o.value]
  {
    if o.Some? then [o.value] else []
  }

  /** No signal before `minSamples` candles, nor before both averages have a previous value. */
  lemma NoEarlySignal(cfg: Config, candles: seq<Candle>)
    requires cfg.fastPeriod > 0 && cfg.slowPeriod > 0 && |candles| > 0
    requires |candles| < cfg.minSamples || |candles| <= cfg.fastPeriod || |candles| <= cfg.slowPeriod
    ensures ExpectedSignal(cfg, candles).None?
  {
  }

  /** The strategy's state agrees with the reference over `candles`. */
  predicate Tracks(s: SmaCross, candles: seq<Candle>) {
    && s.cfg.fastPeriod > 0 && s.cfg.slowPeriod > 0
    && Follows(s.fastMa, s.fastPrev, s.fastLast, Closes(candles), s.cfg.fastPeriod)
    && Follows(s.slowMa, s.slowPrev, s.slowLast, Closes(candles), s.cfg.slowPeriod)
    && s.samples == |candles|
  }

  /** One average agrees with the reference: its window, its latest answer and the one before. */
  predicate Follows(ma: SmaIndicator.Sma, prev: Option<real>, last: Option<real>, closes: seq<real>, period: Period) {
    && SmaIndicator.Valid(ma) && ma.period == period
    && ma.window == Window(closes, period)
    && last == SmaIndicator.SmaOf(closes, period)
    && prev == PrevSma(closes, period)
  }

  // ---------------------------------------------------------------------
  // The strategy.
  // ---------------------------------------------------------------------

  /**
   * The first half of `maybe_emit_signal`: feed the close to both averages,
   * shifting each average's last value into its previous one whenever it
   * answers, and count the sample.
   */
  function Update(s: SmaCross, candle: Candle): (r: SmaCross)
    ensures r.cfg == s.cfg && r.signals == s.signals && r.samples == s.samples + 1
  {
    var (fastMa, fastPrev, fastLast) := Advance(s.fastMa, s.fastPrev, s.fastLast, candle.close);
    var (slowMa, slowPrev, slowLast) := Advance(s.slowMa, s.slowPrev, s.slowLast, candle.close);
    s.(fastMa := fastMa, slowMa := slowMa, fastPrev := fastPrev, fastLast := fastLast,
       slowPrev := slowPrev, slowLast := slowLast, samples := s.samples + 1)
  }

  /** One average takes the close; when it answers, the answer becomes the latest value and the old latest the previous one. */
  function Advance(ma: SmaIndicator.Sma, prev: Option<real>, last: Option<real>, x: real): (r: (SmaIndicator.Sma, Option<real>, Option<real>))
    ensures r.0.period == ma.period
  {
    var step := SmaIndicator.Next(ma, x);
    if step.1.Some? then (step.0, last, step.1) else (step.0, prev, last)
  }

  /** An average on the reference stays on it after one more close. */
  lemma AdvanceFollows(ma: SmaIndicator.Sma, prev: Option<real>, last: Option<real>, closes: seq<real>, x: real)
    requires Follows(ma, prev, last, closes, ma.period)
    ensures var r := Advance(ma, prev, last, x);
      Follows(r.0, r.1, r.2, closes + [x], ma.period)
  {
    SmaIndicator.StepKeeps(ma, x, closes);
    assert (closes + [x])[..|closes|] == closes;
  }

  /** The second half: once enough samples are in and all four values are known, apply the crossover rule. */
  function Decide(s: SmaCross, candle: Candle): (r: Option<Signal>)
    ensures s.samples < s.cfg.minSamples ==> r.None?
    ensures r.Some? ==> r.value.symbol == s.cfg.symbol && r.value.confidence == 0.75
    ensures r.Some? && r.value.kind == EnterLong ==> r.value.stopLoss == Some(candle.low * 0.98)
    ensures r.Some? ==> r.value.kind == EnterLong || r.value.kind == ExitLong
  {
    if s.samples < s.cfg.minSamples || s.fastPrev.None? || s.fastLast.None? || s.slowPrev.None? || s.slowLast.None? then None
    else
      var kind := Cross(s.fastPrev.value, s.fastLast.value, s.slowPrev.value, s.slowLast.value);
      if kind.Some? then Some(SignalFor(s.cfg, candle, kind.value)) else None
  }

  /** `maybe_emit_signal`: update, then append the decided signal, if any. */
  function MaybeEmitSignal(s: SmaCross, candle: Candle): (r: SmaCross)
    ensures r.cfg == s.cfg && r.samples == s.samples + 1
    ensures s.signals <= r.signals && |r.signals| <= |s.signals| + 1
  {
    var u := Update(s, candle);
    u.(signals := u.signals + OptionSeq(Decide(u, candle)))
  }

  /** `on_candle`: candles of other symbols leave the strategy untouched. */
  function OnCandle(s: SmaCross, candle: Candle): (r: SmaCross)
    ensures candle.symbol != s.cfg.symbol ==> r == s
    ensures candle.symbol == s.cfg.symbol ==> r == MaybeEmitSignal(s, candle)
  {
    if candle.symbol != s.cfg.symbol then s else MaybeEmitSignal(s, candle)
  }

  /** `drain_signals`: hand over the pending signals and forget them. */
  function Drain(s: SmaCross): (r: (SmaCross, seq<Signal>))
    ensures r.1 == s.signals && r.0.signals == []
    ensures r.0 == s.(signals := [])
  {
    (s.(signals := []), s.signals)
  }

  /**
   * `configure`: the parsed configuration (parsing is left to the caller) is
   * rejected when either period is zero; otherwise it replaces the old one
   * and the averages start over, keeping the pending signals. On an error
   * the strategy is unchanged.
   */
  function Configure(s: SmaCross, parsed: Result<Config, StrategyError>): (r: Result<SmaCross, StrategyError>)
    ensures parsed.Err? ==> r == Err(parsed.error)
    ensures parsed.Ok? && (parsed.value.fastPeriod == 0 || parsed.value.slowPeriod == 0)
      ==> r == Err(InvalidConfig("period values must be greater than zero"))
    ensures r.Ok? ==> parsed.Ok? && r.value.cfg == parsed.value && r.value.signals == s.signals && Tracks(r.value, [])
  {
    if parsed.Err? then Err(parsed.error)
    else if parsed.value.fastPeriod == 0 || parsed.value.slowPeriod == 0 then
      Err(InvalidConfig("period values must be greater than zero"))
    else Ok(Fresh(parsed.value, s.signals))
  }

  /** Feed candles one by one to `on_candle`. */
  function OnCandles(s: SmaCross, candles: seq<Candle>): (r: SmaCross)
    ensures r.cfg == s.cfg
    decreases |candles|
  {
    if |candles| == 0 then s else OnCandle(OnCandles(s, candles[..|candles| - 1]), candles[|candles| - 1])
  }

  /** The candles of one symbol, in order. */
  function OfSymbol(candles: seq<Candle>, symbol: Symbol): (r: seq<Candle>)
    ensures |r| <= |candles|
    ensures forall i :: 0 <= i < |r| ==> r[i].symbol == symbol
    decreases |candles|
  {
    if |candles| == 0 then []
    else
      var last := candles[|candles| - 1];
      OfSymbol(candles[..|candles| - 1], symbol) + (if last.symbol == symbol then [last] else [])
  }

  // ---------------------------------------------------------------------
  // The strategy agrees with the reference.
  // ---------------------------------------------------------------------

  /** One close moves each average's state, last and previous value along the reference. */
  lemma UpdateTracks(s: SmaCross, candles: seq<Candle>, c: Candle)
    requires Tracks(s, candles)
    ensures Tracks(Update(s, c), candles + [c])
  {
    assert Closes(candles + [c]) == Closes(candles) + [c.close] by {
      assert (candles + [c])[..|candles|] == candles;
    }
    AdvanceFollows(s.fastMa, s.fastPrev, s.fastLast, Closes(candles), c.close);
    AdvanceFollows(s.slowMa, s.slowPrev, s.slowLast, Closes(candles), c.close);
  }

  /** With the state on the reference, the decision is the owed signal. */
  lemma DecideTracks(s: SmaCross, candles: seq<Candle>)
    requires Tracks(s, candles) && |candles| > 0
    ensures Decide(s, candles[|candles| - 1]) == ExpectedSignal(s.cfg, candles)
  {
  }

  /** Starting fresh, the strategy stays on the reference and has emitted exactly the owed signals. */
  lemma {:induction false} RunTracks(cfg: Config, candles: seq<Candle>)
    requires cfg.fastPeriod > 0 && cfg.slowPeriod > 0
    requires forall i :: 0 <= i < |candles| ==> candles[i].symbol == cfg.symbol
    ensures Tracks(OnCandles(New(cfg), candles), candles)
    ensures OnCandles(New(cfg), candles).signals == SignalsOf(cfg, candles)
    decreases |candles|
  {
    if |candles| > 0 {
      var before := candles[..|candles| - 1];
      var c := candles[|candles| - 1];
      assert before + [c] == candles;
      var prev := OnCandles(New(cfg), before);
      assert Tracks(prev, before) && prev.signals == SignalsOf(cfg, before) by {
        RunTracks(cfg, before);
      }
      UpdateTracks(prev, before, c);
      DecideTracks(Update(prev, c), candles);
    }
  }

  /** Candles of other symbols are ignored: running on a mixed stream is running on the strategy's own candles. */
  lemma {:induction false} OnCandlesFilters(s: SmaCross, candles: seq<Candle>)
    ensures OnCandles(s, candles) == OnCandles(s, OfSymbol(candles, s.cfg.symbol))
    decreases |candles|
  {
    if |candles| > 0 {
      var before := candles[..|candles| - 1];
      var c := candles[|candles| - 1];
      var mine := OfSymbol(before, s.cfg.symbol);
      OnCandlesFilters(s, before);
      if c.symbol == s.cfg.symbol {
        assert (mine + [c])[..|mine|] == mine;
      } else {
        assert OfSymbol(candles, s.cfg.symbol) == mine;
      }
    }
  }

  /** Draining twice hands over nothing the second time. */
  lemma DrainTwice(s: SmaCross)
    ensures Drain(Drain(s).0).1 == []
  {
  }
}

=== FILE: text.dfy ===
/**
 * Text helpers shared by the modelled code: Rust's `str::trim`, ASCII
 * character classes and case mapping, and decimal integer text.
 */
module Text {
  import opened Wrappers

  /** `char::is_whitespace`: the Unicode `White_Space` property. */
  predicate IsSpace(c: char) {
    ('\t' <= c <= '\r') || c == ' ' || c == '\U{85}' || c == '\U{A0}' || c == '\U{1680}'
    || ('\U{2000}' <= c <= '\U{200A}') || c == '\U{2028}' || c == '\U{2029}' || c == '\U{202F}'
    || c == '\U{205F}' || c == '\U{3000}'
  }

  /** The index of the first non-space character, or the length when there is none. */
  function TrimStartIndex(s: string): (i: nat)
    ensures i <= |s|
    ensures forall k :: 0 <= k < i ==> IsSpace(s[k])
    ensures i < |s| ==> !IsSpace(s[i])
  {
    if |s| == 0 || !IsSpace(s[0]) then 0 else 1 + TrimStartIndex(s[1..])
  }

  /** The index just past the last non-space character, or 0 when there is none. */
  function TrimEndIndex(s: string): (j: nat)
    ensures j <= |s|
    ensures forall k :: j <= k < |s| ==> IsSpace(s[k])
    ensures j > 0 ==> !IsSpace(s[j - 1])
  {
    if |s| == 0 || !IsSpace(s[|s| - 1]) then |s| else TrimEndIndex(s[..|s| - 1])
  }

  /** `str::trim`: the text between the leading and trailing runs of spaces. */
  function Trim(s: string): (r: string)
    ensures |r| <= |s|
    ensures |r| > 0 ==> !IsSpace(r[0]) && !IsSpace(r[|r| - 1])
    ensures TrimStartIndex(s) < TrimEndIndex(s) ==> r == s[TrimStartIndex(s)..TrimEndIndex(s)]
    ensures TrimStartIndex(s) >= TrimEndIndex(s) ==> r == []
  {
    var i, j := TrimStartIndex(s), TrimEndIndex(s);
    if i < j then s[i..j] else []
  }

  /** Text without spaces at its ends is its own trim. */
  lemma TrimKeeps(s: string)
    requires |s| > 0 && !IsSpace(s[0]) && !IsSpace(s[|s| - 1])
    ensures Trim(s) == s
  {
  }

  /** Trimming twice is trimming once. */
  lemma TrimIdempotent(s: string)
    ensures Trim(Trim(s)) == Trim(s)
  {
    if |Trim(s)| > 0 {
      TrimKeeps(Trim(s));
    }
  }

  predicate IsDigit(c: char) {
    '0' <= c <= '9'
  }

  /** `char::is_ascii_alphanumeric`. */
  predicate IsAsciiAlphanumeric(c: char) {
    IsDigit(c) || ('a' <= c <= 'z') || ('A' <= c <= 'Z')
  }

  /** `char::to_ascii_lowercase`: only `A`..`Z` change. */
  function AsciiLower(c: char): (r: char)
    ensures 'A' <= c <= 'Z' ==> 'a' <= r <= 'z' && r as int - c as int == 32
    ensures !('A' <= c <= 'Z') ==> r == c
  {
    if 'A' <= c <= 'Z' then (c as int + 32) as char else c
  }

  /** `str::to_ascii_lowercase`. */
  function Lowercase(s: string): (r: string)
    ensures |r| == |s|
    ensures forall i :: 0 <= i < |s| ==> r[i] == AsciiLower(s[i])
  {
    seq(|s|, i requires 0 <= i < |s| => AsciiLower(s[i]))
  }

  lemma LowercaseIdempotent(s: string)
    ensures Lowercase(Lowercase(s)) == Lowercase(s)
  {
  }

  predicate AllDigits(s: string) {
    forall i :: 0 <= i < |s| ==> IsDigit(s[i])
  }

  function DigitValue(c: char): (r: nat)
    requires IsDigit(c)
    ensures r < 10
  {
    c as int - '0' as int
  }

  function DigitChar(d: nat): (c: char)
    requires d < 10
    ensures IsDigit(c) && DigitValue(c) == d
  {
    ('0' as int + d) as char
  }

  /** The number a run of decimal digits denotes, most significant first. */
  function DigitsValue(s: string): nat
    requires AllDigits(s)
    decreases |s|
  {
    if |s| == 0 then 0 else 10 * DigitsValue(s[..|s| - 1]) + DigitValue(s[|s| - 1])
  }

  /** The decimal text of a natural number, without leading zeros. */
  function ShowNat(n: nat): (r: string)
    ensures |r| >= 1 && AllDigits(r)
    ensures DigitsValue(r) == n
    ensures |r| > 1 ==> r[0] != '0'
    decreases n
  {
    if n < 10 then [DigitChar(n)]
    else
      var prefix := ShowNat(n / 10);
      var r := prefix + [DigitChar(n % 10)];
      assert r[..|r| - 1] == prefix;
      r
  }

  /** Leading zeros do not change the number. */
  lemma {:induction false} ZerosValue(k: nat, s: string)
    requires AllDigits(s)
    ensures AllDigits(seq(k, _ => '0') + s)
    ensures DigitsValue(seq(k, _ => '0') + s) == DigitsValue(s)
    decreases |s|
  {
    var z: string := seq(k, _ => '0');
    if |s| == 0 {
      assert z + s == z;
      ZerosAlone(k);
    } else {
      var t := z + s;
      assert t[..|t| - 1] == z + s[..|s| - 1];
      ZerosValue(k, s[..|s| - 1]);
    }
  }

  lemma {:induction false} ZerosAlone(k: nat)
    ensures AllDigits(seq(k, _ => '0'))
    ensures DigitsValue(seq(k, _ => '0')) == 0
    decreases k
  {
    if k > 0 {
      var z: string := seq(k, _ => '0');
      assert z[..k - 1] == seq(k - 1, _ => '0');
      ZerosAlone(k - 1);
    }
  }

  /** `format!("{:0w}", n)` for a natural number: zero-padded to at least `width` digits. */
  function ZeroPad(n: nat, width: nat): (r: string)
    ensures AllDigits(r) && DigitsValue(r) == n
    ensures |r| == if |ShowNat(n)| >= width then |ShowNat(n)| else width
  {
    var digits := ShowNat(n);
    var k: nat := if |digits| >= width then 0 else width - |digits|;
    ZerosValue(k, digits);
    seq(k, _ => '0') + digits
  }

  const I64_MIN: int := -0x8000_0000_0000_0000
  const I64_MAX: int := 0x7FFF_FFFF_FFFF_FFFF

  /** An optional `+` or `-` followed by at least one decimal digit. */
  predicate IsIntegerText(s: string) {
    var digits := if |s| > 0 && (s[0] == '+' || s[0] == '-') then s[1..] else s;
    |digits| > 0 && AllDigits(digits)
  }

  /** `i64::from_str`: a sign-prefixed run of digits whose value fits 64 bits. */
  function ParseI64(s: string): (r: Option<int>)
    ensures r.Some? ==> I64_MIN <= r.value <= I64_MAX
    ensures r.Some? ==> IsIntegerText(s)
    ensures |s| == 0 ==> r.None?
  {
    var negative := |s| > 0 && s[0] == '-';
    var digits := if |s| > 0 && (s[0] == '+' || s[0] == '-') then s[1..] else s;
    if |digits| == 0 || !AllDigits(digits) then None
    else
      var v: int := if negative then 0 - DigitsValue(digits) else DigitsValue(digits);
      if I64_MIN <= v <= I64_MAX then Some(v) else None
  }

  /** The decimal text of an integer, `-` first when negative. */
  function ShowInt(n: int): (r: string)
    ensures IsIntegerText(r)
  {
    if n < 0 then "-" + ShowNat(-n) else ShowNat(n)
  }

  /** Every 64-bit integer reads back from its own text, and nothing else reads back from it. */
  lemma ParseShow(n: int)
    requires I64_MIN <= n <= I64_MAX
    ensures ParseI64(ShowInt(n)) == Some(n)
  {
    if n < 0 {
      assert ShowInt(n)[1..] == ShowNat(-n);
    } else {
      assert ShowInt(n)[0] != '+' && ShowInt(n)[0] != '-';
    }
  }

  /** Out-of-range integers are rejected even when well formed. */
  lemma ParseRejectsOverflow(n: int)
    requires n > I64_MAX || n < I64_MIN
    ensures ParseI64(ShowInt(n)).None?
  {
    if n < 0 {
      assert ShowInt(n)[1..] == ShowNat(-n);
    } else {
      assert ShowInt(n)[0] != '+' && ShowInt(n)[0] != '-';
    }
  }
}

=== FILE: trailing_stop.dfy ===
/**
 * The trailing-stop execution algorithm
 * (`tesser-execution/src/algorithm/trailing_stop.rs`): it arms once the
 * market trades at or above an activation price, tracks the highest price
 * since, and sells the remaining quantity at market once the price falls
 * back by the callback rate. The status is kept as text, as in the
 * persisted state. The side a signal kind stands for is defined outside
 * this file and is an input (`sideOf`); so is the algorithm's UUID.
 */
module TrailingStop {
  import opened Wrappers
  import opened Core

  datatype AlgoStatus = Working | Completed | Cancelled | Failed(reason: string)

  /** A child order the algorithm asks the engine to place. */
  datatype ChildOrder = ChildOrder(
    parentAlgoId: string,
    symbol: Symbol,
    side: Side,
    orderType: OrderType,
    quantity: real,
    price: Option<real>,
    clientOrderId: string)

  /** `TrailingStopState`. */
  datatype TrailingState = TrailingState(
    id: string,
    parentSignal: Signal,
    status: string,
    totalQuantity: real,
    filledQuantity: real,
    activationPrice: real,
    callbackRate: real,
    highestMarketPrice: real,
    activated: bool,
    triggered: bool)

  /**
   * What every state built by `New` and advanced by the operations keeps:
   * before activation the high-water mark is the activation price, after it
   * the mark is at least that price, and a trigger needs an activation.
   */
  ghost predicate Valid(s: TrailingState) {
    && (!s.activated ==> s.highestMarketPrice == s.activationPrice)
    && s.highestMarketPrice >= s.activationPrice
    && (s.triggered ==> s.activated)
  }

  /** `TrailingStopAlgorithm::new`: the input checks, in the source's order. */
  function New(signal: Signal, sideOf: SignalKind -> Side, totalQuantity: real,
               activationPrice: real, callbackRate: real, id: string): (r: Result<TrailingState, string>)
    ensures r.Ok? <==>
      totalQuantity > 0.0 && sideOf(signal.kind) == Sell && activationPrice > 0.0
      && 0.0 < callbackRate < 1.0
    ensures r.Ok? ==> (Valid(r.value) && r.value.status == "Working"
      && !r.value.activated && !r.value.triggered && r.value.filledQuantity == 0.0
      && r.value.highestMarketPrice == activationPrice && r.value.totalQuantity == totalQuantity
      && r.value.parentSignal == signal && r.value.id == id && r.value.callbackRate == callbackRate)
  {
    if totalQuantity <= 0.0 then Err("trailing stop quantity must be positive")
    else if sideOf(signal.kind) != Sell then Err("trailing stop currently supports sell-side signals only")
    else if activationPrice <= 0.0 then Err("activation price must be positive")
    else if callbackRate <= 0.0 || callbackRate >= 1.0 then Err("callback rate must be between 0 and 1")
    else Ok(TrailingState(id, signal, "Working", totalQuantity, 0.0, activationPrice, callbackRate,
                          activationPrice, false, false))
  }

  /** `remaining`: the unfilled quantity, never negative. */
  function Remaining(s: TrailingState): (r: real)
    ensures r >= 0.0
    ensures r >= s.totalQuantity - s.filledQuantity
    ensures r == 0.0 || r == s.totalQuantity - s.filledQuantity
  {
    MaxReal(s.totalQuantity - s.filledQuantity, 0.0)
  }

  /** `status`: the three known names, anything else is a failure carrying the text. */
  function Status(s: TrailingState): (r: AlgoStatus)
    ensures r == Working <==> s.status == "Working"
    ensures r == Completed <==> s.status == "Completed"
    ensures r == Cancelled <==> s.status == "Cancelled"
    ensures r.Failed? <==> s.status !in {"Working", "Completed", "Cancelled"}
    ensures r.Failed? ==> r.reason == s.status
  {
    match s.status
    case "Working" => Working
    case "Completed" => Completed
    case "Cancelled" => Cancelled
    case other => Failed(other)
  }

  /** `on_fill`: adds the fill and completes once nothing remains; no child orders. */
  function OnFill(s: TrailingState, fillQuantity: real): (r: TrailingState)
    ensures r.filledQuantity == s.filledQuantity + fillQuantity
    ensures Remaining(r) <= 0.0 ==> r.status == "Completed"
    ensures Remaining(r) > 0.0 ==> r.status == s.status
    ensures r.(filledQuantity := s.filledQuantity, status := s.status) == s
    ensures Valid(s) ==> Valid(r)
  {
    var t := s.(filledQuantity := s.filledQuantity + fillQuantity);
    if Remaining(t) <= 0.0 then t.(status := "Completed") else t
  }

  /** `cancel`. */
  function Cancel(s: TrailingState): (r: TrailingState)
    ensures Status(r) == Cancelled
    ensures r.(status := s.status) == s
  {
    s.(status := "Cancelled")
  }

  /** The client order id of every child: the algorithm id after `trailing-`. */
  function ClientOrderId(id: string): (r: string)
    ensures |r| == 9 + |id| && r[..9] == "trailing-" && r[9..] == id
  {
    "trailing-" + id
  }

  /** `build_child`: a market order on the parent signal's symbol and side. */
  function BuildChild(s: TrailingState, sideOf: SignalKind -> Side, qty: real): (c: ChildOrder)
    ensures c.orderType == Market && c.price.None? && c.quantity == qty
    ensures c.symbol == s.parentSignal.symbol && c.side == sideOf(s.parentSignal.kind)
    ensures c.parentAlgoId == s.id && c.clientOrderId == ClientOrderId(s.id)
  {
    ChildOrder(s.id, s.parentSignal.symbol, sideOf(s.parentSignal.kind), Market, qty, None, ClientOrderId(s.id))
  }

  /** The price at or below which an armed stop fires. */
  function Threshold(highest: real, callbackRate: real): real {
    highest * (1.0 - callbackRate)
  }

  /** `on_tick`: activate, or trail and possibly fire once. */
  function OnTick(s: TrailingState, sideOf: SignalKind -> Side, price: real): (r: (TrailingState, seq<ChildOrder>))
    ensures Status(s) != Working ==> r == (s, [])
    ensures !s.activated && Status(s) == Working ==>
      r.1 == [] && r.0.activated == (price >= s.activationPrice)
      && r.0.highestMarketPrice == (if price >= s.activationPrice then price else s.highestMarketPrice)
    ensures s.triggered ==> r.1 == []
    ensures |r.1| <= 1
    ensures |r.1| == 1 ==>
      !s.triggered && r.0.triggered && r.1[0] == BuildChild(s, sideOf, Remaining(s)) && Remaining(s) > 0.0
      && price <= Threshold(r.0.highestMarketPrice, s.callbackRate)
    ensures Status(s) == Working && s.activated && !s.triggered ==>
      r.0.highestMarketPrice == (if price > s.highestMarketPrice then price else s.highestMarketPrice)
      && (r.0.triggered <==> price <= Threshold(r.0.highestMarketPrice, s.callbackRate))
      && (|r.1| == 1 <==> r.0.triggered && Remaining(s) > 0.0)
    ensures r.0.status == s.status && r.0.filledQuantity == s.filledQuantity
    ensures s.triggered ==> r.0.triggered
    ensures Valid(s) ==> Valid(r.0) && r.0.highestMarketPrice >= s.highestMarketPrice
  {
    if Status(s) != Working then (s, [])
    else if !s.activated then
      (if price >= s.activationPrice then s.(activated := true, highestMarketPrice := price) else s, [])
    else if s.triggered then (s, [])
    else
      var t := if price > s.highestMarketPrice then s.(highestMarketPrice := price) else s;
      if price <= Threshold(t.highestMarketPrice, t.callbackRate) then
        var fired := t.(triggered := true);
        (fired, if Remaining(t) > 0.0 then [BuildChild(t, sideOf, Remaining(t))] else [])
      else (t, [])
  }

  /** The child orders a stream of ticks produces, and the state after them. */
  function RunTicks(s: TrailingState, sideOf: SignalKind -> Side, prices: seq<real>): (TrailingState, seq<ChildOrder>)
    decreases |prices|
  {
    if |prices| == 0 then (s, [])
    else
      var step := OnTick(s, sideOf, prices[0]);
      var rest := RunTicks(step.0, sideOf, prices[1..]);
      (rest.0, step.1 + rest.1)
  }

  /**
   * Over any stream of ticks the stop fires at most once, never again once
   * triggered, and the high-water mark only rises.
   */
  lemma {:induction false} AtMostOneTrigger(s: TrailingState, sideOf: SignalKind -> Side, prices: seq<real>)
    requires Valid(s)
    ensures |RunTicks(s, sideOf, prices).1| <= 1
    ensures s.triggered ==> RunTicks(s, sideOf, prices).1 == []
    ensures |RunTicks(s, sideOf, prices).1| == 1 ==> RunTicks(s, sideOf, prices).0.triggered
    ensures s.triggered ==> RunTicks(s, sideOf, prices).0.triggered
    ensures Valid(RunTicks(s, sideOf, prices).0)
    ensures RunTicks(s, sideOf, prices).0.highestMarketPrice >= s.highestMarketPrice
    decreases |prices|
  {
    if |prices| > 0 {
      var step := OnTick(s, sideOf, prices[0]);
      AtMostOneTrigger(step.0, sideOf, prices[1..]);
    }
  }

  /** Ticks below the activation price leave the stop unarmed; one at 101 arms it (activation 100). */
  lemma ActivationExample(signal: Signal, sideOf: SignalKind -> Side)
    requires sideOf(signal.kind) == Sell
    ensures var s := New(signal, sideOf, 2.0, 100.0, 0.05, "id").value;
      var a := OnTick(s, sideOf, 95.0);
      a.1 == [] && !a.0.activated && OnTick(a.0, sideOf, 101.0).0.activated
  {
  }

  /** Ticks 105, 112, 105 (activation 100, callback 5%) emit one market order for all 3 units. */
  lemma TriggerExample(signal: Signal, sideOf: SignalKind -> Side, id: string)
    requires sideOf(signal.kind) == Sell
    ensures var s := New(signal, sideOf, 3.0, 100.0, 0.05, id).value;
      var out := RunTicks(s, sideOf, [105.0, 112.0, 105.0]).1;
      |out| == 1 && out[0].orderType == Market && out[0].quantity == 3.0
      && out[0].clientOrderId == ClientOrderId(id)
  {
    var s := New(signal, sideOf, 3.0, 100.0, 0.05, id).value;
    var s1 := OnTick(s, sideOf, 105.0);
    var s2 := OnTick(s1.0, sideOf, 112.0);
    var s3 := OnTick(s2.0, sideOf, 105.0);
    assert s1.1 == [] && s2.1 == [];
    assert s2.0.highestMarketPrice == 112.0;
    assert |s3.1| == 1;
    assert [105.0, 112.0, 105.0][1..] == [112.0, 105.0];
    assert [112.0, 105.0][1..] == [105.0];
    assert RunTicks(s2.0, sideOf, [105.0]).1 == s3.1;
  }
}

=== FILE: tui_endpoint.dfy ===
/**
 * `normalize_endpoint` of `tesser-cli/src/tui/mod.rs`: the dashboard's
 * control-plane address gets an `http://` scheme unless it already names
 * `http://` or `https://`.
 */
module TuiEndpoint {
  const HTTP: string := "http://"
  const HTTPS: string := "https://"

  /** The address already carries one of the two schemes. */
  predicate HasScheme(addr: string) {
    HTTP <= addr || HTTPS <= addr
  }

  function NormalizeEndpoint(addr: string): (r: string)
    ensures HasScheme(r)
    ensures HasScheme(addr) ==> r == addr
    ensures !HasScheme(addr) ==> r == HTTP + addr
    ensures r[|r| - |addr|..] == addr
  {
    if HasScheme(addr) then addr else HTTP + addr
  }

  /** Normalizing twice is normalizing once. */
  lemma NormalizeIdempotent(addr: string)
    ensures NormalizeEndpoint(NormalizeEndpoint(addr)) == NormalizeEndpoint(addr)
  {
  }

  /** Two addresses normalize alike only when they are equal or one is the other with the scheme added. */
  lemma {:induction false} NormalizeMeets(a: string, b: string)
    requires NormalizeEndpoint(a) == NormalizeEndpoint(b)
    ensures a == b || a == HTTP + b || b == HTTP + a
  {
    if !HasScheme(a) && !HasScheme(b) {
      assert a == (HTTP + a)[|HTTP|..];
      assert b == (HTTP + b)[|HTTP|..];
    }
  }
}

=== FILE: wasm_engine.dfy ===
/**
 * Plugin lookup and the compile cache of the WebAssembly plugin engine
 * (`tesser-execution/src/wasm/engine.rs`). Paths are Unix path strings.
 * The file system (existence, modification time, canonical form) and the
 * compiler are inputs; a compiled component is identified by a number.
 */
module WasmEngine {
  import opened Wrappers
  import opened Text

  /** A Unix path is absolute iff it starts at the root. */
  predicate IsAbsolute(p: string) {
    |p| > 0 && p[0] == '/'
  }

  /** `PathBuf::join` for a relative path: a separator is added unless the base is empty or already ends in one. */
  function Join(dir: string, rel: string): (r: string)
    ensures |r| >= |dir| + |rel| && r[..|dir|] == dir && r[|r| - |rel|..] == rel
    ensures |dir| > 0 ==> r[|r| - |rel| - 1] == '/'
    ensures |r| <= |dir| + |rel| + 1
  {
    if |dir| == 0 || dir[|dir| - 1] == '/' then dir + rel else dir + "/" + rel
  }

  /** The index just past the last separator, or 0. */
  function NameStart(p: string): (i: nat)
    ensures i <= |p|
    ensures i > 0 ==> p[i - 1] == '/'
    ensures forall k :: i <= k < |p| ==> p[k] != '/'
  {
    if |p| == 0 || p[|p| - 1] == '/' then |p| else
      var i := NameStart(p[..|p| - 1]);
      assert forall k :: i <= k < |p| - 1 ==> p[k] == p[..|p| - 1][k];
      i
  }

  /** The last component of the path. */
  function FileName(p: string): string {
    p[NameStart(p)..]
  }

  /** A file name has an extension iff it has a dot after its first character (so `.hidden` has none). */
  predicate HasExtension(p: string) {
    var name := FileName(p);
    name != ".." && exists k :: 1 <= k < |name| && name[k] == '.'
  }

  /** `resolve_path`: trim, keep absolute paths, put relative ones under the plugin directory, default to `.wasm`. */
  function ResolvePath(pluginsDir: string, raw: string): (r: string)
    ensures var t := Trim(raw);
      var joined := if IsAbsolute(t) then t else Join(pluginsDir, t);
      r == (if HasExtension(joined) then joined else joined + ".wasm")
  {
    var t := Trim(raw);
    var joined := if IsAbsolute(t) then t else Join(pluginsDir, t);
    if HasExtension(joined) then joined else joined + ".wasm"
  }

  /** Appending text without separators keeps the last component's start. */
  lemma {:induction false} NameStartAppend(p: string, t: string)
    requires forall k :: 0 <= k < |t| ==> t[k] != '/'
    ensures NameStart(p + t) == NameStart(p)
    decreases |t|
  {
    if |t| > 0 {
      var q := p + t;
      assert q[..|q| - 1] == p + t[..|t| - 1];
      assert q[|q| - 1] == t[|t| - 1];
      NameStartAppend(p, t[..|t| - 1]);
    } else {
      assert p + t == p;
    }
  }

  /**
   * A relative name without separators or dots resolves to the plugin
   * directory joined with the name plus `.wasm`, and that path then has
   * an extension, so resolving is stable.
   */
  lemma DefaultExtension(pluginsDir: string, name: string)
    requires |name| > 0 && !IsSpace(name[0]) && !IsSpace(name[|name| - 1])
    requires forall k :: 0 <= k < |name| ==> name[k] != '/' && name[k] != '.'
    ensures ResolvePath(pluginsDir, name) == Join(pluginsDir, name) + ".wasm"
    ensures HasExtension(ResolvePath(pluginsDir, name))
  {
    TrimKeeps(name);
    var joined := Join(pluginsDir, name);
    FileNameOfJoin(pluginsDir, name);
    assert !HasExtension(joined);
    FileNameWithSuffix(joined, name);
  }

  /** Surrounding spaces are dropped, and an absolute path that has an extension is used as given. */
  lemma AbsolutePathKept(pluginsDir: string, path: string)
    requires IsAbsolute(path) && HasExtension(path) && !IsSpace(path[|path| - 1])
    ensures ResolvePath(pluginsDir, " " + path + " ") == path
  {
    var raw := " " + path + " ";
    assert TrimStartIndex(raw) == 1 by {
      assert raw[1..][0] == '/';
    }
    assert TrimEndIndex(raw) == |raw| - 1 by {
      assert raw[..|raw| - 1][|raw| - 2] == path[|path| - 1];
    }
    assert Trim(raw) == path;
  }

  /** The last component of a directory joined with a separator-free name is that name. */
  lemma FileNameOfJoin(dir: string, name: string)
    requires forall k :: 0 <= k < |name| ==> name[k] != '/'
    ensures FileName(Join(dir, name)) == name
  {
    var joined := Join(dir, name);
    var base := joined[..|joined| - |name|];
    assert joined == base + name;
    NameStartAppend(base, name);
  }

  /** Appending `.wasm` to a path whose last component is a non-empty `name` gives a name with an extension. */
  lemma FileNameWithSuffix(p: string, name: string)
    requires FileName(p) == name && |name| > 0 && name != ".."
    ensures HasExtension(p + ".wasm")
  {
    NameStartAppend(p, ".wasm");
    var n := FileName(p + ".wasm");
    assert n == name + ".wasm";
    assert n[|name|] == '.';
  }

  /** A compiled component in the cache with the file time it was compiled from. */
  datatype CachedComponent = CachedComponent(component: nat, modified: int)

  /** What the engine learns about a path from the file system. */
  datatype FileSystem = FileSystem(
    exists_: string -> bool,
    modified: string -> Option<int>,
    canonicalize: string -> Option<string>,
    compile: string -> Result<nat, string>)

  /** The epoch, used when a file's modification time is unavailable. */
  const UNIX_EPOCH: int := 0

  /**
   * `load_component`: a missing file is an error; a cached component is
   * reused iff it was compiled from a file at least as recent; otherwise
   * the file is compiled and replaces the cache entry.
   */
  function LoadComponent(cache: map<string, CachedComponent>, pluginsDir: string, name: string, fs: FileSystem)
    : (r: (Result<nat, string>, map<string, CachedComponent>))
    ensures var path := ResolvePath(pluginsDir, name);
      !fs.exists_(path) ==> r.0.Err? && r.1 == cache
    ensures var path := ResolvePath(pluginsDir, name);
      var key := fs.canonicalize(path).GetOr(path);
      var mtime := fs.modified(path).GetOr(UNIX_EPOCH);
      fs.exists_(path) ==>
        if key in cache && cache[key].modified >= mtime then r == (Ok(cache[key].component), cache)
        else if fs.compile(key).Ok? then r == (Ok(fs.compile(key).value), cache[key := CachedComponent(fs.compile(key).value, mtime)])
        else r.0.Err? && r.1 == cache
  {
    var path := ResolvePath(pluginsDir, name);
    if !fs.exists_(path) then (Err("plugin '" + name + "' not found in " + path), cache)
    else
      var mtime := fs.modified(path).GetOr(UNIX_EPOCH);
      var key := fs.canonicalize(path).GetOr(path);
      if key in cache && cache[key].modified >= mtime then (Ok(cache[key].component), cache)
      else
        var c := fs.compile(key);
        if c.Ok? then (Ok(c.value), cache[key := CachedComponent(c.value, mtime)])
        else (Err("failed to compile plugin '" + name + "' from " + key), cache)
  }

  /** Loading a plugin twice with the file unchanged compiles at most once: the second load is a cache hit. */
  lemma SecondLoadHitsCache(cache: map<string, CachedComponent>, pluginsDir: string, name: string, fs: FileSystem)
    requires LoadComponent(cache, pluginsDir, name, fs).0.Ok?
    ensures var first := LoadComponent(cache, pluginsDir, name, fs);
      LoadComponent(first.1, pluginsDir, name, fs) == first
  {
  }

  /** A file modified after it was cached is compiled again. */
  lemma NewerFileRecompiles(cache: map<string, CachedComponent>, pluginsDir: string, name: string, fs: FileSystem)
    requires var path := ResolvePath(pluginsDir, name);
      var key := fs.canonicalize(path).GetOr(path);
      fs.exists_(path) && key in cache && fs.modified(path).GetOr(UNIX_EPOCH) > cache[key].modified
      && fs.compile(key).Ok?
    ensures var path := ResolvePath(pluginsDir, name);
      var key := fs.canonicalize(path).GetOr(path);
      var r := LoadComponent(cache, pluginsDir, name, fs);
      r.0 == Ok(fs.compile(key).value) && r.1[key].modified == fs.modified(path).GetOr(UNIX_EPOCH)
  {
  }
}

=== FILE: wrappers.dfy ===
/** Failure-carrying datatypes shared by every module of the model. */
module Wrappers {

  /** An optional value, standing for Rust's `Option<T>`. */
  datatype Option<+T> = None | Some(value: T) {

    /** The wrapped value, or `default` when there is none (Rust's `unwrap_or`). */
    function GetOr(default: T): (r: T)
      ensures Some? ==> r == value
      ensures None? ==> r == default
    {
      match this
      case Some(v) => v
      case None => default
    }
  }

  /** A value or an error, standing for Rust's `Result<T, E>`. */
  datatype Result<+T, +E> = Ok(value: T) | Err(error: E) {

    predicate IsFailure() {
      Err?
    }

    function PropagateFailure<U>(): Result<U, E>
      requires Err?
    {
      Err(error)
    }

    function Extract(): T
      requires Ok?
    {
      value
    }
  }
}
